=== FILE: README.md ===
# PromptHub core, modelled in Dafny

PromptHub is a site where people share prompts and AI responses as posts. Each post has a platform, an AI model, a category, a satisfaction rating and tags. The model covers three parts.

- The Django backend's data rules:
  - the trending-ranking keyword matcher and its ranking cache;
  - the post, platform and model save rules, and the post serializers' validators;
  - search, sorting and filtering of the post feed, and the page builders;
  - likes and bookmarks, the tag listing and the model suggestions;
  - relative-time labels, the user and account managers, session revocation, and the avatar colours.
- The Next.js frontend's pure helpers:
  - the avatar, metadata, error and relative-time utilities;
  - the API client's error shaping;
  - pagination.
- The frontend's component state machines:
  - the model autocomplete and the star rating;
  - the two create-post dialogs and the community filter panel;
  - the edit-post metadata section and the local post list;
  - the rich-text renderer of post details;
  - the profile card and profile page;
  - the go-back button, the extension walkthrough and the post card;
  - the trending model-name table.

Each source component is one module, in one file. Shared pieces:

- `Wrappers` holds `Option` and `Result`.
- `Text` holds ASCII string helpers and Python's `int()` on strings.
- `Domain` holds the records: platform, AI model, category and post.
- `Ordering` is the stable multi-key sort behind `order_by`, `sorted` and the JavaScript comparator sorts.

Modelling choices:

- A queryset is a sequence of rows. A filter keeps the rows in order.
- Scores are in integer tenths. Satisfaction is in tenths in the backend and in half-stars in the widgets.
- Clocks, timers, randomness, hashing and server replies are inputs or explicit events.

## Model

| member | source | states |
|---|---|---|
| TrendingMatch.NormalizeKeyword | backend/core/models/trending.py:112-117 | a keyword's normal form holds no space, hyphen, underscore or upper-case letter |
| TrendingMatch.FieldAndKeywordAgree | backend/core/models/trending.py:112-138 | the field-side normalization (delete separators, then lower-case) equals the keyword-side one (lower-case, then delete separators) on every string |
| TrendingMatch.NormalizeKeywordIdempotent | backend/core/models/trending.py:112-117 | normalizing a normalized keyword changes nothing |
| TrendingMatch.NormalizeKeywordIgnoresCase | backend/core/models/trending.py:112-117 | a keyword, its lower-case and its upper-case spelling have the same normal form |
| TrendingMatch.NormalizeKeywordIgnoresSeparator | backend/core/models/trending.py:112-117 | inserting a space, hyphen or underscore anywhere in a keyword leaves its normal form unchanged |
| TrendingMatch.NormalizeKeywordConcat | backend/core/models/trending.py:112-117 | the normal form of a concatenation is the concatenation of the normal forms |
| TrendingMatch.FilteredPosts | backend/core/models/trending.py:101-149 | no related model gives no posts; otherwise a post is kept iff it is an input post written with the related model and exact matching is off, or both keywords normalize to "", or a non-empty detail keyword occurs in the normalized `model_detail` OR a non-empty etc keyword occurs in the normalized `model_etc`; the result is a sub-multiset of the model's posts |
| TrendingMatch.InexactIsModelPosts | backend/core/models/trending.py:105-109 | with exact matching off the result is exactly the related model's posts, in order |
| TrendingMatch.SameNormalFormSamePosts | backend/core/models/trending.py:109-149 | two rankings whose keywords normalize alike select the same posts |
| TrendingMatch.DetailSpellingMatches | backend/core/models/trending.py:141-149 | a post whose `model_detail` normalizes to the (non-empty) normalized detail keyword is matched |
| TrendingMatch.DetailInfixMatches | backend/core/tests_behavior_verification.py:112-137 | a post whose `model_detail` contains any spelling of the keyword is matched, so 'Sonnet', 'sonnet' and 'GPT-4 Sonnet' all match 'GPT-4 Sonnet' |
| Cache.Get | backend/core/utils/cache.py:9-11 | a read gives a value only for a present, unexpired key holding a non-None value, and then gives exactly the stored value |
| Cache.Set | backend/core/utils/cache.py:13 | the key then holds the value with expiry now + timeout, and every other key is untouched |
| Cache.Delete | backend/core/services/trending_service.py:101 | the key is gone and every other key is untouched |
| Cache.ValueOrSet | backend/core/utils/cache.py:5-14 | a hit returns the cached value, leaves the cache as it was and does not run the producer; a miss runs the producer once, stores its result under the key with the timeout and returns it |
| Cache.SecondCallHits | backend/core/utils/cache.py:9-14 | after a miss that produced a value, a second call within the timeout is a hit that returns that value without producing |
| Cache.NoneIsProducedAgain | backend/core/utils/cache.py:10 | a produced None is stored but reads as a miss, so the next call runs the producer again |
| Cache.ExpiredIsMiss | backend/core/utils/cache.py:9 | once the timeout has passed a stored value reads as a miss |
| TrendingService.ActiveCategories | backend/core/services/trending_service.py:64 | exactly the active categories, sorted by (order, name) |
| TrendingService.ActiveRankingsOf | backend/core/services/trending_service.py:70-73 | exactly the category's active rankings, sorted by rank |
| TrendingService.FetchCategoryRankings | backend/core/services/trending_service.py:56-90 | one entry per active category in (order, name) order, keyed by its name and holding its block of active rankings |
| TrendingService.BlockOf | backend/core/services/trending_service.py:70-87 | a block carries its category's title, subtitle and icon, holds exactly the items of the category's active rankings, and lists them with ranks non-decreasing |
| TrendingService.ItemsFacts | backend/core/services/trending_service.py:74-85 | the items of rankings sorted by rank are exactly those rankings' items, in rank order |
| TrendingService.BlocksInRankOrder | backend/core/services/trending_service.py:70-87 | within every block the ranks are non-decreasing |
| TrendingService.GetCategoryRankings | backend/core/services/trending_service.py:14-53 | a cache hit is returned with `from_cache` true and the cache unchanged; a miss with a failing fetch is an error and stores nothing; a miss with a working fetch returns the fetched payload with `from_cache` false and stores it for 3600 seconds under `trending_category_rankings` |
| TrendingService.RefreshCache | backend/core/services/trending_service.py:93-105 | the payload key is removed; every other key stays, with the same value and expiry |
| TrendingService.RefreshForcesFetch | backend/core/services/trending_service.py:93-104 | after a refresh the next read fetches from the database and reports `from_cache` false |
| TrendingService.SecondReadFromCache | backend/core/services/trending_service.py:27-47 | a second read within the hour serves the first read's payload from the cache, whatever the database holds by then |
| TrendingService.CategoryByName | backend/core/services/trending_service.py:133-165 | a block is returned iff an active category has that name, and it is the block of the first such category (names are unique, so of the only one) |
| TrendingService.DefaultOrder | backend/core/models/trending.py:84 | a permutation of the rankings in which every earlier row has a lower category order, or the same order and a rank no higher |
| TrendingService.RankingKeyOrder | backend/core/models/trending.py:84 | the ordering key compares category order first and rank second |
| TrendingService.FirstIndex | backend/core/services/trending_service.py:180-184 | `.first()`: the position of the first row the filter keeps, or None when it keeps none |
| TrendingService.FirstRanking | backend/core/services/trending_service.py:180-184 | the row returned is kept by the filter and least in (category order, rank) among kept rows; None iff no row is kept |
| TrendingService.RelatedPosts | backend/core/services/trending_service.py:178-196 | with no active, linked ranking of that name the result is empty; otherwise it is the matcher's posts of the first such ranking; always a subset of the posts |
| TrendingService.FindCategoryNamed | backend/core/services/trending_service.py:236-239 | None iff no category has the name; otherwise the first category with that name |
| TrendingService.TrendingModelInfo | backend/core/services/trending_service.py:209-247 | None when no active ranking has that name; some info whenever one does and every referenced row exists; an info shown is that of the first such ranking in (category order, rank), with its category, rank, provider, score and linked model, and `related_posts_count` the matcher's count when a model is linked and 0 when none is |
| TrendingService.InfoOf | backend/core/services/trending_service.py:215-242 | an info exists iff the category, and for a linked model that model and its platform, are found; it repeats the ranking's name, rank, provider and score and the category's name and title, has a related-model part iff the ranking links a model, with that model's name, platform name and matching settings, and counts the matcher's posts (0 without a model) |
| Search.ResolveScope | backend/core/search.py:18-38 | the scope is title-only iff the stripped, lower-cased type (None read as 'all') is 'title', content-only iff it is 'content', and title-or-content for everything else |
| Search.SearchPosts | backend/core/search.py:11-38 | an empty query returns the posts unchanged; otherwise a post is kept iff it is an input post matching the query case-insensitively in the resolved scope (title; prompt, response, opinion or tags; or either); the result is a sub-multiset of the input |
| Search.ScopeOfAll | backend/core/search.py:34-35 | 'all' searches title and content |
| Search.ScopeOfTitle | backend/core/search.py:28-29 | 'title' searches the title only |
| Search.ScopeOfContent | backend/core/search.py:31-32 | 'content' searches the content fields only |
| Search.ScopeOfNone | backend/core/search.py:18 | a missing type means 'all' |
| Search.SameScopeSameResult | backend/core/search.py:18-38 | two types resolving to the same scope give the same result |
| Search.WideScopeIsUnion | backend/core/search.py:20-35 | with a non-empty query the 'all' result holds exactly the posts of the 'title' result and of the 'content' result |
| Search.FallbackIsAll | backend/core/search.py:37-38 | every type other than 'title' and 'content' after normalization gives the same result as no type |
| Search.ScopeIgnoresCase | backend/core/search.py:18 | upper-casing the type does not change the scope |
| Search.ScopeIgnoresPadding | backend/core/search.py:18 | leading whitespace in the type does not change the scope |
| Sorting.Named | backend/core/sorting.py:45-51 | each of the five option keys, and only it, names its ordering |
| Sorting.SortOptionLabels | backend/core/sorting.py:66-77 | every offered option has a non-empty label |
| Sorting.LabelsMatchOptions | backend/core/sorting.py:45-77 | the labelled keys are exactly the dispatchable keys |
| Sorting.ResolveSort | backend/core/sorting.py:58-63 | a known key selects its own ordering and any other key selects latest |
| Sorting.KeyOrderIsBefore | backend/core/sorting.py:11-36 | each ordering's sort key compares two posts exactly as the ordering promises: newer first; older first; more likes plus bookmarks first, then newer; rated before unrated, higher rating first, then newer; more views first, then newer |
| Sorting.SortPosts | backend/core/sorting.py:54-63 | the result is a permutation of the input in which every earlier post may precede every later one under the resolved ordering |
| Sorting.UnknownKeySortsLatest | backend/core/sorting.py:62-63 | an unknown key such as 'rating' sorts exactly like 'latest' |
| Sorting.LatestFirstIsNewest | backend/core/sorting.py:11-13 | the first post of the latest ordering is at least as new as every input post |
| Sorting.RatedBeforeUnrated | backend/core/sorting.py:28-31 | in the satisfaction ordering every post before a rated post is rated (nulls last) |
| Domain.Where | backend/core/search.py:29 | `queryset.filter(...)`: the kept rows are exactly the input rows the predicate accepts, as a sub-multiset of the input |
| Domain.FindAiModel | backend/core/services/trending_service.py:223-225 | a found model is in the table with the id asked for; None iff no row has that id |
| Domain.FindPlatform | backend/core/services/trending_service.py:225 | a found platform is in the table with the id asked for; None iff no row has that id |
| Filters.FindCategory | backend/core/filters.py:54 | a found category is in the table with the id asked for; None only when no row has that id |
| Filters.FindModel | backend/core/filters.py:100 | a found model is in the table with the id asked for; None only when no row has that id |
| Filters.CondsOf | backend/core/filters.py:49-65 | the conditions collected are exactly those the valid tokens contribute, and none are collected iff every token is skipped |
| Filters.ApplyConds | backend/core/filters.py:67 | with no condition the queryset is returned unchanged; otherwise a post is kept iff it is an input post some condition accepts |
| Filters.CategoriesFilter | backend/core/filters.py:41-67 | the result is a sub-multiset of the input, and an empty or blank-only value leaves the queryset unchanged |
| Filters.ModelsFilter | backend/core/filters.py:87-115 | the result is a sub-multiset of the input, and an empty or blank-only value leaves the queryset unchanged |
| Filters.CategoryCondMeaning | backend/core/filters.py:52-65 | a token's condition accepts a post iff the token parses to the id of an existing category the post is in, with a non-empty `category_etc` when that category is "기타" |
| Filters.ModelCondMeaning | backend/core/filters.py:98-113 | a token's condition accepts a post iff the token parses to the id of an existing model the post uses, with a non-empty `model_etc` when that model is "기타" |
| Filters.CategoriesFilterKeeps | backend/core/filters.py:41-67 | a post is kept iff it is in the input and passes the category filter (no valid token, or some token selects it) |
| Filters.ModelsFilterKeeps | backend/core/filters.py:87-115 | a post is kept iff it is in the input and passes the model filter (no valid token, or some token selects it) |
| Filters.CategoriesFilterMeaning | backend/core/filters.py:41-67 | with no valid token the posts are unchanged; otherwise a post is kept iff some token selects it (OR over tokens) |
| Filters.ModelsFilterMeaning | backend/core/filters.py:87-115 | with no valid token the posts are unchanged; otherwise a post is kept iff some token selects it (OR over tokens) |
| Paginator.NumPages | backend/posts/services/post_service.py:111 | there is at least one page, and the pages are just enough for the rows (an empty list still has one page) |
| Paginator.Slice | backend/posts/services/post_service.py:113 | a page holds at most `per_page` rows, and its j-th row is row (number−1)·per_page + j of the list |
| Paginator.Paginate | backend/posts/services/post_service.py:111-117 | a page size ≤ 0 is an error; otherwise a page number in range is served as asked, any other number is served as the last page, and the rows are that page's slice |
| Paginator.PageExists | backend/posts/services/post_service.py:111-117 | the page that holds row i is within the page count |
| Paginator.RowOnItsPage | backend/posts/services/post_service.py:111-117 | row i appears on page i / per_page + 1 at position i mod per_page, so paging loses no row |
| Paginator.PageRowsInRange | backend/posts/services/post_service.py:111-117 | every position a page shows lies inside the list and inside the page's size |
| PostService.IntParam | backend/posts/services/post_service.py:50-58 | a missing parameter takes its default; a present one is read with `int()` |
| PostService.PageParams | backend/posts/services/post_service.py:56-62 | when both parameters parse, the page is kept and the size is capped; when either fails both fall back to the defaults |
| PostService.FeedPageParams | backend/posts/services/post_service.py:50-62 | the feed's page size never exceeds 50 |
| PostService.UserPageParams | backend/posts/services/post_service.py:152-163 | a user list's page size never exceeds 100 |
| PostService.BadPageResetsSize | backend/posts/services/post_service.py:60-62 | a non-numeric page resets both parameters, to (1, 10) for the feed and (1, 20) for user lists |
| PostService.WrittenParamsRoundTrip | backend/posts/services/post_service.py:56-59 | numbers written as text are read back exactly, and a size within the cap is kept |
| PostService.PageParamsOfNumbers | backend/posts/services/post_service.py:56-59 | parameters that parse, with a size within the cap, are taken as given |
| PostService.FeedSortOf | backend/posts/services/post_service.py:70-84 | 'rating' and 'satisfaction' select the rating order, 'oldest', 'popular' and 'views' their own, and everything else newest first |
| PostService.FeedKeyOrder | backend/posts/services/post_service.py:70-84 | each feed ordering's key compares posts as promised: by creation time, by likes alone, by rating with unrated last then newer, or by views alone |
| PostService.SortFeed | backend/posts/services/post_service.py:70-84 | the feed sort is a permutation in which each earlier post may precede each later one |
| PostService.ServiceSearch | backend/posts/services/post_service.py:86-92 | an empty search keeps everything; otherwise a post is kept iff its title, prompt, AI response or tags contain the text case-insensitively (the additional opinion is not searched) |
| PostService.ExcludeId | backend/posts/services/post_service.py:94-99 | an integer `exclude_id` removes exactly the posts with that id; anything else changes nothing |
| PostService.ApplyFilterSet | backend/posts/services/post_service.py:66-68 | an invalid filter set (an unknown author) is skipped; a valid one keeps a post iff it passes the author, category and model filters; the result is always a sub-multiset of the input |
| PostService.FeedRows | backend/posts/services/post_service.py:64-99 | a post is listed iff it passes the filter set, the search and the exclusion; the list is a sub-multiset of the input in feed order |
| PostService.ExcludeKeepsFeedOrder | backend/posts/services/post_service.py:94-99 | excluding a post keeps the remaining posts in feed order |
| PostService.SearchKeepsFeedOrder | backend/posts/services/post_service.py:86-92 | searching after sorting keeps the matches in feed order |
| PostService.BuildPostsPage | backend/posts/services/post_service.py:43-119 | the page is an error iff the page size is ≤ 0; otherwise it is the served slice of the feed rows: the page count of the rows, the page asked for when it exists and the last page otherwise, and that page's rows in feed order |
| PostService.PageKeepsOrder | backend/posts/services/post_service.py:111-117 | a page of an ordered list is ordered |
| PostService.PageRowsFromList | backend/posts/services/post_service.py:111-117 | every row a page shows comes from the paged list |
| PostService.UserKeyOrder | backend/posts/services/post_service.py:167-176 | the user-list keys compare rows as promised: the latest field descending, the same field ascending for 'oldest' (its '-' removed), likes or views descending |
| PostService.SortUserRows | backend/posts/services/post_service.py:167-176 | the user-list sort is a permutation in which each earlier row may precede each later one; unknown keys, including 'satisfaction', sort like 'latest' |
| PostService.BuildUserPostsPage | backend/posts/services/post_service.py:141-204 | the page is an error iff the user-list page size is ≤ 0; otherwise every row shown belongs to the user's list and matches the search in the same four fields as the feed, and the rows are in user-list order (the latest field, oldest first for 'oldest', or most liked or viewed first) |
| PostService.UserPagesCountEveryRow | backend/posts/services/post_service.py:178-204 | without a search no row of the user's list is dropped: the page count is taken over all its rows |
| PostService.FindPost | backend/posts/services/post_service.py:128-132 | a found post is in the table with that id; None only when no post has it |
| PostService.GetPostAndIncrementViews | backend/posts/services/post_service.py:122-138 | a missing id returns None and changes nothing; otherwise the post is returned with one more view, and exactly the rows with that id gain one view |
| Feed.ParseIds | backend/core/views.py:39-52 | the ids are exactly the integers the tokens spell, or None iff some token is not an integer |
| Feed.IdFilterOf | backend/core/views.py:39-52 | no token means no filter; a non-integer token is an error; otherwise the filter admits exactly the ids the tokens spell |
| Feed.SearchFeed | backend/core/views.py:15-56 | an error iff some id list holds a non-integer; otherwise a post is listed iff it matches the query in the scope (when there is a query) and passes all three id filters (AND across dimensions, no "기타" case), as a sub-multiset of the input in the requested order |
| Feed.Stages | backend/core/views.py:20-56 | search, then id filters, then sort: exactly the selected posts, each at most as often as in the input, in the resolved order |
| Feed.SamePosts | backend/core/views.py:56 | a re-sorted list has the same members |
| Feed.EmptyRequestListsAll | backend/core/views.py:24-56 | with no query and no id lists every post is listed, each once per occurrence |
| Feed.BlankIdListIsNoFilter | backend/core/views.py:39-42 | a blank category list gives the same result as none |
| Feed.IdFiltersConjoin | backend/core/views.py:39-52 | a post listed with a model filter is also listed without it: the dimensions combine by AND |
| Feed.TrendingModelPosts | backend/core/views.py:167-180 | not found iff there is no model info for the name; otherwise the related posts, permuted into the requested order (default 'latest') |
| PostModel.ReplaceChar | backend/posts/models.py:51 | every space becomes a dash, position for position, so no space is left |
| PostModel.BaseSlug | backend/posts/models.py:44-51 | a non-empty slugified name is the base; otherwise the lower-cased stripped name decides it |
| PostModel.FallbackSlug | backend/posts/models.py:47-51 | "기타" and "other" give `other`, an empty name gives the model's fallback word, any other name keeps its length with spaces dashed; the base is never empty and has no space |
| PostModel.CandidateInjective | backend/posts/models.py:52-56 | two suffixes giving the same candidate slug are the same suffix, so the loop never retries a slug |
| PostModel.TriedSize | backend/posts/models.py:52-56 | the candidates tried before suffix n are n−1 different slugs, which bounds the loop by the number of taken slugs |
| PostModel.UniqueSlug | backend/posts/models.py:52-57 | the slug returned is free, and it is the first free one among base, base-2, base-3, … |
| PostModel.PlatformSlugsTaken | backend/posts/models.py:54 | a slug is taken exactly when some other platform row carries it |
| PostModel.ModelSlugsTaken | backend/posts/models.py:124 | a slug is taken exactly when some other model row of the same platform carries it |
| PostModel.SavePlatform | backend/posts/models.py:52-62 | a set slug is kept; an empty one is filled with the first candidate (the base slug, then base-2, base-3, …) that no other platform uses, which is non-empty; nothing but the slug changes |
| PostModel.SaveModel | backend/posts/models.py:122-135 | as for platforms, the first candidate no other model of the same platform uses; a model named "기타" never allows free-text variants after saving, and nothing but the slug and that flag changes |
| PostModel.ModelDisplayName | backend/posts/models.py:293-297 | a detail wins; then a "기타" model's free-text name; then the model's name; "기타" with no model |
| PostModel.CategoryDisplayName | backend/posts/models.py:309-311 | the label is the free-text category exactly when the category is "기타" and the text is non-empty (or the two coincide), else the category's name |
| PostModel.TagsList | backend/posts/models.py:323-325 | an empty string has no tags; otherwise a tag is returned exactly when it is the stripped form of a non-blank comma-separated piece, and every tag is non-empty, stripped and free of commas |
| PostModel.TagsListConcat | backend/posts/models.py:323-325 | the tags of two pieces joined by a comma are the left piece's tags followed by the right's, so the order is the pieces' order |
| PostModel.TagsListOfPiece | backend/posts/models.py:323-325 | a comma-free piece gives its stripped self as one tag, or no tag when blank |
| PostModel.TagsRoundTrip | backend/posts/models.py:323-325 | joining storable tags with ", " and reading them back gives the same list, in order |
| PostModel.Clean | backend/posts/models.py:339-369 | no error exactly when the model-choice and half-step rating rules all hold; an error names one of the four fields |
| PostModel.SavePost | backend/posts/models.py:166-249 | a post is saved unchanged exactly when the field length and range validators and the `clean` rules all hold |
| PostModel.SavedRatingInHalfSteps | backend/posts/models.py:242-249 | a saved rating is one of 0.5, 1.0, …, 5.0 (ten half steps, kept in tenths) |
| PostModel.SavedPostDisplayName | backend/posts/models.py:293-297 | on a saved post a "기타" model or platform shows its free-text name, and any other model shows its detail or its name |
| PostModel.SaveInteraction | backend/posts/models.py:435-464 | each counter moves only when its own flag changes, and a row saved for the first time counts as having had both flags cleared |
| PostModel.CounterTracksFlag | backend/posts/models.py:451-462 | the counter minus this row's own flag is the same before and after a save: the counts stay in step with the flags |
| PostModel.DoubleToggleRestores | backend/posts/models.py:451-455 | flipping a flag and back restores the count, except that unliking at a count of 0 floors at 0 and the relike then adds one |
| PostSerializers.MinStripped | backend/posts/serializers.py:36-52 | a title, prompt or response is rejected exactly when its stripped length is below 3, 5 or 10; otherwise the stripped text is kept |
| PostSerializers.TagProblem | backend/posts/serializers.py:56-64 | no problem exactly when there are at most 10 tags and every stripped tag has 1 to 50 characters |
| PostSerializers.ValidateTagsList | backend/posts/serializers.py:54-66 | rejected exactly when there are more than 10 tags or a tag is blank or longer than 50 once stripped; otherwise the same tags, stripped, in order |
| PostSerializers.ValidateSatisfaction | backend/posts/serializers.py:68-74 | no rating passes; a rating passes exactly when it is a whole number of half points, and is returned unchanged |
| PostSerializers.ValidateEditSatisfaction | backend/posts/serializers.py:344-349 | the edit form requires a rating, accepted exactly when it is a half step between 0.5 and 5.0 |
| PostSerializers.ValidateEtc | backend/posts/serializers.py:91-101 | rejected exactly when the stripped text exceeds 100 characters; a missing value gives "", any other the stripped text |
| PostSerializers.ValidateBusinessLogic | backend/posts/serializers.py:103-113 | rejected exactly when a platform is chosen with neither a model nor a free-text model name |
| PostSerializers.StoredTags | backend/posts/serializers.py:321 | no tags are stored as the empty string, one tag as itself, and more as the first tag, ", " and the join of the rest |
| PostSerializers.CreatedTagsRoundTrip | backend/posts/serializers.py:318-322 | validated tags without commas, stored by `create` and read back by the model, are the same list |
| PostSerializers.CommaTagComesBackSplit | backend/posts/serializers.py:54-66 | a tag "a,b" passes validation but comes back as the two tags "a" and "b" |
| PostSerializers.UpdatedTags | backend/posts/serializers.py:384-388 | sent tags replace the stored string with their joined form; absent tags clear it on a PUT (the field's default `[]`) and leave it as it was on a PATCH; the request method decides partiality: only PATCH keeps absent fields (backend/posts/views.py:425-431) |
| PostSerializers.UpdatedTagsReadBack | backend/posts/serializers.py:336-340 | read back by the model, an update gives the tags sent, no tags after a PUT without tags, and the previous tags after a PATCH without tags |
| PostSerializers.Create | backend/posts/serializers.py:298-322 | a created post passed every serializer check, resolves its platform, category and model ids, and satisfies the model's field limits and `clean` rules; the row holds the stripped text, the joined tags, the requesting user as author, zero counters and the creation time; saving runs `full_clean`, so the model's own limits (title of at least 5, rating 0.5 to 5.0) apply on top of the serializer's (backend/posts/models.py:371-382) |
| PostSerializers.CreateIsSavePost | backend/posts/serializers.py:318-322 | creation succeeds exactly when the serializer accepts the payload and `Post.save` accepts the row it builds |
| PostSerializers.SaveRefusesWhatSerializerLetsThrough | backend/posts/models.py:164-168 | a four-character title passes the serializer's minimum of 3 but is refused on save; so is a 6.0 rating, which passes the serializer's half-step check but not the model's 0.5 to 5.0 limits (models.py:241-248) |
| PostViews.ModelsList | backend/posts/views.py:71-114 | a non-integer platform id is an error; otherwise exactly the models of that platform (or all), sorted, with the first as the default and no default for an empty list |
| PostViews.ModelKeyOrder | backend/posts/views.py:85-93 | models are ordered by platform name, then `sort_order` with 0 read as 999999, then name |
| PostViews.UnsetSortOrderGoesLast | backend/posts/views.py:85-93 | within a platform an unset `sort_order` sorts after every set one |
| PostViews.AllTags | backend/posts/views.py:213-220 | a tag is collected exactly when some post's tag string yields it |
| PostViews.Bump | backend/posts/views.py:220 | counting one more use raises that tag's count by one, adds it last if it is new, keeps the others and their order, and no tag is listed twice |
| PostViews.BumpTotal | backend/posts/views.py:220 | one more use raises the total of the counts by exactly one |
| PostViews.Tally | backend/posts/views.py:215-220 | the dictionary lists every tag once, in first-seen order, with its number of uses; the counts add up to the uses |
| PostViews.ByCount | backend/posts/views.py:223 | the rows are reordered, not changed, so that counts never increase |
| PostViews.Ranking | backend/posts/views.py:215-226 | the listing is the tally reordered with the most used tags first |
| PostViews.RankingRows | backend/posts/views.py:215-226 | each row is a used tag with its exact number of uses, and every used tag has a row |
| PostViews.TagNamesDistinct | backend/posts/views.py:215-226 | no tag name is listed twice |
| PostViews.TagCountsSumToUses | backend/posts/views.py:213-226 | the counts add up to the number of tag occurrences over all posts |
| PostViews.TiesInFirstSeenOrder | backend/posts/views.py:223 | the sort is stable: tags with equal counts appear in the order they were first used |
| PostViews.TagsListing | backend/posts/views.py:198-231 | every row is a used tag with its exact count, every used tag is listed, most used first |
| PostViews.FindPost | backend/posts/views.py:828-834 | a post is found exactly when one has the id, and it is that post |
| PostViews.DeletePost | backend/posts/views.py:828-852 | 404 for an unknown id, 403 for another user's post, both leaving the table as it was; otherwise exactly that post is gone |
| PostViews.UpdatePost | backend/posts/views.py:399-461 | 404 and 403 as for delete, 400 when the edit does not validate, 500 when the edit validates but `Post.save`'s `full_clean` refuses it (models.py:382), the table unchanged on any error; a 200 stores only rows the model accepts, replacing exactly that post |
| PostViews.UpdateKeepsRowsSavable | backend/posts/views.py:435-455 | when every stored post passes the model's checks, every post still passes them after any update: a refused edit is never stored |
| PostViews.OnlyAuthorWrites | backend/posts/views.py:409-414 | someone who is not the author gets 403 from both update and delete and changes nothing |
| PostViews.Flip | backend/posts/views.py:486-585 | the author gets "off" and the current count with nothing stored; anyone else gets the flag flipped, the answer matching the stored row and the new count, and the other counter untouched |
| PostViews.Toggle | backend/posts/models.py:447-464 | the interaction's save ends in `post.save`, whose `full_clean` decides: a toggle by anyone but the author succeeds exactly when the post passes the model's checks, and a success is the flip; the author always gets the unchanged answer |
| PostViews.ToggleThenToggleAgain | backend/posts/models.py:371-382 | a toggle that succeeded leaves a post the next toggle can save too |
| PostViews.ToggleMovesCount | backend/posts/views.py:506-524 | a toggle that turns the flag on adds one to its count; one that turns it off takes one away, not below 0 |
| PostViews.TwoTogglesRestore | backend/posts/views.py:506-524 | two toggles by the same user restore the flag and the post when the count included that user |
| PostViews.ClampLimit | backend/posts/views.py:884 | the limit is always between 1 and 50, and a limit already in range is kept |
| PostViews.CandidateScore | backend/posts/views.py:909-947 | every prefiltered candidate scores between 0.6 and 12.4 |
| PostViews.NamePrefixOutranksContains | backend/posts/views.py:928-947 | a model whose name starts with the query outranks any model none of whose four fields starts with it |
| PostViews.ModelsSuggest | backend/posts/views.py:880-960 | a non-integer limit is a 500; a blank query or non-integer platform id is a 400; otherwise the best candidates for the stripped query |
| PostViews.Top | backend/posts/views.py:950-953 | at most `limit` models, each an active candidate, in ranking order with scores never increasing |
| PostViews.Ranked | backend/posts/views.py:895-950 | exactly the active models of active platforms that match the query, in ranking order |
| PostViews.ScoreOrder | backend/posts/views.py:950 | a model ranked before another never has a lower score |
| PostViews.SuggestKeyOrder | backend/posts/views.py:950 | the ranking is higher score first, then lower `sort_order`, then the lowercased name |
| PostViews.LeftOutRanksLower | backend/posts/views.py:950-953 | a candidate is left out only when the limit is full, and every suggested model ranks at least as high as it |
| RelativeTime.Backend | backend/posts/utils.py:25-50 | each unit is chosen on exactly its own interval (under a minute, an hour, a day, a week, 30 days, 365 days, beyond), and the number shown is the whole count of that unit, so never 0 |
| RelativeTime.BackendUnitMonotone | backend/posts/utils.py:27-50 | an older date never shows a smaller unit |
| RelativeTime.BackendLabel | backend/posts/utils.py:15-54 | no value reads "날짜 없음", a value that is not a datetime reads "유효하지 않은 날짜", a future time reads "방금 전", and a past time reads the label of its age; a naive datetime, whose subtraction from the aware `now` raises, reads "날짜 변환 오류" |
| RelativeTime.BackendLabelOfPast | backend/posts/utils.py:25-50 | a date at least a minute old shows a positive count, in minutes exactly while it is under an hour old |
| RelativeTime.LabelJustNowOnly | backend/posts/utils.py:27-50 | only the "just now" case reads "방금 전" |
| RelativeTime.FrontendAsWritten | frontend/lib/utils.ts:368-404 | "방금 전" exactly under a minute; weeks run 1 to 3, but months and years can be 0 |
| RelativeTime.AsWrittenZeroMonths | frontend/lib/utils.ts:392-400 | 28 days ago reads "0개월 전" |
| RelativeTime.AsWrittenZeroYears | frontend/lib/utils.ts:397-403 | 360 days ago reads "0년 전" |
| RelativeTime.Frontend | frontend/lib/utils.ts:368-404 | with the week and month tests made on days, the frontend label is the backend's label on whole seconds and never shows 0 units |
| RelativeTime.NestedDivision | frontend/lib/utils.ts:377-387 | flooring by 60, 60 and 24 in turn is flooring by an hour or a day at once |
| RelativeTime.AsWrittenDiffersOnlyThere | frontend/lib/utils.ts:392-403 | the frontend as written and the corrected one differ exactly on days 28-29 and 360-364 |
| RelativeTime.FrontendLabelAsWritten | frontend/lib/utils.ts:368-404 | the shipped formatter: a date string that does not parse reads "NaN년 전"; any other date gets the as-written label of its age |
| RelativeTime.FrontendLabel | frontend/lib/utils.ts:368-371 | the corrected formatter: a date string that does not parse still reads "NaN년 전"; any other date gets the corrected label of its age |
| RelativeTime.FrontendLabelsAgreeElsewhere | frontend/lib/utils.ts:392-403 | the shipped and corrected labels agree on every date that is not 28-29 or 360-364 days old |
| Users.Or | backend/users/views.py:201-456 | Python's `a or b` on optional text: a non-empty `a`, else `b` (lines 201, 456) |
| Users.LocationFromIp | backend/users/utils.py:19-41 | a missing, loopback or private address gets "Seoul, South Korea" without a lookup; any other gets the lookup's description |
| Users.Describe | backend/users/utils.py:24-41 | a failed lookup or one with neither field known gives the default; otherwise city and country, each known one shown and the other as "Unknown" |
| Users.LocalNeedsNoLookup | backend/users/utils.py:19-20 | a local address gets the same answer whatever the lookup would say |
| Users.UnknownIsMissing | backend/users/utils.py:31-36 | a field reported as "Unknown" reads the same as a missing field |
| Users.FirstFree | backend/users/utils.py:68-77 | the loop stops at the first draw whose name is free, and finds none exactly when every draw is taken |
| Users.RandomUsername | backend/users/utils.py:68-77 | the name returned is free and is the prefix plus the first free draw |
| Users.UsersAppUsername | backend/users/utils.py:58-77 | a generated name is free, 13 characters long, "user-" followed by eight lower-case letters or digits |
| Users.CreateUser | backend/users/models.py:12-81 | refused exactly when the email is empty, no free username is drawn, or the normalized email is already registered; otherwise the email is normalized, the username is generated and free, the avatar colours are derived from the email, and the flags take their defaults; the email column is unique, so a registered email is refused |
| Users.CreateUserKeepsUnique | backend/users/models.py:81 | a created account's email and username are new, and the same call fails once they are registered |
| Users.RequestedUsernameIgnored | backend/users/models.py:34-35 | a username the caller asks for makes no difference: it is always generated |
| Users.CreateSuperuser | backend/users/models.py:47-71 | a superuser is refused exactly when staff or superuser is explicitly false, or creating the user fails (empty or registered email, no free username); otherwise it is staff and superuser |
| Users.SweepSessions | backend/users/views.py:460-464 | exactly the user's rows other than the current key get revoked at `now`, already revoked ones included |
| Users.FindSession | backend/users/views.py:471 | a row is found exactly when the user owns one with that key, and it is such a row |
| Users.RevokeOne | backend/users/views.py:470-476 | nothing is found exactly when the user has no session with the key; otherwise only that session is revoked |
| Users.DeleteSessions | backend/users/views.py:454-476 | `all` revokes every other session of the user and counts them; otherwise no key is a 400, a key the user does not own a 404, and an owned key revokes exactly that session; other users' rows never change and a changed row is always revoked |
| Users.AllOverridesKey | backend/users/views.py:460-465 | with `all` set the key does not matter |
| Users.AllLeavesOnlyCurrent | backend/users/views.py:460-464 | after `all` the only session of the user that can still be active is the current one |
| Users.AllCountsRevoked | backend/users/views.py:464 | a session already revoked is counted again by `all` |
| Users.Logout | backend/users/views.py:197-215 | a user without a token gets 400 and nothing changes; otherwise the token is gone and only the user's session with the given key, if any, is revoked |
| Users.DeleteAccount | backend/users/views.py:549-563 | a confirmation other than "계정 삭제" is a 400 with no change; a missing or matching one removes the user, its token and its sessions |
| Users.DeviceOf | backend/users/views.py:131-140 | no user agent gives no device; mobile, tablet, PC and bot are tried in that order, each with its fallback name, and a device label is never empty |
| Users.PickIp | backend/users/views.py:148 | the first comma-separated part of a non-empty forwarded header, else the remote address; a picked part has no comma and begins the header |
| Users.LoginSession | backend/users/views.py:129-152 | the new session is active and belongs to the user; an empty user agent leaves device, browser and OS unset |
| Accounts.AccountsUsername | backend/apps/accounts/models.py:84-109 | a generated name is free, "user_" followed by `length` lower-case letters or digits, and the first free draw; none exactly when every draw is taken |
| Accounts.CreateUser | backend/apps/accounts/models.py:25-56 | an empty email is refused; a given username is kept, a missing one is generated; the email is normalized and the flags take their defaults; the email and username columns are unique (models.py:126-138), so a created member's email and username are both unregistered, and with an email and a username creation succeeds exactly when neither is registered |
| Accounts.CreateUserKeepsUnique | backend/apps/accounts/models.py:126-138 | a created member's email and username are new, and the same call fails once they are registered |
| Accounts.CreateSuperuser | backend/apps/accounts/models.py:58-82 | staff or superuser explicitly false is refused; a created superuser is staff and superuser with an unregistered email and username, and with an email and a username it succeeds exactly when neither is registered |
| Accounts.AvatarColorFromEmail | backend/apps/accounts/models.py:286-306 | the index is below the number of gradients and is the email's hash modulo that number |
| Accounts.AvatarColorClass | backend/apps/accounts/models.py:308-316 | an index below 10 names that gradient; any other index fails |
| Accounts.DerivedColorHasClass | backend/apps/accounts/models.py:286-316 | every index derived from an email names a gradient |
| Accounts.HasCustomAvatar | backend/apps/accounts/models.py:318-325 | true exactly when an avatar is stored under a non-empty name |
| Accounts.NormalizeEmail | backend/apps/accounts/serializers.py:76 | the normalized email has no surrounding blanks and no upper-case letter |
| Accounts.NormalizeEmailIdempotent | backend/apps/accounts/serializers.py:76 | normalizing an email twice is normalizing it once |
| Accounts.LowerStripCommute | backend/apps/accounts/serializers.py:76 | lower-casing and stripping can be done in either order |
| Accounts.ValidateEmail | backend/apps/accounts/serializers.py:62-83 | refused exactly when the normalized email is already registered; otherwise the normalized email is returned |
| Accounts.StoredEmailBlocksVariants | backend/apps/accounts/serializers.py:62-83 | once an email is stored, every spelling that differs only in case or surrounding blanks is refused |
| Accounts.ValidateUsername | backend/apps/accounts/serializers.py:85-113 | an empty name passes; a non-empty one is refused exactly when it is taken or not 3 to 30 characters long, and "taken" is reported first |
| Accounts.ValidateRegistration | backend/apps/accounts/serializers.py:135-158 | registration passes the cross-check exactly when the password and its confirmation are equal |
| Accounts.RegistrationUsername | backend/apps/accounts/serializers.py:177-179 | a non-empty name is used as given; an empty one is replaced by a free generated "user_" name of 13 characters |
| Accounts.FindByEmail | backend/apps/accounts/serializers.py:248-254 | an account is found exactly when one has the email, and it is such an account |
| Accounts.Login | backend/apps/accounts/serializers.py:238-275 | a missing field, an unknown email, a failed password check and an inactive account are refused in that order; success is exactly an active authenticated account |
| Accounts.InactiveNeverLogsIn | backend/apps/accounts/serializers.py:265-269 | an inactive account is refused even with the right password |
| Accounts.ValidateWebsite | backend/apps/accounts/serializers.py:309-313 | a website passes exactly when it is empty or starts with "http://" or "https://" |
| Accounts.ValidateNewPassword | backend/apps/accounts/serializers.py:453-466 | a new password passes exactly when it has at least 8 characters, a digit and a letter |
| Accounts.ChangePassword | backend/apps/accounts/serializers.py:446-477 | a change passes exactly when the current password checks, the new one is valid, matches its confirmation and differs from the current one |
| Accounts.ValidateDeleteConfirmation | backend/apps/accounts/serializers.py:503-507 | passes exactly when the upper-cased text is "DELETE" or "삭제" |
| Accounts.DeleteConfirmationCases | backend/apps/accounts/serializers.py:503-507 | "delete" in any case and "삭제" pass, while "계정 삭제" (the phrase the account view wants) fails |
| Colors.HexChar | backend/users/utils.py:133 | each value below 16 has an upper-case digit that reads back as it |
| Colors.HexNat | backend/users/utils.py:133 | upper-case hexadecimal digits, one for a value below 16 and at most two for a value below 256 |
| Colors.Hex02 | backend/users/utils.py:133 | at least two upper-case digits, exactly two for a byte |
| Colors.ParseHexShort | backend/users/utils.py:154-156 | a slice of at most two characters parses to a value from −15 to 255 |
| Colors.TwoDigitsValue | backend/users/utils.py:154-156 | one or two hexadecimal digits have their positional value |
| Colors.ParseHexStripsFirst | backend/users/utils.py:154-156 | the hexadecimal read ignores surrounding whitespace: it equals reading the stripped string |
| Colors.DigitSlices | backend/users/utils.py:154-156 | six hexadecimal digits slice into three two-digit values, each 16 times the first digit plus the second |
| Colors.Channels | backend/users/utils.py:154-156 | the channels of a well-formed colour are bytes |
| Colors.Format | backend/users/utils.py:133 | byte channels format as "#" and six upper-case digits; a channel above 255 makes the text longer |
| Colors.ChannelsOfFormat | backend/users/utils.py:133 | reading back a formatted colour gives its channels |
| Colors.FormatOfChannels | backend/users/utils.py:133 | formatting the channels of an upper-case colour gives the colour back |
| Colors.UpperHexValueInjective | backend/users/utils.py:133 | two upper-case digits with the same value are the same digit |
| Colors.LetterColorsWellFormed | backend/users/utils.py:98-125 | there are 26 letter colours, each a well-formed upper-case colour |
| Colors.DigitRgb | backend/users/utils.py:128-133 | a digit's channels are bytes |
| Colors.EmailToHexColor | backend/users/utils.py:80-135 | always a well-formed colour: the default for "" or a first character that is neither letter nor digit, the letter's colour ignoring case, or the digit's channels |
| Colors.FirstCharacterDecides | backend/users/utils.py:94-135 | two emails whose first characters agree up to case get the same colour |
| Colors.SharedLetterColor | backend/users/utils.py:98-125 | "j" and "n" get the same colour |
| Colors.Adjust | backend/users/utils.py:163-175 | a mid-bright colour is unchanged; bytes stay bytes, the sum lands between 240 and 600, no channel moves by more than 80, and the order of the channels is kept |
| Colors.Slice | backend/users/utils.py:154-156 | Python slicing clips at the end: at most `j − i` characters |
| Colors.StripHashes | backend/users/utils.py:153 | no leading "#" remains, and text without "#" is unchanged |
| Colors.ComplementaryColor | backend/users/utils.py:138-180 | an empty colour or one without "#" gets the default; a well-formed colour gets the brightness-corrected inverse of its channels, well formed |
| Colors.Complement | backend/users/utils.py:151-180 | a slice that does not parse gives the default; byte channels give the corrected inverse |
| Colors.FromChannels | backend/users/utils.py:158-177 | byte channels give a well-formed colour whose channels are the corrected inverse |
| Colors.Invert | backend/users/utils.py:159-161 | each inverted channel and the original add up to 255 |
| Colors.ValidSlices | backend/users/utils.py:153-156 | on a well-formed colour the three slices parse to its channels |
| Colors.SignedSliceGivesLongColor | backend/users/utils.py:148-177 | a "#" followed by a signed slice is accepted and yields a seven-digit colour |
| Colors.AvatarColors | backend/users/utils.py:183-195 | the first colour is the email's; both are well formed, the second is the corrected inverse of the first, and its channel sum lies between 240 and 600 |
| FrontUtils.OrDefault | frontend/lib/utils.ts:36-37 | a missing or empty colour gives the default, any other colour is kept |
| FrontUtils.GradientStops | frontend/lib/utils.ts:35-38 | both gradient stops are non-empty: each given colour is kept, each missing or empty one becomes the backend's default of that stop |
| FrontUtils.GradientStyle | frontend/lib/utils.ts:35-38 | the CSS value is a 135-degree gradient from the first stop at 0% to the second at 100% |
| FrontUtils.StoredColorsDrawnAsIs | frontend/lib/utils.ts:35-38 | the pair of colours the backend derives for any email is drawn unchanged |
| FrontUtils.MissingColorsAreBackendDefaults | frontend/lib/utils.ts:35-38 | with no colours the gradient uses the same defaults as the backend, and the backend's colour for an empty email is the first default |
| FrontUtils.AvatarInitial | frontend/lib/utils.ts:41-48 | a missing or blank name gives the fallback; otherwise the initial is the first non-space character, upper-cased |
| FrontUtils.FirstOfStrip | frontend/lib/utils.ts:45 | the first character after trimming is the first non-space character of the name |
| FrontUtils.FirstCharsOfNonEmpty | frontend/lib/utils.ts:509-511 | the joined first characters are exactly the first characters of the non-empty words, in order |
| FrontUtils.Initials | frontend/lib/utils.ts:507-514 | at most two characters, none lower-case: the upper-cased first characters of the first non-empty space-separated words |
| FrontUtils.FieldErrors | frontend/lib/utils.ts:485-497 | no errors give no fields; a field appears with message m exactly when its messages are a non-empty list that joins with ", " to m |
| FrontUtils.KeepMessages | frontend/lib/utils.ts:489-493 | keeps exactly the fields whose messages are a non-empty list, each joined by ", " |
| Metadata.Entries | frontend/lib/metadata-utils.ts:42-45 | the models seen as id and name entries, position for position |
| Metadata.IndexOfId | frontend/lib/metadata-utils.ts:38 | the first entry carrying the id, or none exactly when no entry carries it |
| Metadata.IndexOfName | frontend/lib/metadata-utils.ts:54 | the first entry carrying the name, or none exactly when no entry carries it |
| Metadata.NameOf | frontend/lib/metadata-utils.ts:37-50 | an unknown id gives the unknown label; the first entry with the id gives its name unless that is empty; any other answer is a real entry's name |
| Metadata.IdOf | frontend/lib/metadata-utils.ts:53-66 | an unknown name gives null; the first entry with the name gives its id, and null exactly when that id is 0 |
| Metadata.ZeroIdReadsAsMissing | frontend/lib/metadata-utils.ts:55 | an entry found by name whose id is 0 reads as not found, a non-zero id is returned |
| Metadata.NameIdRoundTrip | frontend/lib/metadata-utils.ts:37-66 | with unique names and unique non-zero ids, a non-empty name converted to its id and back is the same name and entry |
| Metadata.IdNameRoundTrip | frontend/lib/metadata-utils.ts:37-66 | with unique names and unique non-zero ids, an id with a non-empty name converted to its name and back is the same id |
| Metadata.ModelsOfPlatform | frontend/lib/metadata-utils.ts:69-71 | exactly the models of that platform, no more than there are models |
| Metadata.ModelsByPlatformName | frontend/lib/metadata-utils.ts:73-76 | an unknown platform has no models; a non-empty answer comes from a platform of that name with a non-zero id and holds exactly its models |
| Metadata.ModelsByPlatformNameDirect | frontend/lib/utils.ts:194-198 | an unknown platform has no models; otherwise exactly the models of the first platform with that name |
| Metadata.PlatformLookupsAgree | frontend/lib/metadata-utils.ts:73-76 | when no platform id is 0, both versions of the lookup by platform name agree |
| Metadata.ModelDisplayName | frontend/lib/metadata-utils.ts:92-105 | never empty; without a truthy id the free text or "기타"; with one, the looked-up name, except that the free text replaces the name "기타" |
| Metadata.CategoryDisplayName | frontend/lib/metadata-utils.ts:108-117 | never empty; the looked-up name, except that non-empty free text replaces the name "기타" and nothing else |
| Metadata.IdsToNames | frontend/lib/metadata-utils.ts:155-167 | the platform name, the model display name and the category display name of the ids |
| Metadata.NamesToIds | frontend/lib/metadata-utils.ts:169-179 | the ids of the three names, each looked up in its own table |
| Metadata.IdsNamesRoundTrip | frontend/lib/metadata-utils.ts:155-179 | in well-formed tables, ids shown without free text convert back to the same three ids |
| Metadata.LegacyModelDisplayName | frontend/lib/utils.ts:149-157 | never empty; non-blank free text wins as written; then a truthy id is looked up; otherwise the unknown label |
| Metadata.GetModelName | frontend/lib/utils.ts:256-273 | non-blank free text wins; with none, a falsy or unknown id gives the unknown label; any other answer is the name of the model with that id |
| Metadata.LegacyCategoryDisplayName | frontend/lib/utils.ts:159-164 | never empty; non-blank free text wins, otherwise the looked-up name |
| Metadata.GetCategoryName | frontend/lib/utils.ts:275-288 | non-blank free text wins; with none, an unknown id gives the unknown label; any other answer is the name of the category with that id |
| Metadata.ModelDisplayNameFromBackend | frontend/lib/utils.ts:167-176 | never empty; a non-blank name from the server wins, otherwise the legacy cascade decides |
| Metadata.CategoryDisplayNameFromBackend | frontend/lib/utils.ts:178-187 | never empty; a non-blank name from the server wins, otherwise the legacy cascade decides |
| Metadata.ManagersDisagreeOnFreeText | frontend/lib/utils.ts:149-157 | for an ordinary model with free text, the legacy manager shows the free text and the other one shows the model's name |
| Metadata.ManagersAgreeWithoutFreeText | frontend/lib/metadata-utils.ts:92-105 | without free text and with a non-zero id, the two managers show the same model name |
| ApiClient.BodyMessage | frontend/lib/api/client.ts:106-122 | the first of detail, message and error that is present, printed; else, for an array of non-field errors, its items printed (null as "") and joined by spaces; else the default message, which is also the answer for any body that is not an object |
| ApiClient.NonArrayNonFieldErrors | frontend/lib/api/client.ts:116-121 | non-field errors that are not an array leave the default message |
| ApiClient.NonFieldErrorsJoined | frontend/lib/api/client.ts:112-121 | for every array of message strings under non_field_errors, with no detail, message or error, the message is those strings joined by single spaces, whatever the other fields |
| ApiClient.StringsRenderAsThemselves | frontend/lib/api/client.ts:120 | `join(' ')` on an array of strings gives the strings themselves joined by spaces |
| ApiClient.CreateApiError | frontend/lib/api/client.ts:97-131 | a network error exactly when there is no response, then with the network message and the code; otherwise status and body kept and the message read from the body |
| ApiClient.HandleApiError | frontend/lib/api/client.ts:167-185 | a request error gives its derived message; an Error or an object with a string message gives that message; anything else the default |
| ApiClient.IsPaginated | frontend/lib/api/client.ts:191-201 | true exactly for an object with an array of results and some pagination |
| ApiClient.OnlyResultsAndPaginationDecide | frontend/lib/api/client.ts:191-201 | adding or changing any field other than results and pagination never changes the answer, nor does adding results to an object that has its own; no value other than an object is a page |
| ApiClient.NotPaginated | frontend/lib/api/client.ts:191-201 | a bare array, a missing pagination or non-array results is not a page; results plus pagination is |
| Pagination.Nums | frontend/components/common/pagination.tsx:39-45 | the consecutive pages from lo to hi, none when hi is below lo |
| Pagination.VisiblePages | frontend/components/common/pagination.tsx:34-62 | the loop and the pushes build the strip whose shape the lemmas below state |
| Pagination.Rendered | frontend/components/common/pagination.tsx:68 | nothing is rendered exactly when there is at most one page; for a page in range, the strip has 2 to 9 entries from page 1 to the last page |
| Pagination.WindowBounds | frontend/components/common/pagination.tsx:34-62 | for two or more pages and a page in range, the strip has 2 to 9 entries, starts at page 1 and ends at the last page |
| Pagination.WindowEnds | frontend/components/common/pagination.tsx:47-59 | the strip starts at page 1, ends at the last page and has at most nine entries |
| Pagination.WindowIncreasing | frontend/components/common/pagination.tsx:34-62 | the page numbers increase strictly from left to right and all lie between 1 and the last page |
| Pagination.WindowCovers | frontend/components/common/pagination.tsx:39-45 | every page within two of the current one, the current one included, is shown |
| Pagination.WindowDots | frontend/components/common/pagination.tsx:47-59 | "..." stands exactly for skipped pages: it sits between page numbers more than one apart, and neighbouring page numbers are consecutive |
| Pagination.DotsPlacement | frontend/components/common/pagination.tsx:47-59 | "..." follows page 1 exactly when the window starts past page 3, and precedes the last page exactly when it ends before the last page minus two |
| Pagination.CanGoNext | frontend/components/common/pagination.tsx:65 | the server's flag when given, else whether a later page exists |
| Pagination.CanGoPrevious | frontend/components/common/pagination.tsx:66 | the server's flag when given, else whether an earlier page exists |
| Pagination.ArrowsStayInRange | frontend/components/common/pagination.tsx:65-66 | without server flags, an enabled arrow leads to a page within range |
| Autocomplete.PrefixIsContained | frontend/components/common/model-autocomplete.tsx:65-68 | a name that starts with the query also contains it |
| Autocomplete.Score | frontend/components/common/model-autocomplete.tsx:63-73 | no score exactly when neither the model nor the platform name contains the query; 0 exactly for a model-name prefix, 1 exactly for a platform prefix without one, 2 exactly when neither is a prefix and the model name contains the query, 3 exactly when neither is a prefix, the model name does not contain it and the platform name does |
| Autocomplete.Candidates | frontend/components/common/model-autocomplete.tsx:57-75 | exactly the preloaded items that pass the platform restriction and match the query |
| Autocomplete.Best | frontend/components/common/model-autocomplete.tsx:76-82 | at most n candidates, sorted by the key, and a candidate is left out only when n better-or-equal ones were kept |
| Autocomplete.LocalSearch | frontend/components/common/model-autocomplete.tsx:52-85 | at most eight matching items on the platform, sorted by score, platform name and model name; a matching item is left out only when eight items that rank no lower are shown; nothing without preloaded items |
| Autocomplete.PrefixBeforeContains | frontend/components/common/model-autocomplete.tsx:72-77 | a model-name prefix match ranks strictly before a mere containment match, whatever the collation |
| Autocomplete.Opens | frontend/components/common/model-autocomplete.tsx:112-114 | the dropdown opens exactly when there are results, or the custom option is on and the trimmed query has two characters or more |
| Autocomplete.Show | frontend/components/common/model-autocomplete.tsx:144-150 | the results are shown, cached under their key and nothing is highlighted; the request counter and the input are unchanged |
| Autocomplete.Fetch | frontend/components/common/model-autocomplete.tsx:93-138 | a suppressed or unsearchable query clears and closes; a cached key is shown without a request; otherwise the counter moves on and the preloaded items are searched at once, or, with none, the request waits under the new ticket |
| Autocomplete.Complete | frontend/components/common/model-autocomplete.tsx:140-157 | a thrown error clears and closes; an answer to an older request changes nothing; a current answer is cached and shown, a failure as no results |
| Autocomplete.RepeatedQueryUsesCache | frontend/components/common/model-autocomplete.tsx:109-117 | once an answer is cached, the same query is answered from the cache with no new request |
| Autocomplete.StaleAnswerDropped | frontend/components/common/model-autocomplete.tsx:121-142 | after a second request is sent, the answer to the first changes nothing |
| Autocomplete.JsRem | frontend/components/common/model-autocomplete.tsx:235-239 | JavaScript's remainder: for a non-negative dividend it is the usual remainder in [0, n); for a negative one it is the negated remainder of the dividend's magnitude, -((-a) % n), in (-n, 0] |
| Autocomplete.JsRemIsARemainder | frontend/components/common/model-autocomplete.tsx:235-239 | whatever the dividend's sign, JavaScript's remainder differs from it by a whole multiple of the divisor |
| Autocomplete.Select | frontend/components/common/model-autocomplete.tsx:206-226 | the input takes the model's name, the dropdown closes and nothing is highlighted |
| Autocomplete.HandleKey | frontend/components/common/model-autocomplete.tsx:229-254 | keys do nothing on a closed or empty list; Enter picks a suggestion exactly when one is highlighted; ArrowDown moves the highlight to (i+1) mod n and ArrowUp to (i-1+n) mod n, always within the list; the arrows change nothing but the highlight and pick nothing; Escape closes and clears the highlight |
| Autocomplete.ArrowUpFromNothing | frontend/components/common/model-autocomplete.tsx:239 | with nothing highlighted, ArrowUp lands on the second-to-last entry, not the last |
| Autocomplete.DownThenUp | frontend/components/common/model-autocomplete.tsx:235-239 | ArrowDown then ArrowUp returns to the highlighted entry, wrapping at the end |
| StarRating.StarFill | frontend/components/common/star-rating.tsx:64-67 | a star is full exactly when the displayed rating reaches its value, and half exactly when the rating is within half a star below it |
| StarRating.StarCounts | frontend/components/common/star-rating.tsx:64-97 | for a rating between 0 and the number of stars, the full stars are its whole part and one star is half-filled exactly when it has a half |
| StarRating.Prefix | frontend/components/common/star-rating.tsx:66-67 | raising the rating above the first n stars leaves them all full and none half |
| StarRating.Displayed | frontend/components/common/star-rating.tsx:37 | the hovered value while hovering, the given rating otherwise |
| StarRating.HalfValue | frontend/components/common/star-rating.tsx:106-120 | the left half of star k stands for k + 0.5 stars and the right half for k + 1 |
| StarRating.Step | frontend/components/common/star-rating.tsx:40-61 | a disabled widget ignores every event; only a click reports a rating, and on an enabled widget it reports exactly the clicked half's value and changes nothing; hovering shows the half's value and leaving clears it; nothing but the hover ever changes |
| StarRating.ClicksInRange | frontend/components/common/star-rating.tsx:99-132 | every reported rating lies between half a star and the number of stars |
| StarRating.HoverShowsClickedStar | frontend/components/common/star-rating.tsx:64-67 | while hovering over a half, the star under the mouse is drawn full for a right half and half-filled for a left half |
| CreatePost.Initial | frontend/components/common/create-post-dialog.tsx:60-86 | the dialog opens on step 1 with no tags, no picked model and the custom-model mode off |
| CreatePost.ValidateStep | frontend/components/common/create-post-dialog.tsx:188-205 | step 1 needs a non-blank title and prompt, step 2 a non-blank answer, step 3 a rating above 0, step 4 a model name (a custom one also a platform), step 5 a category or the free text of "기타"; any other step is valid |
| CreatePost.LastStepNeedsCategory | frontend/components/common/create-post-dialog.tsx:170-176 | since the free-text box only shows for "기타", the last step is valid exactly when a category is chosen |
| CreatePost.Next | frontend/components/common/create-post-dialog.tsx:207-211 | moves one step forward exactly when the current step is valid and not the last, and changes nothing else |
| CreatePost.Previous | frontend/components/common/create-post-dialog.tsx:213-217 | moves one step back, never below step 1 |
| CreatePost.NavigationStaysInRange | frontend/components/common/create-post-dialog.tsx:207-217 | both buttons keep the step between 1 and 5 |
| CreatePost.NavigationKeepsEarlierStepsValid | frontend/components/common/create-post-dialog.tsx:207-217 | when every step before the current one is valid, that stays so after either button |
| CreatePost.FindModel | frontend/components/common/create-post-dialog.tsx:142 | the first model with the id, and none exactly when no model has it |
| CreatePost.TypeModel | frontend/components/common/create-post-dialog.tsx:131-134 | typing replaces the model text and leaves custom mode; the picked model and everything else is kept |
| CreatePost.SelectModel | frontend/components/common/create-post-dialog.tsx:137-149 | the suggestion's name is taken and the model is looked up by id; the detail starts as the model's name, or empty for "기타" or an unknown model |
| CreatePost.DefaultPlatform | frontend/components/common/create-post-dialog.tsx:158-161 | none exactly when there are no platforms; platform 1 when it exists, else the platform with the smallest id |
| CreatePost.ToggleCustom | frontend/components/common/create-post-dialog.tsx:152-167 | custom mode on drops the picked model and detail and starts on the default platform; off clears the custom name and platform and keeps the pick |
| CreatePost.CustomModeNeedsOnlyAName | frontend/components/common/create-post-dialog.tsx:152-167 | with a platform known, custom mode makes the model step valid as soon as a non-blank name is typed |
| CreatePost.ModelFields | frontend/components/common/create-post-dialog.tsx:236-265 | custom mode needs a non-blank name and a truthy platform and sends the trimmed name as free text; otherwise a picked model is needed and a trimmed detail is sent only when it is non-empty and differs from a model name other than "기타" |
| CreatePost.Save | frontend/components/common/create-post-dialog.tsx:219-281 | ignored exactly when the current step is invalid; an unknown category and each model error fail with their message; a sent request carries the trimmed texts, the tags, the rating, the looked-up category and free text exactly for "기타" |
| CreatePost.PayloadIsConsistent | frontend/components/common/create-post-dialog.tsx:236-281 | a request names a model or a free-text model but never both, the category id is truthy, and a detail is non-blank, trimmed and differs from the model's name |
| CreatePost.PrefilledDetailIsNotSent | frontend/components/common/create-post-dialog.tsx:144-145 | a picked model whose detail was left as pre-filled sends no detail |
| CreatePost.AfterSave | frontend/components/common/create-post-dialog.tsx:288-303 | back to step 1 with the fields cleared; the detail and the custom platform are not among the fields reset |
| CreatePost.SuggestionsAreClean | frontend/components/common/create-post-dialog.tsx:652-662 | every suggested tag is clean and adding one keeps a good tag list good |
| CommunityPost.CanProceed | frontend/components/community/create-post-dialog.tsx:187-206 | step 1 needs a platform and a model, step 2 a topic and a prompt, step 3 an answer, step 4 a rating above 0, step 5 a category (for "직접 입력" a non-blank typed one); any other step never proceeds |
| CommunityPost.Next | frontend/components/community/create-post-dialog.tsx:78-82 | one step forward below the last step, otherwise nothing changes |
| CommunityPost.Previous | frontend/components/community/create-post-dialog.tsx:84-88 | one step back above the first step, otherwise nothing changes |
| CommunityPost.PressNext | frontend/components/community/create-post-dialog.tsx:472-476 | the enabled next button moves forward exactly when the step is not the last and may proceed, otherwise nothing changes |
| CommunityPost.NavigationStaysInRange | frontend/components/community/create-post-dialog.tsx:78-88 | the buttons keep the step between 1 and 5 |
| CommunityPost.Submit | frontend/components/community/create-post-dialog.tsx:90-107 | submitting returns to step 1 with an empty review and no tags; the tag input is not reset |
| CommunityPost.SubmitStartsOver | frontend/components/community/create-post-dialog.tsx:90-107 | after a submit the first step cannot proceed, so the next button does nothing |
| CommunityPost.ChoosePlatform | frontend/components/community/create-post-dialog.tsx:222 | choosing a platform clears the model and changes nothing else |
| CommunityPost.ChooseCategory | frontend/components/community/create-post-dialog.tsx:361-366 | the category is taken; the typed category is kept only for "직접 입력" and cleared otherwise |
| CommunityPost.PlatformChangeNeedsNewModel | frontend/components/community/create-post-dialog.tsx:190-222 | after a platform change, step 1 cannot proceed until a model is chosen again |
| CommunityPost.TypedCategoryOnlyForTypeOwn | frontend/components/community/create-post-dialog.tsx:361-366 | a typed category never survives a switch to another category |
| CommunityPost.AddTag | frontend/components/community/create-post-dialog.tsx:109-117 | the trimmed input is added and cleared only when it is non-blank and new, with Enter and the button alike |
| CommunityPost.RemoveTag | frontend/components/community/create-post-dialog.tsx:119-124 | every copy of the tag is removed and nothing else changes |
| CommunityPost.AddThenRemoveTag | frontend/components/community/create-post-dialog.tsx:109-124 | adding a new tag and removing it gives back the same review |
| CommunityPost.StarClick | frontend/components/community/create-post-dialog.tsx:129-132 | the left half of star k gives k + 0.5 and the right half k + 1, the same values as the shared widget |
| CommunityPost.InnerFill | frontend/components/community/create-post-dialog.tsx:139-149 | drawn from the hover value when it is not 0, else from the rating, by the shared widget's rule |
| CommunityPost.InnerStarsMatchWidget | frontend/components/community/create-post-dialog.tsx:126-185 | the inner widget draws every star exactly as the shared star widget does for the same rating and hover |
| CommunityPost.ClickMakesStepFourReady | frontend/components/community/create-post-dialog.tsx:153-196 | every click on the five stars gives a rating between half a star and five stars that lets step 4 proceed |
| TagEdit.Append | frontend/components/common/create-post-dialog.tsx:660-661 | the tag ends up present; an existing tag changes nothing, a new one is added at the end; a list without repeats stays so |
| TagEdit.Entered | frontend/components/common/create-post-dialog.tsx:620-623 | empty exactly when the input is blank, otherwise a clean trimmed tag |
| TagEdit.EnterKey | frontend/components/common/create-post-dialog.tsx:619-627 | a blank input does nothing; otherwise the trimmed text is added when new and the input is cleared either way |
| TagEdit.AddButton | frontend/components/common/create-post-dialog.tsx:638-643 | the trimmed input is appended and cleared only when it is non-blank and new; otherwise nothing changes, the input included |
| TagEdit.AddSuggested | frontend/components/common/create-post-dialog.tsx:658-662 | a suggested tag is added as it is unless already present |
| TagEdit.RemoveAt | frontend/components/common/create-post-dialog.tsx:606 | an index out of range changes nothing; otherwise exactly that position is dropped and the rest keep their order |
| TagEdit.RemoveValue | frontend/components/community/create-post-dialog.tsx:122 | exactly the tags other than the given one remain, and the list never grows |
| TagEdit.RemoveValueCounts | frontend/components/community/create-post-dialog.tsx:122 | every other tag keeps its number of occurrences and the removed one has none |
| TagEdit.RemoveValueConcat | frontend/components/community/create-post-dialog.tsx:122 | the filter distributes over concatenation, so the remaining tags keep their order |
| TagEdit.RemoveValueAbsent | frontend/components/community/create-post-dialog.tsx:122 | a list without the tag is left as it is |
| TagEdit.RemoveValueOnce | frontend/components/community/create-post-dialog.tsx:122 | a tag present once is cut out and its neighbours close up |
| TagEdit.AddingKeepsTagsGood | frontend/components/edit-post/edit-post-meta-section.tsx:329-371 | every way of adding keeps the tags trimmed, non-blank and distinct |
| TagEdit.RemovingKeepsTagsGood | frontend/components/edit-post/edit-post-meta-section.tsx:319 | both ways of removing keep the tags trimmed, non-blank and distinct |
| TagEdit.RemoveValueKeepsGood | frontend/components/community/create-post-dialog.tsx:122 | removing by value keeps the tags trimmed, non-blank and distinct |
| TagEdit.AddThenRemove | frontend/components/common/create-post-dialog.tsx:606-643 | adding a new tag with the button and removing it, by value or by its position, gives back the same list |
| TagEdit.RemoveValueAppend | frontend/components/community/create-post-dialog.tsx:109-124 | removing a tag just appended to a list without it gives back the list |
| TagEdit.EnterTwiceAddsOnce | frontend/components/common/create-post-dialog.tsx:619-627 | pressing Enter twice with the same text adds it once |
| FilterPanel.OpenPanel | frontend/components/community/community-action.tsx:56-62 | opening the panel stages exactly the applied categories and models and keeps the unfolded platform |
| FilterPanel.Toggle | frontend/components/community/community-action.tsx:73-77 | a ticked id is unticked with every copy removed and every other id kept as often as before; an unticked id is added at the end |
| FilterPanel.ToggleOffKeepsOrder | frontend/components/community/community-action.tsx:73-77 | unticking an id ticked once leaves the other ids in their order |
| FilterPanel.ToggleTwice | frontend/components/community/community-action.tsx:73-77 | ticking twice leaves the same set of ids, and the same list when the id was not ticked |
| FilterPanel.TogglePlatform | frontend/components/community/community-action.tsx:79-85 | pressing the unfolded platform folds it, any other platform unfolds instead; the ticks are kept |
| FilterPanel.ToggleModel | frontend/components/community/community-action.tsx:87-92 | with no platform unfolded nothing changes; otherwise the model's tick flips |
| FilterPanel.ClearAll | frontend/components/community/community-action.tsx:94-104 | everything is unticked and folded, and empty filters are reported at once |
| FilterPanel.Apply | frontend/components/community/community-action.tsx:175-181 | the staged categories and models are reported with the platforms as they were applied |
| FilterPanel.ToggleAllCategories | frontend/components/community/community-action.tsx:131-173 | unticks every category when all count as ticked, otherwise ticks exactly the known ones (lines 131-133, 166-173) |
| FilterPanel.CategorySelectAllTwice | frontend/components/community/community-action.tsx:131-173 | from a partial selection, the category select-all ticks all and a second press ticks none (lines 131-133, 166-173) |
| FilterPanel.ToggleAllPlatforms | frontend/components/community/community-action.tsx:113-142 | unticks every model when all count as ticked, otherwise ticks every known model |
| FilterPanel.PlatformSelectAllTwice | frontend/components/community/community-action.tsx:113-142 | from a partial selection, the box ticks every model and a second press unticks them all |
| FilterPanel.Find | frontend/components/community/community-action.tsx:108 | the first model with the id, and none exactly when no model has it |
| FilterPanel.PlatformModels | frontend/components/community/community-action.tsx:121-123 | exactly the models of the platform |
| FilterPanel.IdsOf | frontend/components/community/community-action.tsx:157 | the ids of the models, position for position |
| FilterPanel.OtherModels | frontend/components/community/community-action.tsx:148-161 | exactly the ticked ids of known models not on the platform |
| FilterPanel.ToggleAllModels | frontend/components/community/community-action.tsx:144-164 | with a platform unfolded and models known, ticked models of other platforms stay; when all of the platform's are ticked they are unticked, otherwise all of them are ticked and nothing else is: every ticked id is then a known model of another platform or one of this platform's |
| FilterPanel.SelectAllThenDeselect | frontend/components/community/community-action.tsx:119-164 | with unique ids, select-all ticks all of the platform's models, and a second press leaves exactly the known models of other platforms ticked before |
| FilterPanel.AddedAreOnPlatform | frontend/components/community/community-action.tsx:154-162 | with unique ids, every id added for a platform is found on that platform |
| FilterPanel.OnCount | frontend/components/community/community-action.tsx:124-128 | after select-all, the ticked ids found on the platform are exactly the added ones |
| FilterPanel.OffKept | frontend/components/community/community-action.tsx:148-151 | deselecting keeps exactly the ids of other platforms' models |
| EditMeta.CurrentPlatform | frontend/components/edit-post/edit-post-meta-section.tsx:154-155 | none exactly when there are no platforms; the platform of the current name when there is one, else the one with the smallest id |
| EditMeta.ModelOptions | frontend/components/edit-post/edit-post-meta-section.tsx:157-173 | the models of the shown platform, with a stand-in "기타" of id -1 appended when they have none |
| EditMeta.WithOther | frontend/components/edit-post/edit-post-meta-section.tsx:161-173 | the list always offers "기타": an existing one is kept, otherwise a stand-in is appended at the end |
| EditMeta.WithOtherIdempotent | frontend/components/edit-post/edit-post-meta-section.tsx:161-173 | adding the stand-in twice is adding it once |
| EditMeta.SelectPlatform | frontend/components/edit-post/edit-post-meta-section.tsx:175-184 | an unknown platform changes nothing; a known one becomes the platform and clears the model, its free text and, when editable, its detail; category and tags are kept |
| EditMeta.SelectModel | frontend/components/edit-post/edit-post-meta-section.tsx:186-194 | the model is taken; its free text survives only for "기타"; the detail is cleared when editable; platform, category and tags are kept |
| EditMeta.OneModelInputAtATime | frontend/components/edit-post/edit-post-meta-section.tsx:236-250 | at most one of the two model inputs shows, and after a pick a model other than "기타" keeps no free text |
| EditMeta.TagsStayGood | frontend/components/edit-post/edit-post-meta-section.tsx:329-371 | the editor's Enter key, add button and suggestions keep the tags clean and distinct |
| EditMeta.ModelBadge | frontend/components/edit-post/edit-post-meta-section.tsx:515-523 | never empty; a non-blank detail as typed, otherwise the display name of the model looked up by its name |
| EditMeta.CategoryBadge | frontend/components/edit-post/edit-post-meta-section.tsx:526-530 | the display name when the category resolves to an id, else the category as held |
| EditMeta.BadgeShowsPickedModel | frontend/components/edit-post/edit-post-meta-section.tsx:515-523 | in a well-formed table, a picked model's badge shows its name, or the free text for "기타" with free text |
| PostList.SearchStage | frontend/features/posts/components/post-list.tsx:142-148 | without a search nothing is dropped; with one, exactly the cards whose title or author contains it, ignoring case |
| PostList.IdStage | frontend/features/posts/components/post-list.tsx:150-158 | without ids nothing is dropped; with them, exactly the cards whose id is among the comma-separated ids |
| PostList.Process | frontend/features/posts/components/post-list.tsx:137-178 | server-side lists are kept as given; otherwise exactly the cards that match every given parameter, no card duplicated, sorted by the chosen key |
| PostList.SortedAsNamed | frontend/features/posts/components/post-list.tsx:160-175 | each known sort key orders newest first, oldest first, or most liked, most satisfied or most viewed first |
| PostList.UnknownSortKeepsOrder | frontend/features/posts/components/post-list.tsx:172-173 | with an unknown sort key and no parameters the list keeps its order |
| PostList.SliceIndex | frontend/features/posts/components/post-list.tsx:200 | JavaScript slice bounds: negative indices count from the end and both ends are clamped to the list |
| PostList.Slice | frontend/features/posts/components/post-list.tsx:200 | for bounds within the list, exactly that part; never longer than the list |
| PostList.LocalTotalPages | frontend/features/posts/components/post-list.tsx:196 | the fewest pages of perPage cards that hold all the cards |
| PostList.CurrentPosts | frontend/features/posts/components/post-list.tsx:198-200 | all the cards when the server pages or paging is off; otherwise the perPage cards of the page, fewer on the last |
| PostList.EveryCardOnItsPage | frontend/features/posts/components/post-list.tsx:196-200 | card i is shown on page i / perPage + 1 at position i mod perPage, and that page exists |
| PostList.PageSizes | frontend/features/posts/components/post-list.tsx:196-200 | a page never shows more than perPage cards, and every existing page shows at least one |
| PostList.FirstOfPageExists | frontend/features/posts/components/post-list.tsx:196-198 | every existing page starts at a card of the list |
| RichText.Normalize | frontend/components/posts/post-detail-content-sections.tsx:61 | replacing \r\n by \n never lengthens the text |
| RichText.NormalizeDropsOnlyReturns | frontend/components/posts/post-detail-content-sections.tsx:61 | the replacement removes carriage returns and nothing else; text without them is unchanged |
| RichText.NormalizeOnce | frontend/components/posts/post-detail-content-sections.tsx:61 | one pass of the replacement is not a fixed point: "\r\r\n" needs two |
| RichText.TagLineHasPunctuation | frontend/components/posts/post-detail-content-sections.tsx:51-54 | the tag pattern is subsumed by the punctuation pattern: every tag line contains a '<' |
| RichText.Lines | frontend/components/posts/post-detail-content-sections.tsx:44-47 | the lines of the trimmed text, empty ones dropped; none holds a newline |
| RichText.CodeLines | frontend/components/posts/post-detail-content-sections.tsx:50-55 | exactly the lines that match one of the four code patterns |
| RichText.Threshold | frontend/components/posts/post-detail-content-sections.tsx:57 | the least count that is at least 2 and at least 35% of the lines |
| RichText.ThresholdIff | frontend/components/posts/post-detail-content-sections.tsx:57 | reaching the threshold means at least two code lines and at least 35% of the lines |
| RichText.LooksLikeCode | frontend/components/posts/post-detail-content-sections.tsx:43-58 | blank text is never code; text holding a fence always is; otherwise it needs two or more lines of which two or more look like code |
| RichText.LooksLikeCodeIff | frontend/components/posts/post-detail-content-sections.tsx:47-57 | without a fence, text of two or more lines is code exactly when at least two and at least 35% of its lines look like code |
| RichText.AllCodeLinesLookLikeCode | frontend/components/posts/post-detail-content-sections.tsx:47-57 | text of two or more lines that all look like code is code |
| RichText.BlankHasNoLines | frontend/components/posts/post-detail-content-sections.tsx:44-47 | blank text has no lines |
| RichText.SingleLineIsText | frontend/components/posts/post-detail-content-sections.tsx:48 | a single line without a fence is never code |
| RichText.FindFence | frontend/components/posts/post-detail-content-sections.tsx:62 | the first fence at or after the start position, or none when there is none |
| RichText.WordEnd | frontend/components/posts/post-detail-content-sections.tsx:62 | the end of the run of word characters that begins at the position |
| RichText.MatchAt | frontend/components/posts/post-detail-content-sections.tsx:62 | a match at a position spells out as fence, word-character language, optional newline, fence-free code and fence, exactly as in the text |
| RichText.NoFenceInWord | frontend/components/posts/post-detail-content-sections.tsx:62 | no fence starts inside the language word or the newline after it |
| RichText.MatchSpelled | frontend/components/posts/post-detail-content-sections.tsx:62 | the parts a match reads off reassemble to the matched text |
| RichText.NotFenceAt | frontend/components/posts/post-detail-content-sections.tsx:62 | no fence starts at a character other than a backtick |
| RichText.NoFenceBetween | frontend/components/posts/post-detail-content-sections.tsx:62 | a stretch in which no fence starts does not contain one |
| RichText.NextMatch | frontend/components/posts/post-detail-content-sections.tsx:62-80 | the first position at or after the start where the pattern matches, matching there, or none when it matches nowhere |
| RichText.ConcatAppend | frontend/components/posts/post-detail-content-sections.tsx:78-98 | joining the pieces of two lists is joining each list's pieces |
| RichText.ScanTiles | frontend/components/posts/post-detail-content-sections.tsx:78-98 | the gaps and fenced blocks of the scan, joined, give back the text from the start position exactly |
| RichText.ScanStep | frontend/components/posts/post-detail-content-sections.tsx:86-92 | one match plus the scan after it tile the text from the start position |
| RichText.DropFinalNewline | frontend/components/posts/post-detail-content-sections.tsx:83 | the code is unchanged or loses exactly one final newline |
| RichText.Views | frontend/components/posts/post-detail-content-sections.tsx:86-117 | blank gaps are dropped and every paragraph drawn is trimmed and not blank; never more views than pieces |
| RichText.Render | frontend/components/posts/post-detail-content-sections.tsx:60-122 | something is drawn unless the text has a fenced block |
| RichText.UnfencedIsOneBlock | frontend/components/posts/post-detail-content-sections.tsx:65-75 | text without a fenced block is drawn as one block, as code exactly when the heuristic is on and calls it code |
| RichText.LoneFenceMakesWholeCode | frontend/components/posts/post-detail-content-sections.tsx:46-71 | an opening fence with no closing one matches nothing, yet the whole text is drawn as one code block |
| RichText.FenceSurvivesStrip | frontend/components/posts/post-detail-content-sections.tsx:44-46 | a fence in the text is still in its trimmed form |
| RichText.WordAfterFenceIsLanguage | frontend/components/posts/post-detail-content-sections.tsx:62-83 | "```print(1)```" reads "print" as the language and "(1)" as the code |
| RichText.RenderAiResponse | frontend/components/posts/post-detail-content-sections.tsx:180 | the AI response without a fenced block is always one paragraph; with one it is drawn like any other text |
| GoBack.TokenRoute | frontend/components/common/go-back-button.tsx:31-48 | a token routes to its list page exactly when it names one of the four list pages |
| GoBack.ListPath | frontend/components/common/go-back-button.tsx:102-114 | a path is taken exactly when it is one of the four list paths |
| GoBack.PostDetailRoute | frontend/components/common/go-back-button.tsx:95-116 | from a post page, a referrer starting with the origin whose path is a list page, and nothing else, gives that page |
| GoBack.EditPostRoute | frontend/components/common/go-back-button.tsx:119-163 | from an edit page, a route is only ever the same-origin referrer's path |
| GoBack.EditPostInnerNeverMatches | frontend/components/common/go-back-button.tsx:126-146 | the re-read of the referrer for a post page never routes: the edit page routes exactly when its referrer's path is a list page |
| GoBack.PostPathIsNotAList | frontend/components/common/go-back-button.tsx:95-127 | a post path is never a list path |
| GoBack.GoBack | frontend/components/common/go-back-button.tsx:27-167 | the prop, then the query parameter, then the stored value decide when they name a list page; the route is always a list page or the fallback |
| GoBack.FirstRoute | frontend/components/common/go-back-button.tsx:27-167 | the first step that gives a route wins; with none the fallback is used |
| GoBack.ReferrerOnlyAsLastResort | frontend/components/common/go-back-button.tsx:94-167 | with no token, a same-origin list-page referrer from a post or edit page is followed, and otherwise the fallback is used |
| GoBack.EditAfterPostFallsBack | frontend/components/common/go-back-button.tsx:119-167 | with no token, an edit page reached from a post page always goes to the fallback |
| GoBack.OriginTestIsAPrefixTest | frontend/components/common/go-back-button.tsx:99 | a referrer on another host whose name extends the origin is followed |
| ChatDemo.Type | frontend/components/extension/chatgpt-demo.tsx:138-143 | the input is taken; the step changes exactly when non-blank text is typed on the first step, and then to the extension step |
| ChatDemo.ClickExtension | frontend/components/extension/chatgpt-demo.tsx:155-161 | blank input leaves the demo alone; otherwise the panel opens searching for the input; results visibility, typing, the success banner, input and messages are untouched |
| ChatDemo.SearchDone | frontend/components/extension/chatgpt-demo.tsx:162-166 | the search timer shows the results; the panel, typing, the success banner, input, query and messages are untouched |
| ChatDemo.ChooseReview | frontend/components/extension/chatgpt-demo.tsx:170-174 | the review's prompt becomes the input, the panel closes and the applied step starts with the success banner; query, searching, results visibility, typing and messages are untouched |
| ChatDemo.SuccessTimeout | frontend/components/extension/chatgpt-demo.tsx:184-186 | only the success banner goes |
| ChatDemo.Send | frontend/components/extension/chatgpt-demo.tsx:189-202 | outside the applied step or with blank input nothing happens; otherwise the conversation restarts with the input as its one message, the input is cleared and typing starts; the panel, query, searching, results visibility and the success banner are untouched |
| ChatDemo.Reply | frontend/components/extension/chatgpt-demo.tsx:204-247 | the reply timer appends one assistant message, stops typing and completes the walkthrough; the panel, query, searching, results visibility, the success banner and input are untouched |
| ChatDemo.KeyPress | frontend/components/extension/chatgpt-demo.tsx:250-255 | Enter without Shift sends; any other key changes nothing |
| ChatDemo.Reset | frontend/components/extension/chatgpt-demo.tsx:257-267 | everything returns to the initial state |
| ChatDemo.CloseExtension | frontend/components/extension/chatgpt-demo.tsx:269-275 | back to the first step with the panel, results and query cleared; input and conversation kept |
| ChatDemo.StepMessage | frontend/components/extension/chatgpt-demo.tsx:277-296 | every step has a banner |
| ChatDemo.StepMessagesDiffer | frontend/components/extension/chatgpt-demo.tsx:277-296 | different steps have different banners |
| ChatDemo.HappyPath | frontend/components/extension/chatgpt-demo.tsx:138-247 | type, click, wait, choose, send and wait pass through every step in order and end with exactly the chosen prompt and the reply |
| ChatDemo.NoSendBeforeApplied | frontend/components/extension/chatgpt-demo.tsx:190 | typed text alone, or with the panel open, never starts a conversation |
| ChatDemo.StaleSearchTimer | frontend/components/extension/chatgpt-demo.tsx:162-275 | the search timer is not cancelled: after closing the panel or resetting, it still moves the walkthrough to the results step (lines 162-166, 257-275) |
| PostCardView.FinalVariant | frontend/components/common/post-card.tsx:74-78 | a bookmark card stays a bookmark; any other card is popular exactly when it was asked to be or has at least 100 likes |
| PostCardView.Style | frontend/components/common/post-card.tsx:71-204 | the page's current post is styled as current whatever its variant; other cards take their final variant (lines 71, 201-204) |
| PostCardView.PopularityIsMonotone | frontend/components/common/post-card.tsx:75-78 | more likes never take a card out of the popular style and never change a bookmark's |
| PostCardView.CurrentStyleOnlyWhenAsked | frontend/components/common/post-card.tsx:71-204 | the current style appears only on the current post, or when it was the asked-for variant of a card below 100 likes (lines 71, 201-204) |
| PostCardView.ModelLabel | frontend/components/common/post-card.tsx:96-117 | server cards use the backend display rule with an id of 0 read as missing; sample cards show a non-blank detail, else the free text of "기타", else the model |
| PostCardView.SampleModelLabelSources | frontend/components/common/post-card.tsx:104-114 | a sample card's model label is its detail, its free text or its model, and the free text only for "기타" |
| PostCardView.CategoryLabel | frontend/components/common/post-card.tsx:119-132 | server cards use the backend display rule; sample cards show the free text of "기타", else the category |
| PostCardView.ServerLabelsAreNonEmpty | frontend/components/common/post-card.tsx:97-125 | a server card never shows an empty model or category label |
| PostCardView.TimeLabel | frontend/components/common/post-card.tsx:68-69 | a relative time the data carries is shown as given; otherwise the shipped formatter's label of the creation time, "NaN년 전" when it does not parse |
| PostCardView.TimeLabelOfCreation | frontend/components/common/post-card.tsx:68-69 | a card worked out from its creation time reads "방금 전" exactly when it is under a minute old, and "0개월 전" at 28 days |
| ModelNames.Simple | frontend/sampledata/trending-data.ts:6-67 | a name in the table maps to its entry; any other name maps to itself |
| ModelNames.TableIsClosed | frontend/sampledata/trending-data.ts:6-63 | every simple name the table produces is a key that maps to itself |
| ModelNames.SimpleIdempotent | frontend/sampledata/trending-data.ts:6-67 | mapping a name twice is mapping it once |
| ModelNames.SameModelIsEquivalence | frontend/sampledata/trending-data.ts:86-90 | being the same model is reflexive, symmetric and transitive, and a name is the same model as its simple name |
| ModelNames.SameModelExamples | frontend/sampledata/trending-data.ts:57-90 | "DeepSeek R-1" and "DeepSeek-R1-0528" are one model (lines 57-62), and so are "Claude 4 Sonnet (Perplexity)" and "Claude 4 Sonnet" (lines 86-90); two names are the same model when both map to the same simple name |
| ModelNames.OffTableNameStandsAlone | frontend/sampledata/trending-data.ts:66 | a name that is not a table key stands for itself: it is the same model as exactly itself |
| ModelNames.DisplayName | frontend/sampledata/trending-data.ts:93-102 | a simple name is shown as itself; a renamed one as its simple name followed by the detailed name in parentheses |
| ModelNames.DisplayKeepsBothNames | frontend/sampledata/trending-data.ts:93-102 | the display starts with the simple name, contains the detailed name, and a simple name displays as itself |
| ProfileCard.Open | frontend/components/profile/profile-info-card.tsx:53-62 | opening, or new data from the parent, shows exactly that data with no file and no error |
| ProfileCard.Extension | frontend/components/profile/profile-info-card.tsx:69 | the lower-cased part after the last dot, which never holds a dot |
| ProfileCard.ExtensionAfterLastDot | frontend/components/profile/profile-info-card.tsx:69 | the extension of "a.b" is b lower-cased; a name without a dot is its own extension |
| ProfileCard.CheckFile | frontend/components/profile/profile-info-card.tsx:15-84 | a file is accepted exactly when its type or its extension is allowed and it is at most 5 MiB; a bad kind is reported before a bad size (lines 15-22, 69-84) |
| ProfileCard.PickImage | frontend/components/profile/profile-info-card.tsx:64-86 | no file changes nothing; a rejected file sets its error, empties the input and keeps the earlier choice; an accepted one clears the error and becomes the file to upload |
| ProfileCard.PreviewLoaded | frontend/components/profile/profile-info-card.tsx:87-94 | the read data URL becomes the shown image and nothing else changes |
| ProfileCard.RemoveImage | frontend/components/profile/profile-info-card.tsx:262-268 | no image, no file to upload and no error; the rest of the data is kept |
| ProfileCard.Regenerate | frontend/components/profile/profile-info-card.tsx:240-247 | the two new colours replace the old ones and nothing else changes |
| ProfileCard.Cancel | frontend/components/profile/profile-info-card.tsx:101-106 | the parent's data comes back with no file and no error |
| ProfileCard.Save | frontend/components/profile/profile-info-card.tsx:97-99 | the parent receives the edited data and the chosen file |
| ProfileCard.RejectedFileIsNotSaved | frontend/components/profile/profile-info-card.tsx:64-99 | picking a rejected file does not change what a save sends |
| ProfileCard.AcceptedFileIsSaved | frontend/components/profile/profile-info-card.tsx:86-268 | an accepted file and its preview are sent by a save, and removing the image afterwards sends neither (lines 86-99, 262-268) |
| ProfileCard.CancelForgetsEdits | frontend/components/profile/profile-info-card.tsx:101-106 | after any pick, preview, removal or regeneration, cancelling gives what a fresh open gives |
| ProfileCard.EitherCheckSuffices | frontend/components/profile/profile-info-card.tsx:70-84 | a known extension with an unknown type is accepted, so is a known type without an extension, and a file over 5 MiB is refused for its size |
| ProfilePage.LocalVerdict | frontend/app/profile/page.tsx:165-200 | the server is asked exactly for a changed name of 3 to 12 word characters that is not a forbidden name in any case; otherwise the verdict is idle or taken |
| ProfilePage.CheckUsername | frontend/app/profile/page.tsx:165-222 | the finished check never stays checking; a local verdict stands; otherwise a failed request is an error and the server's answer decides available or taken |
| ProfilePage.ServerOnlyAfterLocalChecks | frontend/app/profile/page.tsx:169-200 | when a local rule decides, the server's answer makes no difference |
| ProfilePage.AvailableNamesAreValid | frontend/app/profile/page.tsx:169-215 | a name reported available is a changed name of 3 to 12 word characters that is no forbidden name in any case |
| ProfilePage.ForbiddenInAnyCase | frontend/app/profile/page.tsx:187-192 | "Admin" and "DEMO" are refused even when the server would accept them |
| ProfilePage.ValidateFile | frontend/app/profile/page.tsx:239-262 | a file is accepted exactly when it is at most 5 MiB and of an allowed type; the size is reported first |
| ProfilePage.PageAndCardChecks | frontend/app/profile/page.tsx:252 | apart from "image/jpg", a file the page accepts the card accepts too, while the card takes a ".png" with no type that the page refuses |
| ProfilePage.CanSave | frontend/app/profile/page.tsx:504-524 | never while saving or checking; a changed name needs an available check and three characters; otherwise the website or location must differ from the saved one |
| ProfilePage.SavedNamesPassedTheCheck | frontend/app/profile/page.tsx:165-511 | a new name can only be saved once its check passed every local rule (lines 165-215, 504-511) |
| ProfilePage.NothingToSave | frontend/app/profile/page.tsx:514-523 | unchanged values cannot be saved |
| ProfilePage.PasswordChange | frontend/app/profile/page.tsx:588-606 | the change is sent exactly when all three fields are filled and the two new passwords are equal; a missing field is reported first |
| ProfilePage.DeleteConfirmed | frontend/app/profile/page.tsx:661-678 | deletion goes ahead exactly when the text upper-cased is "DELETE" or it is "삭제" |
| ProfilePage.DeleteInAnyCase | frontend/app/profile/page.tsx:671 | "delete" in any case and "삭제" confirm; "Delete me" does not |
| Ordering.StrLeTotal | backend/core/sorting.py:11-36 | any two strings are comparable in code-point order |
| Ordering.StrLeTransitive | backend/core/sorting.py:11-36 | code-point order on strings is transitive |
| Ordering.KeyLeTotal | backend/core/sorting.py:11-36 | any two multi-column sort keys are comparable |
| Ordering.KeyLeTransitive | backend/core/sorting.py:11-36 | the multi-column key order is transitive |
| Ordering.SortBy | backend/core/sorting.py:13-36 | order_by returns a permutation of the rows, in key order |
| Ordering.SortByMembers | backend/core/sorting.py:13-36 | the sorted rows are exactly the given rows |
| Ordering.SortBySortedIsIdentity | backend/core/sorting.py:13-36 | rows already in key order are left as they are |
| Ordering.SortByConstantKey | backend/core/sorting.py:13-36 | rows that all share one key keep their order |
| Ordering.SortByKeepsTies | backend/core/sorting.py:13-36 | among distinct rows, two with equal keys appear in the sorted result in their input order |
| Ordering.SortByStable | backend/core/sorting.py:13-36 | two rows with equal keys keep their relative order |
| Ordering.TakeKeepsBest | frontend/components/common/model-autocomplete.tsx:76-82 | a row the cut leaves out ranks no higher than any row it keeps, and is only left out when every place is taken |
| Text.JoinSplit | backend/core/filters.py:44 | joining the parts of a split by the separator gives back the text |
| Text.SplitJoin | backend/core/filters.py:44 | splitting parts joined by a separator none of them holds gives back the parts |
| Text.StrippedNonBlank | backend/core/filters.py:44 | the stripped parts that are not empty, and exactly those |
| Text.Tokens | backend/core/filters.py:44-90 | every id token is non-empty, stripped and free of commas (lines 44, 90) |
| Text.BlankHasNoTokens | backend/core/filters.py:41-46 | blank text gives no tokens |
| Text.StripIdempotent | backend/core/filters.py:44 | stripping twice is stripping once |
| Text.StripEmptyIffBlank | backend/core/filters.py:44 | the stripped text is empty exactly when the text is blank |
| Text.ParseIntOfIntToString | backend/core/filters.py:53 | int() reads back every integer written in decimal |

## Left out

- Django ORM, transactions, locks, request plumbing, URLs, settings, admin, migrations and signals. Querysets are sequences, and uniqueness is set membership.
- The DRF page-number pagination in `backend/core/pagination.py`. Its clamping lives inside DRF, which is not part of this model. Django's `Paginator` is modelled from its documented behaviour.
- Foreign library calls are parameters or left out:
  - `slugify` and `normalize_email` are parameters;
  - Django's password validators, `check_password` and `authenticate` are parameters;
  - `hashlib.sha256` is an uninterpreted hash value;
  - `user_agents.parse` is an abstract parse result;
  - JavaScript `localeCompare('ko')` is a collation-rank parameter.
- Unicode is not modelled:
  - Case folding is ASCII only.
  - Whitespace is the set Python's `str.strip` and JavaScript's `trim` both remove. Python also strips U+001C to U+001F and U+0085, and JavaScript also strips U+FEFF; neither is whitespace here, so such a character at either end of a value is kept where one runtime would drop it.
  - Lengths count characters, not UTF-16 units.
  - Python `int()` accepts ASCII digits only.
- Network and storage:
  - the ipapi.co lookup (only the local-address rule and the formatting of an abstract answer are modelled);
  - Google token checks;
  - axios and fetch;
  - localStorage, sessionStorage and cookies, which appear only as inputs.
- Randomness: the random username characters are an oracle of candidates. `generateRandomAvatarColors` supplies parameters to `ProfileCard.Regenerate`.
- Floating point:
  - Satisfaction is in tenths and star values are in half-stars; ratings off the half-step grid are not modelled.
  - The 0.35 code-line ratio is taken as 7/20.
  - Average rounding, `toFixed` and charts are left out.
- Timers and the clock:
  - The cache's time-to-live is an abstract clock.
  - Search debouncing is left out. The autocomplete's suppress flag is a state field set by the caller.
  - Demo and autocomplete timers are events that can fire at any time.
  - Dropdown positioning and textarea sizing are not modelled.
- JavaScript objects used as maps are not modelled for prototype keys such as "constructor".
- Django views outside the listed services are not modelled:
  - `platforms_list`, `categories_list`, `posts_list` and `post_detail`;
  - `post_create`;
  - the liked, bookmarked and own-post lists, whose paging is `PostService.BuildUserPostsPage`;
  - `platform_models_with_default`, Google login, the profile and settings views, and `should_auto_set_location`.
- Weaker contracts and narrower preconditions:
  - PostService.BuildUserPostsPage: requires the latest sort field to start with '-'. The callers pass '-interactions__updated_at' (the liked and bookmarked lists) and '-created_at' (the own-post list).
  - Paginator.NumPages: requires at least one row per page. Paginator.Paginate turns a smaller page size into an error before counting pages.
  - PostList.LocalTotalPages: requires at least one card per page. The component's page size is a positive prop, and 0 would give JavaScript's Infinity.
  - PostList.CurrentPosts: requires at least one card per page, for the same reason.
  - Autocomplete.Fetch: an empty preloaded list and a missing one are the same value here, so both tag the cache key "api". The source tags an empty list "local" but still asks the server. Only a switch between the two while mounted would show the difference.
- Ordering.SortByStable: keeping rows with equal keys in their input order is a modelling choice. SQL `ORDER BY` leaves such ties in no particular order, so every queryset ordering in this model fixes one order the database may or may not use.
- PostViews.ModelsSuggest: scores are exact sums in tenths. `compute_score` adds Python floats, so two sums equal in tenths can differ in the last bit. For example 2.0 + 0.7 + 0.6 gives 3.3000000000000003, which sorts ahead of 2.5 + 0.8 = 3.3. The model scores both 33 and lets `sort_order` and the name decide.
- PostViews.Top: the order among models whose scores tie in tenths is the exact-arithmetic order, for the float reason given for PostViews.ModelsSuggest.
- PostViews.Ranked: the same float caveat as PostViews.ModelsSuggest applies to the ranking order.
- PostViews.SuggestKeyOrder: the first key is the exact score in tenths, not the float sum, as explained for PostViews.ModelsSuggest.
- PostViews.LeftOutRanksLower: "ranks at least as high" is in the exact-score order. Near a float tie the source may keep the other model of the pair.
- ApiClient.Render: JSON numbers are integers here. `String()` of a fractional number, such as 1.5 in `detail`, is not modelled.
- Accounts.Login: the email and password are the values after field parsing. DRF's `CharField` strips surrounding whitespace and refuses a value that is blank after stripping; the model receives the value already stripped and does not repeat that step.
- Accounts.ChangePassword: the three passwords are values after DRF's `CharField` parsing (stripped, non-blank), for the same reason as Accounts.Login.
- PostSerializers.Create: the `CharField` parsing of the title, prompt, response and tags (stripping, `max_length`) happens before the modelled validators; the inputs are the parsed values. The validators strip again, so only a field that is blank after stripping behaves differently: DRF refuses it before the validator runs, and the validator refuses it too.
- Quirks of the source that the model reproduces:
  - a found id of 0 reads as missing in the frontend metadata lookups;
  - the two frontend metadata managers disagree on free text;
  - ArrowUp from no selection lands on the second-to-last suggestion;
  - toggling a filter id twice moves it to the end;
  - the model select-all drops unknown ids;
  - one pass of the `\r\n` replacement is not idempotent;
  - a lone unclosed code fence makes the whole text a code block;
  - the edit page's second look at the referrer never matches;
  - the origin test is a prefix test;
  - the walkthrough's timers are never cancelled;
  - the profile page and card accept different files;
  - a tag containing a comma comes back split;
  - a signed hex slice gives a seven-digit colour;
  - revoking all sessions counts sessions that were already revoked;
  - the post card's comment says 50 likes but the code uses 100;
  - a post card 28 days old reads "0개월 전", since the card uses the shipped relative-time formatter.

## Findings

| source | as written | input that shows it | evidently intended | confidence | as-written member | corrected member |
|---|---|---|---|---|---|---|
| frontend/lib/utils.ts:392-403 | months are `floor(days / 30)` once weeks reach 4, and years are `floor(days / 365)` once months reach 12 | a post 28 or 29 days old reads "0개월 전"; one 360 to 364 days old reads "0년 전" | the week and month tests are on days, as in the backend's `format_relative_time`, so every label counts at least 1 | not executed | RelativeTime.FrontendAsWritten (with RelativeTime.FrontendLabelAsWritten, RelativeTime.AsWrittenZeroMonths, RelativeTime.AsWrittenZeroYears; the post card's PostCardView.TimeLabel shows it) | RelativeTime.Frontend (with RelativeTime.FrontendLabel, RelativeTime.AsWrittenDiffersOnlyThere, RelativeTime.FrontendLabelsAgreeElsewhere) |

=== FILE: accounts.dfy ===
/** The accounts app: its user manager, the profile's avatar gradient, and
    the validators of the registration, login, profile, password change
    and account deletion serializers. Password hashing, `authenticate`
    and SHA-256 are given as functions. */
module Accounts {
  import opened Wrappers
  import opened Text
  import Users

  // ---------------------------------------------------------------------
  // UserManager
  // ---------------------------------------------------------------------

  /** `generate_random_username(length)`: 'user_' and `length` characters
      from [a-z0-9], not yet taken; the random source is `draws`. */
  function AccountsUsername(length: nat, draws: seq<string>, taken: set<string>): (r: Option<string>)
    requires forall i :: 0 <= i < |draws| ==> Users.IsDraw(draws[i], length)
    ensures r.None? <==> forall i :: 0 <= i < |draws| ==> "user_" + draws[i] in taken
    ensures r.Some? ==> r.value !in taken && |r.value| == 5 + length && StartsWith(r.value, "user_")
    ensures r.Some? ==> forall i :: 5 <= i < |r.value| ==> Users.IsNameChar(r.value[i])
  {
    match Users.FirstFree("user_", draws, taken, 0)
    case None => None
    case Some(k) =>
      var name := "user_" + draws[k];
      assert Users.IsDraw(draws[k], length);
      assert name[..5] == "user_";
      assert forall i :: 5 <= i < |name| ==> name[i] == draws[k][i - 5];
      Some(name)
  }

  datatype Member = Member(email: string, username: string, isStaff: bool, isSuperuser: bool, isActive: bool)

  /** `UserManager.create_user`: an empty email is refused; a truthy
      username is kept, otherwise one is generated. `taken` holds the
      registered usernames and `emails` the registered emails; both columns
      are unique, so saving a registered one fails. */
  function CreateUser(email: string, username: Option<string>, flags: Users.Flags, normalize: string -> string,
                      draws: seq<string>, taken: set<string>, emails: set<string>): (r: Result<Member>)
    requires forall i :: 0 <= i < |draws| ==> Users.IsDraw(draws[i], 8)
    ensures email == "" ==> r.Err?
    ensures r.Ok? ==> r.value.email == normalize(email) && r.value.email !in emails && r.value.username !in taken
    ensures r.Ok? && Users.Truthy(username) ==> r.value.username == username.value
    ensures r.Ok? && !Users.Truthy(username) ==> StartsWith(r.value.username, "user_")
    ensures email != "" && Users.Truthy(username) ==>
      (r.Ok? <==> normalize(email) !in emails && username.value !in taken)
    ensures r.Ok? ==> r.value.isStaff == flags.isStaff.GetOr(false) && r.value.isActive == flags.isActive.GetOr(true)
  {
    if email == "" then Err("이메일은 필수입니다.")
    else
      var name := if Users.Truthy(username) then username else AccountsUsername(8, draws, taken);
      if name.None? then Err("no free username")
      else if normalize(email) in emails || name.value in taken then Err("duplicate")
      else Ok(Member(normalize(email), name.value,
                     flags.isStaff.GetOr(false), flags.isSuperuser.GetOr(false), flags.isActive.GetOr(true)))
  }

  /** `UserManager.create_superuser`: the flags default to True, and a staff
      or superuser flag given as anything but True is refused. */
  function CreateSuperuser(email: string, username: Option<string>, flags: Users.Flags, normalize: string -> string,
                           draws: seq<string>, taken: set<string>, emails: set<string>): (r: Result<Member>)
    requires forall i :: 0 <= i < |draws| ==> Users.IsDraw(draws[i], 8)
    ensures flags.isStaff == Some(false) || flags.isSuperuser == Some(false) ==> r.Err?
    ensures r.Ok? ==> r.value.isStaff && r.value.isSuperuser && r.value.isActive == flags.isActive.GetOr(true)
    ensures r.Ok? ==> r.value.email !in emails && r.value.username !in taken
    ensures email != "" && Users.Truthy(username) && flags.isStaff != Some(false) && flags.isSuperuser != Some(false) ==>
      (r.Ok? <==> normalize(email) !in emails && username.value !in taken)
  {
    var staff, super := flags.isStaff.GetOr(true), flags.isSuperuser.GetOr(true);
    if !staff then Err("슈퍼유저는 is_staff=True여야 합니다.")
    else if !super then Err("슈퍼유저는 is_superuser=True여야 합니다.")
    else CreateUser(email, username, Users.Flags(Some(true), Some(true), Some(flags.isActive.GetOr(true))), normalize, draws, taken, emails)
  }
  /** A created member's email and username are new, so registering them
      makes the same call fail the second time. */
  lemma CreateUserKeepsUnique(email: string, username: Option<string>, flags: Users.Flags, normalize: string -> string,
                              draws: seq<string>, taken: set<string>, emails: set<string>)
    requires forall i :: 0 <= i < |draws| ==> Users.IsDraw(draws[i], 8)
    requires CreateUser(email, username, flags, normalize, draws, taken, emails).Ok?
    ensures var m := CreateUser(email, username, flags, normalize, draws, taken, emails).value;
      && m.email !in emails && m.username !in taken
      && CreateUser(email, username, flags, normalize, draws, taken + {m.username}, emails + {m.email}).Err?
  {
  }


  // ---------------------------------------------------------------------
  // UserProfile avatar
  // ---------------------------------------------------------------------

  /** The gradient classes a profile's `avatar_color` indexes. */
  const Gradients: seq<string> := [
    "from-blue-500 to-purple-600", "from-green-500 to-blue-600",
    "from-purple-500 to-pink-600", "from-yellow-500 to-red-600",
    "from-indigo-500 to-purple-600", "from-pink-500 to-rose-600",
    "from-cyan-500 to-blue-600", "from-emerald-500 to-teal-600",
    "from-orange-500 to-red-600", "from-violet-500 to-purple-600"]

  /** `generate_avatar_color_from_email`: the email's hash (given as
      `sha`, read as an unsigned integer) modulo the number of gradients. */
  function AvatarColorFromEmail(email: string, sha: string -> nat): (i: nat)
    ensures i < |Gradients|
    ensures (sha(email) - i) % |Gradients| == 0
  {
    sha(email) % |Gradients|
  }

  /** `get_avatar_color_class`: the gradient at the stored index; an index
      past the list raises `IndexError`, returned as None. */
  function AvatarColorClass(index: nat): (r: Option<string>)
    ensures r.None? <==> index >= 10
    ensures r.Some? ==> r.value in Gradients && r.value == Gradients[index]
  {
    if index < |Gradients| then Some(Gradients[index]) else None
  }

  /** Every colour derived from an email has a gradient class. */
  lemma DerivedColorHasClass(email: string, sha: string -> nat)
    ensures AvatarColorClass(AvatarColorFromEmail(email, sha)).Some?
  {
  }

  /** `has_custom_avatar`: an avatar is stored under a non-empty name. */
  function HasCustomAvatar(avatarName: Option<string>): (b: bool)
    ensures b <==> Users.Truthy(avatarName)
  {
    avatarName.Some? && avatarName.value != ""
  }

  // ---------------------------------------------------------------------
  // Registration
  // ---------------------------------------------------------------------

  /** `value.lower().strip()`. */
  function NormalizeEmail(value: string): (r: string)
    ensures IsStripped(r)
    ensures forall i :: 0 <= i < |r| ==> !IsUpper(r[i])
  {
    var l := Lower(value);
    var r := Strip(l);
    StripIsInfix(l);
    r
  }

  /** A stripped string is a slice of the original. */
  lemma StripIsInfix(s: string)
    ensures exists a, b :: 0 <= a <= b <= |s| && Strip(s) == s[a..b]
  {
    var t := TrimStart(s);
    var r := TrimEnd(t);
    var a := |s| - |t|;
    TrimStartIsSuffix(s);
    TrimEndIsPrefix(t);
    assert t == s[a..];
    assert r == t[..|r|] == s[a..a + |r|];
  }

  /** Normalizing twice is normalizing once. */
  lemma NormalizeEmailIdempotent(value: string)
    ensures NormalizeEmail(NormalizeEmail(value)) == NormalizeEmail(value)
  {
    var n := NormalizeEmail(value);
    assert Lower(n) == n;
    StripOfStripped(n);
  }

  /** `validate_email`: the normalized email, refused when an account
      already has it. */
  function ValidateEmail(value: string, existing: set<string>): (r: Result<string>)
    ensures r.Err? <==> NormalizeEmail(value) in existing
    ensures r.Ok? ==> r.value == NormalizeEmail(value) && r.value !in existing
  {
    var v := NormalizeEmail(value);
    if v in existing then Err("이미 사용 중인 이메일입니다.") else Ok(v)
  }

  /** Once a validated email is stored, every spelling of it that differs
      only in case or surrounding blanks is refused. */
  lemma StoredEmailBlocksVariants(a: string, b: string, existing: set<string>)
    requires ValidateEmail(a, existing).Ok?
    requires Lower(Strip(a)) == Lower(Strip(b)) || NormalizeEmail(a) == NormalizeEmail(b)
    ensures ValidateEmail(b, existing + {ValidateEmail(a, existing).value}).Err?
  {
    if NormalizeEmail(a) != NormalizeEmail(b) {
      LowerStripCommute(a);
      LowerStripCommute(b);
    }
  }

  /** Lower-casing and stripping commute (case mapping keeps blanks). */
  lemma LowerStripCommute(s: string)
    ensures Strip(Lower(s)) == Lower(Strip(s))
  {
    LowerTrimStart(s);
    LowerTrimEnd(TrimStart(s));
  }

  lemma {:induction false} LowerTrimStart(s: string)
    ensures TrimStart(Lower(s)) == Lower(TrimStart(s))
    decreases |s|
  {
    if |s| > 0 {
      var l := Lower(s);
      assert l[1..] == Lower(s[1..]);
      assert IsSpace(l[0]) <==> IsSpace(s[0]);
      if IsSpace(s[0]) {
        assert TrimStart(s) == TrimStart(s[1..]);
        assert TrimStart(l) == TrimStart(l[1..]);
        LowerTrimStart(s[1..]);
      } else {
        assert TrimStart(s) == s;
        assert TrimStart(l) == l;
      }
    }
  }

  lemma {:induction false} LowerTrimEnd(s: string)
    ensures TrimEnd(Lower(s)) == Lower(TrimEnd(s))
    decreases |s|
  {
    if |s| > 0 {
      var l := Lower(s);
      assert l[..|s| - 1] == Lower(s[..|s| - 1]);
      assert IsSpace(l[|s| - 1]) <==> IsSpace(s[|s| - 1]);
      if IsSpace(s[|s| - 1]) {
        assert TrimEnd(s) == TrimEnd(s[..|s| - 1]);
        assert TrimEnd(l) == TrimEnd(l[..|s| - 1]);
        LowerTrimEnd(s[..|s| - 1]);
      } else {
        assert TrimEnd(s) == s;
        assert TrimEnd(l) == l;
      }
    }
  }

  /** `validate_username`: an empty value passes (one is generated later);
      otherwise it is refused when taken, shorter than 3, or longer than
      30, checked in that order. */
  function ValidateUsername(value: string, taken: set<string>): (r: Result<string>)
    ensures r.Err? <==> value != "" && (value in taken || |value| < 3 || |value| > 30)
    ensures r.Ok? ==> r.value == value
    ensures value != "" && value in taken ==> r == Err("이미 사용 중인 사용자명입니다.")
  {
    if value == "" then Ok(value)
    else if value in taken then Err("이미 사용 중인 사용자명입니다.")
    else if |value| < 3 then Err("사용자명은 3자 이상이어야 합니다.")
    else if |value| > 30 then Err("사용자명은 30자 이하여야 합니다.")
    else Ok(value)
  }

  /** The registration cross-check: the two passwords must be equal (both
      absent counts as equal). */
  function ValidateRegistration(password: Option<string>, confirm: Option<string>): (r: Result<()>)
    ensures r.Ok? <==> password == confirm
  {
    if password != confirm then Err("비밀번호가 일치하지 않습니다.") else Ok(())
  }

  /** The username `create` passes to the manager: the validated one when
      it is non-empty, otherwise a generated one. */
  function RegistrationUsername(value: string, draws: seq<string>, taken: set<string>): (r: Option<string>)
    requires forall i :: 0 <= i < |draws| ==> Users.IsDraw(draws[i], 8)
    ensures value != "" ==> r == Some(value)
    ensures value == "" && r.Some? ==> r.value !in taken && StartsWith(r.value, "user_") && |r.value| == 13
  {
    if value != "" then Some(value) else AccountsUsername(8, draws, taken)
  }

  // ---------------------------------------------------------------------
  // Login
  // ---------------------------------------------------------------------

  datatype LoginUser = LoginUser(id: int, email: string, isActive: bool)

  datatype LoginError = MissingField | UnknownEmail | WrongPassword | Inactive

  /** The account with this email, as `objects.get(email=...)`. */
  function FindByEmail(accounts: seq<LoginUser>, email: string): (r: Option<LoginUser>)
    ensures r.Some? ==> r.value in accounts && r.value.email == email
    ensures r.None? <==> forall u :: u in accounts ==> u.email != email
    decreases |accounts|
  {
    if |accounts| == 0 then None
    else if accounts[0].email == email then Some(accounts[0])
    else FindByEmail(accounts[1..], email)
  }

  /** `UserLoginSerializer.validate`: the email normalized; a missing
      email or password, an unknown email, a failed `authenticate` and an
      inactive account are refused, in that order; otherwise the
      authenticated account. */
  function Login(email: string, password: string, accounts: seq<LoginUser>,
                 authenticate: (string, string) -> Option<LoginUser>): (r: Either<LoginError, LoginUser>)
    ensures var e := NormalizeEmail(email);
      && (r == Left(MissingField) <==> e == "" || password == "")
      && (r == Left(UnknownEmail) <==> e != "" && password != "" && FindByEmail(accounts, e).None?)
      && (r.Right? <==> e != "" && password != "" && FindByEmail(accounts, e).Some?
                        && authenticate(e, password).Some? && authenticate(e, password).value.isActive)
      && (r.Right? ==> r.value == authenticate(e, password).value)
  {
    var e := NormalizeEmail(email);
    if e == "" || password == "" then Left(MissingField)
    else if FindByEmail(accounts, e).None? then Left(UnknownEmail)
    else
      match authenticate(e, password)
      case None => Left(WrongPassword)
      case Some(u) => if !u.isActive then Left(Inactive) else Right(u)
  }

  /** An inactive account is refused even with the right password. */
  lemma InactiveNeverLogsIn(email: string, password: string, accounts: seq<LoginUser>,
                            authenticate: (string, string) -> Option<LoginUser>)
    requires authenticate(NormalizeEmail(email), password).Some?
    requires !authenticate(NormalizeEmail(email), password).value.isActive
    ensures Login(email, password, accounts, authenticate).Left?
  {
  }

  datatype Either<L, R> = Left(err: L) | Right(value: R)

  // ---------------------------------------------------------------------
  // Profile, password change, account deletion
  // ---------------------------------------------------------------------

  /** `validate_website`: a non-empty value must start with 'http://' or
      'https://'. */
  function ValidateWebsite(value: string): (r: Result<string>)
    ensures r.Ok? <==> value == "" || StartsWith(value, "http://") || StartsWith(value, "https://")
    ensures r.Ok? ==> r.value == value
  {
    if value != "" && !(StartsWith(value, "http://") || StartsWith(value, "https://")) then Err("올바른 URL 형식으로 입력해주세요. (http:// 또는 https://)")
    else Ok(value)
  }

  predicate HasDigit(s: string) { exists i :: 0 <= i < |s| && IsDigit(s[i]) }

  predicate HasLetter(s: string) { exists i :: 0 <= i < |s| && IsLetter(s[i]) }

  /** `validate_new_password`: at least 8 characters, a digit and a letter
      (ASCII letters and digits stand for `isalpha` and `isdigit`). */
  function ValidateNewPassword(value: string): (r: Result<string>)
    ensures r.Ok? <==> |value| >= 8 && HasDigit(value) && HasLetter(value)
    ensures r.Ok? ==> r.value == value
  {
    if |value| < 8 then Err("비밀번호는 8자 이상이어야 합니다.")
    else if !HasDigit(value) then Err("비밀번호에는 최소 1개의 숫자가 포함되어야 합니다.")
    else if !HasLetter(value) then Err("비밀번호에는 최소 1개의 문자가 포함되어야 합니다.")
    else Ok(value)
  }

  /** `PasswordChangeSerializer`: the current password must check (the
      hash comparison given as `currentMatches`), the new one pass its
      validator, then the new and confirmation fields must be equal and
      the new one differ from the current. The accepted value is the
      password stored. */
  function ChangePassword(current: string, next: string, confirm: string, currentMatches: bool): (r: Result<string>)
    ensures r.Ok? <==> currentMatches && ValidateNewPassword(next).Ok? && next == confirm && next != current
    ensures r.Ok? ==> r.value == next && r.value != current
  {
    if !currentMatches then Err("현재 비밀번호가 올바르지 않습니다.")
    else if ValidateNewPassword(next).Err? then ValidateNewPassword(next)
    else if next != confirm then Err("새 비밀번호가 일치하지 않습니다.")
    else if current == next then Err("새 비밀번호는 현재 비밀번호와 달라야 합니다.")
    else Ok(next)
  }

  /** `validate_confirmation`: the upper-cased value is 'DELETE' or '삭제'. */
  function ValidateDeleteConfirmation(value: string): (r: Result<string>)
    ensures r.Ok? <==> Upper(value) == "DELETE" || Upper(value) == "삭제"
    ensures r.Ok? ==> r.value == value
  {
    if Upper(value) == "DELETE" || Upper(value) == "삭제" then Ok(value)
    else Err("계정 삭제를 확인하려면 'DELETE' 또는 '삭제'를 입력하세요.")
  }

  /** Any spelling of 'delete' up to case is accepted, and so is '삭제';
      '계정 삭제', which the users app asks for, is not. */
  lemma DeleteConfirmationCases()
    ensures ValidateDeleteConfirmation("delete").Ok?
    ensures ValidateDeleteConfirmation("DeLeTe").Ok?
    ensures ValidateDeleteConfirmation("삭제").Ok?
    ensures ValidateDeleteConfirmation("계정 삭제").Err?
  {
    assert Upper("delete") == "DELETE";
    assert Upper("DeLeTe") == "DELETE";
    assert Upper("삭제") == "삭제";
    assert |Upper("계정 삭제")| == 5;
  }
}

=== FILE: apiclient.dfy ===
/** Error shaping in the frontend's API client (`lib/api/client.ts`):
    turning a failed request into a message, and recognising a paginated
    response body. JSON values are a datatype; numbers are integers, so
    `String()` of a fractional number is not modelled. */
module ApiClient {
  import opened Wrappers
  import opened Text

  datatype Json =
    | JNull
    | JBool(b: bool)
    | JNum(n: int)
    | JStr(s: string)
    | JArr(items: seq<Json>)
    | JObj(fields: map<string, Json>)

  const NetworkMessage: string := "네트워크 연결을 확인해주세요."
  const DefaultMessage: string := "알 수 없는 오류가 발생했습니다."

  /** JavaScript `String(value)`; inside an array, `null` prints as "". */
  function Render(v: Json): string
    decreases v
  {
    match v
    case JNull => "null"
    case JBool(b) => if b then "true" else "false"
    case JNum(n) => IntToString(n)
    case JStr(s) => s
    case JArr(items) => JoinItems(v, items, ",")
    case JObj(_) => "[object Object]"
  }

  /** `items.join(sep)` for the items of array `v`. */
  function JoinItems(v: Json, items: seq<Json>, sep: string): string
    requires forall i :: 0 <= i < |items| ==> items[i] < v
    decreases v, |items|
  {
    Join(seq(|items|, i requires 0 <= i < |items| => if items[i].JNull? then "" else Render(items[i])), sep)
  }

  /** The server's answer to a failed request. */
  datatype Response = Response(status: int, data: Json)

  /** What `createApiError` builds (the JSON dump in `detail` and the
      timestamp are not modelled). */
  datatype ApiError = ApiError(status: Option<int>, message: string, errors: Option<Json>, code: Option<string>, isNetworkError: bool)

  /** The message of a response body: the first of `detail`, `message`,
      `error` that is present, printed; else `non_field_errors` joined by
      spaces when it is an array; else the default. A body that is not an
      object has the default. */
  function BodyMessage(data: Json): (r: string)
    ensures !data.JObj? ==> r == DefaultMessage
    ensures data.JObj? && "detail" in data.fields ==> r == Render(data.fields["detail"])
    ensures data.JObj? && "detail" !in data.fields && "message" in data.fields ==> r == Render(data.fields["message"])
    ensures data.JObj? && "detail" !in data.fields && "message" !in data.fields && "error" in data.fields ==> r == Render(data.fields["error"])
    ensures data.JObj? && (forall k :: k in data.fields ==> k !in {"detail", "message", "error", "non_field_errors"}) ==> r == DefaultMessage
    ensures data.JObj? && "non_field_errors" in data.fields && !data.fields["non_field_errors"].JArr? && (forall k :: k in data.fields ==> k !in {"detail", "message", "error"}) ==> r == DefaultMessage
    ensures data.JObj? && "detail" !in data.fields && "message" !in data.fields && "error" !in data.fields
            && "non_field_errors" in data.fields && data.fields["non_field_errors"].JArr? ==>
      var items := data.fields["non_field_errors"].items;
      r == Join(seq(|items|, i requires 0 <= i < |items| => if items[i].JNull? then "" else Render(items[i])), " ")
  {
    match data
    case JObj(fields) =>
      if "detail" in fields then Render(fields["detail"])
      else if "message" in fields then Render(fields["message"])
      else if "error" in fields then Render(fields["error"])
      else if "non_field_errors" in fields && fields["non_field_errors"].JArr? then
        var v := fields["non_field_errors"];
        JoinItems(v, v.items, " ")
      else DefaultMessage
    case _ => DefaultMessage
  }

  /** A `non_field_errors` that is not an array, with nothing else present,
      gives the default message. */
  lemma NonArrayNonFieldErrors(v: Json)
    requires !v.JArr?
    ensures BodyMessage(JObj(map["non_field_errors" := v])) == DefaultMessage
  {
  }

  /** `non_field_errors` as an array of messages, with none of `detail`,
      `message` or `error` present, gives the messages joined by single
      spaces, whatever the other fields. */
  lemma NonFieldErrorsJoined(fields: map<string, Json>, messages: seq<string>)
    requires "non_field_errors" in fields
    requires fields["non_field_errors"] == JArr(seq(|messages|, i requires 0 <= i < |messages| => JStr(messages[i])))
    requires "detail" !in fields && "message" !in fields && "error" !in fields
    ensures BodyMessage(JObj(fields)) == Join(messages, " ")
  {
    var v := fields["non_field_errors"];
    StringsRenderAsThemselves(v, messages);
    assert BodyMessage(JObj(fields)) == JoinItems(v, v.items, " ");
  }

  /** An array of strings prints, item by item, as those strings. */
  lemma StringsRenderAsThemselves(v: Json, messages: seq<string>)
    requires v == JArr(seq(|messages|, i requires 0 <= i < |messages| => JStr(messages[i])))
    ensures JoinItems(v, v.items, " ") == Join(messages, " ")
  {
    var items := v.items;
    var parts := seq(|items|, i requires 0 <= i < |items| => if items[i].JNull? then "" else Render(items[i]));
    forall i | 0 <= i < |parts|
      ensures parts[i] == messages[i]
    {
      assert items[i] == JStr(messages[i]);
    }
    assert parts == messages;
  }

  /** `createApiError`: without a response it is a network error with no
      status; otherwise the status and body are kept and the message is
      read from the body. */
  function CreateApiError(response: Option<Response>, code: Option<string>): (r: ApiError)
    ensures response.None? <==> r.isNetworkError
    ensures response.None? ==> r.message == NetworkMessage && r.status.None? && r.code == code && r.errors.None?
    ensures response.Some? ==> r.status == Some(response.value.status) && r.errors == Some(response.value.data) && r.message == BodyMessage(response.value.data)
  {
    if response.None? then ApiError(None, NetworkMessage, None, code, true)
    else ApiError(Some(response.value.status), BodyMessage(response.value.data), Some(response.value.data), None, false)
  }

  /** What `handleApiError` may be given. */
  datatype Thrown =
    | AxiosFailure(response: Option<Response>, code: Option<string>)
    | Value(v: Json)
    | ErrorInstance(message: string)

  /** `handleApiError`: an axios error gives its `createApiError` message;
      an object with a string `message` (an `Error` always has one) gives
      it; anything else the default. */
  function HandleApiError(e: Thrown): (r: string)
    ensures e.AxiosFailure? && e.response.None? ==> r == NetworkMessage
    ensures e.AxiosFailure? && e.response.Some? ==> r == BodyMessage(e.response.value.data)
    ensures e.ErrorInstance? ==> r == e.message
    ensures e.Value? && e.v.JObj? && "message" in e.v.fields && e.v.fields["message"].JStr? ==> r == e.v.fields["message"].s
    ensures e.Value? && !(e.v.JObj? && "message" in e.v.fields && e.v.fields["message"].JStr?) ==> r == DefaultMessage
  {
    match e
    case AxiosFailure(response, code) => CreateApiError(response, code).message
    case ErrorInstance(message) => message
    case Value(v) =>
      if v.JObj? && "message" in v.fields && v.fields["message"].JStr? then v.fields["message"].s else DefaultMessage
  }

  /** `isPaginatedResponse`: an object with an array `results` and some
      `pagination`. */
  function IsPaginated(response: Json): (r: bool)
    ensures r ==> response.JObj? && "pagination" in response.fields
    ensures r <==> response.JObj? && "results" in response.fields && response.fields["results"].JArr? && "pagination" in response.fields
  {
    match response
    case JObj(fields) => "results" in fields && fields["results"].JArr? && "pagination" in fields
    case _ => false
  }

  /** Only the `results` and `pagination` fields decide: adding or
      changing any other field of an object never changes the answer, and
      no value other than an object is a page. */
  lemma OnlyResultsAndPaginationDecide(fields: map<string, Json>, k: string, v: Json)
    requires k != "results" && k != "pagination"
    ensures IsPaginated(JObj(fields[k := v])) == IsPaginated(JObj(fields))
    ensures IsPaginated(JObj(fields)) <==> IsPaginated(JObj(map["results" := JNull] + fields))
    ensures forall x: Json :: !x.JObj? ==> !IsPaginated(x)
  {
  }

  /** A bare array, or an object without `pagination` or with a
      non-array `results`, is not a page. */
  lemma NotPaginated()
    ensures !IsPaginated(JArr([]))
    ensures !IsPaginated(JObj(map["results" := JArr([])]))
    ensures !IsPaginated(JObj(map["results" := JNull, "pagination" := JNull]))
    ensures IsPaginated(JObj(map["results" := JArr([]), "pagination" := JNull]))
  {
  }
}

=== FILE: autocomplete.dfy ===
/** The frontend's model autocomplete (`ModelAutocomplete`): local ranking
    of preloaded suggestions, the gate and cache in front of every lookup,
    the rule for opening the dropdown, and keyboard navigation. Server
    responses arrive as explicit events carrying the request number they
    answer. The Korean collation of `localeCompare('ko')` is a parameter
    giving each name its rank. */
module Autocomplete {
  import opened Wrappers
  import opened Text
  import opened Domain
  import opened Ordering
  import Metadata

  datatype Suggestion = Suggestion(id: int, name: string, platformId: int, platformName: string)

  /** Most results the local search returns. */
  const MaxResults: nat := 8

  /** Rank of each match kind, best first. */
  const ModelPrefix: nat := 0
  const PlatformPrefix: nat := 1
  const ModelContains: nat := 2
  const PlatformContains: nat := 3

  lemma PrefixIsContained(s: string, p: string)
    requires StartsWith(s, p)
    ensures Contains(s, p)
  {
  }

  /** How `item` matches the normalized query `q`: none when neither the
      model nor the platform name contains it. */
  function Score(item: Suggestion, q: string): (r: Option<nat>)
    ensures r.None? <==> !Contains(Lower(item.name), q) && !Contains(Lower(item.platformName), q)
    ensures r == Some(ModelPrefix) <==> StartsWith(Lower(item.name), q)
    ensures r == Some(PlatformPrefix) <==> !StartsWith(Lower(item.name), q) && StartsWith(Lower(item.platformName), q)
    ensures r == Some(ModelContains) <==> (!StartsWith(Lower(item.name), q) && !StartsWith(Lower(item.platformName), q)
                                          && Contains(Lower(item.name), q))
    ensures r == Some(PlatformContains) <==> (!StartsWith(Lower(item.name), q) && !StartsWith(Lower(item.platformName), q)
                                             && !Contains(Lower(item.name), q) && Contains(Lower(item.platformName), q))
    ensures r.Some? ==> r.value <= PlatformContains
  {
    var modelName := Lower(item.name);
    var platformName := Lower(item.platformName);
    if StartsWith(modelName, q) then PrefixIsContained(modelName, q); Some(ModelPrefix)
    else if StartsWith(platformName, q) then PrefixIsContained(platformName, q); Some(PlatformPrefix)
    else if Contains(modelName, q) then Some(ModelContains)
    else if Contains(platformName, q) then Some(PlatformContains)
    else None
  }

  /** The sort key: score, then platform name, then model name, each name
      by its collation rank. */
  function RankKey(q: string, collate: string -> int): Suggestion -> seq<Part> {
    (item: Suggestion) => [Ordering.Num(Score(item, q).GetOr(PlatformContains + 1)), Ordering.Num(collate(item.platformName)), Ordering.Num(collate(item.name))]
  }

  /** The item passes the platform restriction (`platformId` truthy). */
  predicate OnPlatform(item: Suggestion, platformId: Option<int>) {
    !Metadata.Truthy(platformId) || item.platformId == platformId.value
  }

  /** The preloaded items on the platform that match `q`, in order. */
  function Candidates(preloaded: seq<Suggestion>, platformId: Option<int>, q: string): (c: seq<Suggestion>)
    ensures forall x :: x in c <==> x in preloaded && OnPlatform(x, platformId) && Score(x, q).Some?
  {
    var byPlatform := Where(preloaded, (x: Suggestion) => OnPlatform(x, platformId));
    Where(byPlatform, (x: Suggestion) => Score(x, q).Some?)
  }

  /** The best `n` of `c` by `key`, best first. */
  function Best(c: seq<Suggestion>, key: Suggestion -> seq<Part>, n: nat): (r: seq<Suggestion>)
    ensures |r| <= n
    ensures forall x :: x in r ==> x in c
    ensures Sorted(r, key)
    ensures forall x :: x in c && x !in r ==> |r| == n && forall y :: y in r ==> KeyLe(key(y), key(x))
  {
    var sorted := SortBy(c, key);
    SortByMembers(c, key);
    TakeSorted(sorted, key, n);
    var r := Take(sorted, n);
    assert forall x :: x in r ==> x in sorted;
    forall x | x in c && x !in r
      ensures |r| == n && forall y :: y in r ==> KeyLe(key(y), key(x))
    {
      TakeKeepsBest(sorted, key, n, x);
    }
    r
  }

  /** `searchLocalSuggestions`: nothing without a preloaded list; otherwise
      the items on the platform that match the trimmed, lower-cased query,
      best first, at most eight; an item is left out only when eight
      results rank at least as well. */
  function LocalSearch(preloaded: seq<Suggestion>, platformId: Option<int>, query: string, collate: string -> int): (r: seq<Suggestion>)
    ensures preloaded == [] ==> r == []
    ensures |r| <= MaxResults
    ensures forall x :: x in r ==> x in preloaded && OnPlatform(x, platformId) && Score(x, Lower(Strip(query))).Some?
    ensures Sorted(r, RankKey(Lower(Strip(query)), collate))
    ensures forall x :: x in preloaded && OnPlatform(x, platformId) && Score(x, Lower(Strip(query))).Some? && x !in r ==>
      |r| == MaxResults && forall y :: y in r ==> KeyLe(RankKey(Lower(Strip(query)), collate)(y), RankKey(Lower(Strip(query)), collate)(x))
  {
    if |preloaded| == 0 then []
    else
      var q := Lower(Strip(query));
      Best(Candidates(preloaded, platformId, q), RankKey(q, collate), MaxResults)
  }

  /** A model-name prefix match always ranks before a mere containment
      match, whatever the collation. */
  lemma PrefixBeforeContains(a: Suggestion, b: Suggestion, q: string, collate: string -> int)
    requires Score(a, q) == Some(ModelPrefix) && Score(b, q).Some? && Score(b, q).value >= ModelContains
    ensures KeyLe(RankKey(q, collate)(a), RankKey(q, collate)(b))
    ensures !KeyLe(RankKey(q, collate)(b), RankKey(q, collate)(a))
  {
  }

  // ---------------------------------------------------------------------
  // Lookup gate, cache and stale responses
  // ---------------------------------------------------------------------

  datatype Source = Local | Api

  /** The cache key `${platformId ?? 'all'}::${normalized}::${source}`. */
  datatype CacheKey = CacheKey(platformId: Option<int>, query: string, source: Source)

  datatype State = State(
    input: string,
    suggestions: seq<Suggestion>,
    isOpen: bool,
    selected: int,
    cache: map<CacheKey, seq<Suggestion>>,
    requestSeq: nat,
    suppressed: bool)

  /** The component's fixed props. */
  datatype Props = Props(preloaded: seq<Suggestion>, platformId: Option<int>, showCustomOption: bool)

  /** A lookup either finished at once or waits for the server's answer to
      request `ticket`. */
  datatype Outcome = Done | Pending(ticket: nat, key: CacheKey, query: string)

  /** The query is worth a lookup: not blank and two characters or more. */
  predicate Searchable(query: string) {
    Strip(query) != "" && |query| >= 2
  }

  /** The dropdown opens when there are results, or when the custom option
      is offered and the trimmed query has two characters or more. */
  function Opens(results: seq<Suggestion>, props: Props, query: string): (b: bool)
    ensures b <==> |results| > 0 || (props.showCustomOption && |Strip(query)| >= 2)
  {
    |results| > 0 || (props.showCustomOption && |Strip(query)| >= 2)
  }

  function KeyFor(props: Props, query: string): CacheKey {
    CacheKey(props.platformId, Lower(Strip(query)), if |props.preloaded| > 0 then Local else Api)
  }

  /** Shows `results` for `query` and remembers them under `key`. */
  function Show(st: State, props: Props, key: CacheKey, query: string, results: seq<Suggestion>): (r: State)
    ensures r.suggestions == results && r.selected == -1 && r.isOpen == Opens(results, props, query)
    ensures r.cache == st.cache[key := results] && r.requestSeq == st.requestSeq && r.input == st.input
  {
    st.(cache := st.cache[key := results], suggestions := results, isOpen := Opens(results, props, query), selected := -1)
  }

  /** `fetchSuggestions(query)` up to its first wait. */
  function Fetch(st: State, props: Props, query: string, collate: string -> int): (r: (State, Outcome))
    ensures st.suppressed || !Searchable(query) ==> r.1.Done? && r.0 == st.(suggestions := [], isOpen := false)
    ensures !st.suppressed && Searchable(query) && KeyFor(props, query) in st.cache ==>
      r.1.Done? && r.0 == st.(suggestions := st.cache[KeyFor(props, query)], isOpen := Opens(st.cache[KeyFor(props, query)], props, query), selected := -1)
    ensures !st.suppressed && Searchable(query) && KeyFor(props, query) !in st.cache && |props.preloaded| > 0 ==>
      r.1.Done? && r.0.requestSeq == st.requestSeq + 1 && r.0.cache == st.cache[KeyFor(props, query) := r.0.suggestions]
        && r.0.suggestions == LocalSearch(props.preloaded, props.platformId, query, collate)
    ensures !st.suppressed && Searchable(query) && KeyFor(props, query) !in st.cache && |props.preloaded| == 0 ==>
      r.1 == Pending(st.requestSeq + 1, KeyFor(props, query), query) && r.0 == st.(requestSeq := st.requestSeq + 1)
    ensures r.1.Pending? ==> |props.preloaded| == 0
    ensures r.0.input == st.input && r.0.suppressed == st.suppressed
  {
    if st.suppressed || !Searchable(query) then (st.(suggestions := [], isOpen := false), Done)
    else
      var key := KeyFor(props, query);
      if key in st.cache then
        var cached := st.cache[key];
        (st.(suggestions := cached, isOpen := Opens(cached, props, query), selected := -1), Done)
      else
        var ticket := st.requestSeq + 1;
        var st1 := st.(requestSeq := ticket);
        if |props.preloaded| > 0 then
          (Show(st1, props, key, query, LocalSearch(props.preloaded, props.platformId, query, collate)), Done)
        else (st1, Pending(ticket, key, query))
  }

  /** What the server's suggestion endpoint answered. */
  datatype Answer = Success(items: seq<Suggestion>) | Failure | Thrown

  /** The answer to request `ticket` arrives. A thrown error always clears
      and closes; otherwise an answer to an older request is dropped, and a
      current one is cached and shown (a failure as no results). */
  function Complete(st: State, props: Props, ticket: nat, key: CacheKey, query: string, answer: Answer): (r: State)
    ensures answer.Thrown? ==> r == st.(suggestions := [], isOpen := false)
    ensures !answer.Thrown? && ticket != st.requestSeq ==> r == st
    ensures !answer.Thrown? && ticket == st.requestSeq ==> key in r.cache && r.suggestions == r.cache[key] && r.selected == -1
    ensures answer.Failure? && ticket == st.requestSeq ==> r.suggestions == [] && (r.isOpen <==> props.showCustomOption && |Strip(query)| >= 2)
  {
    match answer
    case Thrown => st.(suggestions := [], isOpen := false)
    case Failure => if ticket != st.requestSeq then st else Show(st, props, key, query, [])
    case Success(items) => if ticket != st.requestSeq then st else Show(st, props, key, query, items)
  }

  /** Once an answer has been cached, asking again for the same query
      reuses it without a new request. */
  lemma RepeatedQueryUsesCache(st: State, props: Props, ticket: nat, query: string, items: seq<Suggestion>, collate: string -> int)
    requires !st.suppressed && Searchable(query)
    requires ticket == st.requestSeq
    ensures var after := Complete(st, props, ticket, KeyFor(props, query), query, Success(items));
      var again := Fetch(after, props, query, collate);
      again.1.Done? && again.0.suggestions == items && again.0.requestSeq == st.requestSeq
  {
  }

  /** A newer request makes the answer to an older one irrelevant. */
  lemma StaleAnswerDropped(st: State, props: Props, query1: string, query2: string, items: seq<Suggestion>, collate: string -> int)
    requires !st.suppressed && Searchable(query1) && Searchable(query2)
    requires |props.preloaded| == 0
    requires KeyFor(props, query1) !in st.cache && KeyFor(props, query2) !in st.cache
    ensures var first := Fetch(st, props, query1, collate);
      var second := Fetch(first.0, props, query2, collate);
      first.1.Pending? && second.1.Pending? &&
      Complete(second.0, props, first.1.ticket, first.1.key, query1, Success(items)) == second.0
  {
    var first := Fetch(st, props, query1, collate);
    assert first.0.cache == st.cache;
  }

  // ---------------------------------------------------------------------
  // Keyboard
  // ---------------------------------------------------------------------

  datatype Press = ArrowDown | ArrowUp | Enter | Escape | OtherKey

  /** JavaScript `a % n` (sign of the dividend) for `n > 0`. */
  function JsRem(a: int, n: int): (r: int)
    requires n > 0
    ensures a >= 0 ==> 0 <= r < n && r == a % n
    ensures a < 0 ==> -n < r <= 0 && r == -((-a) % n)
  {
    if a >= 0 then a % n else -((-a) % n)
  }

  /** Whatever the sign, JavaScript's remainder differs from the dividend
      by a multiple of the divisor. */
  lemma JsRemIsARemainder(a: int, n: int)
    requires n > 0
    ensures exists k :: a - JsRem(a, n) == k * n
  {
    if a >= 0 {
      assert a - a % n == (a / n) * n;
    } else {
      var m := -a;
      assert m == (m / n) * n + m % n;
      assert a - JsRem(a, n) == -(m / n) * n;
    }
  }

  /** `selectSuggestion`: the input takes the model's name and the dropdown
      closes. */
  function Select(st: State, item: Suggestion): (r: State)
    ensures r.input == item.name && !r.isOpen && r.selected == -1
  {
    st.(input := item.name, isOpen := false, selected := -1)
  }

  /** `handleKeyDown`: the new state and the suggestion chosen, if any. */
  function HandleKey(st: State, press: Press): (r: (State, Option<Suggestion>))
    ensures !st.isOpen || |st.suggestions| == 0 ==> r == (st, None)
    ensures r.1.Some? <==> st.isOpen && press.Enter? && 0 <= st.selected < |st.suggestions|
    ensures r.1.Some? ==> r.1.value == st.suggestions[st.selected] && r.0 == Select(st, r.1.value)
    ensures st.isOpen && |st.suggestions| > 0 && press.ArrowDown? && st.selected >= -1 ==>
      0 <= r.0.selected < |st.suggestions| && r.0.selected == (st.selected + 1) % |st.suggestions|
    ensures st.isOpen && |st.suggestions| > 0 && press.ArrowUp? && st.selected >= 0 ==>
      0 <= r.0.selected < |st.suggestions| && r.0.selected == (st.selected - 1 + |st.suggestions|) % |st.suggestions|
    ensures press.ArrowDown? || press.ArrowUp? ==> r.1.None? && r.0 == st.(selected := r.0.selected)
    ensures st.isOpen && |st.suggestions| > 0 && press.Escape? ==> !r.0.isOpen && r.0.selected == -1
  {
    var n := |st.suggestions|;
    if !st.isOpen || n == 0 then (st, None)
    else
      match press
      case ArrowDown => (st.(selected := JsRem(st.selected + 1, n)), None)
      case ArrowUp => (st.(selected := JsRem(st.selected - 1 + n, n)), None)
      case Enter =>
        if 0 <= st.selected < n then (Select(st, st.suggestions[st.selected]), Some(st.suggestions[st.selected]))
        else (st, None)
      case Escape => (st.(isOpen := false, selected := -1), None)
      case OtherKey => (st, None)
  }

  /** From "nothing highlighted", ArrowUp lands on the second-to-last
      entry, not the last. */
  lemma ArrowUpFromNothing(st: State)
    requires st.isOpen && |st.suggestions| >= 2 && st.selected == -1
    ensures HandleKey(st, ArrowUp).0.selected == |st.suggestions| - 2
  {
  }

  lemma SmallModulus(a: int, n: int)
    requires 0 <= a < n
    ensures a % n == a
  {
  }

  lemma WrapModulus(a: int, n: int)
    requires n <= a < 2 * n
    ensures a % n == a - n
  {
    var q := a / n;
    assert a == q * n + a % n;
    assert q * n > 0;
    assert q * n < 2 * n;
    assert 0 < q < 2;
  }

  /** ArrowDown then ArrowUp returns to a highlighted entry. */
  lemma DownThenUp(st: State)
    requires st.isOpen && 0 <= st.selected < |st.suggestions|
    ensures HandleKey(HandleKey(st, ArrowDown).0, ArrowUp).0.selected == st.selected
  {
    var n := |st.suggestions|;
    var i := st.selected;
    if i + 1 < n {
      SmallModulus(i + 1, n);
      WrapModulus(i + n, n);
    } else {
      WrapModulus(i + 1, n);
      SmallModulus(n - 1, n);
    }
  }
}

=== FILE: cache.dfy ===
/** The key-value cache the backend reads through (`django.core.cache`),
    with expiry against an explicit clock, and `cache_value_or_set`. */
module Cache {
  import opened Wrappers

  /** A stored value (Python `None` can be stored too) and the time it
      expires. */
  datatype Entry<V> = Entry(value: Option<V>, expiresAt: int)

  type Store<V> = map<string, Entry<V>>

  /** `cache.get(key)`: None when the key is absent, expired, or holds None. */
  function Get<V>(c: Store<V>, key: string, now: int): (r: Option<V>)
    ensures r.Some? ==> key in c && now < c[key].expiresAt && c[key].value == r
    ensures key in c && now < c[key].expiresAt ==> r == c[key].value
  {
    if key in c && now < c[key].expiresAt then c[key].value else None
  }

  /** `cache.set(key, value, timeout)`. */
  function Set<V>(c: Store<V>, key: string, value: Option<V>, timeout: int, now: int): (r: Store<V>)
    ensures key in r && r[key] == Entry(value, now + timeout)
    ensures forall k :: k != key ==> (k in r <==> k in c) && (k in c ==> r[k] == c[k])
  {
    c[key := Entry(value, now + timeout)]
  }

  /** `cache.delete(key)`. */
  function Delete<V>(c: Store<V>, key: string): (r: Store<V>)
    ensures key !in r
    ensures forall k :: k != key ==> (k in r <==> k in c) && (k in c ==> r[k] == c[k])
  {
    map k | k in c && k != key :: c[k]
  }

  /** What one call of `cache_value_or_set` returns and leaves behind, and
      whether it ran the producer. */
  datatype Outcome<V> = Outcome(value: Option<V>, store: Store<V>, producerCalled: bool)

  /** `cache_value_or_set(key, timeout, producer)`. `produced` is what the
      producer would return; it is consulted only on a miss. */
  function ValueOrSet<V>(c: Store<V>, key: string, timeout: int, now: int, produced: Option<V>): (o: Outcome<V>)
    ensures Get(c, key, now).Some? ==> o == Outcome(Get(c, key, now), c, false)
    ensures Get(c, key, now).None? ==>
      o == Outcome(produced, Set(c, key, produced, timeout, now), true)
  {
    var v := Get(c, key, now);
    if v.Some? then Outcome(v, c, false)
    else Outcome(produced, Set(c, key, produced, timeout, now), true)
  }

  /** Right after a miss with a non-None result, a second call within the
      timeout is a hit that returns the same value and does not produce. */
  lemma SecondCallHits<V>(c: Store<V>, key: string, timeout: int, now: int, later: int,
                          produced: V, again: Option<V>)
    requires Get(c, key, now).None?
    requires now <= later < now + timeout
    ensures var first := ValueOrSet(c, key, timeout, now, Some(produced));
      var second := ValueOrSet(first.store, key, timeout, later, again);
      && first.producerCalled && !second.producerCalled
      && second.value == Some(produced) && second.store == first.store
  {
  }

  /** A producer that returns None is stored, but the stored None reads as a
      miss, so the next call runs the producer again. */
  lemma NoneIsProducedAgain<V>(c: Store<V>, key: string, timeout: int, now: int, later: int, again: Option<V>)
    requires Get(c, key, now).None?
    ensures var first := ValueOrSet(c, key, timeout, now, None);
      var second := ValueOrSet(first.store, key, timeout, later, again);
      && first.producerCalled && second.producerCalled && second.value == again
  {
  }

  /** Once the timeout has passed the entry is gone for readers. */
  lemma ExpiredIsMiss<V>(c: Store<V>, key: string, v: Option<V>, timeout: int, now: int, later: int)
    requires later >= now + timeout
    ensures Get(Set(c, key, v, timeout, now), key, later).None?
  {
  }
}

=== FILE: chatdemo.dfy ===
/** The extension walkthrough (`components/extension/chatgpt-demo.tsx`): a
    mock chat where typing, clicking the extension, choosing a review and
    sending walk through seven steps. Timers are separate events, fired
    whenever they fire; nothing cancels them. */
module ChatDemo {
  import opened Text

  datatype Step = Input | ExtensionClick | Searching | Results | Applied | Conversation | Completed

  datatype Role = User | Assistant

  /** A chat message; its id and timestamp come from the clock and are
      left out. */
  datatype Message = Message(role: Role, content: string)

  datatype Demo = Demo(
    step: Step,
    input: string,
    showExtension: bool,
    query: string,
    searching: bool,
    showResults: bool,
    messages: seq<Message>,
    typing: bool,
    success: bool)

  const Initial: Demo := Demo(Input, "", false, "", false, false, [], false, false)

  /** `handleInputChange`: the text is taken; non-blank text on the first
      step moves on to the extension step. */
  function Type(d: Demo, value: string): (r: Demo)
    ensures r.input == value
    ensures r.step != d.step <==> d.step == Input && !IsBlank(value)
    ensures r.step != d.step ==> r.step == ExtensionClick
    ensures r.(input := d.input, step := d.step) == d
  {
    StripEmptyIffBlank(value);
    d.(input := value, step := if Strip(value) != "" && d.step == Input then ExtensionClick else d.step)
  }

  /** `handleExtensionClick`: with non-blank input, from any step, the
      panel opens on a search for the input. */
  function ClickExtension(d: Demo): (r: Demo)
    ensures IsBlank(d.input) ==> r == d
    ensures !IsBlank(d.input) ==> r.step == Searching && r.searching && r.showExtension && r.query == d.input
    ensures r.input == d.input && r.messages == d.messages
    ensures r.(showExtension := d.showExtension, query := d.query, step := d.step, searching := d.searching) == d
  {
    StripEmptyIffBlank(d.input);
    if Strip(d.input) != "" then d.(showExtension := true, query := d.input, step := Searching, searching := true)
    else d
  }

  /** The search timer (two seconds later): results are shown. */
  function SearchDone(d: Demo): (r: Demo)
    ensures r.step == Results && !r.searching && r.showResults
    ensures r.input == d.input && r.messages == d.messages && r.query == d.query
    ensures r.(searching := d.searching, showResults := d.showResults, step := d.step) == d
  {
    d.(searching := false, showResults := true, step := Results)
  }

  /** `handleReviewClick`: the review's prompt replaces the input. */
  function ChooseReview(d: Demo, prompt: string): (r: Demo)
    ensures r.step == Applied && r.input == prompt && !r.showExtension && r.success
    ensures r.messages == d.messages
    ensures r.(input := d.input, showExtension := d.showExtension, step := d.step, success := d.success) == d
  {
    d.(input := prompt, showExtension := false, step := Applied, success := true)
  }

  /** The success banner's timer (three seconds later). */
  function SuccessTimeout(d: Demo): (r: Demo)
    ensures !r.success && r.(success := d.success) == d
  {
    d.(success := false)
  }

  /** `handleSendMessage`: only on the applied step with non-blank input;
      the conversation restarts with that one message. */
  function Send(d: Demo): (r: Demo)
    ensures !(d.step == Applied && !IsBlank(d.input)) ==> r == d
    ensures d.step == Applied && !IsBlank(d.input) ==>
      r.messages == [Message(User, d.input)] && r.input == "" && r.step == Conversation && r.typing
    ensures r.(messages := d.messages, input := d.input, step := d.step, typing := d.typing) == d
  {
    StripEmptyIffBlank(d.input);
    if Strip(d.input) != "" && d.step == Applied then
      d.(messages := [Message(User, d.input)], input := "", step := Conversation, typing := true)
    else d
  }

  /** The reply timer (three seconds later): one assistant message is
      appended and the walkthrough is complete. */
  function Reply(d: Demo, content: string): (r: Demo)
    ensures r.messages == d.messages + [Message(Assistant, content)]
    ensures r.step == Completed && !r.typing && r.input == d.input
    ensures r.(messages := d.messages, typing := d.typing, step := d.step) == d
  {
    d.(messages := d.messages + [Message(Assistant, content)], typing := false, step := Completed)
  }

  /** `handleKeyPress`: Enter without Shift sends. */
  function KeyPress(d: Demo, key: string, shift: bool): (r: Demo)
    ensures key == "Enter" && !shift ==> r == Send(d)
    ensures !(key == "Enter" && !shift) ==> r == d
  {
    if key == "Enter" && !shift then Send(d) else d
  }

  /** `resetDemo`: back to the start with no messages. */
  function Reset(d: Demo): (r: Demo)
    ensures r == Initial
  {
    Demo(Input, "", false, "", false, false, [], false, false)
  }

  /** `closeExtension`: back to the first step, keeping the input and the
      conversation. */
  function CloseExtension(d: Demo): (r: Demo)
    ensures r.step == Input && !r.showExtension && !r.showResults && !r.searching && r.query == ""
    ensures r.input == d.input && r.messages == d.messages && r.typing == d.typing && r.success == d.success
  {
    d.(showExtension := false, step := Input, showResults := false, searching := false, query := "")
  }

  /** `getStepMessage`: the banner text of each step. */
  function StepMessage(s: Step): (m: string)
    ensures m != ""
  {
    match s
    case Input => "1단계: 아래 입력창에 '창의적인 소설 쓰기'라고 입력해보세요"
    case ExtensionClick => "2단계: 우상단의 PromptHub 아이콘을 클릭하세요"
    case Searching => "3단계: 관련 프롬프트를 검색하고 있습니다..."
    case Results => "4단계: 마음에 드는 프롬프트 리뷰를 클릭하세요"
    case Applied => "5단계: 엔터키나 화살표 버튼을 눌러 메시지를 전송하세요"
    case Conversation => "6단계: AI가 응답하고 있습니다..."
    case Completed => "체험 완료! 다시 해보기 버튼으로 처음부터 시작할 수 있습니다"
  }

  /** Every step has its own banner. */
  lemma StepMessagesDiffer(a: Step, b: Step)
    requires a != b
    ensures StepMessage(a) != StepMessage(b)
  {
  }

  /** The walkthrough as intended: type, click, wait, choose, send, wait.
      It ends complete with exactly the chosen prompt and the reply. */
  lemma HappyPath(typed: string, prompt: string, reply: string)
    requires !IsBlank(typed) && !IsBlank(prompt)
    ensures var d1 := Type(Initial, typed);
      var d2 := ClickExtension(d1);
      var d3 := SearchDone(d2);
      var d4 := ChooseReview(d3, prompt);
      var d5 := Send(d4);
      var d6 := Reply(d5, reply);
      d1.step == ExtensionClick && d2.step == Searching && d3.step == Results &&
      d4.step == Applied && d5.step == Conversation && d6.step == Completed &&
      d6.messages == [Message(User, prompt), Message(Assistant, reply)] && d6.input == ""
  {
  }

  /** A send outside the applied step, or of blank input, does nothing:
      typed text alone never starts a conversation. */
  lemma NoSendBeforeApplied(typed: string)
    ensures Send(Type(Initial, typed)) == Type(Initial, typed)
    ensures Send(ClickExtension(Type(Initial, typed))) == ClickExtension(Type(Initial, typed))
  {
  }

  /** Timers are not cancelled: a search that finishes after the panel was
      closed still moves the walkthrough to the results step. */
  lemma StaleSearchTimer(typed: string)
    requires !IsBlank(typed)
    ensures SearchDone(CloseExtension(ClickExtension(Type(Initial, typed)))).step == Results
    ensures SearchDone(Reset(ClickExtension(Type(Initial, typed)))).step == Results
  {
  }
}

=== FILE: colors.dfy ===
/** The avatar colours of the users app: a first colour chosen from the
    email's first character and a second colour derived from it by
    `get_complementary_color`. Colours are `#RRGGBB` strings; hexadecimal
    is written the way Python's `{:02X}` format writes it. */
module Colors {
  import opened Wrappers
  import opened Text

  /** Three colour channels. */
  datatype Rgb = Rgb(r: int, g: int, b: int)

  predicate InByte(c: Rgb) {
    0 <= c.r <= 255 && 0 <= c.g <= 255 && 0 <= c.b <= 255
  }

  const DefaultFirst: string := "#6B73FF"
  const DefaultSecond: string := "#9EE5FF"

  // ---------------------------------------------------------------------
  // Hexadecimal digits
  // ---------------------------------------------------------------------

  predicate IsHexDigit(c: char) {
    IsDigit(c) || 'a' <= c <= 'f' || 'A' <= c <= 'F'
  }

  predicate IsUpperHexDigit(c: char) {
    IsDigit(c) || 'A' <= c <= 'F'
  }

  function HexValue(c: char): (v: nat)
    requires IsHexDigit(c)
    ensures v < 16
  {
    if IsDigit(c) then DigitValue(c)
    else if 'a' <= c <= 'f' then c as int - 'a' as int + 10
    else c as int - 'A' as int + 10
  }

  /** The upper-case digit for `v`, as `X` formatting writes it. */
  function HexChar(v: nat): (c: char)
    requires v < 16
    ensures IsUpperHexDigit(c) && HexValue(c) == v
  {
    if v < 10 then DigitChar(v) else (v - 10 + 'A' as int) as char
  }

  /** `format(n, 'X')`: upper-case hexadecimal without leading zeros. */
  function HexNat(n: nat): (s: string)
    ensures |s| >= 1
    ensures n < 16 <==> |s| == 1
    ensures n < 256 <==> |s| <= 2
    ensures forall i :: 0 <= i < |s| ==> IsUpperHexDigit(s[i])
    decreases n
  {
    if n < 16 then [HexChar(n)] else HexNat(n / 16) + [HexChar(n % 16)]
  }

  /** `format(n, '02X')` for `n >= 0`: at least two digits, zero padded. */
  function Hex02(n: nat): (s: string)
    ensures |s| >= 2
    ensures n < 256 <==> |s| == 2
    ensures forall i :: 0 <= i < |s| ==> IsUpperHexDigit(s[i])
  {
    if n < 16 then "0" + HexNat(n) else HexNat(n)
  }

  /** The value of a string of hexadecimal digits. */
  function HexDigitsValue(s: string): nat
    requires forall i :: 0 <= i < |s| ==> IsHexDigit(s[i])
    decreases |s|
  {
    if |s| == 0 then 0 else HexDigitsValue(s[..|s| - 1]) * 16 + HexValue(s[|s| - 1])
  }

  predicate AllHex(s: string) {
    forall i :: 0 <= i < |s| ==> IsHexDigit(s[i])
  }

  /** Python `int(s, 16)` on a string of at most two characters: the
      surrounding whitespace is ignored, a sign may lead, and at least one
      hexadecimal digit must follow. Anything else is a `ValueError`,
      returned as None. (On longer strings Python would also admit a `0x`
      prefix and `_` separators; no two-character string can hold either
      form validly.) */
  function ParseHex(s: string): Option<int> {
    if IsStripped(s) then ParseHexSigned(s) else ParseHexSigned(Strip(s))
  }

  /** Reading a string without surrounding whitespace as it is, as
      `ParseHex` does, is the same as stripping it first. */
  lemma ParseHexStripsFirst(s: string)
    ensures ParseHex(s) == ParseHexSigned(Strip(s))
  {
    if IsStripped(s) {
      StripOfStripped(s);
    }
  }

  /** `int(t, 16)` on an already stripped string: hexadecimal digits, or
      a sign followed by them. */
  function ParseHexSigned(t: string): Option<int> {
    if |t| > 0 && AllHex(t) then Some(HexDigitsValue(t))
    else if |t| > 1 && (t[0] == '-' || t[0] == '+') && AllHex(t[1..]) then
      var v: int := HexDigitsValue(t[1..]);
      Some(if t[0] == '-' then -v else v)
    else None
  }

  /** A slice of at most two characters parses to a value in [-15, 255]. */
  lemma ParseHexShort(s: string)
    requires |s| <= 2
    ensures ParseHex(s).Some? ==> -15 <= ParseHex(s).value <= 255
  {
    ParseHexStripsFirst(s);
    ParseHexSignedShort(Strip(s));
  }

  lemma ParseHexSignedShort(t: string)
    requires |t| <= 2
    ensures ParseHexSigned(t).Some? ==> -15 <= ParseHexSigned(t).value <= 255
  {
    if |t| > 0 && AllHex(t) {
      TwoDigitsValue(t);
    } else if |t| > 1 && (t[0] == '-' || t[0] == '+') && AllHex(t[1..]) {
      TwoDigitsValue(t[1..]);
    }
  }

  /** The value of one or two hexadecimal digits. */
  lemma TwoDigitsValue(d: string)
    requires 1 <= |d| <= 2 && AllHex(d)
    ensures |d| == 1 ==> HexDigitsValue(d) == HexValue(d[0])
    ensures |d| == 2 ==> HexDigitsValue(d) == 16 * HexValue(d[0]) + HexValue(d[1])
  {
    assert d[..|d| - 1][..0] == [];
    if |d| == 2 {
      assert d[..1][0] == d[0];
      assert HexDigitsValue(d[..1]) == HexValue(d[0]);
    }
  }

  // ---------------------------------------------------------------------
  // Colour strings
  // ---------------------------------------------------------------------

  /** `#` and six hexadecimal digits, in either case. */
  predicate IsHexColor(s: string) {
    |s| == 7 && s[0] == '#' && forall i :: 1 <= i < 7 ==> IsHexDigit(s[i])
  }

  /** The form the colour helpers produce: `#` and six upper-case digits. */
  predicate IsUpperHexColor(s: string) {
    |s| == 7 && s[0] == '#' && forall i :: 1 <= i < 7 ==> IsUpperHexDigit(s[i])
  }

  /** The channels of a colour string. */
  function Channels(s: string): (c: Rgb)
    requires IsHexColor(s)
    ensures InByte(c)
  {
    Rgb(16 * HexValue(s[1]) + HexValue(s[2]),
        16 * HexValue(s[3]) + HexValue(s[4]),
        16 * HexValue(s[5]) + HexValue(s[6]))
  }

  /** `f'#{r:02X}{g:02X}{b:02X}'`; longer than seven characters when a
      channel is above 255. */
  function Format(c: Rgb): (s: string)
    requires c.r >= 0 && c.g >= 0 && c.b >= 0
    ensures InByte(c) ==> IsUpperHexColor(s)
    ensures !InByte(c) ==> |s| > 7
  {
    "#" + Hex02(c.r) + Hex02(c.g) + Hex02(c.b)
  }

  lemma Hex02Value(n: nat)
    requires n < 256
    ensures HexValue(Hex02(n)[0]) * 16 + HexValue(Hex02(n)[1]) == n
  {
    if n >= 16 {
      assert HexNat(n) == HexNat(n / 16) + [HexChar(n % 16)];
      assert HexNat(n / 16) == [HexChar(n / 16)];
    }
  }

  /** Reading back a formatted colour gives its channels. */
  lemma ChannelsOfFormat(c: Rgb)
    requires InByte(c)
    ensures IsHexColor(Format(c))
    ensures Channels(Format(c)) == c
  {
    Hex02Value(c.r);
    Hex02Value(c.g);
    Hex02Value(c.b);
  }

  lemma FormatReadsBack(c: Rgb)
    requires c.r >= 0 && c.g >= 0 && c.b >= 0
    ensures InByte(c) ==> IsHexColor(Format(c)) && Channels(Format(c)) == c
  {
    if InByte(c) {
      ChannelsOfFormat(c);
    }
  }

  /** Formatting the channels of an upper-case colour gives it back. */
  lemma FormatOfChannels(s: string)
    requires IsUpperHexColor(s)
    ensures IsHexColor(s)
    ensures Format(Channels(s)) == s
  {
    Hex02OfPair(s[1], s[2]);
    Hex02OfPair(s[3], s[4]);
    Hex02OfPair(s[5], s[6]);
    assert s == "#" + [s[1], s[2]] + [s[3], s[4]] + [s[5], s[6]];
  }

  /** Two upper-case digits are the `02X` form of their value. */
  lemma Hex02OfPair(a: char, b: char)
    requires IsUpperHexDigit(a) && IsUpperHexDigit(b)
    ensures Hex02(16 * HexValue(a) + HexValue(b)) == [a, b]
  {
    var x, y := HexValue(a), HexValue(b);
    var n := 16 * x + y;
    UpperHexValueInjective(HexChar(y), b);
    if n < 16 {
      assert x == 0;
      UpperHexValueInjective('0', a);
    } else {
      assert n / 16 == x && n % 16 == y;
      UpperHexValueInjective(HexChar(x), a);
      assert HexNat(x) == [a];
    }
  }

  lemma UpperHexValueInjective(a: char, b: char)
    requires IsUpperHexDigit(a) && IsUpperHexDigit(b)
    ensures HexValue(a) == HexValue(b) ==> a == b
  {
  }

  // ---------------------------------------------------------------------
  // email_to_hex_color
  // ---------------------------------------------------------------------

  /** The colour of each lower-case letter, 'a' to 'z'. 'j' and 'n' share
      one colour. */
  const LetterColors: seq<string> := [
    "#FF6B6B", "#4ECDC4", "#45B7D1", "#96CEB4", "#FFEAA7", "#DDA0DD",
    "#98D8C8", "#F7DC6F", "#BB8FCE", "#85C1E9", "#F8C471", "#82E0AA",
    "#F1948A", "#85C1E9", "#D7BDE2", "#A9DFBF", "#F9E79F", "#FADBD8",
    "#D5DBDB", "#AED6F1", "#A3E4D7", "#D2B4DE", "#F4D03F", "#EC7063",
    "#58D68D", "#5DADE2"]

  lemma LetterColorsWellFormed()
    ensures |LetterColors| == 26
    ensures forall i :: 0 <= i < 26 ==> IsUpperHexColor(LetterColors[i])
  {
  }

  /** The channels a digit's code point gives. */
  function DigitRgb(c: char): (rgb: Rgb)
    ensures InByte(rgb)
  {
    var o := c as int;
    Rgb((o * 17) % 256, (o * 23) % 256, (o * 31) % 256)
  }

  /** `email_to_hex_color`: the default for "", otherwise decided by the
      lower-cased first character alone: a letter through the table, a
      digit through its code point, anything else the default. */
  function EmailToHexColor(email: string): (r: string)
    ensures IsUpperHexColor(r)
    ensures email == "" ==> r == DefaultFirst
    ensures email != "" && IsLower(LowerChar(email[0])) ==>
      r == LetterColors[LowerChar(email[0]) as int - 'a' as int]
    ensures email != "" && IsDigit(email[0]) ==> Channels(r) == DigitRgb(email[0])
    ensures email != "" && !IsLetter(email[0]) && !IsDigit(email[0]) ==> r == DefaultFirst
  {
    LetterColorsWellFormed();
    if email == "" then DefaultFirst
    else
      var c := LowerChar(email[0]);
      if IsDigit(c) then
        ChannelsOfFormat(DigitRgb(c));
        Format(DigitRgb(c))
      else if IsLower(c) then LetterColors[c as int - 'a' as int]
      else DefaultFirst
  }

  /** Two emails that start with the same letter up to case get the same
      colour. */
  lemma FirstCharacterDecides(a: string, b: string)
    requires a != "" && b != ""
    requires LowerChar(a[0]) == LowerChar(b[0])
    ensures EmailToHexColor(a) == EmailToHexColor(b)
  {
  }

  /** 'j' and 'n' are told apart by nothing but their emails. */
  lemma SharedLetterColor()
    ensures EmailToHexColor("j") == EmailToHexColor("n")
  {
  }

  // ---------------------------------------------------------------------
  // get_complementary_color
  // ---------------------------------------------------------------------

  /** The brightness correction: a channel sum under 300 (average under
      100) lifts every channel by 80, capped at 255; a sum over 600
      (average over 200) lowers every channel by 80, floored at 0. */
  function Adjust(c: Rgb): (a: Rgb)
    requires c.r >= 0 && c.g >= 0 && c.b >= 0
    ensures a.r >= 0 && a.g >= 0 && a.b >= 0
    ensures InByte(c) ==> InByte(a)
    ensures 300 <= c.r + c.g + c.b <= 600 ==> a == c
    ensures InByte(c) ==> 240 <= a.r + a.g + a.b <= 600
    ensures -80 <= a.r - c.r <= 80 && -80 <= a.g - c.g <= 80 && -80 <= a.b - c.b <= 80
    ensures c.r <= c.g ==> a.r <= a.g
    ensures c.g <= c.b ==> a.g <= a.b
    ensures c.r <= c.b ==> a.r <= a.b
  {
    var sum := c.r + c.g + c.b;
    if sum < 300 then Rgb(Min(255, c.r + 80), Min(255, c.g + 80), Min(255, c.b + 80))
    else if sum > 600 then Rgb(Max(0, c.r - 80), Max(0, c.g - 80), Max(0, c.b - 80))
    else c
  }

  function Min(a: int, b: int): int { if a <= b then a else b }
  function Max(a: int, b: int): int { if a >= b then a else b }

  /** Python's `s[i:j]` on a string, which clips at the end. */
  function Slice(s: string, i: nat, j: nat): (r: string)
    requires i <= j
    ensures |r| <= j - i
  {
    if j <= |s| then s[i..j] else if i <= |s| then s[i..] else ""
  }

  /** `lstrip('#')`: every leading '#' removed. */
  function StripHashes(s: string): (r: string)
    ensures |r| == 0 || r[0] != '#'
    ensures (forall i :: 0 <= i < |s| ==> s[i] != '#') ==> r == s
    decreases |s|
  {
    if |s| > 0 && s[0] == '#' then StripHashes(s[1..]) else s
  }

  /** `get_complementary_color`: the default for an empty string or one
      without a leading '#'; otherwise the colour read from what follows
      the leading '#'s. */
  function ComplementaryColor(hex: string): (r: string)
    ensures hex == "" || hex[0] != '#' ==> r == DefaultSecond
    ensures IsHexColor(hex) ==> IsUpperHexColor(r) && Channels(r) == Adjust(Invert(Channels(hex)))
  {
    if hex == "" || hex[0] != '#' then DefaultSecond
    else
      ValidSlices(hex);
      Complement(StripHashes(hex))
  }

  /** The body of `get_complementary_color` after `lstrip('#')`: the
      default when a two-character slice does not parse; otherwise the
      colour of the parsed channels. */
  function Complement(h: string): (r: string)
    ensures Slices(h).0.None? || Slices(h).1.None? || Slices(h).2.None? ==> r == DefaultSecond
    ensures forall c: Rgb :: InByte(c) && Slices(h) == (Some(c.r), Some(c.g), Some(c.b)) ==>
      IsUpperHexColor(r) && Channels(r) == Adjust(Invert(c))
  {
    var p := Slices(h);
    if p.0.None? || p.1.None? || p.2.None? then DefaultSecond
    else
      ParseHexShort(Slice(h, 0, 2));
      ParseHexShort(Slice(h, 2, 4));
      ParseHexShort(Slice(h, 4, 6));
      FromChannels(Rgb(p.0.value, p.1.value, p.2.value))
  }

  /** Each parsed channel inverted (255 - x), corrected by `Adjust`, and
      formatted. A parsed channel lies in [-15, 255]. */
  function FromChannels(c: Rgb): (r: string)
    requires -15 <= c.r <= 255 && -15 <= c.g <= 255 && -15 <= c.b <= 255
    ensures InByte(c) ==> IsUpperHexColor(r) && Channels(r) == Adjust(Invert(c))
  {
    var a := Adjust(Rgb(255 - c.r, 255 - c.g, 255 - c.b));
    FormatReadsBack(a);
    Format(a)
  }

  /** The three channel slices, parsed. */
  function Slices(h: string): (Option<int>, Option<int>, Option<int>) {
    (ParseHex(Slice(h, 0, 2)), ParseHex(Slice(h, 2, 4)), ParseHex(Slice(h, 4, 6)))
  }

  /** Every channel inverted. */
  function Invert(c: Rgb): (d: Rgb)
    requires InByte(c)
    ensures InByte(d)
    ensures d.r + c.r == 255 && d.g + c.g == 255 && d.b + c.b == 255
  {
    Rgb(255 - c.r, 255 - c.g, 255 - c.b)
  }

  /** On a well-formed colour the three slices parse to its channels. */
  lemma ValidSlices(hex: string)
    ensures IsHexColor(hex) ==>
      var c := Channels(hex); Slices(StripHashes(hex)) == (Some(c.r), Some(c.g), Some(c.b))
  {
    if IsHexColor(hex) {
      var h := ColorSlices(hex);
    }
  }

  /** The digits of a well-formed colour, and their three parsed slices. */
  lemma ColorSlices(hex: string) returns (h: string)
    requires IsHexColor(hex)
    ensures StripHashes(hex) == h
    ensures var c := Channels(hex); Slices(h) == (Some(c.r), Some(c.g), Some(c.b))
  {
    h := ColorDigits(hex);
    DigitSlices(h);
  }

  /** Six hexadecimal digits slice into three parsed pairs. */
  lemma DigitSlices(h: string)
    requires |h| == 6 && forall i :: 0 <= i < 6 ==> IsHexDigit(h[i])
    ensures Slices(h) == (Some(16 * HexValue(h[0]) + HexValue(h[1])),
                          Some(16 * HexValue(h[2]) + HexValue(h[3])),
                          Some(16 * HexValue(h[4]) + HexValue(h[5])))
  {
    DigitPairs(h);
  }

  lemma DigitPairs(h: string)
    requires |h| == 6 && forall i :: 0 <= i < 6 ==> IsHexDigit(h[i])
    ensures ParseHex(Slice(h, 0, 2)) == Some(16 * HexValue(h[0]) + HexValue(h[1]))
    ensures ParseHex(Slice(h, 2, 4)) == Some(16 * HexValue(h[2]) + HexValue(h[3]))
    ensures ParseHex(Slice(h, 4, 6)) == Some(16 * HexValue(h[4]) + HexValue(h[5]))
  {
    SliceValue(h, 0);
    SliceValue(h, 2);
    SliceValue(h, 4);
  }

  /** A well-formed colour strips to its six digits. */
  lemma ColorDigits(hex: string) returns (h: string)
    requires IsHexColor(hex)
    ensures StripHashes(hex) == h && |h| == 6
    ensures forall i :: 0 <= i < 6 ==> IsHexDigit(h[i])
    ensures var c := Channels(hex);
      c.r == 16 * HexValue(h[0]) + HexValue(h[1]) &&
      c.g == 16 * HexValue(h[2]) + HexValue(h[3]) &&
      c.b == 16 * HexValue(h[4]) + HexValue(h[5])
  {
    h := hex[1..];
    assert StripHashes(hex) == StripHashes(h);
    assert h[0] != '#';
  }

  /** Two hexadecimal digits at `j` of `h`, sliced out and parsed. */
  lemma SliceValue(h: string, j: nat)
    requires j + 2 <= |h| && IsHexDigit(h[j]) && IsHexDigit(h[j + 1])
    ensures ParseHex(Slice(h, j, j + 2)) == Some(16 * HexValue(h[j]) + HexValue(h[j + 1]))
  {
    SliceIsStripped(h, j);
    SliceDigitsValue(h, j);
  }

  lemma SliceIsStripped(h: string, j: nat)
    requires j + 2 <= |h| && IsHexDigit(h[j]) && IsHexDigit(h[j + 1])
    ensures IsStripped(Slice(h, j, j + 2))
  {
    var p := Slice(h, j, j + 2);
    assert p[0] == h[j] && p[1] == h[j + 1];
  }

  lemma SliceDigitsValue(h: string, j: nat)
    requires j + 2 <= |h| && IsHexDigit(h[j]) && IsHexDigit(h[j + 1])
    ensures ParseHexSigned(Slice(h, j, j + 2)) == Some(16 * HexValue(h[j]) + HexValue(h[j + 1]))
  {
    var p := Slice(h, j, j + 2);
    assert AllHex(p);
    TwoDigitsValue(p);
  }

  lemma PairValue(p: string)
    requires |p| == 2 && IsHexDigit(p[0]) && IsHexDigit(p[1])
    ensures ParseHex(p) == Some(16 * HexValue(p[0]) + HexValue(p[1]))
  {
    assert IsStripped(p);
    assert AllHex(p);
    TwoDigitsValue(p);
  }

  /** A '#' followed by a signed two-character slice is not rejected: the
      channel -15 inverts to 270 and the result has eight characters. */
  lemma SignedSliceGivesLongColor()
    ensures ComplementaryColor("#-fff10") == "#10E00EF"
  {
    ExampleComplement();
    ExampleFromChannels();
    FormatLong();
  }

  lemma ExampleComplement()
    ensures ComplementaryColor("#-fff10") == FromChannels(Rgb(-15, 255, 16))
  {
    ExampleStripped();
    ExampleParsed();
  }

  lemma ExampleStripped()
    ensures ComplementaryColor("#-fff10") == Complement("-fff10")
  {
    assert StripHashes("#-fff10") == StripHashes("-fff10") == "-fff10";
  }

  lemma ExampleParsed()
    ensures Complement("-fff10") == FromChannels(Rgb(-15, 255, 16))
  {
    ExampleSlices();
  }

  lemma ExampleFromChannels()
    ensures FromChannels(Rgb(-15, 255, 16)) == Format(Rgb(270, 0, 239))
  {
    assert Adjust(Rgb(270, 0, 239)) == Rgb(270, 0, 239);
  }

  lemma ExampleSlices()
    ensures Slices("-fff10") == (Some(-15), Some(255), Some(16))
  {
    ExampleRed();
    ExampleGreen();
    ExampleBlue();
  }

  lemma ExampleRed()
    ensures ParseHex(Slice("-fff10", 0, 2)) == Some(-15)
  {
    assert Slice("-fff10", 0, 2) == "-f";
    NegativeF();
  }

  lemma ExampleGreen()
    ensures ParseHex(Slice("-fff10", 2, 4)) == Some(255)
  {
    assert Slice("-fff10", 2, 4) == "ff";
    PairValue("ff");
    assert HexValue('f') == 15;
  }

  lemma ExampleBlue()
    ensures ParseHex(Slice("-fff10", 4, 6)) == Some(16)
  {
    assert Slice("-fff10", 4, 6) == "10";
    PairValue("10");
    assert HexValue('1') == 1 && HexValue('0') == 0;
  }

  lemma NegativeF()
    ensures ParseHex("-f") == Some(-15)
  {
    assert IsStripped("-f");
    assert "-f"[1..] == "f";
    TwoDigitsValue("f");
  }

  lemma FormatLong()
    ensures Format(Rgb(270, 0, 239)) == "#10E00EF"
  {
    assert HexNat(1) == "1";
    assert HexNat(16) == HexNat(1) + [HexChar(0)];
    assert HexNat(270) == HexNat(16) + [HexChar(14)];
    assert Hex02(270) == "10E";
    assert Hex02(0) == "00";
    assert HexNat(14) == "E";
    assert HexNat(239) == HexNat(14) + [HexChar(15)];
    assert Hex02(239) == "EF";
  }

  // ---------------------------------------------------------------------
  // generate_avatar_colors
  // ---------------------------------------------------------------------

  /** `generate_avatar_colors`: the email's colour and its complement. */
  function AvatarColors(email: string): (pair: (string, string))
    ensures pair.0 == EmailToHexColor(email)
    ensures IsUpperHexColor(pair.0) && IsUpperHexColor(pair.1)
    ensures Channels(pair.1) == Adjust(Invert(Channels(pair.0)))
    ensures var c := Channels(pair.1); 240 <= c.r + c.g + c.b <= 600
  {
    var first := EmailToHexColor(email);
    (first, ComplementaryColor(first))
  }
}

=== FILE: communitypost.dfy ===
/** The community page's five-step review dialog
    (`components/community/create-post-dialog.tsx`): the step gate, the
    navigation buttons, the select resets, its own tag list and its inner
    star widget. Satisfaction is in half-stars. */
module CommunityPost {
  import opened Wrappers
  import opened Text
  import TagEdit
  import StarRating

  const TotalSteps: int := 5
  const TypeOwn: string := "직접 입력"

  datatype Review = Review(
    platform: string,
    model: string,
    topic: string,
    text: string,
    aiResponse: string,
    satisfaction: int,
    comments: string,
    category: string,
    customCategory: string,
    tags: seq<string>)

  /** The empty review the dialog opens with and returns to. */
  const Empty: Review := Review("", "", "", "", "", 0, "", "", "", [])

  datatype Dialog = Dialog(step: int, review: Review, newTag: string)

  /** `canProceed()`: the fields of the current step are filled in. Steps
      outside 1..5 never proceed. */
  function CanProceed(d: Dialog): (ok: bool)
    ensures d.step == 1 ==> (ok <==> d.review.platform != "" && d.review.model != "")
    ensures d.step == 2 ==> (ok <==> d.review.topic != "" && d.review.text != "")
    ensures d.step == 3 ==> (ok <==> d.review.aiResponse != "")
    ensures d.step == 4 ==> (ok <==> d.review.satisfaction > 0)
    ensures d.step == 5 && d.review.category == TypeOwn ==> (ok <==> !IsBlank(d.review.customCategory))
    ensures d.step == 5 && d.review.category != TypeOwn ==> (ok <==> d.review.category != "")
    ensures !(1 <= d.step <= 5) ==> !ok
  {
    var r := d.review;
    StripEmptyIffBlank(r.customCategory);
    match d.step
    case 1 => r.platform != "" && r.model != ""
    case 2 => r.topic != "" && r.text != ""
    case 3 => r.aiResponse != ""
    case 4 => r.satisfaction > 0
    case 5 => if r.category == TypeOwn then Strip(r.customCategory) != "" else r.category != ""
    case _ => false
  }

  /** `handleNext`: forward while below the last step. The handler itself
      does not look at `canProceed`; the button calling it is disabled
      instead (see `PressNext`). */
  function Next(d: Dialog): (r: Dialog)
    ensures d.step < TotalSteps ==> r == d.(step := d.step + 1)
    ensures d.step >= TotalSteps ==> r == d
  {
    if d.step < TotalSteps then d.(step := d.step + 1) else d
  }

  /** `handlePrevious`: back while above the first step. */
  function Previous(d: Dialog): (r: Dialog)
    ensures d.step > 1 ==> r == d.(step := d.step - 1)
    ensures d.step <= 1 ==> r == d
  {
    if d.step > 1 then d.(step := d.step - 1) else d
  }

  /** A press on the "다음" button, which is shown below the last step and
      enabled only when `canProceed()` holds. */
  function PressNext(d: Dialog): (r: Dialog)
    ensures r.step == d.step + 1 <==> d.step < TotalSteps && CanProceed(d)
    ensures r.step != d.step + 1 ==> r == d
  {
    if d.step < TotalSteps && CanProceed(d) then Next(d) else d
  }

  /** Both buttons keep the step in 1..5. */
  lemma NavigationStaysInRange(d: Dialog)
    requires 1 <= d.step <= TotalSteps
    ensures 1 <= Next(d).step <= TotalSteps
    ensures 1 <= PressNext(d).step <= TotalSteps
    ensures 1 <= Previous(d).step <= TotalSteps
  {
  }

  /** `handleSubmit`: the dialog closes and the form and step are reset. */
  function Submit(d: Dialog): (r: Dialog)
    ensures r.step == 1 && r.review.tags == [] && r.review.satisfaction == 0
    ensures r.review.platform == "" && r.review.model == "" && r.review.category == "" && r.review.customCategory == ""
    ensures r.newTag == d.newTag
  {
    Dialog(1, Empty, d.newTag)
  }

  /** A freshly reset dialog cannot leave its first step until a platform
      and a model are chosen. */
  lemma SubmitStartsOver(d: Dialog)
    ensures !CanProceed(Submit(d))
    ensures PressNext(Submit(d)) == Submit(d)
  {
  }

  /** Choosing a platform: the model list changes, so the model is reset. */
  function ChoosePlatform(d: Dialog, platform: string): (r: Dialog)
    ensures r.review.platform == platform && r.review.model == ""
    ensures r.review.(platform := d.review.platform, model := d.review.model) == d.review
    ensures r.step == d.step && r.newTag == d.newTag
  {
    d.(review := d.review.(platform := platform, model := ""))
  }

  /** Choosing a category: any choice but "직접 입력" clears the typed
      category; choosing "직접 입력" keeps what was typed. */
  function ChooseCategory(d: Dialog, category: string): (r: Dialog)
    ensures r.review.category == category
    ensures category != TypeOwn ==> r.review.customCategory == ""
    ensures category == TypeOwn ==> r.review.customCategory == d.review.customCategory
    ensures r.review.(category := d.review.category, customCategory := d.review.customCategory) == d.review
    ensures r.step == d.step && r.newTag == d.newTag
  {
    d.(review := d.review.(category := category, customCategory := if category != TypeOwn then "" else d.review.customCategory))
  }

  /** A platform change always sends step 1 back to "not ready". */
  lemma PlatformChangeNeedsNewModel(d: Dialog, platform: string)
    requires d.step == 1
    ensures !CanProceed(ChoosePlatform(d, platform))
  {
  }

  /** A typed category never outlives leaving "직접 입력": whenever the
      category is another one, the typed text is empty. */
  lemma TypedCategoryOnlyForTypeOwn(d: Dialog, category: string)
    requires d.review.category != TypeOwn ==> d.review.customCategory == ""
    ensures var r := ChooseCategory(d, category).review;
      r.category != TypeOwn ==> r.customCategory == ""
  {
  }

  /** `addTag`: the button and Enter behave alike here. */
  function AddTag(d: Dialog): (r: Dialog)
    ensures (r.review.tags, r.newTag) == TagEdit.AddButton(d.review.tags, d.newTag)
    ensures r.review.(tags := d.review.tags) == d.review && r.step == d.step
  {
    var t := TagEdit.AddButton(d.review.tags, d.newTag);
    d.(review := d.review.(tags := t.0), newTag := t.1)
  }

  /** `removeTag(tag)`: every copy of the tag goes. */
  function RemoveTag(d: Dialog, tag: string): (r: Dialog)
    ensures r.review.tags == TagEdit.RemoveValue(d.review.tags, tag)
    ensures r.review.(tags := d.review.tags) == d.review && r.step == d.step && r.newTag == d.newTag
  {
    d.(review := d.review.(tags := TagEdit.RemoveValue(d.review.tags, tag)))
  }

  /** Adding a tag and then removing it gives back the tag list. */
  lemma AddThenRemoveTag(d: Dialog)
    requires !IsBlank(d.newTag) && Strip(d.newTag) !in d.review.tags
    ensures RemoveTag(AddTag(d), Strip(d.newTag)).review == d.review
  {
    TagEdit.AddThenRemove(d.review.tags, d.newTag);
  }

  // ---------------------------------------------------------------------
  // The inner star widget
  // ---------------------------------------------------------------------

  /** A click on star `k` (0-based): the left half gives `k + 0.5`, the
      right half `k + 1`. */
  function StarClick(k: nat, leftHalf: bool): (v: int)
    ensures v == StarRating.HalfValue(k, !leftHalf)
    ensures 2 * k + 1 <= v <= 2 * k + 2
  {
    if leftHalf then 2 * k + 1 else 2 * k + 2
  }

  /** `getStarFill`: the hover value when it is truthy (hovering off resets
      it to 0), else the rating. */
  function InnerFill(hover: int, rating: int, k: nat): (f: StarRating.Fill)
    ensures hover != 0 ==> f == StarRating.StarFill(hover, k)
    ensures hover == 0 ==> f == StarRating.StarFill(rating, k)
  {
    var current := if hover != 0 then hover else rating;
    var value := 2 * (k + 1);
    if current >= value then StarRating.Full
    else if current >= value - 1 then StarRating.Half
    else StarRating.Empty
  }

  /** The inner widget draws exactly what the shared `StarRating` widget
      draws for the same rating and hover, since a hover value is never 0. */
  lemma InnerStarsMatchWidget(rating: int, k: nat, hk: nat, leftHalf: bool)
    ensures InnerFill(0, rating, k) == StarRating.StarFill(StarRating.Displayed(StarRating.Widget(rating, None, false)), k)
    ensures var h := StarClick(hk, leftHalf);
      InnerFill(h, rating, k) == StarRating.StarFill(StarRating.Displayed(StarRating.Widget(rating, Some(h), false)), k)
  {
  }

  /** Every click value of the five stars is a satisfaction that lets
      step 4 proceed. */
  lemma ClickMakesStepFourReady(d: Dialog, k: nat, leftHalf: bool)
    requires d.step == 4 && k < 5
    ensures CanProceed(d.(review := d.review.(satisfaction := StarClick(k, leftHalf))))
    ensures 1 <= StarClick(k, leftHalf) <= 10
  {
  }
}

=== FILE: createpost.dfy ===
/** The five-step "new post" dialog of the frontend
    (`components/common/create-post-dialog.tsx`): per-step validation,
    step navigation, the model picker, and the request body built on save.
    Ratings are in half-stars, as in `StarRating`. */
module CreatePost {
  import opened Wrappers
  import opened Text
  import Metadata
  import Domain
  import TagEdit

  const TotalSteps: int := 5

  const MissingCategory: string := "카테고리 정보가 없습니다."
  const MissingModelName: string := "모델명을 입력해주세요."
  const MissingPlatform: string := "플랫폼을 선택해주세요."
  const MissingModel: string := "선택된 모델 정보를 찾을 수 없습니다."

  /** The dialog's state. `selectedModelData` is the model picked from the
      suggestions; `customPlatformId` the platform of a typed-in model. */
  datatype Form = Form(
    step: int,
    title: string,
    prompt: string,
    aiResponse: string,
    rating: int,
    opinion: string,
    selectedModel: string,
    customModel: string,
    showCustomModel: bool,
    selectedModelData: Option<Metadata.ModelEntry>,
    modelDetail: string,
    customPlatformId: Option<int>,
    selectedCategory: string,
    customCategory: string,
    tags: seq<string>,
    newTag: string)

  /** The form as first opened. */
  function Initial(): (f: Form)
    ensures f.step == 1 && f.tags == [] && !f.showCustomModel && f.selectedModelData.None?
  {
    Form(1, "", "", "", 0, "", "", "", false, None, "", None, "", "", [], "")
  }

  /** The free-text category box follows the category: it is shown exactly
      while '기타' is selected. */
  predicate ShowsCustomCategory(f: Form) {
    f.selectedCategory == Domain.Other
  }

  // ---------------------------------------------------------------------
  // Validation and navigation
  // ---------------------------------------------------------------------

  /** `validateStep(step)`; steps outside 1..5 are always valid. */
  function ValidateStep(f: Form, step: int): (ok: bool)
    ensures step == 1 ==> (ok <==> !IsBlank(f.title) && !IsBlank(f.prompt))
    ensures step == 2 ==> (ok <==> !IsBlank(f.aiResponse))
    ensures step == 3 ==> (ok <==> f.rating > 0)
    ensures step == 4 && f.showCustomModel ==> (ok <==> !IsBlank(f.customModel) && f.customPlatformId.Some?)
    ensures step == 4 && !f.showCustomModel ==> (ok <==> !IsBlank(f.selectedModel))
    ensures step == 5 ==> (ok <==> f.selectedCategory != "" || (ShowsCustomCategory(f) && !IsBlank(f.customCategory)))
    ensures !(1 <= step <= 5) ==> ok
  {
    StripEmptyIffBlank(f.title);
    StripEmptyIffBlank(f.prompt);
    StripEmptyIffBlank(f.aiResponse);
    StripEmptyIffBlank(f.customModel);
    StripEmptyIffBlank(f.selectedModel);
    StripEmptyIffBlank(f.customCategory);
    match step
    case 1 => Strip(f.title) != "" && Strip(f.prompt) != ""
    case 2 => Strip(f.aiResponse) != ""
    case 3 => f.rating > 0
    case 4 =>
      if f.showCustomModel then Strip(f.customModel) != "" && f.customPlatformId.Some?
      else Strip(f.selectedModel) != ""
    case 5 => f.selectedCategory != "" || (ShowsCustomCategory(f) && Strip(f.customCategory) != "")
    case _ => true
  }

  /** Since the free-text box only shows for '기타', the last step in
      effect asks for nothing but a chosen category. */
  lemma LastStepNeedsCategory(f: Form)
    ensures ValidateStep(f, 5) <==> f.selectedCategory != ""
  {
  }

  /** `handleNext`: forward one step when the current one is valid. */
  function Next(f: Form): (r: Form)
    ensures r.step == f.step + 1 <==> ValidateStep(f, f.step) && f.step < TotalSteps
    ensures r.step != f.step + 1 ==> r == f
    ensures r.(step := f.step) == f
  {
    if ValidateStep(f, f.step) && f.step < TotalSteps then f.(step := f.step + 1) else f
  }

  /** `handlePrevious`: back one step, never below 1. */
  function Previous(f: Form): (r: Form)
    ensures f.step > 1 ==> r == f.(step := f.step - 1)
    ensures f.step <= 1 ==> r == f
  {
    if f.step > 1 then f.(step := f.step - 1) else f
  }

  /** Both buttons keep the step in 1..5. */
  lemma NavigationStaysInRange(f: Form)
    requires 1 <= f.step <= TotalSteps
    ensures 1 <= Next(f).step <= TotalSteps
    ensures 1 <= Previous(f).step <= TotalSteps
  {
  }

  /** A step is only ever left forwards once it is valid: from a form
      whose earlier steps are all valid, Next and Previous lead to one
      whose earlier steps are all valid. */
  ghost predicate EarlierStepsValid(f: Form) {
    forall s :: 1 <= s < f.step ==> ValidateStep(f, s)
  }

  lemma NavigationKeepsEarlierStepsValid(f: Form)
    requires EarlierStepsValid(f)
    ensures EarlierStepsValid(Next(f))
    ensures EarlierStepsValid(Previous(f))
  {
    var n := Next(f);
    forall s | 1 <= s < n.step ensures ValidateStep(n, s) {
      assert ValidateStep(n, s) == ValidateStep(f, s);
    }
    var p := Previous(f);
    forall s | 1 <= s < p.step ensures ValidateStep(p, s) {
      assert ValidateStep(p, s) == ValidateStep(f, s);
    }
  }

  // ---------------------------------------------------------------------
  // The model picker
  // ---------------------------------------------------------------------

  /** `allModels.find(m => m.id === id)`. */
  function FindModel(ms: seq<Metadata.ModelEntry>, id: int): (r: Option<Metadata.ModelEntry>)
    ensures r.None? <==> forall j :: 0 <= j < |ms| ==> ms[j].id != id
    ensures r.Some? ==> exists i :: 0 <= i < |ms| && ms[i] == r.value && r.value.id == id && forall j :: 0 <= j < i ==> ms[j].id != id
  {
    var k := Metadata.IndexOfId(Metadata.Entries(ms), id);
    if k.None? then None else Some(ms[k.value])
  }

  /** `handleModelInputChange`: typing replaces the search text and leaves
      custom mode; the picked model is kept. */
  function TypeModel(f: Form, text: string): (r: Form)
    ensures r.selectedModel == text && !r.showCustomModel
    ensures r.(selectedModel := f.selectedModel, showCustomModel := f.showCustomModel) == f
  {
    f.(selectedModel := text, showCustomModel := false)
  }

  /** `handleModelSelect`: the suggestion is looked up among all models;
      the detail box is pre-filled with its name unless it is '기타' or
      unknown. */
  function SelectModel(f: Form, ms: seq<Metadata.ModelEntry>, id: int, name: string): (r: Form)
    ensures r.selectedModel == name && !r.showCustomModel && r.customModel == ""
    ensures r.selectedModelData == FindModel(ms, id)
    ensures r.selectedModelData.Some? && r.selectedModelData.value.name != Domain.Other ==> r.modelDetail == r.selectedModelData.value.name
    ensures r.selectedModelData.None? || r.selectedModelData.value.name == Domain.Other ==> r.modelDetail == ""
    ensures r.(selectedModel := f.selectedModel, showCustomModel := f.showCustomModel, customModel := f.customModel,
               selectedModelData := f.selectedModelData, modelDetail := f.modelDetail) == f
  {
    var data := FindModel(ms, id);
    var detail := if data.Some? && data.value.name != Domain.Other then data.value.name else "";
    f.(selectedModel := name, showCustomModel := false, customModel := "", selectedModelData := data, modelDetail := detail)
  }

  /** The platform a typed-in model starts on: id 1 when there is one,
      else the smallest id, else none. */
  function DefaultPlatform(ps: seq<Metadata.Entry>): (r: Option<int>)
    ensures r.None? <==> |ps| == 0
    ensures (exists i :: 0 <= i < |ps| && ps[i].id == 1) ==> r == Some(1)
    ensures r.Some? ==> (exists i :: 0 <= i < |ps| && ps[i].id == r.value)
    ensures r.Some? && r.value != 1 ==> forall i :: 0 <= i < |ps| ==> r.value <= ps[i].id
  {
    if Metadata.IndexOfId(ps, 1).Some? then Some(1)
    else if |ps| == 0 then None
    else Some(ps[Metadata.MinIndex(ps)].id)
  }

  /** `handleCustomModelToggle`: turning custom mode on drops the picked
      model and chooses the default platform; turning it off drops the
      typed name and the platform. */
  function ToggleCustom(f: Form, ps: seq<Metadata.Entry>, on: bool): (r: Form)
    ensures r.showCustomModel == on
    ensures on ==> r.selectedModel == "" && r.selectedModelData.None? && r.modelDetail == "" && r.customPlatformId == DefaultPlatform(ps)
    ensures on ==> r.customModel == f.customModel
    ensures !on ==> r.customModel == "" && r.customPlatformId.None?
    ensures !on ==> r.selectedModel == f.selectedModel && r.selectedModelData == f.selectedModelData && r.modelDetail == f.modelDetail
  {
    if on then
      f.(showCustomModel := true, selectedModel := "", selectedModelData := None, modelDetail := "", customPlatformId := DefaultPlatform(ps))
    else
      f.(showCustomModel := false, customModel := "", customPlatformId := None)
  }

  /** Turning custom mode on with at least one platform known makes a
      typed name enough for step 4. */
  lemma CustomModeNeedsOnlyAName(f: Form, ps: seq<Metadata.Entry>)
    requires |ps| > 0
    ensures var g := ToggleCustom(f, ps, true);
      ValidateStep(g, 4) <==> !IsBlank(f.customModel)
  {
  }

  // ---------------------------------------------------------------------
  // Saving
  // ---------------------------------------------------------------------

  /** The body of the create request; `None` is a field left undefined. */
  datatype Payload = Payload(
    title: string,
    platform: int,
    model: Option<int>,
    modelEtc: Option<string>,
    modelDetail: Option<string>,
    category: int,
    categoryEtc: Option<string>,
    tags: seq<string>,
    satisfaction: int,
    prompt: string,
    aiResponse: string,
    opinion: Option<string>)

  /** What pressing save does: nothing when the current step is invalid,
      an error message, or a request. */
  datatype SaveOutcome = Ignored | Failed(message: string) | Sent(payload: Payload)

  /** The model part of the request: platform, model, model_etc and
      model_detail, or the error raised. */
  function ModelFields(f: Form): (r: Result<(int, Option<int>, Option<string>, Option<string>)>)
    ensures f.showCustomModel && IsBlank(f.customModel) ==> r == Err(MissingModelName)
    ensures f.showCustomModel && !IsBlank(f.customModel) && !Metadata.Truthy(f.customPlatformId) ==> r == Err(MissingPlatform)
    ensures f.showCustomModel && !IsBlank(f.customModel) && Metadata.Truthy(f.customPlatformId) ==>
      r == Ok((f.customPlatformId.value, None, Some(Strip(f.customModel)), None))
    ensures !f.showCustomModel && f.selectedModelData.None? ==> r == Err(MissingModel)
    ensures !f.showCustomModel && f.selectedModelData.Some? ==>
      r.Ok? && r.value.0 == f.selectedModelData.value.platform && r.value.1 == Some(f.selectedModelData.value.id) && r.value.2.None?
    ensures !f.showCustomModel && f.selectedModelData.Some? ==>
      (r.value.3.Some? <==> f.selectedModelData.value.name != Domain.Other && !IsBlank(f.modelDetail) && Strip(f.modelDetail) != f.selectedModelData.value.name)
    ensures r.Ok? && r.value.3.Some? ==> r.value.3.value == Strip(f.modelDetail)
  {
    StripEmptyIffBlank(f.customModel);
    StripEmptyIffBlank(f.modelDetail);
    if f.showCustomModel then
      var name := Strip(f.customModel);
      if name == "" then Err(MissingModelName)
      else if !Metadata.Truthy(f.customPlatformId) then Err(MissingPlatform)
      else Ok((f.customPlatformId.value, None, Some(name), None))
    else if f.selectedModelData.None? then Err(MissingModel)
    else
      var data := f.selectedModelData.value;
      var detail := Strip(f.modelDetail);
      var keep := data.name != Domain.Other && detail != "" && detail != data.name;
      Ok((data.platform, Some(data.id), None, if keep then Some(detail) else None))
  }

  /** `handleSave` up to the request: the current step must be valid, the
      category must resolve to an id, then the model part must be complete.
      Text fields are trimmed; `category_etc` is sent only while the
      free-text box shows, and an empty opinion is left out. */
  function Save(f: Form, categories: seq<Metadata.Entry>): (r: SaveOutcome)
    ensures r.Ignored? <==> !ValidateStep(f, f.step)
    ensures ValidateStep(f, f.step) && Metadata.IdOf(categories, f.selectedCategory).None? ==> r == Failed(MissingCategory)
    ensures ValidateStep(f, f.step) && Metadata.IdOf(categories, f.selectedCategory).Some? && ModelFields(f).Err? ==> r == Failed(ModelFields(f).msg)
    ensures r.Sent? ==> ModelFields(f).Ok? && Some(r.payload.category) == Metadata.IdOf(categories, f.selectedCategory)
    ensures r.Sent? ==> var m := ModelFields(f).value;
      r.payload.platform == m.0 && r.payload.model == m.1 && r.payload.modelEtc == m.2 && r.payload.modelDetail == m.3
    ensures r.Sent? ==> r.payload.title == Strip(f.title) && r.payload.prompt == Strip(f.prompt) && r.payload.aiResponse == Strip(f.aiResponse)
    ensures r.Sent? ==> r.payload.tags == f.tags && r.payload.satisfaction == f.rating
    ensures r.Sent? ==> (r.payload.categoryEtc.Some? <==> ShowsCustomCategory(f))
    ensures r.Sent? && r.payload.categoryEtc.Some? ==> r.payload.categoryEtc.value == Strip(f.customCategory)
    ensures r.Sent? ==> (r.payload.opinion.None? <==> IsBlank(f.opinion))
    ensures r.Sent? && r.payload.opinion.Some? ==> r.payload.opinion.value == Strip(f.opinion)
  {
    StripEmptyIffBlank(f.opinion);
    if !ValidateStep(f, f.step) then Ignored
    else
      var category := Metadata.IdOf(categories, f.selectedCategory);
      if category.None? then Failed(MissingCategory)
      else
        match ModelFields(f)
        case Err(e) => Failed(e)
        case Ok(m) =>
          var opinion := Strip(f.opinion);
          Sent(Payload(
            Strip(f.title), m.0, m.1, m.2, m.3, category.value,
            if ShowsCustomCategory(f) then Some(Strip(f.customCategory)) else None,
            f.tags, f.rating, Strip(f.prompt), Strip(f.aiResponse),
            if opinion != "" then Some(opinion) else None))
  }

  /** A request always names either a model or a free-text model name,
      never both; a model detail comes only with a model, is non-blank,
      trimmed and differs from the model's own name; and the category id
      is truthy. These are the conditions the backend's `Post.clean` and
      `validate_business_logic` ask of a post. */
  lemma PayloadIsConsistent(f: Form, categories: seq<Metadata.Entry>)
    requires Save(f, categories).Sent?
    ensures var p := Save(f, categories).payload;
      (p.model.Some? <==> p.modelEtc.None?) && p.category != 0
    ensures var p := Save(f, categories).payload;
      p.modelEtc.Some? ==> TagEdit.Clean(p.modelEtc.value) && p.platform != 0
    ensures var p := Save(f, categories).payload;
      p.modelDetail.Some? ==> p.model.Some? && TagEdit.Clean(p.modelDetail.value) && p.modelDetail.value != f.selectedModelData.value.name
  {
    StripEmptyIffBlank(f.customModel);
    StripEmptyIffBlank(f.modelDetail);
  }

  /** A picked model whose detail was left as pre-filled sends no detail:
      the detail only goes out when the user changed it. */
  lemma PrefilledDetailIsNotSent(f: Form, ms: seq<Metadata.ModelEntry>, id: int, name: string, categories: seq<Metadata.Entry>)
    requires IsStripped(name)
    requires FindModel(ms, id).Some? && IsStripped(FindModel(ms, id).value.name)
    ensures var g := SelectModel(f, ms, id, name);
      ModelFields(g).Ok? && ModelFields(g).value.3.None?
  {
    var g := SelectModel(f, ms, id, name);
    StripOfStripped(g.modelDetail);
  }

  /** The form after a successful save: back to step 1 with the fields
      cleared. The detail box and the custom platform are not among the
      fields reset. */
  function AfterSave(f: Form): (r: Form)
    ensures r.step == 1 && r.tags == [] && r.title == "" && r.rating == 0
    ensures !r.showCustomModel && r.selectedModelData.None? && r.selectedCategory == "" && !ShowsCustomCategory(r)
    ensures r.modelDetail == f.modelDetail && r.customPlatformId == f.customPlatformId
    ensures r.prompt == "" && r.aiResponse == "" && r.opinion == "" && r.customModel == "" && r.customCategory == "" && r.newTag == "" && r.selectedModel == ""
  {
    Initial().(modelDetail := f.modelDetail, customPlatformId := f.customPlatformId)
  }

  // ---------------------------------------------------------------------
  // Tags
  // ---------------------------------------------------------------------

  /** The suggested tags offered under the tag input. */
  const SuggestedTags: seq<string> := ["GPT-5", "Claude", "Gemini", "창작", "분석", "코딩", "번역"]

  /** Every suggested tag is clean, so adding one keeps the tag list good. */
  lemma SuggestionsAreClean(tags: seq<string>, k: nat)
    requires TagEdit.GoodTags(tags) && k < |SuggestedTags|
    ensures TagEdit.GoodTags(TagEdit.AddSuggested(tags, SuggestedTags[k]))
  {
    assert TagEdit.Clean(SuggestedTags[k]);
  }
}

=== FILE: domain.dfy ===
/** The records of the posts app (platforms, AI models, categories, posts)
    and querysets over them. A queryset is a `seq<Post>`; a `.filter(...)`
    keeps the posts a predicate accepts, in order. */
module Domain {
  import opened Wrappers

  /** The name the site uses for its "Other" platform, model and category. */
  const Other: string := "기타"

  datatype Platform = Platform(id: int, name: string, slug: string, isActive: bool)

  datatype AiModel = AiModel(
    id: int,
    platform: int,
    name: string,
    slug: string,
    sortOrder: int,
    isActive: bool,
    variantFreeTextAllowed: bool)

  datatype Category = Category(id: int, name: string)

  /** A post row with its foreign keys already resolved. `satisfaction` is
      the one-decimal rating counted in tenths (4.5 is 45). */
  datatype Post = Post(
    id: int,
    authorId: int,
    title: string,
    platform: Platform,
    model: Option<AiModel>,
    modelEtc: string,
    modelDetail: string,
    category: Category,
    categoryEtc: string,
    tags: string,
    prompt: string,
    aiResponse: string,
    additionalOpinion: string,
    satisfaction: Option<int>,
    viewCount: nat,
    likeCount: nat,
    bookmarkCount: nat,
    createdAt: int)

  /** The row with primary key `id`, if any (`objects.get(id=...)`). */
  function FindAiModel(models: seq<AiModel>, id: int): (r: Option<AiModel>)
    ensures r.Some? ==> r.value in models && r.value.id == id
    ensures r.None? <==> forall m :: m in models ==> m.id != id
  {
    if |models| == 0 then None
    else if models[0].id == id then Some(models[0])
    else FindAiModel(models[1..], id)
  }

  function FindPlatform(platforms: seq<Platform>, id: int): (r: Option<Platform>)
    ensures r.Some? ==> r.value in platforms && r.value.id == id
    ensures r.None? <==> forall p :: p in platforms ==> p.id != id
  {
    if |platforms| == 0 then None
    else if platforms[0].id == id then Some(platforms[0])
    else FindPlatform(platforms[1..], id)
  }

  /** `queryset.filter(keep)`: the rows `keep` accepts, in their order. */
  function Where<T(!new)>(ps: seq<T>, keep: T -> bool): (r: seq<T>)
    ensures |r| <= |ps|
    ensures multiset(r) <= multiset(ps)
    ensures forall p :: p in r <==> p in ps && keep(p)
  {
    if |ps| == 0 then []
    else
      var rest := Where(ps[1..], keep);
      assert ps == [ps[0]] + ps[1..];
      if keep(ps[0]) then [ps[0]] + rest else rest
  }

  /** Two filters in a row keep what their conjunction keeps. */
  lemma {:induction false} WhereWhere<T(!new)>(ps: seq<T>, f: T -> bool, g: T -> bool)
    ensures Where(Where(ps, f), g) == Where(ps, p => f(p) && g(p))
    decreases |ps|
  {
    if |ps| > 0 {
      WhereWhere(ps[1..], f, g);
    }
  }

  /** A filter that accepts everything is the identity. */
  lemma {:induction false} WhereAll<T(!new)>(ps: seq<T>, keep: T -> bool)
    requires forall p :: p in ps ==> keep(p)
    ensures Where(ps, keep) == ps
    decreases |ps|
  {
    if |ps| > 0 {
      WhereAll(ps[1..], keep);
    }
  }

  /** A filter that accepts nothing keeps nothing. */
  lemma {:induction false} WhereNone<T(!new)>(ps: seq<T>, keep: T -> bool)
    requires forall p :: p in ps ==> !keep(p)
    ensures Where(ps, keep) == []
    decreases |ps|
  {
    if |ps| > 0 {
      WhereNone(ps[1..], keep);
    }
  }

  /** Filtering a concatenation filters each part. */
  lemma {:induction false} WhereConcat<T(!new)>(a: seq<T>, b: seq<T>, keep: T -> bool)
    ensures Where(a + b, keep) == Where(a, keep) + Where(b, keep)
    decreases |a|
  {
    if |a| > 0 {
      assert (a + b)[1..] == a[1..] + b;
      WhereConcat(a[1..], b, keep);
    } else {
      assert a + b == b;
    }
  }
}

=== FILE: editmeta.dfy ===
/** The meta-data section of the post editor
    (`components/edit-post/edit-post-meta-section.tsx`): the platform and
    model selects, which of the two free-text model inputs shows, the tag
    editor and the preview badges. */
module EditMeta {
  import opened Wrappers
  import opened Text
  import Metadata
  import Domain
  import TagEdit

  /** The values the section edits (the parent owns them; the section
      reports changes). */
  datatype Meta = Meta(
    platform: string,
    model: string,
    modelEtc: string,
    modelDetail: string,
    category: string,
    categoryEtc: string,
    tags: seq<string>,
    tagInput: string)

  /** The platform the selects show: the one with the current name, else
      the one with the smallest id, else none. */
  function CurrentPlatform(platforms: seq<Metadata.Entry>, name: string): (r: Option<Metadata.Entry>)
    ensures r.None? <==> |platforms| == 0
    ensures r.Some? ==> r.value in platforms
    ensures (exists i :: 0 <= i < |platforms| && platforms[i].name == name) ==> r.Some? && r.value.name == name
    ensures r.Some? && r.value.name != name ==> forall i :: 0 <= i < |platforms| ==> r.value.id <= platforms[i].id
  {
    var k := Metadata.IndexOfName(platforms, name);
    if k.Some? then Some(platforms[k.value])
    else if |platforms| == 0 then None
    else
      Some(platforms[Metadata.MinIndex(platforms)])
  }

  /** The list has an entry named "기타". */
  predicate HasOther(ms: seq<Metadata.ModelEntry>) {
    exists i :: 0 <= i < |ms| && ms[i].name == Domain.Other
  }

  /** The model options: the models of the shown platform, plus a
      stand-in "기타" with id -1 when they have none of that name. */
  function ModelOptions(platforms: seq<Metadata.Entry>, ms: seq<Metadata.ModelEntry>, name: string): (r: seq<Metadata.ModelEntry>)
    ensures HasOther(r)
    ensures var p := CurrentPlatform(platforms, name);
      var own := if p.None? then [] else Metadata.ModelsOfPlatform(ms, p.value.id);
      (HasOther(own) ==> r == own) && (!HasOther(own) ==> |r| == |own| + 1 && r[..|own|] == own && r[|own|].id == -1 && r[|own|].name == Domain.Other)
  {
    var p := CurrentPlatform(platforms, name);
    var own := if p.None? then [] else Metadata.ModelsOfPlatform(ms, p.value.id);
    WithOther(own, if p.Some? && p.value.id != 0 then p.value.id else -1)
  }

  /** Append the stand-in "기타" unless the list already has one. */
  function WithOther(ms: seq<Metadata.ModelEntry>, platformId: int): (r: seq<Metadata.ModelEntry>)
    ensures HasOther(r)
    ensures HasOther(ms) ==> r == ms
    ensures !HasOther(ms) ==> r == ms + [Metadata.ModelEntry(-1, Domain.Other, platformId)]
  {
    if HasOther(ms) then ms
    else
      var r := ms + [Metadata.ModelEntry(-1, Domain.Other, platformId)];
      assert r[|ms|].name == Domain.Other;
      r
  }

  /** Adding the stand-in twice adds it once. */
  lemma WithOtherIdempotent(ms: seq<Metadata.ModelEntry>, platformId: int, platformId2: int)
    ensures WithOther(WithOther(ms, platformId), platformId2) == WithOther(ms, platformId)
  {
  }

  /** The platform select: an unknown name changes nothing; a known one
      becomes the platform and clears the model, its free text and (when
      the parent lets it be edited) its detail. */
  function SelectPlatform(m: Meta, platforms: seq<Metadata.Entry>, value: string, detailEditable: bool): (r: Meta)
    ensures Metadata.IndexOfName(platforms, value).None? ==> r == m
    ensures Metadata.IndexOfName(platforms, value).Some? ==>
      r.platform == value && r.model == "" && r.modelEtc == "" && r.modelDetail == (if detailEditable then "" else m.modelDetail)
    ensures r.category == m.category && r.categoryEtc == m.categoryEtc && r.tags == m.tags && r.tagInput == m.tagInput
  {
    var k := Metadata.IndexOfName(platforms, value);
    if k.None? then m
    else m.(platform := platforms[k.value].name, model := "", modelEtc := "", modelDetail := if detailEditable then "" else m.modelDetail)
  }

  /** The model select: the free text survives only for "기타"; the detail
      is always cleared (when editable). */
  function SelectModel(m: Meta, value: string, detailEditable: bool): (r: Meta)
    ensures r.model == value
    ensures value != Domain.Other ==> r.modelEtc == ""
    ensures value == Domain.Other ==> r.modelEtc == m.modelEtc
    ensures detailEditable ==> r.modelDetail == ""
    ensures !detailEditable ==> r.modelDetail == m.modelDetail
    ensures r.platform == m.platform && r.category == m.category && r.tags == m.tags
  {
    m.(model := value,
       modelEtc := if value != Domain.Other then "" else m.modelEtc,
       modelDetail := if detailEditable then "" else m.modelDetail)
  }

  /** The detail input shows for a chosen model other than "기타". */
  predicate ShowsDetailInput(m: Meta) {
    m.model != "" && m.model != Domain.Other
  }

  /** The free-text input shows for "기타". */
  predicate ShowsEtcInput(m: Meta) {
    m.model == Domain.Other
  }

  /** At most one of the two inputs shows, and after a model is picked the
      text kept belongs to the input that shows: a model other than "기타"
      keeps no free text. */
  lemma OneModelInputAtATime(m: Meta, value: string)
    ensures !(ShowsDetailInput(m) && ShowsEtcInput(m))
    ensures var r := SelectModel(m, value, true);
      r.modelDetail == "" && (!ShowsEtcInput(r) ==> r.modelEtc == "")
  {
  }

  /** The suggested tags of the editor. */
  const SuggestedTags: seq<string> := ["ChatGPT", "Claude", "Grok", "창작", "분석", "코딩", "번역"]

  /** The tag editor's Enter key, add button and suggestions keep the tags
      clean and distinct. */
  lemma TagsStayGood(m: Meta, k: nat)
    requires TagEdit.GoodTags(m.tags) && k < |SuggestedTags|
    ensures TagEdit.GoodTags(TagEdit.EnterKey(m.tags, m.tagInput).0)
    ensures TagEdit.GoodTags(TagEdit.AddButton(m.tags, m.tagInput).0)
    ensures TagEdit.GoodTags(TagEdit.AddSuggested(m.tags, SuggestedTags[k]))
  {
    assert TagEdit.Clean(SuggestedTags[k]);
    TagEdit.AddingKeepsTagsGood(m.tags, m.tagInput, SuggestedTags[k]);
  }

  /** The model badge: a non-blank detail as typed, otherwise the display
      name of the model looked up by name, with its free text. */
  function ModelBadge(m: Meta, ms: seq<Metadata.ModelEntry>): (r: string)
    ensures r != ""
    ensures !IsBlank(m.modelDetail) ==> r == m.modelDetail
    ensures IsBlank(m.modelDetail) ==>
      r == Metadata.ModelDisplayName(ms, Metadata.IdOf(Metadata.Entries(ms), m.model), m.modelEtc)
  {
    StripEmptyIffBlank(m.modelDetail);
    if m.modelDetail != "" && Strip(m.modelDetail) != "" then m.modelDetail
    else Metadata.ModelDisplayName(ms, Metadata.IdOf(Metadata.Entries(ms), m.model), m.modelEtc)
  }

  /** The category badge: the display name when the category resolves to
      an id, else the category as held. */
  function CategoryBadge(m: Meta, cs: seq<Metadata.Entry>): (r: string)
    ensures Metadata.IdOf(cs, m.category).None? ==> r == m.category
    ensures Metadata.IdOf(cs, m.category).Some? ==> r == Metadata.CategoryDisplayName(cs, Metadata.IdOf(cs, m.category).value, m.categoryEtc)
  {
    var id := Metadata.IdOf(cs, m.category);
    if id.Some? then Metadata.CategoryDisplayName(cs, id.value, m.categoryEtc) else m.category
  }

  /** A model picked by its unique name on a table with unique names and
      non-zero ids shows that name on its badge, unless it is "기타" with
      free text, which shows the free text. */
  lemma BadgeShowsPickedModel(m: Meta, ms: seq<Metadata.ModelEntry>, i: nat)
    requires Metadata.UniqueIds(Metadata.Entries(ms)) && Metadata.UniqueNames(Metadata.Entries(ms)) && Metadata.NonZeroIds(Metadata.Entries(ms))
    requires i < |ms| && ms[i].name != "" && m.model == ms[i].name && IsBlank(m.modelDetail)
    ensures m.model != Domain.Other || m.modelEtc == "" ==> ModelBadge(m, ms) == m.model
    ensures m.model == Domain.Other && m.modelEtc != "" ==> ModelBadge(m, ms) == m.modelEtc
  {
    var es := Metadata.Entries(ms);
    assert es[i] == Metadata.Entry(ms[i].id, ms[i].name);
    Metadata.NameIdRoundTrip(es, i, Metadata.UnknownModel);
  }
}

=== FILE: feed.dfy ===
/** The unified search endpoint (`search_posts`) and the trending model
    posts endpoint: search, then id filters, then sort. The page cut made by
    the REST framework paginator is not part of this model. */
module Feed {
  import opened Wrappers
  import opened Text
  import opened Domain
  import Search
  import Sorting
  import TrendingMatch
  import TrendingService

  /** The query parameters; an absent `q` or id list reads as "". */
  datatype FeedRequest = FeedRequest(
    q: string, searchType: Option<string>,
    categories: string, platforms: string, models: string,
    sort: Option<string>)

  /** The integer ids of a stripped, comma separated list, or None when some
      token is not an integer (Django raises `ValueError` converting it). */
  function ParseIds(ts: seq<string>): (r: Option<seq<int>>)
    ensures r.None? <==> exists t :: t in ts && ParseInt(t).None?
    ensures r.Some? ==> forall id :: id in r.value <==> exists t :: t in ts && ParseInt(t) == Some(id)
    decreases |ts|
  {
    if |ts| == 0 then Some([])
    else
      assert ts == [ts[0]] + ts[1..];
      match ParseInt(ts[0])
      case None => None
      case Some(id) =>
        match ParseIds(ts[1..])
        case None => None
        case Some(rest) => Some([id] + rest)
  }

  /** One `<field>__in` filter over the stripped, non-blank tokens of its
      list: no filter (None) when there is none, an error when a token is
      not an integer, else the ids. */
  function IdFilterOf(ts: seq<string>): (r: Result<Option<seq<int>>>)
    ensures ts == [] ==> r == Ok(None)
    ensures r.Err? <==> exists t :: t in ts && ParseInt(t).None?
    ensures r.Ok? && r.value.Some? ==> ts != []
    ensures r.Ok? && r.value.Some? ==> forall id :: id in r.value.value <==> exists t :: t in ts && ParseInt(t) == Some(id)
  {
    if ts == [] then Ok(None)
    else
      match ParseIds(ts)
      case None => Err("invalid id")
      case Some(ids) => Ok(Some(ids))
  }

  function IdFilter(value: string): Result<Option<seq<int>>> {
    IdFilterOf(Tokens(value, ','))
  }

  predicate Admits(f: Option<seq<int>>, id: int) { f.None? || id in f.value }

  predicate ModelAdmits(f: Option<seq<int>>, p: Post) {
    f.None? || (p.model.Some? && p.model.value.id in f.value)
  }

  /** The three id filters, AND-ed; no "기타" special case here. */
  predicate PassesIds(cf: Option<seq<int>>, pf: Option<seq<int>>, mf: Option<seq<int>>, p: Post) {
    Admits(cf, p.category.id) && Admits(pf, p.platform.id) && ModelAdmits(mf, p)
  }

  /** A post is in the unified search result. */
  predicate Selected(req: FeedRequest, cf: Option<seq<int>>, pf: Option<seq<int>>, mf: Option<seq<int>>, p: Post) {
    (req.q == "" || Search.InScope(Search.ResolveScope(Some(req.searchType.GetOr("all"))), p, req.q))
    && PassesIds(cf, pf, mf, p)
  }

  function SortKeyOf(req: FeedRequest): string { req.sort.GetOr("latest") }

  /** `search_posts` before the page cut: an error when an id list holds a
      non-integer; otherwise the matching posts, each once per occurrence
      in the input, in the requested order. */
  function SearchFeed(posts: seq<Post>, req: FeedRequest): (r: Result<seq<Post>>)
    ensures r.Err? <==> IdFilter(req.categories).Err? || IdFilter(req.platforms).Err? || IdFilter(req.models).Err?
    ensures r.Ok? ==> multiset(r.value) <= multiset(posts)
    ensures r.Ok? ==> forall p :: p in r.value <==>
      p in posts && Selected(req, IdFilter(req.categories).value, IdFilter(req.platforms).value, IdFilter(req.models).value, p)
    ensures r.Ok? ==> forall i, j :: 0 <= i < j < |r.value| ==>
      Sorting.Before(Sorting.ResolveSort(SortKeyOf(req)), r.value[i], r.value[j])
  {
    var cf, pf, mf := IdFilter(req.categories), IdFilter(req.platforms), IdFilter(req.models);
    if cf.Err? || pf.Err? || mf.Err? then Err("invalid id")
    else Ok(Stages(posts, req, cf.value, pf.value, mf.value))
  }

  /** Search, then the id filters, then the sort. */
  function Stages(posts: seq<Post>, req: FeedRequest, cf: Option<seq<int>>, pf: Option<seq<int>>, mf: Option<seq<int>>): (r: seq<Post>)
    ensures multiset(r) <= multiset(posts)
    ensures forall p :: p in r <==> p in posts && Selected(req, cf, pf, mf, p)
    ensures forall i, j :: 0 <= i < j < |r| ==> Sorting.Before(Sorting.ResolveSort(SortKeyOf(req)), r[i], r[j])
  {
    var searched := Search.SearchPosts(posts, req.q, Some(req.searchType.GetOr("all")));
    var filtered := Where(searched, (p: Post) => PassesIds(cf, pf, mf, p));
    var r := Sorting.SortPosts(filtered, SortKeyOf(req));
    SamePosts(r, filtered);
    WhereWithin(searched, posts, (p: Post) => PassesIds(cf, pf, mf, p));
    r
  }

  lemma SamePosts(a: seq<Post>, b: seq<Post>)
    requires multiset(a) == multiset(b)
    ensures forall p :: p in a <==> p in b
  {
    forall p ensures p in a <==> p in b {
      assert p in a <==> p in multiset(a);
      assert p in b <==> p in multiset(b);
    }
  }

  lemma WhereWithin(s: seq<Post>, t: seq<Post>, keep: Post -> bool)
    requires multiset(s) <= multiset(t)
    ensures multiset(Where(s, keep)) <= multiset(t)
  {
  }

  /** Without a query and without id lists the endpoint lists every post. */
  lemma EmptyRequestListsAll(posts: seq<Post>, searchType: Option<string>, sort: Option<string>)
    ensures var r := SearchFeed(posts, FeedRequest("", searchType, "", "", "", sort));
      r.Ok? && multiset(r.value) == multiset(posts)
  {
    var req := FeedRequest("", searchType, "", "", "", sort);
    assert Tokens("", ',') == [] by { BlankHasNoTokens("", ','); }
    var filtered := Where(posts, (p: Post) => PassesIds(None, None, None, p));
    WhereAll(posts, (p: Post) => PassesIds(None, None, None, p));
  }

  /** A blank id list adds no condition: the result is the one without it. */
  lemma BlankIdListIsNoFilter(posts: seq<Post>, req: FeedRequest)
    requires IsBlank(req.categories)
    ensures SearchFeed(posts, req) == SearchFeed(posts, req.(categories := ""))
  {
    BlankHasNoTokens(req.categories, ',');
    BlankHasNoTokens("", ',');
  }

  /** Adding a condition on another dimension narrows the result: the id
      filters combine by AND. */
  lemma IdFiltersConjoin(posts: seq<Post>, req: FeedRequest, p: Post)
    requires SearchFeed(posts, req).Ok?
    requires p in SearchFeed(posts, req).value
    ensures SearchFeed(posts, req.(models := "")).Ok?
    ensures p in SearchFeed(posts, req.(models := "")).value
  {
    var req2 := req.(models := "");
    var cf, pf, mf := IdFilter(req.categories).value, IdFilter(req.platforms).value, IdFilter(req.models).value;
    assert IdFilter(req2.models) == Ok(None) by { BlankHasNoTokens("", ','); }
    assert SearchFeed(posts, req) == Ok(Stages(posts, req, cf, pf, mf));
    assert SearchFeed(posts, req2) == Ok(Stages(posts, req2, cf, pf, None));
    assert p in posts && Selected(req, cf, pf, mf, p);
    assert Selected(req2, cf, pf, None, p);
  }

  /** `get_trending_model_posts` before the page cut: not found (None)
      exactly when there is no model info for the name; otherwise the
      related posts in the requested order. */
  function TrendingModelPosts(cats: seq<TrendingMatch.TrendingCategory>, rankings: seq<TrendingMatch.Ranking>,
                              name: string, models: seq<AiModel>, platforms: seq<Platform>,
                              posts: seq<Post>, sort: Option<string>): (r: Option<seq<Post>>)
    ensures r.None? <==> TrendingService.TrendingModelInfo(cats, rankings, name, models, platforms, posts).None?
    ensures r.Some? ==> multiset(r.value) == multiset(TrendingService.RelatedPosts(cats, rankings, name, posts))
    ensures r.Some? ==> forall i, j :: 0 <= i < j < |r.value| ==>
      Sorting.Before(Sorting.ResolveSort(sort.GetOr("latest")), r.value[i], r.value[j])
  {
    if TrendingService.TrendingModelInfo(cats, rankings, name, models, platforms, posts).None? then None
    else Some(Sorting.SortPosts(TrendingService.RelatedPosts(cats, rankings, name, posts), sort.GetOr("latest")))
  }
}

=== FILE: filterpanel.dfy ===
/** The staged filter panel of the community page
    (`components/community/community-action.tsx`): category and model ids
    are ticked in a staging area and only sent on "apply", except that
    "clear all" is sent at once. Ids are the strings the panel uses. */
module FilterPanel {
  import opened Wrappers
  import opened Domain
  import TagEdit

  /** A model as the panel sees it: its id and, if known, its platform's. */
  datatype ModelRef = ModelRef(id: string, platform: Option<string>)

  /** The staging area: the platform whose models are unfolded, and the
      ticked category and model ids. */
  datatype Staging = Staging(current: Option<string>, categories: seq<string>, models: seq<string>)

  /** What the panel reports to the page. */
  datatype Filters = Filters(categories: seq<string>, platforms: seq<string>, models: seq<string>)

  /** Opening the panel copies the applied filters into the staging area. */
  function OpenPanel(s: Staging, selectedCategories: seq<string>, selectedModels: seq<string>): (r: Staging)
    ensures r.categories == selectedCategories && r.models == selectedModels && r.current == s.current
  {
    s.(categories := selectedCategories, models := selectedModels)
  }

  /** `prev.includes(id) ? prev.filter(x => x !== id) : [...prev, id]`. */
  function Toggle(ids: seq<string>, id: string): (r: seq<string>)
    ensures id in ids ==> id !in r && forall x :: x in r <==> x in ids && x != id
    ensures id in ids ==> multiset(r) == multiset(ids)[id := 0]
    ensures id !in ids ==> r == ids + [id]
  {
    if id in ids then
      TagEdit.RemoveValueCounts(ids, id);
      TagEdit.RemoveValue(ids, id)
    else ids + [id]
  }

  /** Toggling twice ticks the same ids as before; when the id was not
      ticked it gives back the very same list. */
  lemma ToggleTwice(ids: seq<string>, id: string)
    ensures forall x :: x in Toggle(Toggle(ids, id), id) <==> x in ids
    ensures id !in ids ==> Toggle(Toggle(ids, id), id) == ids
  {
    if id !in ids {
      TagEdit.RemoveValueAppend(ids, id);
    }
  }

  /** Unticking an id that is ticked once leaves the other ids in their
      order. */
  lemma ToggleOffKeepsOrder(before: seq<string>, id: string, after: seq<string>)
    requires id !in before && id !in after
    ensures Toggle(before + [id] + after, id) == before + after
  {
    assert (before + [id] + after)[|before|] == id;
    TagEdit.RemoveValueOnce(before, id, after);
  }

  /** Clicking a platform unfolds it, or folds it when it is the open one. */
  function TogglePlatform(s: Staging, platformId: string): (r: Staging)
    ensures s.current == Some(platformId) ==> r.current.None?
    ensures s.current != Some(platformId) ==> r.current == Some(platformId)
    ensures r.categories == s.categories && r.models == s.models
  {
    s.(current := if s.current == Some(platformId) then None else Some(platformId))
  }

  /** A platform is unfolded (an empty id is falsy in the source). */
  predicate IsOpen(s: Staging) {
    s.current.Some? && s.current.value != ""
  }

  /** Ticking a model does nothing while no platform is unfolded. */
  function ToggleModel(s: Staging, id: string): (r: Staging)
    ensures !IsOpen(s) ==> r == s
    ensures IsOpen(s) ==> r == s.(models := Toggle(s.models, id))
  {
    if !IsOpen(s) then s else s.(models := Toggle(s.models, id))
  }

  /** "Clear all": everything is unticked and folded, and all-empty
      filters are reported at once. */
  function ClearAll(s: Staging): (r: (Staging, Filters))
    ensures r.0.current.None? && r.0.categories == [] && r.0.models == []
    ensures r.1.categories == [] && r.1.platforms == [] && r.1.models == []
  {
    (Staging(None, [], []), Filters([], [], []))
  }

  /** "Apply": the staged categories and models, with the page's platform
      selection passed through unchanged. */
  function Apply(s: Staging, selectedPlatforms: seq<string>): (r: Filters)
    ensures r.categories == s.categories && r.models == s.models && r.platforms == selectedPlatforms
  {
    Filters(s.categories, selectedPlatforms, s.models)
  }

  // ---------------------------------------------------------------------
  // Select-all
  // ---------------------------------------------------------------------

  /** Every category counts as ticked when there are categories and the
      staged list is as long as theirs. */
  predicate AllCategoriesSelected(categoryIds: seq<string>, s: Staging) {
    |categoryIds| > 0 && |s.categories| == |categoryIds|
  }

  /** The category select-all: untick all when all are ticked, else tick
      exactly the known categories. */
  function ToggleAllCategories(s: Staging, categoryIds: seq<string>): (r: Staging)
    ensures AllCategoriesSelected(categoryIds, s) ==> r.categories == []
    ensures !AllCategoriesSelected(categoryIds, s) ==> r.categories == categoryIds
    ensures r.models == s.models && r.current == s.current
  {
    if AllCategoriesSelected(categoryIds, s) then s.(categories := []) else s.(categories := categoryIds)
  }

  /** With categories known, pressing the category select-all twice from a
      partial selection ticks all and then none. */
  lemma CategorySelectAllTwice(s: Staging, categoryIds: seq<string>)
    requires |categoryIds| > 0 && !AllCategoriesSelected(categoryIds, s)
    ensures AllCategoriesSelected(categoryIds, ToggleAllCategories(s, categoryIds))
    ensures ToggleAllCategories(ToggleAllCategories(s, categoryIds), categoryIds).categories == []
  {
  }

  /** The "all platforms" box counts as ticked when there are platforms
      and models and as many ids are ticked as there are models. */
  predicate AllPlatformsSelected(platformCount: nat, ms: seq<ModelRef>, s: Staging) {
    platformCount > 0 && |ms| > 0 && |s.models| == |ms|
  }

  /** The "all platforms" box: untick every model, or tick every model. */
  function ToggleAllPlatforms(s: Staging, platformCount: nat, ms: seq<ModelRef>): (r: Staging)
    ensures AllPlatformsSelected(platformCount, ms, s) ==> r.models == []
    ensures !AllPlatformsSelected(platformCount, ms, s) ==> r.models == IdsOf(ms)
    ensures r.categories == s.categories && r.current == s.current
  {
    if AllPlatformsSelected(platformCount, ms, s) then s.(models := []) else s.(models := IdsOf(ms))
  }

  /** With platforms and models known, the box ticks every model and a
      second press unticks them all. */
  lemma PlatformSelectAllTwice(s: Staging, platformCount: nat, ms: seq<ModelRef>)
    requires platformCount > 0 && |ms| > 0 && !AllPlatformsSelected(platformCount, ms, s)
    ensures forall m :: m in ms ==> m.id in ToggleAllPlatforms(s, platformCount, ms).models
    ensures ToggleAllPlatforms(ToggleAllPlatforms(s, platformCount, ms), platformCount, ms).models == []
  {
    var r := ToggleAllPlatforms(s, platformCount, ms);
    forall m | m in ms ensures m.id in r.models {
      var i :| 0 <= i < |ms| && ms[i] == m;
      assert r.models[i] == m.id;
    }
  }

  /** `models.find(m => m.id.toString() === id)`. */
  function Find(ms: seq<ModelRef>, id: string): (r: Option<ModelRef>)
    ensures r.None? <==> forall j :: 0 <= j < |ms| ==> ms[j].id != id
    ensures r.Some? ==> r.value in ms && r.value.id == id
    ensures forall i :: 0 <= i < |ms| && ms[i].id == id && (forall j :: 0 <= j < i ==> ms[j].id != id) ==> r == Some(ms[i])
    decreases |ms|
  {
    if |ms| == 0 then None
    else if ms[0].id == id then Some(ms[0])
    else
      var rest := Find(ms[1..], id);
      assert forall i :: 1 <= i < |ms| ==> ms[i] == ms[1..][i - 1];
      rest
  }

  /** The ticked id is a known model of platform `p`. */
  predicate OnPlatform(ms: seq<ModelRef>, p: string, id: string) {
    var m := Find(ms, id);
    m.Some? && m.value.platform == Some(p)
  }

  /** The ticked id is a known model of some other platform (or of none). */
  predicate OffPlatform(ms: seq<ModelRef>, p: string, id: string) {
    var m := Find(ms, id);
    m.Some? && m.value.platform != Some(p)
  }

  /** The models of platform `p`. */
  function PlatformModels(ms: seq<ModelRef>, p: string): (r: seq<ModelRef>)
    ensures forall m :: m in r <==> m in ms && m.platform == Some(p)
  {
    Where(ms, (m: ModelRef) => m.platform == Some(p))
  }

  /** Their ids, in order. */
  function IdsOf(ms: seq<ModelRef>): (r: seq<string>)
    ensures |r| == |ms| && forall i :: 0 <= i < |ms| ==> r[i] == ms[i].id
  {
    seq(|ms|, i requires 0 <= i < |ms| => ms[i].id)
  }

  /** The ticked ids that are known models of other platforms. */
  function OtherModels(s: Staging, ms: seq<ModelRef>, p: string): (r: seq<string>)
    ensures forall x :: x in r <==> x in s.models && OffPlatform(ms, p, x)
  {
    Where(s.models, (x: string) => OffPlatform(ms, p, x))
  }

  /** Every model of the unfolded platform is ticked, counted as the
      source counts it. */
  predicate AllModelsSelected(s: Staging, ms: seq<ModelRef>) {
    IsOpen(s) && |ms| > 0 &&
    var p := s.current.value;
    |PlatformModels(ms, p)| > 0 && |Where(s.models, (x: string) => OnPlatform(ms, p, x))| == |PlatformModels(ms, p)|
  }

  /** The model select-all of the unfolded platform: when all its models
      are ticked they are unticked, otherwise all of them are ticked once;
      either way the ticked models of other platforms stay. Ticked ids that
      match no known model are dropped. */
  function ToggleAllModels(s: Staging, ms: seq<ModelRef>): (r: Staging)
    ensures !IsOpen(s) || |ms| == 0 ==> r == s
    ensures IsOpen(s) && |ms| > 0 ==> forall x :: x in s.models && OffPlatform(ms, s.current.value, x) ==> x in r.models
    ensures IsOpen(s) && |ms| > 0 && AllModelsSelected(s, ms) ==> forall x :: x in r.models ==> OffPlatform(ms, s.current.value, x)
    ensures IsOpen(s) && |ms| > 0 && !AllModelsSelected(s, ms) ==>
      forall m :: m in ms && m.platform == s.current ==> m.id in r.models
    ensures IsOpen(s) && |ms| > 0 && !AllModelsSelected(s, ms) ==>
      forall x :: x in r.models ==> OffPlatform(ms, s.current.value, x) || exists m :: m in ms && m.platform == s.current && m.id == x
    ensures r.current == s.current && r.categories == s.categories
  {
    if !IsOpen(s) || |ms| == 0 then s
    else
      var p := s.current.value;
      var others := OtherModels(s, ms, p);
      if AllModelsSelected(s, ms) then s.(models := others)
      else
        var added := IdsOf(PlatformModels(ms, p));
        assert forall m :: m in ms && m.platform == s.current ==> m.id in added by {
          forall m | m in ms && m.platform == s.current ensures m.id in added {
            var pm := PlatformModels(ms, p);
            var i :| 0 <= i < |pm| && pm[i] == m;
            assert added[i] == m.id;
          }
        }
        s.(models := others + added)
  }

  /** Model ids are unique. */
  predicate UniqueIds(ms: seq<ModelRef>) {
    forall i, j :: 0 <= i < j < |ms| ==> ms[i].id != ms[j].id
  }

  /** With unique model ids, ticking all of a platform's models and then
      pressing select-all again leaves exactly the other platforms' known
      models that were ticked before. */
  lemma SelectAllThenDeselect(s: Staging, ms: seq<ModelRef>)
    requires UniqueIds(ms) && IsOpen(s)
    requires |PlatformModels(ms, s.current.value)| > 0
    requires !AllModelsSelected(s, ms)
    ensures var once := ToggleAllModels(s, ms);
      AllModelsSelected(once, ms) && ToggleAllModels(once, ms).models == OtherModels(s, ms, s.current.value)
  {
    var p := s.current.value;
    var others := OtherModels(s, ms, p);
    var added := IdsOf(PlatformModels(ms, p));
    var once := ToggleAllModels(s, ms);
    assert once.models == others + added;
    AddedAreOnPlatform(ms, p);
    OnCount(others, added, ms, p);
    assert AllModelsSelected(once, ms);
    OffKept(others, added, ms, p);
  }

  /** With unique ids, every model id of platform `p` is found on `p`. */
  lemma AddedAreOnPlatform(ms: seq<ModelRef>, p: string)
    requires UniqueIds(ms)
    ensures forall x :: x in IdsOf(PlatformModels(ms, p)) ==> OnPlatform(ms, p, x) && !OffPlatform(ms, p, x)
  {
    var pm := PlatformModels(ms, p);
    var added := IdsOf(pm);
    forall x | x in added ensures OnPlatform(ms, p, x) && !OffPlatform(ms, p, x) {
      var k :| 0 <= k < |added| && added[k] == x;
      assert pm[k] in ms && pm[k].platform == Some(p);
      var i :| 0 <= i < |ms| && ms[i] == pm[k];
      assert Find(ms, x) == Some(ms[i]);
    }
  }

  lemma OnCount(others: seq<string>, added: seq<string>, ms: seq<ModelRef>, p: string)
    requires forall x :: x in others ==> OffPlatform(ms, p, x)
    requires forall x :: x in added ==> OnPlatform(ms, p, x)
    ensures |Where(others + added, (x: string) => OnPlatform(ms, p, x))| == |added|
  {
    WhereConcat(others, added, (x: string) => OnPlatform(ms, p, x));
    WhereNone(others, (x: string) => OnPlatform(ms, p, x));
    WhereAll(added, (x: string) => OnPlatform(ms, p, x));
  }

  lemma OffKept(others: seq<string>, added: seq<string>, ms: seq<ModelRef>, p: string)
    requires forall x :: x in others ==> OffPlatform(ms, p, x)
    requires forall x :: x in added ==> !OffPlatform(ms, p, x)
    ensures Where(others + added, (x: string) => OffPlatform(ms, p, x)) == others
  {
    WhereConcat(others, added, (x: string) => OffPlatform(ms, p, x));
    WhereAll(others, (x: string) => OffPlatform(ms, p, x));
    WhereNone(added, (x: string) => OffPlatform(ms, p, x));
  }
}

=== FILE: filters.dfy ===
/** `PostFilter.categories_filter` and `PostFilter.models_filter`: comma
    separated id lists turned into an OR of per-id conditions, where the
    "기타" (Other) category or model only matches posts that filled in its
    free-text field. Unparsable or unknown ids are skipped. */
module Filters {
  import opened Wrappers
  import opened Text
  import opened Domain

  /** One disjunct of the `Q()` the filter builds. */
  datatype Cond =
    | CategoryIs(categoryId: int)
    | CategoryWithEtc(categoryId: int)
    | ModelIs(modelId: int)
    | ModelWithEtc(modelId: int)

  predicate Holds(c: Cond, p: Post) {
    match c
    case CategoryIs(id) => p.category.id == id
    case CategoryWithEtc(id) => p.category.id == id && p.categoryEtc != ""
    case ModelIs(id) => p.model.Some? && p.model.value.id == id
    case ModelWithEtc(id) => p.model.Some? && p.model.value.id == id && p.modelEtc != ""
  }

  predicate AnyHolds(cs: seq<Cond>, p: Post) {
    exists c :: c in cs && Holds(c, p)
  }

  /** `Category.objects.get(id=...)` over the category table. */
  function FindCategory(table: seq<Category>, id: int): (r: Option<Category>)
    ensures r.Some? ==> r.value in table && r.value.id == id
    ensures r.None? ==> forall c :: c in table ==> c.id != id
  {
    if |table| == 0 then None
    else if table[0].id == id then Some(table[0])
    else FindCategory(table[1..], id)
  }

  /** `AiModel.objects.get(id=...)` over the model table. */
  function FindModel(table: seq<AiModel>, id: int): (r: Option<AiModel>)
    ensures r.Some? ==> r.value in table && r.value.id == id
    ensures r.None? ==> forall m :: m in table ==> m.id != id
  {
    if |table| == 0 then None
    else if table[0].id == id then Some(table[0])
    else FindModel(table[1..], id)
  }

  /** The condition one category id token contributes, if any. */
  function CategoryCond(table: seq<Category>, token: string): Option<Cond> {
    match ParseInt(token)
    case None => None
    case Some(id) =>
      match FindCategory(table, id)
      case None => None
      case Some(c) => Some(if c.name == Other then CategoryWithEtc(id) else CategoryIs(id))
  }

  /** The condition one model id token contributes, if any. Ordinary models
      match on `model_id`; the source's extra disjunct
      `model_id == id and model_detail is not null` implies the first one
      and adds nothing. */
  function ModelCond(table: seq<AiModel>, token: string): Option<Cond> {
    match ParseInt(token)
    case None => None
    case Some(id) =>
      match FindModel(table, id)
      case None => None
      case Some(m) => Some(if m.name == Other then ModelWithEtc(id) else ModelIs(id))
  }

  /** The conditions the valid tokens contribute, in token order. */
  function CondsOf(ts: seq<string>, f: string -> Option<Cond>): (cs: seq<Cond>)
    ensures forall c :: c in cs <==> exists t :: t in ts && f(t) == Some(c)
    ensures cs == [] <==> forall t :: t in ts ==> f(t).None?
    decreases |ts|
  {
    if |ts| == 0 then []
    else
      assert ts == [ts[0]] + ts[1..];
      var rest := CondsOf(ts[1..], f);
      var r := (if f(ts[0]).Some? then [f(ts[0]).value] else []) + rest;
      assert rest != [] ==> rest[0] in r;
      r
  }

  function CategoryConds(table: seq<Category>, value: string): seq<Cond> {
    CondsOf(Tokens(value, ','), t => CategoryCond(table, t))
  }

  function ModelConds(table: seq<AiModel>, value: string): seq<Cond> {
    CondsOf(Tokens(value, ','), t => ModelCond(table, t))
  }

  /** Keep the posts some condition accepts; no condition at all leaves the
      queryset unchanged (`filter(conditions) if conditions else queryset`). */
  function ApplyConds(ps: seq<Post>, cs: seq<Cond>): (r: seq<Post>)
    ensures cs == [] ==> r == ps
    ensures cs != [] ==> forall p :: p in r <==> p in ps && AnyHolds(cs, p)
    ensures multiset(r) <= multiset(ps)
  {
    if cs == [] then ps else Where(ps, p => AnyHolds(cs, p))
  }

  /** `categories_filter`. */
  function CategoriesFilter(ps: seq<Post>, table: seq<Category>, value: string): (r: seq<Post>)
    ensures multiset(r) <= multiset(ps)
    ensures Tokens(value, ',') == [] ==> r == ps
  {
    ApplyConds(ps, CategoryConds(table, value))
  }

  /** `models_filter`. */
  function ModelsFilter(ps: seq<Post>, table: seq<AiModel>, value: string): (r: seq<Post>)
    ensures multiset(r) <= multiset(ps)
    ensures Tokens(value, ',') == [] ==> r == ps
  {
    ApplyConds(ps, ModelConds(table, value))
  }

  /** A token selects a post for the category filter: it names an existing
      category, and the post is in it (with a non-empty `category_etc` when
      that category is "기타"). */
  ghost predicate CategoryTokenSelects(table: seq<Category>, token: string, p: Post) {
    exists id, c :: ParseInt(token) == Some(id) && FindCategory(table, id) == Some(c)
      && p.category.id == id && (c.name == Other ==> p.categoryEtc != "")
  }

  ghost predicate ModelTokenSelects(table: seq<AiModel>, token: string, p: Post) {
    exists id, m :: ParseInt(token) == Some(id) && FindModel(table, id) == Some(m)
      && p.model.Some? && p.model.value.id == id && (m.name == Other ==> p.modelEtc != "")
  }

  lemma CategoryCondMeaning(table: seq<Category>, token: string, p: Post)
    ensures (exists c :: CategoryCond(table, token) == Some(c) && Holds(c, p))
      <==> CategoryTokenSelects(table, token, p)
  {
    if CategoryTokenSelects(table, token, p) {
      var id, c :| ParseInt(token) == Some(id) && FindCategory(table, id) == Some(c)
        && p.category.id == id && (c.name == Other ==> p.categoryEtc != "");
      assert Holds(CategoryCond(table, token).value, p);
    }
    if exists k :: CategoryCond(table, token) == Some(k) && Holds(k, p) {
      var k :| CategoryCond(table, token) == Some(k) && Holds(k, p);
      var id := ParseInt(token).value;
      var c := FindCategory(table, id).value;
      assert p.category.id == id && (c.name == Other ==> p.categoryEtc != "");
    }
  }

  lemma ModelCondMeaning(table: seq<AiModel>, token: string, p: Post)
    ensures (exists c :: ModelCond(table, token) == Some(c) && Holds(c, p))
      <==> ModelTokenSelects(table, token, p)
  {
    if ModelTokenSelects(table, token, p) {
      var id, m :| ParseInt(token) == Some(id) && FindModel(table, id) == Some(m)
        && p.model.Some? && p.model.value.id == id && (m.name == Other ==> p.modelEtc != "");
      assert Holds(ModelCond(table, token).value, p);
    }
    if exists k :: ModelCond(table, token) == Some(k) && Holds(k, p) {
      var k :| ModelCond(table, token) == Some(k) && Holds(k, p);
      var id := ParseInt(token).value;
      var m := FindModel(table, id).value;
      assert p.model.Some? && p.model.value.id == id && (m.name == Other ==> p.modelEtc != "");
    }
  }

  /** A post passes the category filter when no token names a category, or
      some token selects it. */
  ghost predicate PassesCategories(table: seq<Category>, value: string, p: Post) {
    (forall t :: t in Tokens(value, ',') ==> CategoryCond(table, t).None?)
    || exists t :: t in Tokens(value, ',') && CategoryTokenSelects(table, t, p)
  }

  /** A post passes the model filter when no token names a model, or some
      token selects it. */
  ghost predicate PassesModels(table: seq<AiModel>, value: string, p: Post) {
    (forall t :: t in Tokens(value, ',') ==> ModelCond(table, t).None?)
    || exists t :: t in Tokens(value, ',') && ModelTokenSelects(table, t, p)
  }

  /** `categories_filter` keeps exactly the posts that pass it. */
  lemma CategoriesFilterKeeps(ps: seq<Post>, table: seq<Category>, value: string)
    ensures forall p :: p in CategoriesFilter(ps, table, value) <==> p in ps && PassesCategories(table, value, p)
  {
    forall p ensures p in CategoriesFilter(ps, table, value) <==> p in ps && PassesCategories(table, value, p) {
      CategoriesFilterMeaning(ps, table, value, p);
    }
  }

  /** `models_filter` keeps exactly the posts that pass it. */
  lemma ModelsFilterKeeps(ps: seq<Post>, table: seq<AiModel>, value: string)
    ensures forall p :: p in ModelsFilter(ps, table, value) <==> p in ps && PassesModels(table, value, p)
  {
    forall p ensures p in ModelsFilter(ps, table, value) <==> p in ps && PassesModels(table, value, p) {
      ModelsFilterMeaning(ps, table, value, p);
    }
  }

  /** The category filter keeps exactly the posts some valid token selects,
      unless no token is valid, in which case it keeps everything. */
  lemma CategoriesFilterMeaning(ps: seq<Post>, table: seq<Category>, value: string, p: Post)
    ensures var ts := Tokens(value, ',');
      var valid := exists t :: t in ts && CategoryCond(table, t).Some?;
      && (!valid ==> CategoriesFilter(ps, table, value) == ps)
      && (valid ==> (p in CategoriesFilter(ps, table, value) <==>
            p in ps && exists t :: t in ts && CategoryTokenSelects(table, t, p)))
  {
    var ts := Tokens(value, ',');
    var cs := CategoryConds(table, value);
    if AnyHolds(cs, p) {
      var c :| c in cs && Holds(c, p);
      var t :| t in ts && CategoryCond(table, t) == Some(c);
      CategoryCondMeaning(table, t, p);
    }
    if exists t :: t in ts && CategoryTokenSelects(table, t, p) {
      var t :| t in ts && CategoryTokenSelects(table, t, p);
      CategoryCondMeaning(table, t, p);
    }
  }

  /** The model filter keeps exactly the posts some valid token selects,
      unless no token is valid, in which case it keeps everything. */
  lemma ModelsFilterMeaning(ps: seq<Post>, table: seq<AiModel>, value: string, p: Post)
    ensures var ts := Tokens(value, ',');
      var valid := exists t :: t in ts && ModelCond(table, t).Some?;
      && (!valid ==> ModelsFilter(ps, table, value) == ps)
      && (valid ==> (p in ModelsFilter(ps, table, value) <==>
            p in ps && exists t :: t in ts && ModelTokenSelects(table, t, p)))
  {
    var ts := Tokens(value, ',');
    var cs := ModelConds(table, value);
    if AnyHolds(cs, p) {
      var c :| c in cs && Holds(c, p);
      var t :| t in ts && ModelCond(table, t) == Some(c);
      ModelCondMeaning(table, t, p);
    }
    if exists t :: t in ts && ModelTokenSelects(table, t, p) {
      var t :| t in ts && ModelTokenSelects(table, t, p);
      ModelCondMeaning(table, t, p);
    }
  }
}

=== FILE: frontutils.dfy ===
/** Small pure helpers of the frontend's `lib/utils.ts`: avatar gradient
    colours, avatar initials, and the per-field messages of a validation
    error. */
module FrontUtils {
  import opened Wrappers
  import opened Text
  import Colors

  // ---------------------------------------------------------------------
  // Avatar gradient
  // ---------------------------------------------------------------------

  /** `color || default` on an optional string. */
  function OrDefault(color: Option<string>, default: string): (r: string)
    ensures color.Some? && color.value != "" ==> r == color.value
    ensures color.None? || color.value == "" ==> r == default
  {
    if color.Some? && color.value != "" then color.value else default
  }

  /** The two stops of `getAvatarGradientStyle`: a missing or empty colour
      falls back to the backend's default pair. */
  function GradientStops(color1: Option<string>, color2: Option<string>): (r: (string, string))
    ensures r.0 != "" && r.1 != ""
    ensures color1.None? || color1.value == "" ==> r.0 == Colors.DefaultFirst
    ensures color2.None? || color2.value == "" ==> r.1 == Colors.DefaultSecond
    ensures color1.Some? && color1.value != "" ==> r.0 == color1.value
    ensures color2.Some? && color2.value != "" ==> r.1 == color2.value
  {
    (OrDefault(color1, Colors.DefaultFirst), OrDefault(color2, Colors.DefaultSecond))
  }

  /** The CSS value of `getAvatarGradientStyle`. */
  function GradientStyle(color1: Option<string>, color2: Option<string>): (r: string)
    ensures var stops := GradientStops(color1, color2);
      r == "linear-gradient(135deg, " + stops.0 + " 0%, " + stops.1 + " 100%)"
  {
    var stops := GradientStops(color1, color2);
    "linear-gradient(135deg, " + stops.0 + " 0%, " + stops.1 + " 100%)"
  }

  /** The colours the backend stores for a user are never empty, so the
      frontend draws them unchanged. */
  lemma StoredColorsDrawnAsIs(email: string)
    ensures var pair := Colors.AvatarColors(email);
      GradientStops(Some(pair.0), Some(pair.1)) == pair
  {
  }

  /** With no colours at all the frontend draws the backend's defaults. */
  lemma MissingColorsAreBackendDefaults()
    ensures GradientStops(None, Some("")) == (Colors.DefaultFirst, Colors.DefaultSecond)
    ensures Colors.EmailToHexColor("") == GradientStops(None, None).0
  {
  }

  // ---------------------------------------------------------------------
  // Avatar initial
  // ---------------------------------------------------------------------

  /** `getAvatarInitialFromUsername`: the first character of the trimmed
      name, upper-cased, or the fallback when there is none. */
  function AvatarInitial(username: Option<string>, fallback: string): (r: string)
    ensures username.None? || IsBlank(username.value) ==> r == fallback
    ensures username.Some? && !IsBlank(username.value) ==>
      exists i :: 0 <= i < |username.value| && IsBlank(username.value[..i]) && !IsSpace(username.value[i]) && r == [UpperChar(username.value[i])]
  {
    if username.None? then fallback
    else
      var t := Strip(username.value);
      StripEmptyIffBlank(username.value);
      if t == "" then fallback
      else
        FirstOfStrip(username.value);
        [UpperChar(t[0])]
  }

  /** The first character of the stripped string is the first non-space
      character of the string. */
  lemma FirstOfStrip(s: string)
    requires Strip(s) != ""
    ensures exists i :: 0 <= i < |s| && IsBlank(s[..i]) && !IsSpace(s[i]) && Strip(s)[0] == s[i]
  {
    var t := TrimStart(s);
    var i := |s| - |t|;
    TrimStartDropsBlank(s);
    TrimStartIsSuffix(s);
    TrimEndIsPrefix(t);
    assert TrimEnd(t)[0] == t[0];
    assert s[i] == t[0];
  }

  // ---------------------------------------------------------------------
  // Initials
  // ---------------------------------------------------------------------

  /** `word.charAt(0)` for every word, concatenated: the empty words
      contribute nothing. */
  function FirstChars(words: seq<string>): (r: string)
    ensures |r| <= |words|
    decreases |words|
  {
    if |words| == 0 then ""
    else (if words[0] == "" then "" else [words[0][0]]) + FirstChars(words[1..])
  }

  /** The non-empty words, in order. */
  function NonEmpty(words: seq<string>): (r: seq<string>)
    ensures forall k :: 0 <= k < |r| ==> r[k] != ""
    ensures |r| <= |words|
    decreases |words|
  {
    if |words| == 0 then []
    else (if words[0] == "" then [] else [words[0]]) + NonEmpty(words[1..])
  }

  /** The concatenated first characters are exactly the first characters
      of the non-empty words. */
  lemma {:induction false} FirstCharsOfNonEmpty(words: seq<string>)
    ensures |FirstChars(words)| == |NonEmpty(words)|
    ensures forall k :: 0 <= k < |NonEmpty(words)| ==> FirstChars(words)[k] == NonEmpty(words)[k][0]
    decreases |words|
  {
    if |words| > 0 {
      FirstCharsOfNonEmpty(words[1..]);
    }
  }

  /** `getInitials`: the first characters of the space-separated words,
      upper-cased, at most two of them. */
  function Initials(name: string): (r: string)
    ensures |r| <= 2
    ensures forall k :: 0 <= k < |r| ==> !IsLower(r[k])
    ensures var words := NonEmpty(Split(name, ' '));
      |r| == Min2(|words|) && forall k :: 0 <= k < |r| ==> r[k] == UpperChar(words[k][0])
  {
    var words := Split(name, ' ');
    var firsts := Upper(FirstChars(words));
    FirstCharsOfNonEmpty(words);
    firsts[..Min2(|firsts|)]
  }

  function Min2(n: nat): nat { if n < 2 then n else 2 }

  // ---------------------------------------------------------------------
  // Field errors
  // ---------------------------------------------------------------------

  /** A field's entry in `error.errors`: a list of messages, or a value
      that is not an array. */
  datatype Messages = List(items: seq<string>) | NotList

  /** `getFieldErrors`: the fields whose messages are a non-empty list,
      each with its messages joined by ", ", in order. */
  function FieldErrors(errors: Option<seq<(string, Messages)>>): (r: seq<(string, string)>)
    ensures errors.None? ==> r == []
    ensures errors.Some? ==> |r| <= |errors.value|
    ensures forall f, m :: (f, m) in r <==> errors.Some? && Kept(errors.value, f, m)
  {
    if errors.None? then [] else KeepMessages(errors.value)
  }

  /** Field `f` has a non-empty message list that joins to `m`. */
  predicate Kept(es: seq<(string, Messages)>, f: string, m: string) {
    exists i :: 0 <= i < |es| && es[i].0 == f && es[i].1.List? && |es[i].1.items| > 0 && m == Join(es[i].1.items, ", ")
  }

  function KeepMessages(es: seq<(string, Messages)>): (r: seq<(string, string)>)
    ensures |r| <= |es|
    ensures forall f, m :: (f, m) in r <==> Kept(es, f, m)
    decreases |es|
  {
    if |es| == 0 then []
    else
      var rest := KeepMessages(es[1..]);
      KeptCons(es);
      if es[0].1.List? && |es[0].1.items| > 0 then [(es[0].0, Join(es[0].1.items, ", "))] + rest
      else rest
  }

  lemma KeptCons(es: seq<(string, Messages)>)
    requires |es| > 0
    ensures forall f, m :: Kept(es, f, m) <==> (Kept(es[1..], f, m) || (es[0].0 == f && es[0].1.List? && |es[0].1.items| > 0 && m == Join(es[0].1.items, ", ")))
  {
    forall f, m | Kept(es, f, m)
      ensures Kept(es[1..], f, m) || (es[0].0 == f && es[0].1.List? && |es[0].1.items| > 0 && m == Join(es[0].1.items, ", "))
    {
      var i :| 0 <= i < |es| && es[i].0 == f && es[i].1.List? && |es[i].1.items| > 0 && m == Join(es[i].1.items, ", ");
      if i > 0 {
        assert es[1..][i - 1] == es[i];
      }
    }
    forall f, m | Kept(es[1..], f, m) ensures Kept(es, f, m) {
      var i :| 0 <= i < |es[1..]| && es[1..][i].0 == f && es[1..][i].1.List? && |es[1..][i].1.items| > 0 && m == Join(es[1..][i].1.items, ", ");
      assert es[i + 1] == es[1..][i];
    }
  }
}

=== FILE: goback.dfy ===
/** The "목록으로" button (`components/common/go-back-button.tsx`): which
    list page one click goes back to. The browser's parse of the referrer
    into a path is an input. */
module GoBack {
  import opened Wrappers
  import opened Text

  /** The tokens that name a list page. */
  const ListPages: seq<string> := ["community", "trending", "bookmarks", "profile"]

  const DefaultFallback: string := "/community"

  predicate IsListPath(p: string) {
    p == "/community" || p == "/trending" || p == "/bookmarks" || p == "/profile"
  }

  /** Everything the click reads: the `fromPage` prop, the `from` query
      parameter, the stored `fromPage`, the current path and origin, and
      `document.referrer` with the path the browser parses from it. */
  datatype Context = Context(
    fromPage: Option<string>,
    fromParam: Option<string>,
    stored: Option<string>,
    currentPath: string,
    origin: string,
    referrer: string,
    referrerPath: string)

  /** One `switch` over a token: a list page's name goes there; a missing,
      empty or other token falls through. */
  function TokenRoute(token: Option<string>): (r: Option<string>)
    ensures r.Some? <==> token.Some? && token.value in ListPages
    ensures r.Some? ==> r.value == "/" + token.value && IsListPath(r.value)
  {
    if token.Some? && token.value in ListPages then Some("/" + token.value) else None
  }

  /** The referrer's path when it is one of the list pages. */
  function ListPath(path: string): (r: Option<string>)
    ensures r.Some? <==> IsListPath(path)
    ensures r.Some? ==> r.value == path
  {
    if IsListPath(path) then Some(path) else None
  }

  /** The step for a post page: a same-origin referrer (a prefix test on
      the referrer text) whose path is a list page. */
  function PostDetailRoute(c: Context): (r: Option<string>)
    ensures r.Some? <==> StartsWith(c.currentPath, "/post/") && StartsWith(c.referrer, c.origin) && IsListPath(c.referrerPath)
    ensures r.Some? ==> r.value == c.referrerPath
  {
    if StartsWith(c.currentPath, "/post/") && StartsWith(c.referrer, c.origin) then ListPath(c.referrerPath)
    else None
  }

  /** The step for an edit page. When the referrer is a post page, it
      meant to look one page further back, but reads the same referrer
      again, so that inner test sees a `/post/` path and never matches. */
  function EditPostRoute(c: Context): (r: Option<string>)
    ensures r.Some? ==> StartsWith(c.currentPath, "/edit-post/") && StartsWith(c.referrer, c.origin) && r.value == c.referrerPath
  {
    if StartsWith(c.currentPath, "/edit-post/") && StartsWith(c.referrer, c.origin) then
      var inner := if StartsWith(c.referrerPath, "/post/") && StartsWith(c.referrer, c.origin)
        then ListPath(c.referrerPath) else None;
      if inner.Some? then inner else ListPath(c.referrerPath)
    else None
  }

  /** The re-read referrer never answers: the edit page's route is just
      its referrer's path when that is a list page. */
  lemma EditPostInnerNeverMatches(c: Context)
    ensures EditPostRoute(c).Some? <==>
      StartsWith(c.currentPath, "/edit-post/") && StartsWith(c.referrer, c.origin) && IsListPath(c.referrerPath)
  {
    PostPathIsNotAList(c.referrerPath);
  }

  lemma PostPathIsNotAList(p: string)
    ensures StartsWith(p, "/post/") ==> !IsListPath(p)
  {
    if StartsWith(p, "/post/") {
      assert p[..6] == "/post/";
      assert p[1] == 'p' && p[2] == 'o';
    }
  }

  /** `handleGoBack`: the first source that names a list page wins, in the
      order prop, query parameter, stored value, referrer; otherwise the
      fallback path ("/community" unless given). */
  function GoBack(c: Context, fallback: Option<string>): (route: string)
    ensures TokenRoute(c.fromPage).Some? ==> route == TokenRoute(c.fromPage).value
    ensures TokenRoute(c.fromPage).None? && TokenRoute(c.fromParam).Some? ==> route == TokenRoute(c.fromParam).value
    ensures TokenRoute(c.fromPage).None? && TokenRoute(c.fromParam).None? && TokenRoute(c.stored).Some? ==>
      route == TokenRoute(c.stored).value
    ensures IsListPath(route) || route == fallback.GetOr(DefaultFallback)
  {
    var steps := [TokenRoute(c.fromPage), TokenRoute(c.fromParam), TokenRoute(c.stored), PostDetailRoute(c), EditPostRoute(c)];
    FirstRoute(steps, fallback.GetOr(DefaultFallback))
  }

  /** The first step that gave a route, else the fallback. */
  function FirstRoute(steps: seq<Option<string>>, fallback: string): (r: string)
    ensures (exists i :: 0 <= i < |steps| && steps[i].Some?) ==> exists i :: 0 <= i < |steps| && steps[i] == Some(r)
    ensures (forall i :: 0 <= i < |steps| ==> steps[i].None?) ==> r == fallback
    ensures |steps| > 0 && steps[0].Some? ==> r == steps[0].value
    ensures |steps| > 0 && steps[0].None? ==> r == FirstRoute(steps[1..], fallback)
  {
    if |steps| == 0 then fallback
    else if steps[0].Some? then steps[0].value
    else
      var r := FirstRoute(steps[1..], fallback);
      assert forall i :: 0 < i < |steps| ==> steps[i] == steps[1..][i - 1];
      r
  }

  /** The referrer is consulted only when no token names a list page,
      and then only a same-origin one whose path is a list page, from a
      post or edit page. */
  lemma ReferrerOnlyAsLastResort(c: Context, fallback: Option<string>)
    requires TokenRoute(c.fromPage).None? && TokenRoute(c.fromParam).None? && TokenRoute(c.stored).None?
    ensures var route := GoBack(c, fallback);
      (StartsWith(c.referrer, c.origin) && IsListPath(c.referrerPath) &&
       (StartsWith(c.currentPath, "/post/") || StartsWith(c.currentPath, "/edit-post/"))) ==> route == c.referrerPath
    ensures var route := GoBack(c, fallback);
      (!(StartsWith(c.referrer, c.origin) && IsListPath(c.referrerPath) &&
         (StartsWith(c.currentPath, "/post/") || StartsWith(c.currentPath, "/edit-post/")))) ==>
      route == fallback.GetOr(DefaultFallback)
  {
    EditPostInnerNeverMatches(c);
    var steps := [TokenRoute(c.fromPage), TokenRoute(c.fromParam), TokenRoute(c.stored), PostDetailRoute(c), EditPostRoute(c)];
    assert steps[1..][1..][1..] == [PostDetailRoute(c), EditPostRoute(c)];
    assert steps[1..][1..][1..][1..] == [EditPostRoute(c)];
  }

  /** From an edit page reached from a post page, with no tokens, the
      button always lands on the fallback. */
  lemma EditAfterPostFallsBack(c: Context, fallback: Option<string>)
    requires TokenRoute(c.fromPage).None? && TokenRoute(c.fromParam).None? && TokenRoute(c.stored).None?
    requires StartsWith(c.currentPath, "/edit-post/") && StartsWith(c.referrerPath, "/post/")
    ensures GoBack(c, fallback) == fallback.GetOr(DefaultFallback)
  {
    ReferrerOnlyAsLastResort(c, fallback);
    PostPathIsNotAList(c.referrerPath);
  }

  /** The origin test is a prefix test on the text: a referrer on another
      host whose name extends the origin passes it. */
  lemma OriginTestIsAPrefixTest()
    ensures var c := Context(None, None, None, "/post/1", "https://a.com", "https://a.com.example/trending", "/trending");
      GoBack(c, None) == "/trending"
  {
    var c := Context(None, None, None, "/post/1", "https://a.com", "https://a.com.example/trending", "/trending");
    assert StartsWith(c.currentPath, "/post/");
    assert StartsWith(c.referrer, c.origin);
    ReferrerOnlyAsLastResort(c, None);
  }
}

=== FILE: metadata.dfy ===
/** The frontend's id <-> name conversions for platforms, models and
    categories (`MetadataManager` in both `lib/utils.ts` and
    `lib/metadata-utils.ts`, and the free functions beside them) and the
    display-name rules built on them. JavaScript truthiness is written out:
    a name is falsy when it is "", an id when it is absent or 0. */
module Metadata {
  import opened Wrappers
  import opened Text
  import opened Domain

  /** A platform or category as the frontend receives it. */
  datatype Entry = Entry(id: int, name: string)

  /** A model, with the id of the platform it belongs to. */
  datatype ModelEntry = ModelEntry(id: int, name: string, platform: int)

  const UnknownPlatform: string := "알 수 없는 플랫폼"
  const UnknownModel: string := "알 수 없는 모델"
  const UnknownCategory: string := "알 수 없는 카테고리"

  /** The models seen as plain entries, for the lookups. */
  function Entries(ms: seq<ModelEntry>): (es: seq<Entry>)
    ensures |es| == |ms|
    ensures forall i :: 0 <= i < |ms| ==> es[i] == Entry(ms[i].id, ms[i].name)
  {
    seq(|ms|, i requires 0 <= i < |ms| => Entry(ms[i].id, ms[i].name))
  }

  /** A JavaScript id is truthy unless it is missing or 0. */
  predicate Truthy(id: Option<int>) {
    id.Some? && id.value != 0
  }

  // ---------------------------------------------------------------------
  // Array.find
  // ---------------------------------------------------------------------

  /** Position of the first entry with this id (`find(e => e.id === id)`). */
  function IndexOfId(es: seq<Entry>, id: int): (r: Option<nat>)
    ensures r.Some? ==> r.value < |es| && es[r.value].id == id
    ensures r.Some? ==> forall j :: 0 <= j < r.value ==> es[j].id != id
    ensures r.None? <==> forall j :: 0 <= j < |es| ==> es[j].id != id
    decreases |es|
  {
    if |es| == 0 then None
    else if es[0].id == id then Some(0)
    else
      var rest := IndexOfId(es[1..], id);
      if rest.None? then None else Some(rest.value + 1)
  }

  /** Position of the first entry with this name (`find(e => e.name === name)`). */
  function IndexOfName(es: seq<Entry>, name: string): (r: Option<nat>)
    ensures r.Some? ==> r.value < |es| && es[r.value].name == name
    ensures r.Some? ==> forall j :: 0 <= j < r.value ==> es[j].name != name
    ensures r.None? <==> forall j :: 0 <= j < |es| ==> es[j].name != name
    decreases |es|
  {
    if |es| == 0 then None
    else if es[0].name == name then Some(0)
    else
      var rest := IndexOfName(es[1..], name);
      if rest.None? then None else Some(rest.value + 1)
  }

  /** Position of the first entry with the smallest id: the head of the
      list after a stable sort by id. */
  function MinIndex(ps: seq<Entry>): (k: nat)
    requires |ps| > 0
    ensures k < |ps|
    ensures forall i :: 0 <= i < |ps| ==> ps[k].id <= ps[i].id
    ensures forall j :: 0 <= j < k ==> ps[j].id > ps[k].id
    decreases |ps|
  {
    if |ps| == 1 then 0
    else
      var rest := MinIndex(ps[1..]);
      assert forall i :: 1 <= i < |ps| ==> ps[i] == ps[1..][i - 1];
      if ps[0].id <= ps[1..][rest].id then 0 else rest + 1
  }

  // ---------------------------------------------------------------------
  // id -> name and name -> id
  // ---------------------------------------------------------------------

  /** `find(e => e.id === id)?.name || unknown`: the first entry with the id
      names it, unless that name is empty; otherwise the unknown label. */
  function NameOf(es: seq<Entry>, id: int, unknown: string): (r: string)
    ensures (forall j :: 0 <= j < |es| ==> es[j].id != id) ==> r == unknown
    ensures forall i :: 0 <= i < |es| && es[i].id == id && es[i].name != "" && (forall j :: 0 <= j < i ==> es[j].id != id) ==> r == es[i].name
    ensures r != unknown ==> exists i :: 0 <= i < |es| && es[i].id == id && es[i].name == r
    ensures unknown != "" ==> r != ""
  {
    var k := IndexOfId(es, id);
    if k.None? || es[k.value].name == "" then unknown else es[k.value].name
  }

  /** `find(e => e.name === name)?.id || null`: the first entry with the
      name gives its id, except that an id of 0 is falsy and also reads as
      `null`. */
  function IdOf(es: seq<Entry>, name: string): (r: Option<int>)
    ensures (forall j :: 0 <= j < |es| ==> es[j].name != name) ==> r.None?
    ensures forall i :: 0 <= i < |es| && es[i].name == name && (forall j :: 0 <= j < i ==> es[j].name != name) ==> (r.None? <==> es[i].id == 0)
    ensures r.Some? ==> r.value != 0 && exists i :: 0 <= i < |es| && es[i].name == name && es[i].id == r.value
  {
    var k := IndexOfName(es, name);
    if k.None? || es[k.value].id == 0 then None else Some(es[k.value].id)
  }

  /** An entry found by name whose id is 0 reads as "not found". */
  lemma ZeroIdReadsAsMissing(name: string)
    ensures IdOf([Entry(0, name)], name) == None
    ensures IdOf([Entry(7, name)], name) == Some(7)
  {
  }

  predicate UniqueIds(es: seq<Entry>) {
    forall i, j :: 0 <= i < j < |es| ==> es[i].id != es[j].id
  }

  predicate UniqueNames(es: seq<Entry>) {
    forall i, j :: 0 <= i < j < |es| ==> es[i].name != es[j].name
  }

  predicate NonZeroIds(es: seq<Entry>) {
    forall i :: 0 <= i < |es| ==> es[i].id != 0
  }

  /** With unique names and unique non-zero ids, looking a non-empty name
      up and back gives the name again. An empty name does not come back:
      it is falsy and reads as the unknown label. */
  lemma {:induction false} NameIdRoundTrip(es: seq<Entry>, i: nat, unknown: string)
    requires i < |es| && UniqueIds(es) && UniqueNames(es) && NonZeroIds(es)
    requires es[i].name != ""
    ensures IdOf(es, es[i].name) == Some(es[i].id)
    ensures NameOf(es, es[i].id, unknown) == es[i].name
  {
    FirstByName(es, i);
    FirstById(es, i);
  }

  /** With unique non-zero ids, looking an id up and back gives the id
      again when its entry has a non-empty, unique name. */
  lemma {:induction false} IdNameRoundTrip(es: seq<Entry>, id: int, unknown: string)
    requires UniqueIds(es) && UniqueNames(es) && NonZeroIds(es)
    requires exists i :: 0 <= i < |es| && es[i].id == id && es[i].name != ""
    ensures IdOf(es, NameOf(es, id, unknown)) == Some(id)
  {
    var i :| 0 <= i < |es| && es[i].id == id && es[i].name != "";
    NameIdRoundTrip(es, i, unknown);
  }

  lemma FirstByName(es: seq<Entry>, i: nat)
    requires i < |es| && UniqueNames(es)
    ensures forall j :: 0 <= j < i ==> es[j].name != es[i].name
  {
  }

  lemma FirstById(es: seq<Entry>, i: nat)
    requires i < |es| && UniqueIds(es)
    ensures forall j :: 0 <= j < i ==> es[j].id != es[i].id
  {
  }

  // ---------------------------------------------------------------------
  // Models of a platform
  // ---------------------------------------------------------------------

  /** `getModelsByPlatformId`: the models whose platform is that id, in order. */
  function ModelsOfPlatform(ms: seq<ModelEntry>, platformId: int): (r: seq<ModelEntry>)
    ensures forall m :: m in r <==> m in ms && m.platform == platformId
    ensures |r| <= |ms|
  {
    Where(ms, (m: ModelEntry) => m.platform == platformId)
  }

  /** `getModelsByPlatformName` in `metadata-utils.ts`: the name goes
      through `getPlatformId`, so an unknown platform, and also a platform
      whose id is 0, has no models. */
  function ModelsByPlatformName(platforms: seq<Entry>, ms: seq<ModelEntry>, name: string): (r: seq<ModelEntry>)
    ensures (forall j :: 0 <= j < |platforms| ==> platforms[j].name != name) ==> r == []
    ensures r != [] ==> exists i :: 0 <= i < |platforms| && platforms[i].name == name && platforms[i].id != 0 && forall m :: m in r <==> m in ms && m.platform == platforms[i].id
  {
    var pid := IdOf(platforms, name);
    if pid.None? then [] else ModelsOfPlatform(ms, pid.value)
  }

  /** `getModelsByPlatformName` in `utils.ts`: the platform is found by
      name and its id used as is, so id 0 is not lost. */
  function ModelsByPlatformNameDirect(platforms: seq<Entry>, ms: seq<ModelEntry>, name: string): (r: seq<ModelEntry>)
    ensures (forall j :: 0 <= j < |platforms| ==> platforms[j].name != name) ==> r == []
    ensures forall i :: 0 <= i < |platforms| && platforms[i].name == name && (forall j :: 0 <= j < i ==> platforms[j].name != name) ==> (forall m :: m in r <==> m in ms && m.platform == platforms[i].id)
  {
    var k := IndexOfName(platforms, name);
    if k.None? then [] else ModelsOfPlatform(ms, platforms[k.value].id)
  }

  /** The two versions differ only on a platform whose id is 0. */
  lemma PlatformLookupsAgree(platforms: seq<Entry>, ms: seq<ModelEntry>, name: string)
    requires NonZeroIds(platforms)
    ensures ModelsByPlatformName(platforms, ms, name) == ModelsByPlatformNameDirect(platforms, ms, name)
  {
  }

  // ---------------------------------------------------------------------
  // Display names, metadata-utils.ts
  // ---------------------------------------------------------------------

  /** `getModelDisplayName`: with a falsy id the free text, or "기타" when
      that is empty; with an id, the free text only for the model named
      "기타", otherwise the looked-up name (the unknown label included). */
  function ModelDisplayName(ms: seq<ModelEntry>, modelId: Option<int>, modelEtc: string): (r: string)
    ensures r != ""
    ensures !Truthy(modelId) ==> r == (if modelEtc != "" then modelEtc else Other)
    ensures Truthy(modelId) && r == modelEtc ==> NameOf(Entries(ms), modelId.value, UnknownModel) in {Other, modelEtc}
    ensures Truthy(modelId) && r != modelEtc ==> r == NameOf(Entries(ms), modelId.value, UnknownModel)
  {
    if !Truthy(modelId) then (if modelEtc != "" then modelEtc else Other)
    else
      var name := NameOf(Entries(ms), modelId.value, UnknownModel);
      if name == Other && modelEtc != "" then modelEtc else name
  }

  /** `getCategoryDisplayName`: the free text only for the category named
      "기타", otherwise the looked-up name. */
  function CategoryDisplayName(cs: seq<Entry>, categoryId: int, categoryEtc: string): (r: string)
    ensures r != ""
    ensures r == categoryEtc && r != NameOf(cs, categoryId, UnknownCategory) ==> NameOf(cs, categoryId, UnknownCategory) == Other
    ensures NameOf(cs, categoryId, UnknownCategory) != Other ==> r == NameOf(cs, categoryId, UnknownCategory)
    ensures NameOf(cs, categoryId, UnknownCategory) == Other && categoryEtc != "" ==> r == categoryEtc
  {
    var name := NameOf(cs, categoryId, UnknownCategory);
    if name == Other && categoryEtc != "" then categoryEtc else name
  }

  /** `convertIdsToNames`. */
  datatype Names = Names(platform: string, model: string, category: string)

  /** `convertNamesToIds`. */
  datatype Ids = Ids(platform: Option<int>, model: Option<int>, category: Option<int>)

  datatype Tables = Tables(platforms: seq<Entry>, models: seq<ModelEntry>, categories: seq<Entry>)

  function IdsToNames(t: Tables, platformId: int, modelId: Option<int>, categoryId: int, modelEtc: string, categoryEtc: string): (r: Names)
    ensures r.platform == NameOf(t.platforms, platformId, UnknownPlatform)
    ensures r.model == ModelDisplayName(t.models, modelId, modelEtc)
    ensures r.category == CategoryDisplayName(t.categories, categoryId, categoryEtc)
  {
    Names(NameOf(t.platforms, platformId, UnknownPlatform),
          ModelDisplayName(t.models, modelId, modelEtc),
          CategoryDisplayName(t.categories, categoryId, categoryEtc))
  }

  function NamesToIds(t: Tables, platformName: string, modelName: string, categoryName: string): (r: Ids)
    ensures r.platform == IdOf(t.platforms, platformName)
    ensures r.model == IdOf(Entries(t.models), modelName)
    ensures r.category == IdOf(t.categories, categoryName)
  {
    Ids(IdOf(t.platforms, platformName), IdOf(Entries(t.models), modelName), IdOf(t.categories, categoryName))
  }

  /** Well-formed tables: unique names and unique non-zero ids in each. */
  predicate WellFormed(t: Tables) {
    && UniqueIds(t.platforms) && UniqueNames(t.platforms) && NonZeroIds(t.platforms)
    && UniqueIds(Entries(t.models)) && UniqueNames(Entries(t.models)) && NonZeroIds(Entries(t.models))
    && UniqueIds(t.categories) && UniqueNames(t.categories) && NonZeroIds(t.categories)
  }

  /** Names shown for ids without free text convert back to the same ids,
      as long as the model and category are not "기타" and every name is
      non-empty. */
  lemma IdsNamesRoundTrip(t: Tables, p: nat, m: nat, c: nat)
    requires WellFormed(t)
    requires p < |t.platforms| && m < |t.models| && c < |t.categories|
    requires t.platforms[p].name != "" && t.models[m].name != "" && t.categories[c].name != ""
    ensures var n := IdsToNames(t, t.platforms[p].id, Some(t.models[m].id), t.categories[c].id, "", "");
      NamesToIds(t, n.platform, n.model, n.category) == Ids(Some(t.platforms[p].id), Some(t.models[m].id), Some(t.categories[c].id))
  {
    var es := Entries(t.models);
    assert es[m] == Entry(t.models[m].id, t.models[m].name);
    NameIdRoundTrip(t.platforms, p, UnknownPlatform);
    NameIdRoundTrip(es, m, UnknownModel);
    NameIdRoundTrip(t.categories, c, UnknownCategory);
  }

  // ---------------------------------------------------------------------
  // Display names, utils.ts
  // ---------------------------------------------------------------------

  /** A JavaScript string is "set" when `s && s.trim()` is truthy. */
  predicate HasText(s: string) {
    Strip(s) != ""
  }

  /** `MetadataManager.getModelDisplayName` in `utils.ts`: any non-blank
      free text wins, untrimmed; then a truthy id is looked up; otherwise
      the unknown label. */
  function LegacyModelDisplayName(ms: seq<ModelEntry>, modelId: Option<int>, modelEtc: string): (r: string)
    ensures r != ""
    ensures HasText(modelEtc) ==> r == modelEtc
    ensures !HasText(modelEtc) && !Truthy(modelId) ==> r == UnknownModel
    ensures !HasText(modelEtc) && Truthy(modelId) ==> r == NameOf(Entries(ms), modelId.value, UnknownModel)
  {
    if HasText(modelEtc) then modelEtc
    else if Truthy(modelId) then NameOf(Entries(ms), modelId.value, UnknownModel)
    else UnknownModel
  }

  /** The free function `getModelName(modelId, modelEtc, models)`: the same
      cascade, with a missing free text read as blank. */
  function GetModelName(modelId: Option<int>, modelEtc: Option<string>, ms: seq<ModelEntry>): (r: string)
    ensures modelEtc.Some? && HasText(modelEtc.value) ==> r == modelEtc.value
    ensures (modelEtc.None? || !HasText(modelEtc.value)) && !Truthy(modelId) ==> r == UnknownModel
    ensures (forall i :: 0 <= i < |ms| ==> ms[i].id != modelId.GetOr(0)) && (modelEtc.None? || !HasText(modelEtc.value)) ==> r == UnknownModel
    ensures r != UnknownModel && r != modelEtc.GetOr("") ==> exists i :: 0 <= i < |ms| && Some(ms[i].id) == modelId && ms[i].name == r
  {
    LegacyModelDisplayName(ms, modelId, modelEtc.GetOr(""))
  }

  /** `MetadataManager.getCategoryDisplayName` in `utils.ts`: any non-blank
      free text wins, untrimmed; otherwise the looked-up name. */
  function LegacyCategoryDisplayName(cs: seq<Entry>, categoryId: int, categoryEtc: string): (r: string)
    ensures r != ""
    ensures HasText(categoryEtc) ==> r == categoryEtc
    ensures !HasText(categoryEtc) ==> r == NameOf(cs, categoryId, UnknownCategory)
  {
    if HasText(categoryEtc) then categoryEtc else NameOf(cs, categoryId, UnknownCategory)
  }

  /** The free function `getCategoryName(categoryId, categoryEtc, categories)`. */
  function GetCategoryName(categoryId: int, categoryEtc: Option<string>, cs: seq<Entry>): (r: string)
    ensures categoryEtc.Some? && HasText(categoryEtc.value) ==> r == categoryEtc.value
    ensures (forall i :: 0 <= i < |cs| ==> cs[i].id != categoryId) && (categoryEtc.None? || !HasText(categoryEtc.value)) ==> r == UnknownCategory
    ensures r != UnknownCategory && r != categoryEtc.GetOr("") ==> exists i :: 0 <= i < |cs| && cs[i].id == categoryId && cs[i].name == r
  {
    LegacyCategoryDisplayName(cs, categoryId, categoryEtc.GetOr(""))
  }

  /** `getModelDisplayNameFromBackend`: a non-blank name computed by the
      backend wins; otherwise the legacy cascade. */
  function ModelDisplayNameFromBackend(ms: seq<ModelEntry>, backendName: Option<string>, modelId: Option<int>, modelEtc: Option<string>): (r: string)
    ensures r != ""
    ensures backendName.Some? && HasText(backendName.value) ==> r == backendName.value
    ensures (backendName.None? || !HasText(backendName.value)) ==> r == LegacyModelDisplayName(ms, modelId, modelEtc.GetOr(""))
  {
    if backendName.Some? && HasText(backendName.value) then backendName.value
    else LegacyModelDisplayName(ms, modelId, modelEtc.GetOr(""))
  }

  /** `getCategoryDisplayNameFromBackend`. */
  function CategoryDisplayNameFromBackend(cs: seq<Entry>, backendName: Option<string>, categoryId: int, categoryEtc: Option<string>): (r: string)
    ensures r != ""
    ensures backendName.Some? && HasText(backendName.value) ==> r == backendName.value
    ensures (backendName.None? || !HasText(backendName.value)) ==> r == LegacyCategoryDisplayName(cs, categoryId, categoryEtc.GetOr(""))
  {
    if backendName.Some? && HasText(backendName.value) then backendName.value
    else LegacyCategoryDisplayName(cs, categoryId, categoryEtc.GetOr(""))
  }

  /** The two managers disagree on free text for an ordinary model: the
      legacy one shows it, the other shows the model's name. */
  lemma ManagersDisagreeOnFreeText()
    ensures LegacyModelDisplayName([ModelEntry(1, "GPT-4o", 1)], Some(1), "mine") == "mine"
    ensures ModelDisplayName([ModelEntry(1, "GPT-4o", 1)], Some(1), "mine") == "GPT-4o"
  {
    var es := Entries([ModelEntry(1, "GPT-4o", 1)]);
    assert es[0] == Entry(1, "GPT-4o");
    assert Strip("mine") != "" by {
      assert TrimStart("mine") == "mine";
      assert TrimEnd("mine") == "mine";
    }
  }

  /** Without free text the two managers agree on a known, truthy id. */
  lemma ManagersAgreeWithoutFreeText(ms: seq<ModelEntry>, modelId: int)
    requires modelId != 0
    ensures ModelDisplayName(ms, Some(modelId), "") == LegacyModelDisplayName(ms, Some(modelId), "")
  {
  }
}

=== FILE: modelnames.dfy ===
/** The model-name table of the trending sample data
    (`sampledata/trending-data.ts`): detailed model names map to the simple
    names the rankings use, two names are the same model when they map to
    the same simple name, and a detailed name is displayed after its simple
    one. */
module ModelNames {
  import opened Text

  /** The table, entry for entry; a name that is not a key maps to itself. */
  const Mappings: map<string, string> := map[
    "Gemini 2.5 Pro Preview 06-05" := "Gemini 2.5 Pro",
    "Gemini 2.5 Pro" := "Gemini 2.5 Pro",
    "Gemini 2.5 Flash" := "Gemini 2.5 Flash",
    "Gemini 2.5 Flash-Lite" := "Gemini 2.5 Flash-Lite",
    "Gemini 2.0 Flash" := "Gemini 2.0 Flash",
    "Gemini 1.5 Pro" := "Gemini 1.5 Pro",
    "Gemini 1.5 Flash" := "Gemini 1.5 Flash",
    "o3" := "o3",
    "o4-mini" := "o4-mini",
    "o1" := "o1",
    "GPT-4.5" := "GPT-4.5",
    "GPT-4.1" := "GPT-4.1",
    "Claude 4 Opus" := "Claude 4 Opus",
    "Claude 4 Sonnet" := "Claude 4 Sonnet",
    "Claude 3.7 Sonnet" := "Claude 3.7 Sonnet",
    "Claude 3.5 Sonnet" := "Claude 3.5 Sonnet",
    "Claude 3 Opus" := "Claude 3 Opus",
    "Grok-4" := "Grok-4",
    "Grok-3" := "Grok-3",
    "Grok-3 Mini" := "Grok-3 Mini",
    "Grok-2" := "Grok-2",
    "Grok-2 Mini" := "Grok-2 Mini",
    "Llama 4 Scout" := "Llama 4 Scout",
    "Llama 4 Maverick" := "Llama 4 Maverick",
    "Llama 3.3" := "Llama 3.3",
    "Llama 3.2" := "Llama 3.2",
    "Llama 3.1" := "Llama 3.1",
    "Magistral Medium" := "Magistral Medium",
    "Magistral Small" := "Magistral Small",
    "Mistral Small 3.1" := "Mistral Small 3.1",
    "Mistral Small 3" := "Mistral Small 3",
    "Codestral-22B" := "Codestral-22B",
    "Sonar" := "Sonar",
    "R1 1776" := "R1 1776",
    "Claude 4 Sonnet (Perplexity)" := "Claude 4 Sonnet",
    "GPT-4.1 (Perplexity)" := "GPT-4.1",
    "Gemini 2.5 Pro (Perplexity)" := "Gemini 2.5 Pro",
    "DeepSeek R-1" := "DeepSeek-R1-0528",
    "DeepSeek-R1-0528" := "DeepSeek-R1-0528"
  ]

  /** `mapDetailedModelToSimple`: the table's entry when it has a
      non-empty one, else the name itself. */
  function Simple(name: string): (r: string)
    ensures name !in Mappings ==> r == name
    ensures name in Mappings && Mappings[name] != "" ==> r == Mappings[name]
  {
    if name in Mappings && Mappings[name] != "" then Mappings[name] else name
  }

  /** Every simple name the table produces is itself a key that maps to
      itself. */
  lemma TableIsClosed()
    ensures forall k :: k in Mappings ==> Mappings[k] in Mappings && Mappings[Mappings[k]] == Mappings[k]
  {
    forall k | k in Mappings
      ensures Mappings[k] in Mappings && Mappings[Mappings[k]] == Mappings[k]
    {
    }
  }

  /** Mapping twice is mapping once. */
  lemma SimpleIdempotent(name: string)
    ensures Simple(Simple(name)) == Simple(name)
  {
    TableIsClosed();
  }

  /** `isSameModel`. */
  predicate IsSameModel(a: string, b: string) {
    Simple(a) == Simple(b)
  }

  /** Being the same model is an equivalence, and every name is the same
      model as its simple name. */
  lemma SameModelIsEquivalence(a: string, b: string, c: string)
    ensures IsSameModel(a, a)
    ensures IsSameModel(a, b) ==> IsSameModel(b, a)
    ensures IsSameModel(a, b) && IsSameModel(b, c) ==> IsSameModel(a, c)
    ensures IsSameModel(a, Simple(a))
  {
    SimpleIdempotent(a);
  }

  /** The two spellings of DeepSeek's model are one model, and so are a
      Perplexity-hosted model and its own name. */
  lemma SameModelExamples()
    ensures IsSameModel("DeepSeek R-1", "DeepSeek-R1-0528")
    ensures IsSameModel("Claude 4 Sonnet (Perplexity)", "Claude 4 Sonnet")
  {
  }

  /** A name off the table (such as "GPT-5") is the same model as no name
      but itself: the table never maps a listed name to it. */
  lemma OffTableNameStandsAlone(x: string, y: string)
    requires x !in Mappings
    ensures IsSameModel(x, y) <==> x == y
  {
    TableIsClosed();
  }

  /** `getDisplayModelName`: "simple (detailed)" when the table renames
      the name, else the name. */
  function DisplayName(name: string): (r: string)
    ensures Simple(name) == name ==> r == name
    ensures Simple(name) != name ==> r == Simple(name) + " (" + name + ")"
  {
    var simple := Simple(name);
    if name != simple then simple + " (" + name + ")" else simple
  }

  /** The display keeps the detailed name and leads with the simple one;
      a simple name displays as itself. */
  lemma DisplayKeepsBothNames(name: string)
    ensures StartsWith(DisplayName(name), Simple(name))
    ensures Contains(DisplayName(name), name)
    ensures DisplayName(Simple(name)) == Simple(name)
  {
    SimpleIdempotent(name);
    var simple := Simple(name);
    if simple != name {
      assert DisplayName(name) == (simple + " (") + name + ")";
      ContainsInfix(simple + " (", name, ")");
    } else {
      ContainsInfix("", name, "");
      assert "" + name + "" == name;
    }
  }
}

=== FILE: ordering.dfy ===
/** Ordering of rows by a list of sort keys, as `order_by(...)` in the ORM,
    `sorted(..., key=...)` in Python and a comparator sort in JavaScript.
    A key is a sequence of parts compared lexicographically; the sort is a
    stable insertion sort, so rows with equal keys keep their input order. */
module Ordering {

  /** One component of a sort key: a number or a string. */
  datatype Part = Num(n: int) | Str(s: string)

  /** String order by code point, as Python compares `str` values. */
  predicate StrLe(a: string, b: string)
    decreases |a|
  {
    |a| == 0 || (|b| > 0 && (a[0] < b[0] || (a[0] == b[0] && StrLe(a[1..], b[1..]))))
  }

  predicate PartLe(a: Part, b: Part) {
    match (a, b)
    case (Num(x), Num(y)) => x <= y
    case (Str(x), Str(y)) => StrLe(x, y)
    case (Num(_), Str(_)) => true
    case (Str(_), Num(_)) => false
  }

  predicate PartLt(a: Part, b: Part) { PartLe(a, b) && a != b }

  /** Lexicographic order on keys. */
  predicate KeyLe(a: seq<Part>, b: seq<Part>)
    decreases |a|
  {
    |a| == 0 || (|b| > 0 && (PartLt(a[0], b[0]) || (a[0] == b[0] && KeyLe(a[1..], b[1..]))))
  }

  lemma {:induction false} StrLeTotal(a: string, b: string)
    ensures StrLe(a, b) || StrLe(b, a)
    decreases |a|
  {
    if |a| > 0 && |b| > 0 && a[0] == b[0] {
      StrLeTotal(a[1..], b[1..]);
    }
  }

  lemma {:induction false} StrLeAntisymmetric(a: string, b: string)
    requires StrLe(a, b) && StrLe(b, a)
    ensures a == b
    decreases |a|
  {
    if |a| > 0 {
      StrLeAntisymmetric(a[1..], b[1..]);
      assert a == [a[0]] + a[1..] && b == [b[0]] + b[1..];
    }
  }

  lemma {:induction false} StrLeTransitive(a: string, b: string, c: string)
    requires StrLe(a, b) && StrLe(b, c)
    ensures StrLe(a, c)
    decreases |a|
  {
    if |a| > 0 && a[0] == b[0] && b[0] == c[0] {
      StrLeTransitive(a[1..], b[1..], c[1..]);
    }
  }

  lemma PartLeTotal(a: Part, b: Part)
    ensures PartLe(a, b) || PartLe(b, a)
  {
    if a.Str? && b.Str? {
      StrLeTotal(a.s, b.s);
    }
  }

  lemma PartLeAntisymmetric(a: Part, b: Part)
    requires PartLe(a, b) && PartLe(b, a)
    ensures a == b
  {
    if a.Str? && b.Str? {
      StrLeAntisymmetric(a.s, b.s);
    }
  }

  lemma PartLeTransitive(a: Part, b: Part, c: Part)
    requires PartLe(a, b) && PartLe(b, c)
    ensures PartLe(a, c)
  {
    if a.Str? && b.Str? && c.Str? {
      StrLeTransitive(a.s, b.s, c.s);
    }
  }

  lemma {:induction false} KeyLeTotal(a: seq<Part>, b: seq<Part>)
    ensures KeyLe(a, b) || KeyLe(b, a)
    decreases |a|
  {
    if |a| > 0 && |b| > 0 {
      if a[0] == b[0] {
        KeyLeTotal(a[1..], b[1..]);
      } else {
        PartLeTotal(a[0], b[0]);
      }
    }
  }

  lemma {:induction false} KeyLeTransitive(a: seq<Part>, b: seq<Part>, c: seq<Part>)
    requires KeyLe(a, b) && KeyLe(b, c)
    ensures KeyLe(a, c)
    decreases |a|
  {
    if |a| > 0 {
      if a[0] == b[0] && b[0] == c[0] {
        KeyLeTransitive(a[1..], b[1..], c[1..]);
      } else if PartLt(a[0], b[0]) && PartLt(b[0], c[0]) {
        PartLeTransitive(a[0], b[0], c[0]);
        if a[0] == c[0] {
          PartLeAntisymmetric(a[0], b[0]);
        }
      }
    }
  }

  lemma KeyLeReflexive(a: seq<Part>)
    ensures KeyLe(a, a)
  {
    KeyLeTotal(a, a);
  }

  /** Comparing keys part by part: the first parts decide unless equal. */
  lemma KeyLeCons(x: Part, a: seq<Part>, y: Part, b: seq<Part>)
    ensures KeyLe([x] + a, [y] + b) <==> PartLt(x, y) || (x == y && KeyLe(a, b))
  {
    assert ([x] + a)[1..] == a && ([y] + b)[1..] == b;
  }

  /** Three-part keys: the first differing part decides; equal keys are
      in order. */
  lemma KeyLeThree(x1: Part, x2: Part, x3: Part, y1: Part, y2: Part, y3: Part)
    ensures KeyLe([x1, x2, x3], [y1, y2, y3]) <==>
      PartLt(x1, y1) || (x1 == y1 && (PartLt(x2, y2) || (x2 == y2 && (PartLt(x3, y3) || x3 == y3))))
  {
    assert [x1, x2, x3] == [x1] + ([x2] + ([x3] + []));
    assert [y1, y2, y3] == [y1] + ([y2] + ([y3] + []));
    KeyLeCons(x1, [x2, x3], y1, [y2, y3]);
    KeyLeCons(x2, [x3], y2, [y3]);
    KeyLeCons(x3, [], y3, []);
  }

  /** Every earlier row's key is at most every later row's key. */
  ghost predicate Sorted<T>(s: seq<T>, key: T -> seq<Part>) {
    forall i, j :: 0 <= i < j < |s| ==> KeyLe(key(s[i]), key(s[j]))
  }

  /** Puts `x` before the first row whose key is not smaller, so among equal
      keys `x` comes first. */
  function Insert<T>(x: T, s: seq<T>, key: T -> seq<Part>): (r: seq<T>)
    ensures multiset(r) == multiset(s) + multiset{x}
    ensures |r| == |s| + 1
    decreases |s|
  {
    if |s| == 0 then [x]
    else if KeyLe(key(x), key(s[0])) then [x] + s
    else
      assert s == [s[0]] + s[1..];
      [s[0]] + Insert(x, s[1..], key)
  }

  /** The head of a sorted sequence is at most everything after it. */
  lemma HeadIsLeast<T>(s: seq<T>, key: T -> seq<Part>)
    requires Sorted(s, key) && |s| > 0
    ensures forall y :: y in s[1..] ==> KeyLe(key(s[0]), key(y))
  {
    forall y | y in s[1..] ensures KeyLe(key(s[0]), key(y)) {
      var k :| 0 <= k < |s[1..]| && s[1..][k] == y;
      assert s[k + 1] == y;
    }
  }

  /** A sorted sequence stays sorted when an element at most its head is
      put in front. */
  lemma ConsSorted<T>(y: T, s: seq<T>, key: T -> seq<Part>)
    requires Sorted(s, key)
    requires forall z :: z in s ==> KeyLe(key(y), key(z))
    ensures Sorted([y] + s, key)
  {
    var r := [y] + s;
    forall i, j | 0 <= i < j < |r| ensures KeyLe(key(r[i]), key(r[j])) {
      if i == 0 {
        assert r[j] == s[j - 1];
      } else {
        assert r[i] == s[i - 1] && r[j] == s[j - 1];
      }
    }
  }

  /** Inserting into a sorted sequence keeps it sorted. */
  lemma {:induction false} InsertSorted<T>(x: T, s: seq<T>, key: T -> seq<Part>)
    requires Sorted(s, key)
    ensures Sorted(Insert(x, s, key), key)
    decreases |s|, 1
  {
    if |s| == 0 {
    } else if KeyLe(key(x), key(s[0])) {
      HeadIsLeast(s, key);
      forall z | z in s ensures KeyLe(key(x), key(z)) {
        if z != s[0] {
          assert s == [s[0]] + s[1..];
          KeyLeTransitive(key(x), key(s[0]), key(z));
        }
      }
      ConsSorted(x, s, key);
    } else {
      InsertAfterHeadSorted(x, s, key);
    }
  }

  lemma {:induction false} InsertAfterHeadSorted<T>(x: T, s: seq<T>, key: T -> seq<Part>)
    requires Sorted(s, key) && |s| > 0 && !KeyLe(key(x), key(s[0]))
    ensures Sorted([s[0]] + Insert(x, s[1..], key), key)
    decreases |s|, 0
  {
    var rest := Insert(x, s[1..], key);
    assert Sorted(s[1..], key) by {
      forall i, j | 0 <= i < j < |s[1..]| ensures KeyLe(key(s[1..][i]), key(s[1..][j])) {
        assert s[1..][i] == s[i + 1] && s[1..][j] == s[j + 1];
      }
    }
    InsertSorted(x, s[1..], key);
    HeadIsLeast(s, key);
    KeyLeTotal(key(x), key(s[0]));
    forall y | y in rest ensures KeyLe(key(s[0]), key(y)) {
      assert y in multiset(rest);
      if y != x {
        assert y in multiset(s[1..]);
      }
    }
    ConsSorted(s[0], rest, key);
  }

  /** Stable sort of `s` by `key`: a permutation of `s` in key order. */
  function SortBy<T>(s: seq<T>, key: T -> seq<Part>): (r: seq<T>)
    ensures multiset(r) == multiset(s)
    ensures |r| == |s|
    ensures Sorted(r, key)
    decreases |s|
  {
    if |s| == 0 then []
    else
      assert s == [s[0]] + s[1..];
      var rest := SortBy(s[1..], key);
      InsertSorted(s[0], rest, key);
      Insert(s[0], rest, key)
  }

  /** Sorting keeps exactly the elements it was given. */
  lemma SortByMembers<T>(s: seq<T>, key: T -> seq<Part>)
    ensures forall x :: x in SortBy(s, key) <==> x in s
  {
    var r := SortBy(s, key);
    forall x ensures x in r <==> x in s {
      assert x in r <==> x in multiset(r);
      assert x in s <==> x in multiset(s);
    }
  }

  /** Sorting an already sorted sequence changes nothing: the sort never
      reorders rows whose keys are already in order, and in particular keeps
      the input order of rows with equal keys. */
  lemma {:induction false} SortBySortedIsIdentity<T>(s: seq<T>, key: T -> seq<Part>)
    requires Sorted(s, key)
    ensures SortBy(s, key) == s
    decreases |s|
  {
    if |s| > 0 {
      assert Sorted(s[1..], key) by {
        forall i, j | 0 <= i < j < |s[1..]| ensures KeyLe(key(s[1..][i]), key(s[1..][j])) {
          assert s[1..][i] == s[i + 1] && s[1..][j] == s[j + 1];
        }
      }
      SortBySortedIsIdentity(s[1..], key);
      assert s == [s[0]] + s[1..];
    }
  }

  /** With one key for every row, sorting keeps the input order. */
  lemma SortByConstantKey<T>(s: seq<T>, key: T -> seq<Part>, k: seq<Part>)
    requires forall x :: x in s ==> key(x) == k
    ensures SortBy(s, key) == s
  {
    KeyLeReflexive(k);
    SortBySortedIsIdentity(s, key);
  }

  // ---------------------------------------------------------------------
  // Taking the first rows
  // ---------------------------------------------------------------------

  /** `s[:n]` in Python: the first `n` elements, or all when there are
      fewer. */
  function Take<T>(s: seq<T>, n: nat): (r: seq<T>)
    ensures |r| == if n < |s| then n else |s|
    ensures forall i :: 0 <= i < |r| ==> r[i] == s[i]
  {
    s[..if n < |s| then n else |s|]
  }

  lemma TakeSorted<T>(s: seq<T>, key: T -> seq<Part>, n: nat)
    requires Sorted(s, key)
    ensures Sorted(Take(s, n), key)
  {
  }

  /** What the cut leaves out ranks no higher than anything it keeps, and
      is only left out when all `n` places are taken. */
  lemma TakeKeepsBest<T>(s: seq<T>, key: T -> seq<Part>, n: nat, m: T)
    requires Sorted(s, key) && m in s && m !in Take(s, n)
    ensures |Take(s, n)| == n
    ensures forall x :: x in Take(s, n) ==> KeyLe(key(x), key(m))
  {
    var r := Take(s, n);
    var j :| 0 <= j < |s| && s[j] == m;
    assert j >= |r|;
    forall x | x in r ensures KeyLe(key(x), key(m)) {
      var i :| 0 <= i < |r| && r[i] == x;
    }
  }

  // ---------------------------------------------------------------------
  // Stability
  // ---------------------------------------------------------------------

  /** `a` occurs somewhere before `b` in `s`. */
  ghost predicate Precedes<T>(s: seq<T>, a: T, b: T) {
    exists i, j :: 0 <= i < j < |s| && s[i] == a && s[j] == b
  }

  /** Inserting an element never reorders the ones already there. */
  lemma {:induction false} InsertKeepsOrder<T>(x: T, s: seq<T>, key: T -> seq<Part>, a: T, b: T)
    requires Precedes(s, a, b)
    ensures Precedes(Insert(x, s, key), a, b)
    decreases |s|
  {
    var i, j :| 0 <= i < j < |s| && s[i] == a && s[j] == b;
    if KeyLe(key(x), key(s[0])) {
      var r := [x] + s;
      assert r[i + 1] == a && r[j + 1] == b;
    } else if i == 0 {
      var rest := Insert(x, s[1..], key);
      assert s[1..][j - 1] == b;
      assert b in multiset(s[1..]);
      assert b in multiset(rest);
      var k :| 0 <= k < |rest| && rest[k] == b;
      var r := [s[0]] + rest;
      assert r[0] == a && r[k + 1] == b;
    } else {
      assert s[1..][i - 1] == a && s[1..][j - 1] == b;
      InsertKeepsOrder(x, s[1..], key, a, b);
      var rest := Insert(x, s[1..], key);
      var i', j' :| 0 <= i' < j' < |rest| && rest[i'] == a && rest[j'] == b;
      var r := [s[0]] + rest;
      assert r[i' + 1] == a && r[j' + 1] == b;
    }
  }

  /** An inserted element goes in front of every element with the same key. */
  lemma {:induction false} InsertBeforeEqual<T>(x: T, s: seq<T>, key: T -> seq<Part>, b: T)
    requires b in s && key(b) == key(x)
    ensures Precedes(Insert(x, s, key), x, b)
    decreases |s|
  {
    var k :| 0 <= k < |s| && s[k] == b;
    if KeyLe(key(x), key(s[0])) {
      var r := [x] + s;
      assert r[0] == x && r[k + 1] == b;
    } else {
      KeyLeReflexive(key(x));
      assert k != 0;
      assert s[1..][k - 1] == b;
      InsertBeforeEqual(x, s[1..], key, b);
      var rest := Insert(x, s[1..], key);
      var i', j' :| 0 <= i' < j' < |rest| && rest[i'] == x && rest[j'] == b;
      var r := [s[0]] + rest;
      assert r[i' + 1] == x && r[j' + 1] == b;
    }
  }

  /** The sort is stable: of two elements with equal keys, the one that came
      first still comes first. */
  lemma {:induction false} SortByStable<T>(s: seq<T>, key: T -> seq<Part>, a: T, b: T)
    requires key(a) == key(b) && Precedes(s, a, b)
    ensures Precedes(SortBy(s, key), a, b)
    decreases |s|
  {
    var i, j :| 0 <= i < j < |s| && s[i] == a && s[j] == b;
    var rest := SortBy(s[1..], key);
    assert s == [s[0]] + s[1..];
    assert SortBy(s, key) == Insert(s[0], rest, key);
    assert s[1..][j - 1] == b;
    if i == 0 {
      assert b in multiset(s[1..]);
      assert b in multiset(rest);
      InsertBeforeEqual(s[0], rest, key, b);
    } else {
      assert s[1..][i - 1] == a;
      SortByStable(s[1..], key, a, b);
      InsertKeepsOrder(s[0], rest, key, a, b);
    }
  }

  // ---------------------------------------------------------------------
  // Sequences without repeats
  // ---------------------------------------------------------------------

  ghost predicate NoDup<T>(s: seq<T>) {
    forall i, j :: 0 <= i < j < |s| ==> s[i] != s[j]
  }

  /** In a sequence without repeats every element occurs at most once. */
  lemma {:induction false} NoDupOnce<T>(s: seq<T>, x: T)
    requires NoDup(s)
    ensures multiset(s)[x] <= 1
    decreases |s|
  {
    if |s| > 0 {
      assert s == [s[0]] + s[1..];
      assert NoDup(s[1..]) by {
        forall i, j | 0 <= i < j < |s[1..]| ensures s[1..][i] != s[1..][j] {
          assert s[1..][i] == s[i + 1] && s[1..][j] == s[j + 1];
        }
      }
      NoDupOnce(s[1..], x);
      if x == s[0] {
        assert x !in s[1..] by {
          forall k | 0 <= k < |s[1..]| ensures s[1..][k] != x {
            assert s[1..][k] == s[k + 1];
          }
        }
      }
    }
  }

  /** Without repeats, the order of two elements is the order of their
      positions. */
  lemma PrecedesByPosition<T>(s: seq<T>, i: nat, j: nat)
    requires NoDup(s) && i < |s| && j < |s|
    requires Precedes(s, s[i], s[j])
    ensures i < j
  {
    var i', j' :| 0 <= i' < j' < |s| && s[i'] == s[i] && s[j'] == s[j];
    assert i' == i && j' == j;
  }

  /** Sorting a sequence without repeats keeps equal-keyed elements in
      their original order. */
  lemma SortByKeepsTies<T>(s: seq<T>, key: T -> seq<Part>, i: nat, j: nat)
    requires NoDup(s) && i < j < |SortBy(s, key)|
    requires key(SortBy(s, key)[i]) == key(SortBy(s, key)[j])
    ensures Precedes(s, SortBy(s, key)[i], SortBy(s, key)[j])
  {
    var r := SortBy(s, key);
    PermutationNoDup(r, s);
    var a, b := r[i], r[j];
    assert a in multiset(s) && b in multiset(s);
    var p :| 0 <= p < |s| && s[p] == a;
    var q :| 0 <= q < |s| && s[q] == b;
    assert p != q;
    if q < p {
      SortByStable(s, key, b, a);
      PrecedesByPosition(r, j, i);
      assert false;
    }
  }

  /** An element at two positions is counted at least twice. */
  lemma Twice<T>(s: seq<T>, i: nat, j: nat)
    requires i < j < |s| && s[i] == s[j]
    ensures multiset(s)[s[i]] >= 2
  {
    assert s == s[..j] + s[j..];
    assert s[..j][i] == s[i];
    assert s[j..][0] == s[j];
    assert multiset(s) == multiset(s[..j]) + multiset(s[j..]);
  }

  /** A rearrangement of a sequence without repeats has none either. */
  lemma PermutationNoDup<T>(a: seq<T>, b: seq<T>)
    requires multiset(a) == multiset(b) && NoDup(b)
    ensures NoDup(a)
  {
    forall i, j | 0 <= i < j < |a| ensures a[i] != a[j] {
      if a[i] == a[j] {
        Twice(a, i, j);
        NoDupOnce(b, a[i]);
        assert false;
      }
    }
  }
}

=== FILE: pagination.dfy ===
/** The page strip of the frontend's `Pagination` component: page 1, a
    window of two pages either side of the current one, the last page, and
    "..." wherever the strip skips pages. */
module Pagination {
  import opened Wrappers

  datatype Item = Num(n: int) | Dots

  const Delta: int := 2

  function Max(a: int, b: int): int { if a >= b then a else b }
  function Min(a: int, b: int): int { if a <= b then a else b }

  /** The pages `lo..hi` (none when `hi < lo`). */
  function Nums(lo: int, hi: int): (r: seq<Item>)
    ensures |r| == Max(0, hi - lo + 1)
    ensures forall k :: 0 <= k < |r| ==> r[k] == Num(lo + k)
  {
    seq(Max(0, hi - lo + 1), k requires 0 <= k < Max(0, hi - lo + 1) => Num(lo + k))
  }

  /** `getVisiblePages()` for current page `c` of `t`. */
  function Window(c: int, t: int): seq<Item> {
    var head := if c - Delta > 2 then [Num(1), Dots] else [Num(1)];
    var tail := if c + Delta < t - 1 then [Dots, Num(t)] else [Num(t)];
    head + Nums(Max(2, c - Delta), Min(t - 1, c + Delta)) + tail
  }

  /** The loop of `getVisiblePages`, then the pushes around it. */
  method VisiblePages(c: int, t: int) returns (items: seq<Item>)
    ensures items == Window(c, t)
  {
    var range: seq<Item> := [];
    var lo := Max(2, c - Delta);
    var hi := Min(t - 1, c + Delta);
    var i := lo;
    while i <= hi
      invariant lo <= i <= Max(lo, hi + 1)
      invariant range == Nums(lo, i - 1)
      decreases hi - i
    {
      range := range + [Num(i)];
      i := i + 1;
    }
    var head := if c - Delta > 2 then [Num(1), Dots] else [Num(1)];
    var tail := if c + Delta < t - 1 then [Dots, Num(t)] else [Num(t)];
    items := head + range + tail;
  }

  /** What the component renders: nothing for one page or none, else the
      strip. */
  function Rendered(c: int, t: int): (r: Option<seq<Item>>)
    ensures r.None? <==> t <= 1
    ensures r.Some? && 1 <= c <= t ==> 2 <= |r.value| <= 9 && r.value[0] == Num(1) && r.value[|r.value| - 1] == Num(t)
  {
    if t <= 1 then None
    else
      WindowBounds(c, t);
      Some(Window(c, t))
  }

  lemma WindowBounds(c: int, t: int)
    requires t >= 2
    ensures 1 <= c <= t ==> 2 <= |Window(c, t)| <= 9 && Window(c, t)[0] == Num(1) && Window(c, t)[|Window(c, t)| - 1] == Num(t)
  {
    if 1 <= c <= t {
      WindowEnds(c, t);
    }
  }

  /** The component renders a strip only for two or more pages, with the
      current page among them. */
  predicate Shown(c: int, t: int) {
    t >= 2 && 1 <= c <= t
  }

  /** The strip starts at page 1, ends at the last page, and has at most
      nine entries. */
  lemma WindowEnds(c: int, t: int)
    requires Shown(c, t)
    ensures var w := Window(c, t);
      2 <= |w| <= 9 && w[0] == Num(1) && w[|w| - 1] == Num(t)
  {
  }

  /** Page numbers are strictly increasing from left to right, and all lie
      in 1..t. */
  lemma WindowIncreasing(c: int, t: int)
    requires Shown(c, t)
    ensures var w := Window(c, t);
      forall i, j :: 0 <= i < j < |w| && w[i].Num? && w[j].Num? ==> w[i].n < w[j].n
    ensures var w := Window(c, t);
      forall i :: 0 <= i < |w| && w[i].Num? ==> 1 <= w[i].n <= t
  {
    var w := Window(c, t);
    var head := if c - Delta > 2 then [Num(1), Dots] else [Num(1)];
    var mid := Nums(Max(2, c - Delta), Min(t - 1, c + Delta));
    var tail := if c + Delta < t - 1 then [Dots, Num(t)] else [Num(t)];
    assert w == head + mid + tail;
    forall i | 0 <= i < |w| && w[i].Num?
      ensures 1 <= w[i].n <= t
      ensures i < |head| ==> w[i].n == 1
      ensures |head| <= i < |head| + |mid| ==> w[i].n == Max(2, c - Delta) + (i - |head|)
      ensures |head| + |mid| <= i ==> w[i].n == t
    {
      if i < |head| {
      } else if i < |head| + |mid| {
        assert w[i] == mid[i - |head|];
      } else {
        assert w[i] == tail[i - |head| - |mid|];
      }
    }
  }

  /** Every page within two of the current one is shown, the current page
      included. */
  lemma WindowCovers(c: int, t: int, p: int)
    requires Shown(c, t)
    requires 1 <= p <= t && c - Delta <= p <= c + Delta
    ensures Num(p) in Window(c, t)
  {
    var w := Window(c, t);
    var head := if c - Delta > 2 then [Num(1), Dots] else [Num(1)];
    var lo := Max(2, c - Delta);
    var mid := Nums(lo, Min(t - 1, c + Delta));
    var tail := if c + Delta < t - 1 then [Dots, Num(t)] else [Num(t)];
    assert w == head + mid + tail;
    if p == 1 {
      assert w[0] == Num(1);
    } else if p == t {
      assert w[|w| - 1] == Num(t);
    } else {
      assert mid[p - lo] == Num(p);
      assert w[|head| + (p - lo)] == Num(p);
    }
  }

  /** "..." stands exactly for skipped pages: it sits between two page
      numbers that are more than one apart, and two page numbers that are
      neighbours in the strip are consecutive pages. */
  lemma WindowDots(c: int, t: int)
    requires Shown(c, t)
    ensures var w := Window(c, t);
      forall i :: 0 <= i < |w| && w[i].Dots? ==> 0 < i < |w| - 1 && w[i - 1].Num? && w[i + 1].Num? && w[i + 1].n > w[i - 1].n + 1
    ensures var w := Window(c, t);
      forall i :: 0 <= i < |w| - 1 && w[i].Num? && w[i + 1].Num? ==> w[i + 1].n == w[i].n + 1
  {
    var w := Window(c, t);
    var head := if c - Delta > 2 then [Num(1), Dots] else [Num(1)];
    var lo := Max(2, c - Delta);
    var hi := Min(t - 1, c + Delta);
    var mid := Nums(lo, hi);
    var tail := if c + Delta < t - 1 then [Dots, Num(t)] else [Num(t)];
    assert w == head + mid + tail;
    assert |mid| > 0 ==> w[|head|] == Num(lo) && w[|head| + |mid| - 1] == Num(hi);
    assert |mid| == 0 ==> t == 2 && |head| == 1 && |tail| == 1;
    forall i | 0 <= i < |w| - 1 && w[i].Num? && w[i + 1].Num?
      ensures w[i + 1].n == w[i].n + 1
    {
      if |head| <= i && i + 1 < |head| + |mid| {
        assert w[i] == mid[i - |head|] && w[i + 1] == mid[i + 1 - |head|];
      }
    }
  }

  /** There is a "..." after page 1 exactly when the window starts beyond
      page 3, and one before the last page exactly when it ends before
      page t - 2. */
  lemma DotsPlacement(c: int, t: int)
    requires Shown(c, t)
    ensures var w := Window(c, t);
      |w| >= 2 && (w[1].Dots? <==> c - Delta > 2) && (w[|w| - 2].Dots? <==> c + Delta < t - 1)
  {
    var w := Window(c, t);
    var head := if c - Delta > 2 then [Num(1), Dots] else [Num(1)];
    var mid := Nums(Max(2, c - Delta), Min(t - 1, c + Delta));
    var tail := if c + Delta < t - 1 then [Dots, Num(t)] else [Num(t)];
    assert w == head + mid + tail;
    if t == 2 {
      assert |mid| == 0;
    } else {
      assert |mid| >= 1;
    }
  }

  /** Next is enabled by the server's `hasNext` when given, else while the
      current page is before the last. */
  function CanGoNext(hasNext: Option<bool>, c: int, t: int): (r: bool)
    ensures hasNext.Some? ==> r == hasNext.value
    ensures hasNext.None? ==> (r <==> c < t)
  {
    if hasNext.Some? then hasNext.value else c < t
  }

  /** Previous is enabled by `hasPrevious` when given, else after page 1. */
  function CanGoPrevious(hasPrevious: Option<bool>, c: int): (r: bool)
    ensures hasPrevious.Some? ==> r == hasPrevious.value
    ensures hasPrevious.None? ==> (r <==> c > 1)
  {
    if hasPrevious.Some? then hasPrevious.value else c > 1
  }

  /** Without server flags, the arrows never leave 1..t. */
  lemma ArrowsStayInRange(c: int, t: int)
    requires 1 <= c <= t
    ensures CanGoNext(None, c, t) ==> 1 <= c + 1 <= t
    ensures CanGoPrevious(None, c) ==> 1 <= c - 1 <= t
  {
  }
}

=== FILE: paginator.dfy ===
/** Django's `Paginator(queryset, per_page)` as the post services use it
    (no orphans, an empty first page allowed), and the
    `page(number)` / `EmptyPage → page(num_pages)` recovery around it. */
module Paginator {
  import opened Wrappers

  datatype Page<T> = Page(number: nat, numPages: nat, items: seq<T>)

  function Max1(n: nat): nat { if n == 0 then 1 else n }

  /** `num_pages`: ceil(max(1, count) / per_page), so at least one page. */
  function NumPages(count: nat, perPage: nat): (n: nat)
    requires perPage >= 1
    ensures n >= 1
    ensures (n - 1) * perPage < Max1(count) <= n * perPage
  {
    (Max1(count) + perPage - 1) / perPage
  }

  /** The rows of page `number`: positions [(number−1)·per_page,
      number·per_page), cut at the end of the list. */
  function Slice<T>(s: seq<T>, number: nat, perPage: nat): (items: seq<T>)
    requires perPage >= 1 && 1 <= number <= NumPages(|s|, perPage)
    ensures |items| <= perPage
    ensures (number - 1) * perPage + |items| <= |s|
    ensures forall j :: 0 <= j < |items| ==> items[j] == s[(number - 1) * perPage + j]
  {
    var lo := (number - 1) * perPage;
    var hi := if number * perPage >= |s| then |s| else number * perPage;
    MulMono(number - 1, NumPages(|s|, perPage) - 1, perPage);
    assert lo <= hi by {
      MulMono(number - 1, number, perPage);
    }
    s[lo..hi]
  }

  lemma MulMono(a: nat, b: nat, k: nat)
    requires a <= b
    ensures a * k <= b * k
  {
    var d := b - a;
    assert b * k == a * k + d * k;
  }

  /** `paginator.page(page)`, falling back to the last page on `EmptyPage`
      (a page below 1 or past the last). A page size of 0 divides by zero and
      a negative one makes the slice or the fallback fail: both are errors. */
  function Paginate<T>(s: seq<T>, page: int, perPage: int): (r: Result<Page<T>>)
    ensures r.Err? <==> perPage <= 0
    ensures r.Ok? ==> r.value.numPages == NumPages(|s|, perPage)
    ensures r.Ok? ==> 1 <= r.value.number <= r.value.numPages
    ensures r.Ok? && 1 <= page <= r.value.numPages ==> r.value.number == page
    ensures r.Ok? && !(1 <= page <= r.value.numPages) ==> r.value.number == r.value.numPages
    ensures r.Ok? ==> r.value.items == Slice(s, r.value.number, perPage)
  {
    if perPage <= 0 then Err("invalid page size")
    else
      var n := NumPages(|s|, perPage);
      var number := if 1 <= page <= n then page else n;
      Ok(Page(number, n, Slice(s, number, perPage)))
  }

  lemma DivMod(i: nat, k: nat)
    requires k >= 1
    ensures i == (i / k) * k + i % k && 0 <= i % k < k
  {
  }

  /** The page holding position `i` exists. */
  lemma PageExists(count: nat, k: nat, i: nat)
    requires k >= 1 && i < count
    ensures i / k + 1 <= NumPages(count, k)
  {
    var q, n := i / k, NumPages(count, k);
    DivMod(i, k);
    if q + 1 > n {
      MulMono(n, q, k);
    }
  }

  /** Row `i` is shown on page `i / per_page + 1`, at position
      `i % per_page`: paging loses no row. */
  lemma RowOnItsPage<T>(s: seq<T>, perPage: int, i: nat)
    requires perPage >= 1 && i < |s|
    ensures var r := Paginate(s, i / perPage + 1, perPage);
      && r.Ok? && r.value.number == i / perPage + 1
      && i % perPage < |r.value.items| && r.value.items[i % perPage] == s[i]
  {
    var k := perPage;
    var q := i / k;
    DivMod(i, k);
    PageExists(|s|, k, i);
    var items := Slice(s, q + 1, k);
    assert (q + 1 - 1) * k == q * k;
    assert (q + 1) * k == q * k + k;
    assert |items| == (if (q + 1) * k >= |s| then |s| else (q + 1) * k) - q * k;
  }

  /** Every shown row is a row of the list, and pages never overlap:
      page `a` shows position `j` of the list only if `j` lies in its range. */
  lemma PageRowsInRange<T>(s: seq<T>, page: int, perPage: int, j: nat)
    requires perPage >= 1
    ensures var p := Paginate(s, page, perPage).value;
      j < |p.items| ==> (p.number - 1) * perPage + j < |s| && j < perPage
  {
  }
}

=== FILE: postcard.dfy ===
/** The shared post card (`components/common/post-card.tsx`): which style
    variant it takes, and the model, category and time labels it shows for
    server-shaped and sample-shaped data. */
module PostCardView {
  import opened Wrappers
  import opened Text
  import Metadata
  import Domain
  import RelativeTime

  datatype Variant = Normal | Current | Bookmark | Popular

  /** The like count from which a card is popular. */
  const PopularLikes: int := 100

  /** The card data in its three shapes: as the server sends it (list or
      bookmark cards), as the sample data spells it, or neither. */
  datatype CardData =
    | ServerCard(
        id: int, likes: int,
        modelDisplayName: Option<string>, modelId: Option<int>, modelEtc: Option<string>,
        categoryDisplayName: Option<string>, categoryId: int, categoryEtc: Option<string>)
    | SampleCard(
        id: int, likes: int,
        model: string, modelEtc: Option<string>, modelDetail: Option<string>,
        category: string, categoryEtc: Option<string>)
    | OtherCard(id: int, likes: int)

  /** `finalVariant`: a bookmark card stays one; otherwise enough likes
      make it popular. */
  function FinalVariant(v: Variant, likes: int): (r: Variant)
    ensures v == Bookmark ==> r == Bookmark
    ensures v != Bookmark ==> (r == Popular <==> likes >= PopularLikes || v == Popular)
    ensures v != Bookmark && likes < PopularLikes ==> r == v
  {
    if v == Bookmark then Bookmark else if likes >= PopularLikes then Popular else v
  }

  /** `getVariantStyles`: the page's current post is styled as current
      whatever its variant. */
  function Style(data: CardData, v: Variant, currentPostId: Option<int>): (r: Variant)
    ensures currentPostId == Some(data.id) ==> r == Current
    ensures currentPostId != Some(data.id) ==> r == FinalVariant(v, data.likes)
  {
    if currentPostId == Some(data.id) then Current else FinalVariant(v, data.likes)
  }

  /** More likes never take a card out of the popular style, and likes
      never change a bookmark card's style. */
  lemma PopularityIsMonotone(v: Variant, l1: int, l2: int)
    requires l1 <= l2
    ensures FinalVariant(v, l1) == Popular ==> FinalVariant(v, l2) == Popular
    ensures FinalVariant(Bookmark, l1) == FinalVariant(Bookmark, l2)
  {
  }

  /** The current style is shown only for the current post, or when the
      caller asked for it on a card below the popular mark. */
  lemma CurrentStyleOnlyWhenAsked(data: CardData, v: Variant, currentPostId: Option<int>)
    requires Style(data, v, currentPostId) == Current
    ensures currentPostId == Some(data.id) || (v == Current && data.likes < PopularLikes)
  {
  }

  /** `getModelDisplay`. Server cards use the server's name, then the
      lookup (an id of 0 reads as missing); sample cards prefer a
      non-blank detail, then the free text of "기타", then the model. */
  function ModelLabel(data: CardData, ms: seq<Metadata.ModelEntry>): (r: string)
    ensures data.ServerCard? ==> r == Metadata.ModelDisplayNameFromBackend(
      ms, data.modelDisplayName, if Metadata.Truthy(data.modelId) then data.modelId else None, data.modelEtc)
    ensures data.SampleCard? && data.modelDetail.Some? && !IsBlank(data.modelDetail.value) ==> r == data.modelDetail.value
    ensures data.SampleCard? && (data.modelDetail.None? || IsBlank(data.modelDetail.value)) ==>
      r == (if data.model == Domain.Other && data.modelEtc.Some? && data.modelEtc.value != "" then data.modelEtc.value else data.model)
    ensures data.OtherCard? ==> r == "모델명"
  {
    match data
    case ServerCard(_, _, name, id, etc, _, _, _) =>
      Metadata.ModelDisplayNameFromBackend(ms, name, if Metadata.Truthy(id) then id else None, etc)
    case SampleCard(_, _, model, etc, detail, _, _) =>
      StripEmptyIffBlank(detail.GetOr(""));
      if detail.Some? && detail.value != "" && Strip(detail.value) != "" then detail.value
      else if model == Domain.Other && etc.Some? && etc.value != "" then etc.value
      else model
    case OtherCard(_, _) => "모델명"
  }

  /** On a sample card the label is the detail, the free text or the
      model, and the free text shows only for "기타". */
  lemma SampleModelLabelSources(data: CardData, ms: seq<Metadata.ModelEntry>)
    requires data.SampleCard?
    ensures var r := ModelLabel(data, ms);
      (data.modelDetail.Some? && r == data.modelDetail.value) || (data.modelEtc.Some? && r == data.modelEtc.value) || r == data.model
    ensures var r := ModelLabel(data, ms);
      r != data.model && (data.modelDetail.None? || IsBlank(data.modelDetail.value)) ==> data.model == Domain.Other
  {
  }

  /** `getCategoryDisplay`. */
  function CategoryLabel(data: CardData, cs: seq<Metadata.Entry>): (r: string)
    ensures data.ServerCard? ==> r == Metadata.CategoryDisplayNameFromBackend(cs, data.categoryDisplayName, data.categoryId, data.categoryEtc)
    ensures data.SampleCard? && data.category == Domain.Other && data.categoryEtc.Some? && data.categoryEtc.value != "" ==>
      r == data.categoryEtc.value
    ensures data.SampleCard? && !(data.category == Domain.Other && data.categoryEtc.Some? && data.categoryEtc.value != "") ==>
      r == data.category
    ensures data.OtherCard? ==> r == "카테고리"
  {
    match data
    case ServerCard(_, _, _, _, _, name, id, etc) => Metadata.CategoryDisplayNameFromBackend(cs, name, id, etc)
    case SampleCard(_, _, _, _, _, category, etc) =>
      if category == Domain.Other && etc.Some? && etc.value != "" then etc.value else category
    case OtherCard(_, _) => "카테고리"
  }

  /** Server cards never show an empty model or category label. */
  lemma ServerLabelsAreNonEmpty(data: CardData, ms: seq<Metadata.ModelEntry>, cs: seq<Metadata.Entry>)
    requires data.ServerCard?
    ensures ModelLabel(data, ms) != "" && CategoryLabel(data, cs) != ""
  {
  }

  /** The time label: one the data carries is shown as given; otherwise
      the shipped `formatRelativeTime` works it out from the creation time. */
  function TimeLabel(given: Option<string>, createdMs: Option<int>, nowMs: int): (r: string)
    ensures given.Some? ==> r == given.value
    ensures given.None? && createdMs.None? ==> r == "NaN년 전"
    ensures given.None? && createdMs.Some? ==> r == RelativeTime.Label(RelativeTime.FrontendAsWritten(nowMs - createdMs.value))
  {
    if given.Some? then given.value else RelativeTime.FrontendLabelAsWritten(createdMs, nowMs)
  }

  /** A card without a given label shows "방금 전" exactly for a creation
      time under a minute old, and reads "0개월 전" at 28 days. */
  lemma TimeLabelOfCreation(createdMs: int, nowMs: int)
    ensures TimeLabel(None, Some(createdMs), nowMs) == "방금 전" <==> nowMs - createdMs < 60000
    ensures nowMs - createdMs == 28 * RelativeTime.Day * 1000 ==> TimeLabel(None, Some(createdMs), nowMs) == "0개월 전"
  {
    RelativeTime.LabelJustNowOnly(RelativeTime.FrontendAsWritten(nowMs - createdMs));
  }
}

=== FILE: postlist.dfy ===
/** The post list of the frontend (`features/posts/components/post-list.tsx`)
    when it is handed its posts instead of fetching them: the local search,
    id filters and sort, then the slice shown on the current page. Dates
    are their millisecond timestamps; satisfaction is in tenths. */
module PostList {
  import opened Wrappers
  import opened Text
  import opened Domain
  import opened Ordering

  /** A post card as the list holds it. */
  datatype Card = Card(
    id: int,
    title: string,
    author: string,
    categoryId: int,
    platformId: int,
    createdAt: int,
    likes: int,
    satisfaction: int,
    views: int)

  /** The optional search parameters. */
  datatype Params = Params(search: Option<string>, categories: Option<string>, platforms: Option<string>)

  /** A parameter that is present and non-empty (truthy). */
  predicate Given(p: Option<string>) {
    p.Some? && p.value != ""
  }

  /** The search stage: the title or the author contains the query,
      ignoring case. */
  predicate MatchesSearch(c: Card, query: string) {
    IContains(c.title, query) || IContains(c.author, query)
  }

  function SearchStage(cs: seq<Card>, search: Option<string>): (r: seq<Card>)
    ensures !Given(search) ==> r == cs
    ensures Given(search) ==> forall c :: c in r <==> c in cs && MatchesSearch(c, search.value)
    ensures multiset(r) <= multiset(cs)
  {
    if !Given(search) then cs else Where(cs, (c: Card) => MatchesSearch(c, search.value))
  }

  /** An id filter: the id, printed, is one of the comma-separated values
      (compared as they are, without trimming). */
  function IdStage(cs: seq<Card>, ids: Option<string>, field: Card -> int): (r: seq<Card>)
    ensures !Given(ids) ==> r == cs
    ensures Given(ids) ==> forall c :: c in r <==> c in cs && IntToString(field(c)) in Split(ids.value, ',')
    ensures multiset(r) <= multiset(cs)
  {
    if !Given(ids) then cs else Where(cs, (c: Card) => IntToString(field(c)) in Split(ids.value, ','))
  }

  /** The comparator of each sort key as a sort key; an unknown key
      compares everything as equal. */
  function SortKey(sortBy: string): Card -> seq<Part> {
    match sortBy
    case "latest" => (c: Card) => [Num(-c.createdAt)]
    case "oldest" => (c: Card) => [Num(c.createdAt)]
    case "popular" => (c: Card) => [Num(-c.likes)]
    case "satisfaction" => (c: Card) => [Num(-c.satisfaction)]
    case "views" => (c: Card) => [Num(-c.views)]
    case _ => (c: Card) => []
  }

  /** `processedPosts`: as returned when the server did the work;
      otherwise search, category filter, platform filter, then a stable
      sort. */
  function Process(useApi: bool, cs: seq<Card>, params: Params, sortBy: string): (r: seq<Card>)
    ensures useApi ==> r == cs
    ensures multiset(r) <= multiset(cs)
    ensures !useApi ==> Sorted(r, SortKey(sortBy))
    ensures !useApi ==> forall c :: c in r <==> c in cs && Kept(c, params)
  {
    if useApi then cs
    else
      var a := SearchStage(cs, params.search);
      var b := IdStage(a, params.categories, (c: Card) => c.categoryId);
      var d := IdStage(b, params.platforms, (c: Card) => c.platformId);
      SortByMembers(d, SortKey(sortBy));
      SortBy(d, SortKey(sortBy))
  }

  /** What the local stages keep: a card that matches every given
      parameter. */
  predicate Kept(c: Card, params: Params) {
    (Given(params.search) ==> MatchesSearch(c, params.search.value)) &&
    (Given(params.categories) ==> IntToString(c.categoryId) in Split(params.categories.value, ',')) &&
    (Given(params.platforms) ==> IntToString(c.platformId) in Split(params.platforms.value, ','))
  }

  /** Each known sort key orders the list as its comparator says: newest
      first, oldest first, most liked, most satisfied or most viewed
      first (likes alone: bookmarks play no part here). `Process` yields
      lists sorted by `SortKey(sortBy)`. */
  lemma SortedAsNamed(r: seq<Card>, sortBy: string, i: nat, j: nat)
    requires Sorted(r, SortKey(sortBy)) && i < j < |r|
    ensures sortBy == "latest" ==> r[i].createdAt >= r[j].createdAt
    ensures sortBy == "oldest" ==> r[i].createdAt <= r[j].createdAt
    ensures sortBy == "popular" ==> r[i].likes >= r[j].likes
    ensures sortBy == "satisfaction" ==> r[i].satisfaction >= r[j].satisfaction
    ensures sortBy == "views" ==> r[i].views >= r[j].views
  {
    SortedAt(r, SortKey(sortBy), i, j);
    if sortBy == "latest" {
      SingleNumLe(-r[i].createdAt, -r[j].createdAt);
    } else if sortBy == "oldest" {
      SingleNumLe(r[i].createdAt, r[j].createdAt);
    } else if sortBy == "popular" {
      SingleNumLe(-r[i].likes, -r[j].likes);
    } else if sortBy == "satisfaction" {
      SingleNumLe(-r[i].satisfaction, -r[j].satisfaction);
    } else if sortBy == "views" {
      SingleNumLe(-r[i].views, -r[j].views);
    }
  }

  lemma SortedAt(r: seq<Card>, key: Card -> seq<Part>, i: nat, j: nat)
    requires Sorted(r, key) && i < j < |r|
    ensures KeyLe(key(r[i]), key(r[j]))
  {
  }

  lemma SingleNumLe(x: int, y: int)
    requires KeyLe([Num(x)], [Num(y)])
    ensures x <= y
  {
    assert [Num(x)][0] == Num(x) && [Num(y)][0] == Num(y);
  }

  /** An unknown sort key keeps the filtered cards in their given order. */
  lemma UnknownSortKeepsOrder(cs: seq<Card>, sortBy: string)
    requires sortBy !in {"latest", "oldest", "popular", "satisfaction", "views"}
    ensures Process(false, cs, Params(None, None, None), sortBy) == cs
  {
    SortByConstantKey(cs, SortKey(sortBy), []);
  }

  // ---------------------------------------------------------------------
  // Local paging
  // ---------------------------------------------------------------------

  /** Where `Array.prototype.slice` starts or stops for index `i` on a
      list of `n`: negative indices count from the end, and both ends are
      clamped to the list. */
  function SliceIndex(i: int, n: nat): (r: nat)
    ensures r <= n
    ensures 0 <= i <= n ==> r == i
    ensures i > n ==> r == n
    ensures i < 0 ==> r == (if n + i < 0 then 0 else n + i)
  {
    if i < 0 then (if n + i < 0 then 0 else n + i) else if i > n then n else i
  }

  function Slice<T>(s: seq<T>, start: int, end: int): (r: seq<T>)
    ensures 0 <= start <= end <= |s| ==> r == s[start..end]
    ensures |r| <= |s|
  {
    var a := SliceIndex(start, |s|);
    var b := SliceIndex(end, |s|);
    if a < b then s[a..b] else []
  }

  /** The number of local pages, `Math.ceil(length / perPage)`. */
  function LocalTotalPages(n: nat, perPage: nat): (t: nat)
    requires perPage >= 1
    ensures t * perPage >= n
    ensures n > 0 ==> (t - 1) * perPage < n
  {
    (n + perPage - 1) / perPage
  }

  /** The cards shown: all of them when the server pages or paging is off;
      otherwise page `page` (a falsy page reads as 1) of `perPage`. */
  function CurrentPosts(cs: seq<Card>, useApi: bool, paging: bool, page: int, perPage: nat): (r: seq<Card>)
    requires perPage >= 1
    ensures useApi || !paging ==> r == cs
    ensures |r| <= |cs|
    ensures !useApi && paging && page >= 1 && (page - 1) * perPage <= |cs| ==>
      r == cs[(page - 1) * perPage .. if page * perPage <= |cs| then page * perPage else |cs|]
  {
    if useApi || !paging then cs
    else
      var p := if page == 0 then 1 else page;
      var start := (p - 1) * perPage;
      Slice(cs, start, start + perPage)
  }

  /** Every card is on exactly the page its position says, and that page
      exists: card `i` is shown on page `i / perPage + 1`, at position
      `i % perPage`. */
  lemma EveryCardOnItsPage(cs: seq<Card>, perPage: nat, i: nat)
    requires perPage >= 1 && i < |cs|
    ensures var p := i / perPage + 1;
      1 <= p <= LocalTotalPages(|cs|, perPage) &&
      |CurrentPosts(cs, false, true, p, perPage)| > i % perPage &&
      CurrentPosts(cs, false, true, p, perPage)[i % perPage] == cs[i]
  {
    var q := i / perPage;
    var p := q + 1;
    assert q * perPage + i % perPage == i;
    assert (p - 1) * perPage == q * perPage;
    assert p * perPage == q * perPage + perPage;
    var t := LocalTotalPages(|cs|, perPage);
    if p > t {
      MulMono(t, q, perPage);
      assert false;
    }
  }

  lemma MulMono(a: int, b: int, k: nat)
    requires a <= b
    ensures a * k <= b * k
  {
  }

  /** A slice of `k` positions holds at most `k` elements. */
  lemma SliceAtMost<T>(s: seq<T>, start: int, k: nat)
    ensures |Slice(s, start, start + k)| <= k
  {
  }

  /** Pages hold at most `perPage` cards, and every page up to the last
      holds at least one. */
  lemma PageSizes(cs: seq<Card>, perPage: nat, page: int)
    requires perPage >= 1
    ensures |CurrentPosts(cs, false, true, page, perPage)| <= perPage
    ensures 1 <= page <= LocalTotalPages(|cs|, perPage) ==> |CurrentPosts(cs, false, true, page, perPage)| >= 1
  {
    var p := if page == 0 then 1 else page;
    var start := (p - 1) * perPage;
    assert CurrentPosts(cs, false, true, page, perPage) == Slice(cs, start, start + perPage);
    SliceAtMost(cs, start, perPage);
    if 1 <= page <= LocalTotalPages(|cs|, perPage) {
      FirstOfPageExists(|cs|, perPage, page);
    }
  }

  /** A page up to the last starts inside the list. */
  lemma FirstOfPageExists(n: nat, perPage: nat, page: int)
    requires perPage >= 1 && 1 <= page <= LocalTotalPages(n, perPage)
    ensures 0 <= (page - 1) * perPage < n
  {
    MulMono(page - 1, LocalTotalPages(n, perPage) - 1, perPage);
  }
}

=== FILE: postmodel.dfy ===
/** The rules the posts app's models enforce on save: unique slugs, the
    "기타" (Other) model flag, display names, the tag list encoding,
    `Post.clean` with the field validators, and the like/bookmark counters
    `PostInteraction.save` keeps on its post. */
module PostModel {
  import opened Wrappers
  import opened Text
  import opened Domain

  // ---------------------------------------------------------------------
  // Slugs
  // ---------------------------------------------------------------------

  /** Every occurrence of `a` replaced by `b` (`str.replace` on one char). */
  function ReplaceChar(s: string, a: char, b: char): (r: string)
    ensures |r| == |s|
    ensures forall i :: 0 <= i < |s| ==> r[i] == (if s[i] == a then b else s[i])
    ensures a != b ==> a !in r
  {
    var r := seq(|s|, i requires 0 <= i < |s| => if s[i] == a then b else s[i]);
    assert a != b ==> forall i :: 0 <= i < |r| ==> r[i] != a;
    r
  }

  /** The slug a name starts from. `slugified` is what `slugify` makes of the
      stripped name; when that is empty, "기타" and "other" (any case) become
      "other", and any other name its lower-cased self with spaces turned
      into hyphens, or `fallback` ("platform" / "model") when that is empty. */
  function BaseSlug(name: string, slugified: string, fallback: string): (r: string)
    requires fallback != "" && ' ' !in fallback
    ensures slugified != "" ==> r == slugified
    ensures slugified == "" ==> r == FallbackSlug(Lower(Strip(name)), fallback)
  {
    if slugified != "" then slugified else FallbackSlug(Lower(Strip(name)), fallback)
  }

  /** The slug made from the lower-cased name when `slugify` gives "". */
  function FallbackSlug(lowerName: string, fallback: string): (r: string)
    requires fallback != "" && ' ' !in fallback
    ensures r != "" && ' ' !in r
    ensures lowerName == Other || lowerName == "other" ==> r == "other"
    ensures lowerName == "" ==> r == fallback
    ensures lowerName != Other && lowerName != "other" && lowerName != "" ==> |r| == |lowerName|
  {
    if lowerName == Other || lowerName == "other" then
      assert "other" == ['o', 't', 'h', 'e', 'r'];
      "other"
    else
      var dashed := ReplaceChar(lowerName, ' ', '-');
      if dashed == "" then fallback else dashed
  }

  /** The k-th candidate: the base itself for k = 1, else `base-k`. */
  function Candidate(base: string, k: nat): (r: string)
    requires k >= 1
    ensures |r| >= |base|
  {
    if k == 1 then base else base + "-" + NatToString(k)
  }

  lemma NatToStringInjective(a: nat, b: nat)
    requires NatToString(a) == NatToString(b)
    ensures a == b
  {
    DigitsValueOfNatToString(a);
    DigitsValueOfNatToString(b);
  }

  /** Different suffixes give different candidates. */
  lemma CandidateInjective(base: string, a: nat, b: nat)
    requires a >= 1 && b >= 1 && Candidate(base, a) == Candidate(base, b)
    ensures a == b
  {
    if a != 1 && b != 1 {
      var x, y := Candidate(base, a), Candidate(base, b);
      assert x[|base| + 1..] == NatToString(a);
      assert y[|base| + 1..] == NatToString(b);
      NatToStringInjective(a, b);
    }
  }

  /** The candidates 1 .. n−1. */
  function Tried(base: string, n: nat): set<string>
    requires n >= 1
  {
    set k | 1 <= k < n :: Candidate(base, k)
  }

  lemma {:induction false} TriedSize(base: string, n: nat)
    requires n >= 1
    ensures |Tried(base, n)| == n - 1
    decreases n
  {
    if n > 1 {
      TriedSize(base, n - 1);
      assert Tried(base, n) == Tried(base, n - 1) + {Candidate(base, n - 1)};
      if Candidate(base, n - 1) in Tried(base, n - 1) {
        var k :| 1 <= k < n - 1 && Candidate(base, k) == Candidate(base, n - 1);
        CandidateInjective(base, k, n - 1);
      }
    }
  }

  /** Candidates 1 .. k−1 are all taken. */
  ghost predicate FirstFree(base: string, taken: set<string>, k: nat) {
    forall j :: 1 <= j < k ==> Candidate(base, j) in taken
  }

  /** `_generate_unique_slug`: the base slug, or `base-k` for the least
      k ≥ 2 that no other row uses (`taken`). */
  method UniqueSlug(base: string, taken: set<string>) returns (slug: string)
    ensures slug !in taken
    ensures exists k :: 1 <= k && slug == Candidate(base, k) && FirstFree(base, taken, k)
  {
    var suffix := 2;
    slug := base;
    while slug in taken
      invariant 2 <= suffix <= |taken| + 2
      invariant slug == Candidate(base, suffix - 1)
      invariant forall j :: 1 <= j < suffix - 1 ==> Candidate(base, j) in taken
      decreases |taken| + 2 - suffix
    {
      assert Tried(base, suffix) <= taken;
      TriedSize(base, suffix);
      SubsetSize(Tried(base, suffix), taken);
      slug := Candidate(base, suffix);
      suffix := suffix + 1;
    }
  }

  lemma SubsetSize(a: set<string>, b: set<string>)
    requires a <= b
    ensures |a| <= |b|
  {
    assert b == a + (b - a);
  }

  /** The slugs of the other platforms. */
  function PlatformSlugsTaken(platforms: seq<Platform>, selfId: int): (r: set<string>)
    ensures forall s :: s in r <==> exists p :: p in platforms && p.id != selfId && p.slug == s
  {
    set p | p in platforms && p.id != selfId :: p.slug
  }

  /** The slugs of the other models of the same platform. */
  function ModelSlugsTaken(models: seq<AiModel>, selfId: int, platform: int): (r: set<string>)
    ensures forall s :: s in r <==> exists m :: m in models && m.id != selfId && m.platform == platform && m.slug == s
  {
    set m | m in models && m.id != selfId && m.platform == platform :: m.slug
  }

  /** `Platform.save`: a row without a slug gets a fresh unique one; an
      existing slug is kept as it is. */
  method SavePlatform(p: Platform, platforms: seq<Platform>, slugified: string) returns (saved: Platform)
    ensures saved.id == p.id && saved.name == p.name
    ensures p.slug != "" ==> saved.slug == p.slug
    ensures p.slug == "" ==> saved.slug != "" && saved.slug !in PlatformSlugsTaken(platforms, p.id)
    ensures p.slug == "" ==>
      var base := BaseSlug(p.name, slugified, "platform");
      exists k :: 1 <= k && saved.slug == Candidate(base, k) && FirstFree(base, PlatformSlugsTaken(platforms, p.id), k)
    ensures saved == p.(slug := saved.slug)
  {
    saved := p;
    if p.slug == "" {
      var base := BaseSlug(p.name, slugified, "platform");
      var slug := UniqueSlug(base, PlatformSlugsTaken(platforms, p.id));
      ghost var k :| 1 <= k && slug == Candidate(base, k);
      saved := p.(slug := slug);
    }
  }

  /** `AiModel.save`: the slug as for platforms, unique per platform; a
      model named exactly "기타" never allows free-text variants. */
  method SaveModel(m: AiModel, models: seq<AiModel>, slugified: string) returns (saved: AiModel)
    ensures saved.id == m.id && saved.name == m.name && saved.platform == m.platform
    ensures m.slug != "" ==> saved.slug == m.slug
    ensures m.slug == "" ==> saved.slug != "" && saved.slug !in ModelSlugsTaken(models, m.id, m.platform)
    ensures m.slug == "" ==>
      var base := BaseSlug(m.name, slugified, "model");
      exists k :: 1 <= k && saved.slug == Candidate(base, k) && FirstFree(base, ModelSlugsTaken(models, m.id, m.platform), k)
    ensures saved == m.(slug := saved.slug, variantFreeTextAllowed := saved.variantFreeTextAllowed)
    ensures saved.variantFreeTextAllowed == (m.variantFreeTextAllowed && m.name != Other)
    ensures saved.sortOrder == m.sortOrder && saved.isActive == m.isActive
  {
    saved := m;
    if m.slug == "" {
      var base := BaseSlug(m.name, slugified, "model");
      var slug := UniqueSlug(base, ModelSlugsTaken(models, m.id, m.platform));
      ghost var k :| 1 <= k && slug == Candidate(base, k);
      saved := saved.(slug := slug);
    }
    if m.name == Other {
      saved := saved.(variantFreeTextAllowed := false);
    }
  }

  // ---------------------------------------------------------------------
  // Display names
  // ---------------------------------------------------------------------

  /** `get_model_display_name`: a non-empty `model_detail`; else the
      free-text name of a "기타" model; else the model's name; "기타" when
      the post has no model. */
  function ModelDisplayName(p: Post): (r: string)
    ensures p.modelDetail != "" ==> r == p.modelDetail
    ensures p.modelDetail == "" && p.model.None? ==> r == Other
    ensures p.modelDetail == "" && p.model.Some? ==>
      r == (if p.model.value.name == Other && p.modelEtc != "" then p.modelEtc else p.model.value.name)
  {
    if p.modelDetail != "" then p.modelDetail
    else if p.model.Some? && p.model.value.name == Other && p.modelEtc != "" then p.modelEtc
    else if p.model.Some? then p.model.value.name
    else Other
  }

  /** `get_category_display_name`. */
  function CategoryDisplayName(p: Post): (r: string)
    ensures r == p.categoryEtc <==> (p.category.name == Other && p.categoryEtc != "") || p.categoryEtc == p.category.name
    ensures r == p.categoryEtc || r == p.category.name
  {
    if p.category.name == Other && p.categoryEtc != "" then p.categoryEtc else p.category.name
  }

  // ---------------------------------------------------------------------
  // Tags
  // ---------------------------------------------------------------------

  /** `get_tags_list`: "" has no tags; otherwise the stripped non-blank
      comma separated pieces, in order. */
  function TagsList(tags: string): (r: seq<string>)
    ensures tags == "" ==> r == []
    ensures forall t :: t in r ==> t != "" && IsStripped(t) && ',' !in t
    ensures tags != "" ==> forall t :: t in r <==> t != "" && StripsTo(Split(tags, ','), t)
  {
    if tags == "" then []
    else
      TokensMembers(tags, ',');
      Tokens(tags, ',')
  }

  /** A comma splits the tag list in two, in order: the tags of a joined
      string are the tags of the left side followed by those of the
      right. */
  lemma TagsListConcat(a: string, b: string)
    requires a != "" && b != ""
    ensures TagsList(a + "," + b) == TagsList(a) + TagsList(b)
  {
    assert a + "," + b == a + [','] + b;
    SplitAroundSeparator(a, b, ',');
    StrippedNonBlankConcat(Split(a, ','), Split(b, ','));
  }

  /** A comma-free piece is one tag, stripped, or none when blank. */
  lemma TagsListOfPiece(a: string)
    requires a != "" && ',' !in a
    ensures TagsList(a) == if Strip(a) == "" then [] else [Strip(a)]
  {
    SplitWithoutSeparator(a, ',');
    StrippedNonBlankOne(a);
  }

  /** How the serializers store a tag list: `', '.join(tags)`. */
  function JoinTags(tags: seq<string>): string { Join(tags, ", ") }

  /** A tag the list encoding can carry: non-empty, stripped, comma-free. */
  predicate StorableTag(t: string) { t != "" && IsStripped(t) && ',' !in t }

  lemma {:induction false} TrimStartBlankPrefix(w: string, t: string)
    requires IsBlank(w) && (|t| == 0 || !IsSpace(t[0]))
    ensures TrimStart(w + t) == t
    decreases |w|
  {
    if |w| == 0 {
      assert w + t == t;
    } else {
      assert (w + t)[0] == w[0];
      assert (w + t)[1..] == w[1..] + t;
      TrimStartBlankPrefix(w[1..], t);
    }
  }

  lemma StripBlankPrefix(w: string, t: string)
    requires IsBlank(w) && IsStripped(t)
    ensures Strip(w + t) == t
  {
    TrimStartBlankPrefix(w, t);
    TrimEndOfStripped(t);
  }

  lemma JoinStep(w: string, ts: seq<string>)
    requires |ts| >= 2
    ensures w + Join(ts, ", ") == (w + ts[0]) + [','] + (" " + Join(ts[1..], ", "))
  {
    assert Join(ts, ", ") == ts[0] + ", " + Join(ts[1..], ", ");
  }

  lemma StrippedNonBlankCons(p: string, rest: seq<string>)
    requires Strip(p) != ""
    ensures StrippedNonBlank([p] + rest) == [Strip(p)] + StrippedNonBlank(rest)
  {
    assert ([p] + rest)[1..] == rest;
  }

  lemma TokensOfOneTag(w: string, t: string)
    requires IsBlank(w) && ',' !in w && StorableTag(t)
    ensures StrippedNonBlank(Split(w + Join([t], ", "), ',')) == [t]
  {
    var head := w + t;
    assert w + Join([t], ", ") == head;
    assert Strip(head) == t by { StripBlankPrefix(w, t); }
    assert ',' !in head;
    SplitWithoutSeparator(head, ',');
    StrippedNonBlankCons(head, []);
  }

  lemma TokensOfTagStep(w: string, ts: seq<string>)
    requires |ts| >= 2 && IsBlank(w) && ',' !in w && StorableTag(ts[0])
    requires StrippedNonBlank(Split(" " + Join(ts[1..], ", "), ',')) == ts[1..]
    ensures StrippedNonBlank(Split(w + Join(ts, ", "), ',')) == ts
  {
    var head := w + ts[0];
    var parts := Split(" " + Join(ts[1..], ", "), ',');
    SplitOfStep(w, ts);
    assert Strip(head) == ts[0] by { StripBlankPrefix(w, ts[0]); }
    StrippedNonBlankCons(head, parts);
    HeadTail(ts);
  }

  lemma HeadTail(ts: seq<string>)
    requires |ts| > 0
    ensures [ts[0]] + ts[1..] == ts
  {
  }

  /** The first comma of a joined list ends the first tag. */
  lemma SplitOfStep(w: string, ts: seq<string>)
    requires |ts| >= 2 && ',' !in w && ',' !in ts[0]
    ensures Split(w + Join(ts, ", "), ',') == [w + ts[0]] + Split(" " + Join(ts[1..], ", "), ',')
  {
    var head := w + ts[0];
    var tail := " " + Join(ts[1..], ", ");
    NotInConcat(w, ts[0], ',');
    JoinStep(w, ts);
    SplitAfterPart(head, tail, ',');
  }

  lemma NotInConcat(a: string, b: string, c: char)
    requires c !in a && c !in b
    ensures c !in a + b
  {
  }

  lemma {:induction false} TokensOfPaddedJoin(w: string, ts: seq<string>)
    requires |ts| >= 1 && IsBlank(w) && ',' !in w
    requires forall i :: 0 <= i < |ts| ==> StorableTag(ts[i])
    ensures StrippedNonBlank(Split(w + Join(ts, ", "), ',')) == ts
    decreases |ts|
  {
    if |ts| == 1 {
      assert ts == [ts[0]];
      TokensOfOneTag(w, ts[0]);
    } else {
      TokensOfPaddedJoin(" ", ts[1..]);
      TokensOfTagStep(w, ts);
    }
  }

  /** Storing a list of storable tags and reading it back gives the same
      list. */
  lemma TagsRoundTrip(ts: seq<string>)
    requires forall i :: 0 <= i < |ts| ==> StorableTag(ts[i])
    ensures TagsList(JoinTags(ts)) == ts
  {
    if |ts| > 0 {
      TokensOfPaddedJoin("", ts);
      assert "" + Join(ts, ", ") == Join(ts, ", ");
    }
  }

  // ---------------------------------------------------------------------
  // Validation
  // ---------------------------------------------------------------------

  /** The model-choice and rating rules `clean` enforces, as one statement. */
  predicate CleanRules(p: Post) {
    && (p.platform.name == Other ==>
          (p.model.None? || p.model.value.name == Other) && p.modelEtc != "" && p.modelDetail == "")
    && (p.model.Some? && p.model.value.name == Other ==> p.modelEtc != "" && p.modelDetail == "")
    && (p.model.None? ==> p.modelDetail == "")
    && (p.satisfaction.Some? ==> p.satisfaction.value % 5 == 0)
  }

  /** `Post.clean`: the field of the first rule broken, checked in the
      source's order, or None. */
  function Clean(p: Post): (r: Option<string>)
    ensures r.None? <==> CleanRules(p)
    ensures r.Some? ==> r.value in {"model", "model_etc", "model_detail", "satisfaction"}
  {
    if p.platform.name == Other && p.model.Some? && p.model.value.name != Other then Some("model")
    else if p.platform.name == Other && p.modelEtc == "" then Some("model_etc")
    else if p.platform.name == Other && p.modelDetail != "" then Some("model_detail")
    else if p.model.Some? && p.model.value.name == Other && p.modelEtc == "" then Some("model_etc")
    else if p.model.Some? && p.model.value.name == Other && p.modelDetail != "" then Some("model_detail")
    else if p.model.None? && p.modelDetail != "" then Some("model_detail")
    else if p.satisfaction.Some? && p.satisfaction.value % 5 != 0 then Some("satisfaction")
    else None
  }

  /** The field validators `full_clean` runs before `clean`: title of 5 to
      200 characters, prompt and response of at least 10, the free-text
      fields at most 100, satisfaction between 0.5 and 5.0. */
  predicate FieldsValid(p: Post) {
    && 5 <= |p.title| <= 200
    && |p.prompt| >= 10 && |p.aiResponse| >= 10
    && |p.modelEtc| <= 100 && |p.modelDetail| <= 100 && |p.categoryEtc| <= 100
    && (p.satisfaction.Some? ==> 5 <= p.satisfaction.value <= 50)
  }

  /** `Post.save`, which always runs `full_clean`. */
  function SavePost(p: Post): (r: Result<Post>)
    ensures r.Ok? <==> FieldsValid(p) && CleanRules(p)
    ensures r.Ok? ==> r.value == p
  {
    if FieldsValid(p) && Clean(p).None? then Ok(p) else Err("validation error")
  }

  /** A saved rating is one of 0.5, 1.0, …, 5.0. */
  lemma SavedRatingInHalfSteps(p: Post)
    requires SavePost(p).Ok? && p.satisfaction.Some?
    ensures exists h :: 1 <= h <= 10 && p.satisfaction.value == 5 * h
  {
    var v := p.satisfaction.value;
    assert v == 5 * (v / 5);
  }

  /** On a saved post the display name follows the model choice: the
      free-text name for a "기타" model or platform, otherwise the detail or
      the model's name. */
  lemma SavedPostDisplayName(p: Post)
    requires SavePost(p).Ok?
    ensures p.platform.name == Other || (p.model.Some? && p.model.value.name == Other) ==>
      ModelDisplayName(p) == (if p.model.Some? then p.modelEtc else Other)
    ensures p.model.Some? && p.model.value.name != Other ==>
      ModelDisplayName(p) == (if p.modelDetail != "" then p.modelDetail else p.model.value.name)
  {
  }

  // ---------------------------------------------------------------------
  // Interaction counters
  // ---------------------------------------------------------------------

  datatype Flags = Flags(liked: bool, bookmarked: bool)

  datatype Counts = Counts(likes: nat, bookmarks: nat)

  /** One counter after its flag goes from `was` to `now`: up by one when it
      is set, down by one (never below 0) when it is cleared. */
  function Counter(c: nat, was: bool, now: bool): (r: nat)
    ensures was == now ==> r == c
    ensures !was && now ==> r == c + 1
    ensures was && !now ==> r == if c == 0 then 0 else c - 1
  {
    if was != now then (if now then c + 1 else if c == 0 then 0 else c - 1) else c
  }

  /** `PostInteraction.save`: a new row counts as having had both flags
      cleared. */
  function SaveInteraction(c: Counts, previous: Option<Flags>, now: Flags): (r: Counts)
    ensures r.likes == Counter(c.likes, previous.Some? && previous.value.liked, now.liked)
    ensures r.bookmarks == Counter(c.bookmarks, previous.Some? && previous.value.bookmarked, now.bookmarked)
  {
    var was := previous.GetOr(Flags(false, false));
    Counts(Counter(c.likes, was.liked, now.liked), Counter(c.bookmarks, was.bookmarked, now.bookmarked))
  }

  /** The counter minus this row's own contribution is unchanged by a save,
      as long as the count included it: the counters stay in step with the
      flags. */
  lemma CounterTracksFlag(c: nat, was: bool, now: bool)
    requires was ==> c >= 1
    ensures var r := Counter(c, was, now);
      (now ==> r >= 1) && r - (if now then 1 else 0) == c - (if was then 1 else 0)
  {
  }

  /** Flipping a flag twice restores the count, unless it was set on a zero
      count, where the floor at 0 loses one. */
  lemma DoubleToggleRestores(c: nat, was: bool)
    ensures Counter(Counter(c, was, !was), !was, was) == (if was && c == 0 then 1 else c)
  {
  }
}

=== FILE: postserializers.dfy ===
/** The write-side checks of the post serializers (`PostValidationMixin`)
    and how create and update store the tag list. */
module PostSerializers {
  import opened Wrappers
  import opened Text
  import opened Domain
  import Filters
  import PostModel

  /** `validate_title` / `validate_prompt` / `validate_ai_response`: the
      stripped value, rejected when shorter than `least`. */
  function MinStripped(value: string, least: nat): (r: Result<string>)
    ensures r.Err? <==> |Strip(value)| < least
    ensures r.Ok? ==> r.value == Strip(value) && IsStripped(r.value) && |r.value| >= least
  {
    var t := Strip(value);
    if |t| < least then Err("too short") else Ok(t)
  }

  function ValidateTitle(value: string): Result<string> { MinStripped(value, 3) }
  function ValidatePrompt(value: string): Result<string> { MinStripped(value, 5) }
  function ValidateAiResponse(value: string): Result<string> { MinStripped(value, 10) }

  /** A tag the validator accepts: 1 to 50 characters once stripped. */
  predicate TagFits(t: string) { 0 < |Strip(t)| <= 50 }

  /** The first tag problem, in the source's order: more than 10 tags, then
      per tag a stripped length over 50, then a blank tag. */
  function TagProblem(tags: seq<string>): (r: Option<string>)
    ensures r.None? <==> |tags| <= 10 && forall i :: 0 <= i < |tags| ==> TagFits(tags[i])
  {
    if |tags| > 10 then Some("too many tags") else EachTagProblem(tags, 0)
  }

  /** The first problem among the tags from position `from` on. */
  function EachTagProblem(tags: seq<string>, from: nat): (r: Option<string>)
    requires from <= |tags|
    ensures r.None? <==> forall i :: from <= i < |tags| ==> TagFits(tags[i])
    decreases |tags| - from
  {
    if from == |tags| then None
    else if TagFits(tags[from]) then EachTagProblem(tags, from + 1)
    else if |Strip(tags[from])| > 50 then Some("tag too long")
    else Some("blank tag")
  }

  /** `validate_tags_list`: rejected as above; otherwise the tags stripped,
      one for one and in order. */
  function ValidateTagsList(tags: seq<string>): (r: Result<seq<string>>)
    ensures r.Err? <==> |tags| > 10 || exists i :: 0 <= i < |tags| && (Strip(tags[i]) == "" || |Strip(tags[i])| > 50)
    ensures r.Ok? ==> |r.value| == |tags| && forall i :: 0 <= i < |tags| ==> r.value[i] == Strip(tags[i])
    ensures r.Ok? ==> forall i :: 0 <= i < |r.value| ==> r.value[i] != "" && IsStripped(r.value[i]) && |r.value[i]| <= 50
  {
    if TagProblem(tags).Some? then Err(TagProblem(tags).value)
    else Ok(StripAll(tags))
  }

  /** `[t.strip() for t in tags if t.strip()]` when no tag is blank. */
  function StripAll(tags: seq<string>): (r: seq<string>)
    ensures |r| == |tags| && forall i :: 0 <= i < |tags| ==> r[i] == Strip(tags[i])
  {
    seq(|tags|, i requires 0 <= i < |tags| => Strip(tags[i]))
  }

  /** `validate_satisfaction` on a rating in tenths: None passes, otherwise
      it must be a multiple of 0.5. */
  function ValidateSatisfaction(v: Option<int>): (r: Result<Option<int>>)
    ensures r.Ok? <==> v.None? || v.value % 5 == 0
    ensures r.Ok? ==> r.value == v
  {
    if v.Some? && v.value % 5 != 0 then Err("not a half step") else Ok(v)
  }

  /** The edit form's rating: required, between 0.5 and 5.0, and a half
      step (the shared validator runs on it too). */
  function ValidateEditSatisfaction(v: Option<int>): (r: Result<int>)
    ensures r.Ok? <==> v.Some? && 5 <= v.value <= 50 && v.value % 5 == 0
    ensures r.Ok? ==> r.value == v.value && exists h :: 1 <= h <= 10 && r.value == 5 * h
  {
    if v.None? || v.value < 5 || v.value > 50 || v.value % 5 != 0 then Err("invalid satisfaction")
    else
      var h := v.value / 5;
      assert v.value == 5 * h;
      Ok(v.value)
  }

  /** `validate_model_etc` / `validate_category_etc`: None or "" gives "";
      otherwise the stripped value, rejected over 100 characters. */
  function ValidateEtc(value: Option<string>): (r: Result<string>)
    ensures r.Err? <==> value.Some? && |Strip(value.value)| > 100
    ensures r.Ok? ==> r.value == (if value.None? then "" else Strip(value.value))
    ensures r.Ok? ==> |r.value| <= 100
  {
    if value.None? || value.value == "" then Ok("")
    else if |Strip(value.value)| > 100 then Err("too long")
    else Ok(Strip(value.value))
  }

  /** `validate_business_logic`: a chosen platform needs a model or a
      free-text model name. */
  function ValidateBusinessLogic(platform: Option<int>, model: Option<int>, modelEtc: string): (r: Result<()>)
    ensures r.Err? <==> platform.Some? && model.None? && modelEtc == ""
  {
    if platform.Some? && model.None? && modelEtc == "" then Err("model required") else Ok(())
  }

  /** What `create` stores in `tags`: the tags joined by ", ", or "". */
  function StoredTags(tags: seq<string>): (r: string)
    ensures tags == [] ==> r == ""
    ensures |tags| == 1 ==> r == tags[0]
    ensures |tags| > 1 ==> r == tags[0] + ", " + StoredTags(tags[1..])
    decreases |tags|
  {
    if tags == [] then "" else PostModel.JoinTags(tags)
  }

  /** Tags validated on create and read back with `get_tags_list` come back
      unchanged, provided none contains a comma. */
  lemma CreatedTagsRoundTrip(raw: seq<string>)
    requires ValidateTagsList(raw).Ok?
    requires forall i :: 0 <= i < |raw| ==> ',' !in raw[i]
    ensures PostModel.TagsList(StoredTags(ValidateTagsList(raw).value)) == ValidateTagsList(raw).value
  {
    var ts := ValidateTagsList(raw).value;
    forall i | 0 <= i < |ts| ensures PostModel.StorableTag(ts[i]) {
      StripSubstring(raw[i]);
    }
    if ts != [] {
      PostModel.TagsRoundTrip(ts);
    }
  }

  /** A validated tag holding a comma comes back as two tags: "a,b" passes
      the validator as one tag and is read back as "a" and "b". */
  lemma CommaTagComesBackSplit(a: string, b: string)
    requires PostModel.StorableTag(a) && PostModel.StorableTag(b) && |a| + 1 + |b| <= 50
    ensures ValidateTagsList([a + "," + b]) == Ok([a + "," + b])
    ensures PostModel.TagsList(StoredTags([a + "," + b])) == [a, b]
  {
    var w := a + "," + b;
    CommaTagValidates(a, b);
    assert StoredTags([w]) == w;
    PostModel.TagsListConcat(a, b);
    StripOfStripped(a);
    StripOfStripped(b);
    PostModel.TagsListOfPiece(a);
    PostModel.TagsListOfPiece(b);
    assert PostModel.TagsList(a) == [a] && PostModel.TagsList(b) == [b];
    assert PostModel.TagsList(w) == [a] + [b] == [a, b];
  }

  lemma CommaTagValidates(a: string, b: string)
    requires PostModel.StorableTag(a) && PostModel.StorableTag(b) && |a| + 1 + |b| <= 50
    ensures ValidateTagsList([a + "," + b]) == Ok([a + "," + b])
  {
    var w := a + "," + b;
    assert w[0] == a[0] && w[|w| - 1] == b[|b| - 1];
    StripOfStripped(w);
    assert TagFits([w][0]);
    assert TagProblem([w]).None?;
    assert StripAll([w]) == [w];
  }

  /** The request methods `post_update` accepts; only PATCH is partial. */
  datatype Method = Put | Patch

  /** `PostEditSerializer.update` on the stored tags. Sent tags are
      re-joined. Absent tags take the field's default `[]` on a PUT, which
      clears the string, and are left alone on a PATCH. */
  function UpdatedTags(stored: string, tags: Option<seq<string>>, m: Method): (r: string)
    ensures tags.Some? ==> r == StoredTags(tags.value)
    ensures tags.None? && m == Put ==> r == ""
    ensures tags.None? && m == Patch ==> r == stored
  {
    var sent := if tags.None? && m == Put then Some([]) else tags;
    if sent.None? then stored else StoredTags(sent.value)
  }

  /** Read back with `get_tags_list`, an update gives the sent tags, none
      for a PUT without tags, and the stored list for a PATCH without. */
  lemma UpdatedTagsReadBack(stored: string, tags: Option<seq<string>>, m: Method)
    requires tags.Some? ==> forall i :: 0 <= i < |tags.value| ==> PostModel.StorableTag(tags.value[i])
    ensures tags.Some? ==> PostModel.TagsList(UpdatedTags(stored, tags, m)) == tags.value
    ensures tags.None? && m == Put ==> PostModel.TagsList(UpdatedTags(stored, tags, m)) == []
    ensures tags.None? && m == Patch ==> PostModel.TagsList(UpdatedTags(stored, tags, m)) == PostModel.TagsList(stored)
  {
    if tags.Some? && tags.value != [] {
      PostModel.TagsRoundTrip(tags.value);
    }
  }

  /** The create payload after field parsing; `None` marks an absent value.
      Foreign keys arrive as ids. */
  datatype CreateInput = CreateInput(
    title: string, prompt: string, aiResponse: string,
    platform: Option<int>, model: Option<int>, category: Option<int>,
    modelEtc: Option<string>, modelDetail: Option<string>, categoryEtc: Option<string>,
    additionalOpinion: Option<string>,
    tags: seq<string>, satisfaction: Option<int>)

  /** The serializer-level checks: every `validate_<field>`, the foreign
      keys resolving (platform and category are required, the model may be
      null), then `validate_business_logic`. */
  predicate SerializerAccepts(input: CreateInput, platforms: seq<Platform>, models: seq<AiModel>, categories: seq<Category>) {
    && ValidateTitle(input.title).Ok? && ValidatePrompt(input.prompt).Ok?
    && ValidateAiResponse(input.aiResponse).Ok? && ValidateTagsList(input.tags).Ok?
    && ValidateSatisfaction(input.satisfaction).Ok?
    && ValidateEtc(input.modelEtc).Ok? && ValidateEtc(input.categoryEtc).Ok?
    && input.platform.Some? && FindPlatform(platforms, input.platform.value).Some?
    && input.category.Some? && Filters.FindCategory(categories, input.category.value).Some?
    && (input.model.Some? ==> FindAiModel(models, input.model.value).Some?)
    && ValidateBusinessLogic(input.platform, input.model, ValidateEtc(input.modelEtc).value).Ok?
  }

  /** The row `create` hands to `Post.save`. */
  function Row(input: CreateInput, userId: int, platforms: seq<Platform>, models: seq<AiModel>,
               categories: seq<Category>, id: int, now: int): Post
    requires SerializerAccepts(input, platforms, models, categories)
  {
    Post(id, userId, ValidateTitle(input.title).value,
         FindPlatform(platforms, input.platform.value).value,
         if input.model.None? then None else FindAiModel(models, input.model.value),
         ValidateEtc(input.modelEtc).value,
         if input.modelDetail.None? then "" else input.modelDetail.value,
         Filters.FindCategory(categories, input.category.value).value,
         ValidateEtc(input.categoryEtc).value,
         StoredTags(ValidateTagsList(input.tags).value),
         ValidatePrompt(input.prompt).value, ValidateAiResponse(input.aiResponse).value,
         if input.additionalOpinion.None? then "" else input.additionalOpinion.value,
         input.satisfaction, 0, 0, 0, now)
  }

  /** `PostCreateSerializer` validation followed by `create` and
      `Post.save`: the serializer's checks must pass, and then `full_clean`
      must accept the row (title of at least 5 characters, rating between
      0.5 and 5.0, and the model-choice rules of `clean`). The stored row
      holds the cleaned values, the joined tags, the requesting user as
      author, zero counters and the creation time. */
  function Create(input: CreateInput, userId: int, platforms: seq<Platform>, models: seq<AiModel>,
                  categories: seq<Category>, id: int, now: int): (r: Result<Post>)
    ensures r.Ok? ==> SerializerAccepts(input, platforms, models, categories)
    ensures r.Ok? ==> PostModel.FieldsValid(r.value) && PostModel.CleanRules(r.value)
    ensures r.Ok? ==>
      && r.value.authorId == userId && r.value.id == id && r.value.createdAt == now
      && r.value.title == Strip(input.title) && r.value.prompt == Strip(input.prompt)
      && r.value.aiResponse == Strip(input.aiResponse)
      && r.value.tags == StoredTags(ValidateTagsList(input.tags).value)
      && r.value.satisfaction == input.satisfaction
      && r.value.platform.id == input.platform.value && r.value.category.id == input.category.value
      && (r.value.model.None? <==> input.model.None?)
      && (input.model.Some? ==> r.value.model.value.id == input.model.value)
      && r.value.viewCount == 0 && r.value.likeCount == 0 && r.value.bookmarkCount == 0
  {
    if !SerializerAccepts(input, platforms, models, categories) then Err("invalid field")
    else PostModel.SavePost(Row(input, userId, platforms, models, categories, id, now))
  }

  /** Creating a post is saving the row the serializer built: it succeeds
      exactly when the serializer accepts the payload and `Post.save`
      accepts the row. */
  lemma CreateIsSavePost(input: CreateInput, userId: int, platforms: seq<Platform>, models: seq<AiModel>,
                         categories: seq<Category>, id: int, now: int)
    ensures var r := Create(input, userId, platforms, models, categories, id, now);
      r.Ok? <==> (SerializerAccepts(input, platforms, models, categories)
                  && PostModel.SavePost(Row(input, userId, platforms, models, categories, id, now)).Ok?)
  {
  }

  /** Payloads the serializer alone lets through that saving refuses: a
      four-character title, a rating of 6.0, or platform "기타" with a
      listed model. */
  lemma SaveRefusesWhatSerializerLetsThrough(input: CreateInput, userId: int, platforms: seq<Platform>,
                                             models: seq<AiModel>, categories: seq<Category>, id: int, now: int)
    requires SerializerAccepts(input, platforms, models, categories)
    requires |Strip(input.title)| == 4 || input.satisfaction == Some(60)
    ensures Create(input, userId, platforms, models, categories, id, now).Err?
  {
  }
}

=== FILE: postservice.dfy ===
/** The post services: `build_posts_page` (feed), `build_user_posts_page`
    (liked, bookmarked and own posts) and `get_post_and_increment_views`.
    Query parameters arrive as optional strings; a missing one takes its
    default. */
module PostService {
  import opened Wrappers
  import opened Text
  import opened Domain
  import opened Ordering
  import Sorting
  import Filters
  import Paginator

  // ---------------------------------------------------------------------
  // Page parameters
  // ---------------------------------------------------------------------

  /** A query parameter read with `int()`, or its default when missing. */
  function IntParam(raw: Option<string>, default: int): (r: Option<int>)
    ensures raw.None? ==> r == Some(default)
    ensures raw.Some? ==> r == ParseInt(raw.value)
  {
    if raw.None? then Some(default) else ParseInt(raw.value)
  }

  /** `int(page)`, `int(page_size)`, `min(page_size, cap)`; if either parse
      fails both fall back to the defaults. */
  function PageParams(page: Option<string>, pageSize: Option<string>,
                      defaultSize: int, cap: int): (r: (int, int))
    ensures var p, k := IntParam(page, 1), IntParam(pageSize, defaultSize);
      && (p.Some? && k.Some? ==> r.0 == p.value && r.1 == (if k.value < cap then k.value else cap))
      && (p.None? || k.None? ==> r == (1, defaultSize))
  {
    var p, k := IntParam(page, 1), IntParam(pageSize, defaultSize);
    if p.Some? && k.Some? then (p.value, if k.value < cap then k.value else cap)
    else (1, defaultSize)
  }

  /** The feed's page parameters: default size 10, capped at 50. */
  function FeedPageParams(page: Option<string>, pageSize: Option<string>): (r: (int, int))
    ensures r.1 <= 50
  {
    PageParams(page, pageSize, 10, 50)
  }

  /** The user lists' page parameters: default size 20, capped at 100. */
  function UserPageParams(page: Option<string>, pageSize: Option<string>): (r: (int, int))
    ensures r.1 <= 100
  {
    PageParams(page, pageSize, 20, 100)
  }

  /** A non-numeric page resets the page size too. */
  lemma BadPageResetsSize(page: string, pageSize: Option<string>)
    requires ParseInt(page).None?
    ensures FeedPageParams(Some(page), pageSize).0 == 1 && FeedPageParams(Some(page), pageSize).1 == 10
    ensures UserPageParams(Some(page), pageSize).0 == 1 && UserPageParams(Some(page), pageSize).1 == 20
  {
    assert IntParam(Some(page), 1).None?;
  }

  /** Written numbers are read back exactly, and sizes within the cap are kept. */
  lemma WrittenParamsRoundTrip(page: int, size: int)
    requires size <= 50
    ensures FeedPageParams(Some(IntToString(page)), Some(IntToString(size))).0 == page
    ensures FeedPageParams(Some(IntToString(page)), Some(IntToString(size))).1 == size
  {
    ParseIntOfIntToString(page);
    ParseIntOfIntToString(size);
    PageParamsOfNumbers(IntToString(page), IntToString(size), page, size, 10, 50);
  }

  lemma PageParamsOfNumbers(a: string, b: string, page: int, size: int, defaultSize: int, cap: int)
    requires ParseInt(a) == Some(page) && ParseInt(b) == Some(size) && size <= cap
    ensures PageParams(Some(a), Some(b), defaultSize, cap).0 == page
    ensures PageParams(Some(a), Some(b), defaultSize, cap).1 == size
  {
    assert IntParam(Some(a), 1) == Some(page);
    assert IntParam(Some(b), defaultSize) == Some(size);
  }

  // ---------------------------------------------------------------------
  // Feed ordering
  // ---------------------------------------------------------------------

  datatype FeedSort = NewestFirst | OldestFirst | MostLiked | BestRated | MostViewed

  /** `sort_by` dispatch of `build_posts_page`; 'rating' is an alias of
      'satisfaction' and anything else is 'latest'. */
  function FeedSortOf(sortBy: string): (o: FeedSort)
    ensures o == BestRated <==> sortBy == "rating" || sortBy == "satisfaction"
    ensures o == OldestFirst <==> sortBy == "oldest"
    ensures o == MostLiked <==> sortBy == "popular"
    ensures o == MostViewed <==> sortBy == "views"
  {
    if sortBy == "latest" then NewestFirst
    else if sortBy == "oldest" then OldestFirst
    else if sortBy == "popular" then MostLiked
    else if sortBy == "rating" || sortBy == "satisfaction" then BestRated
    else if sortBy == "views" then MostViewed
    else NewestFirst
  }

  /** Popular and views order by one field only; ties keep their order. */
  function FeedKey(o: FeedSort, p: Post): seq<Part> {
    match o
    case NewestFirst => [Num(-p.createdAt)]
    case OldestFirst => [Num(p.createdAt)]
    case MostLiked => [Num(-(p.likeCount as int))]
    case BestRated =>
      if p.satisfaction.None? then [Num(1), Num(0), Num(-p.createdAt)]
      else [Num(0), Num(-p.satisfaction.value), Num(-p.createdAt)]
    case MostViewed => [Num(-(p.viewCount as int))]
  }

  predicate FeedBefore(o: FeedSort, a: Post, b: Post) {
    match o
    case NewestFirst => a.createdAt >= b.createdAt
    case OldestFirst => a.createdAt <= b.createdAt
    case MostLiked => a.likeCount >= b.likeCount
    case BestRated => Sorting.Before(Sorting.BySatisfaction, a, b)
    case MostViewed => a.viewCount >= b.viewCount
  }

  lemma FeedKeyOrder(o: FeedSort, a: Post, b: Post)
    ensures KeyLe(FeedKey(o, a), FeedKey(o, b)) <==> FeedBefore(o, a, b)
  {
    match o
    case NewestFirst => Sorting.KeyLeOne(-a.createdAt, -b.createdAt);
    case OldestFirst => Sorting.KeyLeOne(a.createdAt, b.createdAt);
    case MostLiked => Sorting.KeyLeOne(-(a.likeCount as int), -(b.likeCount as int));
    case MostViewed => Sorting.KeyLeOne(-(a.viewCount as int), -(b.viewCount as int));
    case BestRated =>
      assert FeedKey(o, a) == Sorting.PostKey(Sorting.BySatisfaction, a);
      assert FeedKey(o, b) == Sorting.PostKey(Sorting.BySatisfaction, b);
      Sorting.KeyOrderIsBefore(Sorting.BySatisfaction, a, b);
  }

  function SortFeed(ps: seq<Post>, sortBy: string): (r: seq<Post>)
    ensures multiset(r) == multiset(ps)
    ensures forall i, j :: 0 <= i < j < |r| ==> FeedBefore(FeedSortOf(sortBy), r[i], r[j])
  {
    var o := FeedSortOf(sortBy);
    var r := SortBy(ps, p => FeedKey(o, p));
    forall i, j | 0 <= i < j < |r| ensures FeedBefore(o, r[i], r[j]) {
      FeedKeyOrder(o, r[i], r[j]);
    }
    r
  }

  // ---------------------------------------------------------------------
  // Search and exclusion
  // ---------------------------------------------------------------------

  /** The services' search: title, prompt, AI response or tags contain the
      text case-insensitively. Unlike `SearchManager`, the additional
      opinion is not searched. */
  predicate ServiceHit(p: Post, q: string) {
    IContains(p.title, q) || IContains(p.prompt, q) || IContains(p.aiResponse, q) || IContains(p.tags, q)
  }

  function ServiceSearch(ps: seq<Post>, q: string): (r: seq<Post>)
    ensures q == "" ==> r == ps
    ensures q != "" ==> forall p :: p in r <==> p in ps && ServiceHit(p, q)
    ensures multiset(r) <= multiset(ps)
  {
    if q == "" then ps else Where(ps, p => ServiceHit(p, q))
  }

  /** `exclude_id`: a non-empty integer string removes the posts with that
      id; anything else is ignored. */
  function ExcludeId(ps: seq<Post>, excludeId: string): (r: seq<Post>)
    ensures ParseInt(excludeId).Some? ==>
      forall p :: p in r <==> p in ps && p.id != ParseInt(excludeId).value
    ensures ParseInt(excludeId).None? ==> r == ps
    ensures multiset(r) <= multiset(ps)
  {
    if excludeId == "" then ps
    else match ParseInt(excludeId)
      case None => ps
      case Some(id) => Where(ps, (p: Post) => p.id != id)
  }

  // ---------------------------------------------------------------------
  // build_posts_page
  // ---------------------------------------------------------------------

  /** The feed query string. */
  datatype FeedQuery = FeedQuery(
    page: Option<string>,
    pageSize: Option<string>,
    search: string,
    excludeId: string,
    sortBy: string,
    author: string,
    categories: string,
    models: string)

  /** The filter set is valid unless `author` is given and is not the id of
      an existing user; an invalid filter set is skipped entirely. */
  predicate FilterSetValid(q: FeedQuery, userIds: set<int>) {
    q.author == "" || (ParseInt(q.author).Some? && ParseInt(q.author).value in userIds)
  }

  /** A post passes the author, category and model filters of a valid
      filter set. */
  ghost predicate PassesFilterSet(q: FeedQuery, categories: seq<Category>, models: seq<AiModel>, p: Post) {
    && (q.author == "" || Some(p.authorId) == ParseInt(q.author))
    && Filters.PassesCategories(categories, q.categories, p)
    && Filters.PassesModels(models, q.models, p)
  }

  /** The filter set: skipped as a whole when invalid, otherwise the posts
      that pass all three filters. */
  function ApplyFilterSet(ps: seq<Post>, q: FeedQuery, userIds: set<int>,
                          categories: seq<Category>, models: seq<AiModel>): (r: seq<Post>)
    ensures !FilterSetValid(q, userIds) ==> r == ps
    ensures FilterSetValid(q, userIds) ==>
      forall p :: p in r <==> p in ps && PassesFilterSet(q, categories, models, p)
    ensures multiset(r) <= multiset(ps)
  {
    if !FilterSetValid(q, userIds) then ps
    else
      var byAuthor := if q.author == "" then ps else Where(ps, (p: Post) => p.authorId == ParseInt(q.author).value);
      var byCategory := Filters.CategoriesFilter(byAuthor, categories, q.categories);
      Filters.CategoriesFilterKeeps(byAuthor, categories, q.categories);
      Filters.ModelsFilterKeeps(byCategory, models, q.models);
      Filters.ModelsFilter(byCategory, models, q.models)
  }

  /** The feed before paging: filter set, sort, search, exclusion. */
  function FeedRows(posts: seq<Post>, q: FeedQuery, userIds: set<int>,
                    categories: seq<Category>, models: seq<AiModel>): (r: seq<Post>)
    ensures forall p :: p in r <==>
      && p in ApplyFilterSet(posts, q, userIds, categories, models)
      && (q.search == "" || ServiceHit(p, q.search))
      && (ParseInt(q.excludeId).None? || p.id != ParseInt(q.excludeId).value)
    ensures multiset(r) <= multiset(posts)
    ensures Pairwise(r, (a, b) => FeedBefore(FeedSortOf(q.sortBy), a, b))
  {
    var filtered := ApplyFilterSet(posts, q, userIds, categories, models);
    var sorted := SortFeed(filtered, q.sortBy);
    var searched := ServiceSearch(sorted, q.search);
    var kept := ExcludeId(searched, q.excludeId);
    assert forall p :: p in sorted <==> p in filtered by {
      assert forall p :: p in sorted <==> p in multiset(sorted);
    }
    SearchKeepsFeedOrder(filtered, q.sortBy, q.search);
    ExcludeKeepsFeedOrder(searched, q.excludeId, FeedSortOf(q.sortBy));
    kept
  }

  lemma ExcludeKeepsFeedOrder(s: seq<Post>, excludeId: string, o: FeedSort)
    requires Pairwise(s, (a, b) => FeedBefore(o, a, b))
    ensures Pairwise(ExcludeId(s, excludeId), (a, b) => FeedBefore(o, a, b))
  {
    if excludeId != "" && ParseInt(excludeId).Some? {
      WhereKeepsPairOrder(s, (p: Post) => p.id != ParseInt(excludeId).value, (a, b) => FeedBefore(o, a, b));
    }
  }

  /** `build_posts_page`: the page of the feed the parameters ask for. */
  function BuildPostsPage(posts: seq<Post>, q: FeedQuery, userIds: set<int>,
                          categories: seq<Category>, models: seq<AiModel>): (r: Result<Paginator.Page<Post>>)
    ensures r.Err? <==> FeedPageParams(q.page, q.pageSize).1 <= 0
    ensures r.Ok? ==>
      var rows, size := FeedRows(posts, q, userIds, categories, models), FeedPageParams(q.page, q.pageSize).1;
      var asked := FeedPageParams(q.page, q.pageSize).0;
      && r.value.numPages == Paginator.NumPages(|rows|, size)
      && r.value.number == (if 1 <= asked <= r.value.numPages then asked else r.value.numPages)
      && r.value.items == Paginator.Slice(rows, r.value.number, size)
    ensures r.Ok? ==> forall p :: p in r.value.items ==> p in FeedRows(posts, q, userIds, categories, models)
    ensures r.Ok? ==> Pairwise(r.value.items, (a, b) => FeedBefore(FeedSortOf(q.sortBy), a, b))
  {
    var params := FeedPageParams(q.page, q.pageSize);
    var rows := FeedRows(posts, q, userIds, categories, models);
    var r := Paginator.Paginate(rows, params.0, params.1);
    PageRowsFromList(rows, params.0, params.1);
    PageKeepsOrder(rows, params.0, params.1, (a, b) => FeedBefore(FeedSortOf(q.sortBy), a, b));
    r
  }

  /** A page of an ordered list is ordered. */
  lemma PageKeepsOrder<T>(s: seq<T>, page: int, size: int, before: (T, T) -> bool)
    requires Pairwise(s, before)
    ensures var r := Paginator.Paginate(s, page, size);
      r.Ok? ==> Pairwise(r.value.items, before)
  {
    var r := Paginator.Paginate(s, page, size);
    if r.Ok? {
      Paginator.MulMono(0, r.value.number - 1, size);
      WindowKeepsOrder(s, r.value.items, (r.value.number - 1) * size, before);
    }
  }

  /** A run of consecutive rows of an ordered list is ordered. */
  lemma WindowKeepsOrder<T>(s: seq<T>, items: seq<T>, lo: nat, before: (T, T) -> bool)
    requires Pairwise(s, before) && lo + |items| <= |s|
    requires forall j :: 0 <= j < |items| ==> items[j] == s[lo + j]
    ensures Pairwise(items, before)
  {
    forall i, j | 0 <= i < j < |items| ensures before(items[i], items[j]) {
      assert items[i] == s[lo + i] && items[j] == s[lo + j];
    }
  }

  /** Every row a page shows comes from the paged list. */
  lemma PageRowsFromList<T>(s: seq<T>, page: int, size: int)
    ensures var r := Paginator.Paginate(s, page, size);
      r.Ok? ==> forall x :: x in r.value.items ==> x in s
  {
    var r := Paginator.Paginate(s, page, size);
    if r.Ok? {
      forall x | x in r.value.items ensures x in s {
        var j :| 0 <= j < |r.value.items| && r.value.items[j] == x;
        assert x == s[(r.value.number - 1) * size + j];
      }
    }
  }

  /** Searching after sorting keeps the sorted order: the matching posts of
      the feed are still in feed order. */
  lemma SearchKeepsFeedOrder(ps: seq<Post>, sortBy: string, q: string)
    ensures Pairwise(ServiceSearch(SortFeed(ps, sortBy), q), (a, b) => FeedBefore(FeedSortOf(sortBy), a, b))
  {
    var s := SortFeed(ps, sortBy);
    var o := FeedSortOf(sortBy);
    if q != "" {
      var before := (a, b) => FeedBefore(o, a, b);
      assert Pairwise(s, before);
      WhereKeepsPairOrder(s, p => ServiceHit(p, q), before);
      assert Pairwise(Where(s, p => ServiceHit(p, q)), before);
    }
  }

  /** Every earlier row stands in `before` to every later one. */
  ghost predicate Pairwise<T>(s: seq<T>, before: (T, T) -> bool) {
    forall i, j :: 0 <= i < j < |s| ==> before(s[i], s[j])
  }

  /** Any relation that holds between every earlier and later row still
      holds after filtering. */
  lemma {:induction false} WhereKeepsPairOrder<T(!new)>(s: seq<T>, keep: T -> bool, before: (T, T) -> bool)
    requires Pairwise(s, before)
    ensures Pairwise(Where(s, keep), before)
    decreases |s|
  {
    if |s| > 0 {
      var tail := s[1..];
      assert Pairwise(tail, before) by {
        forall i, j | 0 <= i < j < |tail| ensures before(tail[i], tail[j]) {
          assert tail[i] == s[i + 1] && tail[j] == s[j + 1];
        }
      }
      WhereKeepsPairOrder(tail, keep, before);
      var rest := Where(tail, keep);
      if keep(s[0]) {
        assert Where(s, keep) == [s[0]] + rest;
        forall y | y in rest ensures before(s[0], y) {
          assert y in tail;
          var k :| 0 <= k < |tail| && tail[k] == y;
          assert s[k + 1] == y;
        }
        ConsPairwise(s[0], rest, before);
      } else {
        assert Where(s, keep) == rest;
      }
    }
  }

  lemma ConsPairwise<T>(x: T, s: seq<T>, before: (T, T) -> bool)
    requires Pairwise(s, before)
    requires forall y :: y in s ==> before(x, y)
    ensures Pairwise([x] + s, before)
  {
    var r := [x] + s;
    forall i, j | 0 <= i < j < |r| ensures before(r[i], r[j]) {
      assert r[j] == s[j - 1];
      if i > 0 {
        assert r[i] == s[i - 1];
      }
    }
  }

  // ---------------------------------------------------------------------
  // build_user_posts_page
  // ---------------------------------------------------------------------

  /** A row of a user list: the post and, for liked and bookmarked lists,
      when the user's interaction with it was last updated. */
  datatype UserRow = UserRow(post: Post, interactionUpdatedAt: int)

  /** The two ordering fields the callers pass as `order_field_latest`. */
  const InteractionUpdated: string := "interactions__updated_at"
  const CreatedAt: string := "created_at"

  /** The value of an ordering field; the field name has its '-' removed. */
  function FieldValue(field: string, row: UserRow): int {
    if field == InteractionUpdated then row.interactionUpdatedAt else row.post.createdAt
  }

  /** The ORM key of `order_by(spec)`: a leading '-' means descending; every
      '-' is dropped from the field name. */
  function SpecKey(spec: string, row: UserRow): seq<Part> {
    var v := FieldValue(Remove(spec, '-'), row);
    [Num(if |spec| > 0 && spec[0] == '-' then -v else v)]
  }

  function UserKey(sortBy: string, latestSpec: string, row: UserRow): seq<Part> {
    if sortBy == "oldest" then SpecKey(Remove(latestSpec, '-'), row)
    else if sortBy == "popular" then [Num(-(row.post.likeCount as int))]
    else if sortBy == "views" then [Num(-(row.post.viewCount as int))]
    else SpecKey(latestSpec, row)
  }

  /** For a descending spec such as '-created_at', 'latest' lists the field
      newest first and 'oldest' oldest first; 'satisfaction' is not an
      option here and sorts like 'latest'. */
  predicate UserBefore(sortBy: string, latestSpec: string, a: UserRow, b: UserRow) {
    var f := Remove(latestSpec, '-');
    if sortBy == "oldest" then FieldValue(f, a) <= FieldValue(f, b)
    else if sortBy == "popular" then a.post.likeCount >= b.post.likeCount
    else if sortBy == "views" then a.post.viewCount >= b.post.viewCount
    else FieldValue(f, a) >= FieldValue(f, b)
  }

  lemma UserKeyOrder(sortBy: string, latestSpec: string, a: UserRow, b: UserRow)
    requires |latestSpec| > 0 && latestSpec[0] == '-'
    ensures KeyLe(UserKey(sortBy, latestSpec, a), UserKey(sortBy, latestSpec, b))
      <==> UserBefore(sortBy, latestSpec, a, b)
  {
    var f := Remove(latestSpec, '-');
    RemoveIdempotent(latestSpec);
    var ka, kb := UserKey(sortBy, latestSpec, a), UserKey(sortBy, latestSpec, b);
    assert ka == [Num(ka[0].n)] && kb == [Num(kb[0].n)];
    Sorting.KeyLeOne(ka[0].n, kb[0].n);
    if sortBy == "oldest" && |f| > 0 {
      assert f[0] in f;
    }
  }

  lemma RemoveIdempotent(s: string)
    ensures Remove(Remove(s, '-'), '-') == Remove(s, '-')
  {
    RemoveAbsent(Remove(s, '-'), '-');
  }

  function SortUserRows(rows: seq<UserRow>, sortBy: string, latestSpec: string): (r: seq<UserRow>)
    requires |latestSpec| > 0 && latestSpec[0] == '-'
    ensures multiset(r) == multiset(rows)
    ensures forall i, j :: 0 <= i < j < |r| ==> UserBefore(sortBy, latestSpec, r[i], r[j])
  {
    var r := SortBy(rows, row => UserKey(sortBy, latestSpec, row));
    forall i, j | 0 <= i < j < |r| ensures UserBefore(sortBy, latestSpec, r[i], r[j]) {
      UserKeyOrder(sortBy, latestSpec, r[i], r[j]);
    }
    r
  }

  /** `build_user_posts_page`: sort, search (same fields as the feed), page.
      The page is an error exactly when the page size is not positive;
      otherwise it shows rows of the user's list that match the search,
      in the user-list order. */
  function BuildUserPostsPage(rows: seq<UserRow>, page: Option<string>, pageSize: Option<string>,
                              search: string, sortBy: string, latestSpec: string): (r: Result<Paginator.Page<UserRow>>)
    requires |latestSpec| > 0 && latestSpec[0] == '-'
    ensures r.Err? <==> UserPageParams(page, pageSize).1 <= 0
    ensures r.Ok? ==> forall row :: row in r.value.items ==>
      row in rows && (search == "" || ServiceHit(row.post, search))
    ensures r.Ok? ==> Pairwise(r.value.items, (a, b) => UserBefore(sortBy, latestSpec, a, b))
    ensures var (pg, size) := UserPageParams(page, pageSize);
      r == Paginator.Paginate(
        Where(SortUserRows(rows, sortBy, latestSpec), (row: UserRow) => search == "" || ServiceHit(row.post, search)),
        pg, size)
  {
    var (pg, size) := UserPageParams(page, pageSize);
    var sorted := SortUserRows(rows, sortBy, latestSpec);
    var searched := Where(sorted, (row: UserRow) => search == "" || ServiceHit(row.post, search));
    assert forall row :: row in sorted <==> row in rows by {
      assert forall row :: row in sorted <==> row in multiset(sorted);
    }
    PageRowsFromList(searched, pg, size);
    var before := (a, b) => UserBefore(sortBy, latestSpec, a, b);
    assert Pairwise(sorted, before);
    WhereKeepsPairOrder(sorted, (row: UserRow) => search == "" || ServiceHit(row.post, search), before);
    PageKeepsOrder(searched, pg, size, before);
    Paginator.Paginate(searched, pg, size)
  }

  /** Without a search nothing of the user's list is dropped: the pages
      are counted over all its rows. */
  lemma UserPagesCountEveryRow(rows: seq<UserRow>, page: Option<string>, pageSize: Option<string>,
                               sortBy: string, latestSpec: string)
    requires |latestSpec| > 0 && latestSpec[0] == '-'
    ensures var r := BuildUserPostsPage(rows, page, pageSize, "", sortBy, latestSpec);
      r.Ok? ==> r.value.numPages == Paginator.NumPages(|rows|, UserPageParams(page, pageSize).1)
  {
    var sorted := SortUserRows(rows, sortBy, latestSpec);
    Domain.WhereAll(sorted, (row: UserRow) => "" == "" || ServiceHit(row.post, ""));
    assert |sorted| == |multiset(sorted)| == |multiset(rows)| == |rows|;
  }

  // ---------------------------------------------------------------------
  // get_post_and_increment_views
  // ---------------------------------------------------------------------

  function FindPost(posts: seq<Post>, id: int): (r: Option<Post>)
    ensures r.Some? ==> r.value in posts && r.value.id == id
    ensures r.None? ==> forall p :: p in posts ==> p.id != id
  {
    if |posts| == 0 then None
    else if posts[0].id == id then Some(posts[0])
    else FindPost(posts[1..], id)
  }

  function Bump(p: Post): Post { p.(viewCount := p.viewCount + 1) }

  /** A missing id returns None and changes nothing; otherwise every row
      with that id gets one more view and the refreshed post is returned. */
  function GetPostAndIncrementViews(posts: seq<Post>, id: int): (r: (Option<Post>, seq<Post>))
    ensures r.0.None? <==> forall p :: p in posts ==> p.id != id
    ensures r.0.None? ==> r.1 == posts
    ensures r.0.Some? ==> exists p :: p in posts && p.id == id && r.0.value == p.(viewCount := p.viewCount + 1)
    ensures |r.1| == |posts|
    ensures forall i :: 0 <= i < |posts| ==>
      r.1[i] == (if posts[i].id == id then posts[i].(viewCount := posts[i].viewCount + 1) else posts[i])
  {
    match FindPost(posts, id)
    case None =>
      (None, posts)
    case Some(p) =>
      (Some(Bump(p)), seq(|posts|, i requires 0 <= i < |posts| => if posts[i].id == id then Bump(posts[i]) else posts[i]))
  }
}

=== FILE: postviews.dfy ===
/** The read and interaction endpoints of the posts app: the model list with
    its default, tag usage counts, the like and bookmark toggles, the author
    check on update and delete, and model suggestions. */
module PostViews {
  import opened Wrappers
  import opened Text
  import opened Domain
  import opened Ordering
  import PostModel

  // ---------------------------------------------------------------------
  // models_list
  // ---------------------------------------------------------------------

  /** Where a model sorts among its platform's models: `sort_order`, except
      that 0 ("unset") goes after every real position. */
  function SortSlot(m: AiModel): int { if m.sortOrder == 0 then 999999 else m.sortOrder }

  function PlatformName(platforms: seq<Platform>, id: int): string {
    match FindPlatform(platforms, id)
    case Some(p) => p.name
    case None => ""
  }

  /** `order_by('platform__name', 'sort_key', 'name')`. */
  function ModelKey(platforms: seq<Platform>, m: AiModel): seq<Part> {
    [Str(PlatformName(platforms, m.platform)), Num(SortSlot(m)), Str(m.name)]
  }

  /** What `models_list` answers with: the listed models and the default. */
  datatype ModelListing = ModelListing(data: seq<AiModel>, defaultModel: Option<AiModel>)

  /** A `platform_id` parameter that is present and not empty. */
  predicate Given(param: Option<string>) { param.Some? && param.value != "" }

  /** `models_list`: a platform id that is not an integer is a 400 (Err);
      otherwise the models of that platform (or all models), ordered by
      platform name, then slot, then name, with the first as the default. */
  function ModelsList(models: seq<AiModel>, platforms: seq<Platform>, platformId: Option<string>): (r: Result<ModelListing>)
    ensures r.Err? <==> Given(platformId) && ParseInt(platformId.value).None?
    ensures r.Ok? ==> multiset(r.value.data) <= multiset(models)
    ensures r.Ok? ==> forall m :: m in r.value.data <==>
      m in models && (!Given(platformId) || m.platform == ParseInt(platformId.value).value)
    ensures r.Ok? ==> Sorted(r.value.data, (m: AiModel) => ModelKey(platforms, m))
    ensures r.Ok? ==> (r.value.defaultModel.None? <==> r.value.data == [])
    ensures r.Ok? && r.value.defaultModel.Some? ==> r.value.defaultModel.value in r.value.data
    ensures r.Ok? && r.value.defaultModel.Some? ==> forall m :: m in r.value.data ==>
      KeyLe(ModelKey(platforms, r.value.defaultModel.value), ModelKey(platforms, m))
  {
    if Given(platformId) && ParseInt(platformId.value).None? then Err("invalid platform id")
    else
      var kept := if Given(platformId)
        then Where(models, (m: AiModel) => m.platform == ParseInt(platformId.value).value)
        else models;
      var data := SortBy(kept, (m: AiModel) => ModelKey(platforms, m));
      SortByMembers(kept, (m: AiModel) => ModelKey(platforms, m));
      if data == [] then Ok(ModelListing(data, None))
      else
        assert forall m :: m in data ==> KeyLe(ModelKey(platforms, data[0]), ModelKey(platforms, m)) by {
          forall m | m in data ensures KeyLe(ModelKey(platforms, data[0]), ModelKey(platforms, m)) {
            var j :| 0 <= j < |data| && data[j] == m;
            if j == 0 { KeyLeReflexive(ModelKey(platforms, m)); }
          }
        }
        Ok(ModelListing(data, Some(data[0])))
  }

  /** The model order in the source's terms: platform name first, then the
      slot, then the model name. */
  lemma ModelKeyOrder(platforms: seq<Platform>, a: AiModel, b: AiModel)
    ensures KeyLe(ModelKey(platforms, a), ModelKey(platforms, b)) <==>
      var pa, pb := PlatformName(platforms, a.platform), PlatformName(platforms, b.platform);
      (StrLe(pa, pb) && pa != pb)
      || (pa == pb && (SortSlot(a) < SortSlot(b) || (SortSlot(a) == SortSlot(b) && StrLe(a.name, b.name))))
  {
    var pa, pb := PlatformName(platforms, a.platform), PlatformName(platforms, b.platform);
    KeyLeThree(Str(pa), Num(SortSlot(a)), Str(a.name), Str(pb), Num(SortSlot(b)), Str(b.name));
    StrLeTotal(a.name, a.name);
  }

  /** Within one platform, a model whose `sort_order` is unset (0) is listed
      after every model with a real position below 999999. */
  lemma UnsetSortOrderGoesLast(platforms: seq<Platform>, a: AiModel, b: AiModel)
    requires PlatformName(platforms, a.platform) == PlatformName(platforms, b.platform)
    requires a.sortOrder == 0 && 0 != b.sortOrder < 999999
    ensures KeyLe(ModelKey(platforms, b), ModelKey(platforms, a))
    ensures !KeyLe(ModelKey(platforms, a), ModelKey(platforms, b))
  {
    ModelKeyOrder(platforms, a, b);
    ModelKeyOrder(platforms, b, a);
  }

  // ---------------------------------------------------------------------
  // tags_list
  // ---------------------------------------------------------------------

  /** One row of the tag listing. */
  datatype TagCount = TagCount(name: string, count: nat)

  /** The tags of every post, in post order and then in list order: each
      stripped, non-blank, comma separated piece, once per occurrence. */
  function AllTags(posts: seq<Post>): (r: seq<string>)
    ensures forall t :: t in r <==> exists p :: p in posts && t in Tokens(p.tags, ',')
    decreases |posts|
  {
    if |posts| == 0 then []
    else
      assert posts == [posts[0]] + posts[1..];
      Tokens(posts[0].tags, ',') + AllTags(posts[1..])
  }

  /** Index of the first occurrence of `u` in `s`, or `|s|` when absent. */
  function Position(s: seq<string>, u: string): (r: nat)
    ensures r <= |s|
    ensures r < |s| <==> u in s
    ensures r < |s| ==> s[r] == u
    ensures u !in s[..r]
    decreases |s|
  {
    if |s| == 0 then 0
    else if s[0] == u then 0
    else
      var r := 1 + Position(s[1..], u);
      assert s[..r] == [s[0]] + s[1..][..r - 1];
      r
  }

  /** The first occurrence is the only index holding `u` with no `u` before. */
  lemma PositionUnique(s: seq<string>, u: string, k: nat)
    requires k < |s| && s[k] == u && u !in s[..k]
    ensures Position(s, u) == k
  {
  }

  ghost predicate Listed(tally: seq<TagCount>, t: string) {
    exists k :: 0 <= k < |tally| && tally[k].name == t
  }

  /** No tag is listed twice. */
  ghost predicate Distinct(tally: seq<TagCount>) {
    forall i, j :: 0 <= i < j < |tally| ==> tally[i].name != tally[j].name
  }

  function Total(tally: seq<TagCount>): nat
    decreases |tally|
  {
    if |tally| == 0 then 0 else tally[0].count + Total(tally[1..])
  }

  /** `tag_counts[tag] = tag_counts.get(tag, 0) + 1` on an insertion-ordered
      dict: bump the tag's count, or append it with count 1. */
  function Bump(tally: seq<TagCount>, t: string): (r: seq<TagCount>)
    requires Distinct(tally)
    ensures |r| == |tally| + (if Listed(tally, t) then 0 else 1)
    ensures forall k :: 0 <= k < |tally| ==> r[k].name == tally[k].name
    ensures forall k :: 0 <= k < |tally| ==> r[k].count == tally[k].count + (if tally[k].name == t then 1 else 0)
    ensures !Listed(tally, t) ==> r[|tally|] == TagCount(t, 1)
    ensures Distinct(r)
    decreases |tally|
  {
    if |tally| == 0 then [TagCount(t, 1)]
    else if tally[0].name == t then
      var r := [TagCount(t, tally[0].count + 1)] + tally[1..];
      assert r[1..] == tally[1..];
      assert Listed(tally, t);
      TailDistinct(tally);
      HeadNotInTail(tally);
      ConsDistinct(r[0], tally[1..]);
      r
    else
      var rest := tally[1..];
      ListedTail(tally, t);
      TailDistinct(tally);
      var b := Bump(rest, t);
      HeadNotInTail(tally);
      assert forall k :: 0 <= k < |b| ==> b[k].name != tally[0].name by {
        forall k | 0 <= k < |b| ensures b[k].name != tally[0].name {
          if k < |rest| {
            assert b[k].name == rest[k].name;
          }
        }
      }
      ConsDistinct(tally[0], b);
      var r := [tally[0]] + b;
      assert r[1..] == b;
      r
  }

  /** A bump adds exactly one use to the total. */
  lemma {:induction false} BumpTotal(tally: seq<TagCount>, t: string)
    requires Distinct(tally)
    ensures Total(Bump(tally, t)) == Total(tally) + 1
    decreases |tally|
  {
    if |tally| > 0 {
      var r := Bump(tally, t);
      assert r[1..] == if tally[0].name == t then tally[1..] else Bump(tally[1..], t);
      if tally[0].name != t {
        TailDistinct(tally);
        BumpTotal(tally[1..], t);
      }
    } else {
      assert Bump(tally, t)[1..] == [];
    }
  }

  lemma TailDistinct(tally: seq<TagCount>)
    requires |tally| > 0 && Distinct(tally)
    ensures Distinct(tally[1..])
  {
    forall i, j | 0 <= i < j < |tally[1..]| ensures tally[1..][i].name != tally[1..][j].name {
      assert tally[1..][i] == tally[i + 1] && tally[1..][j] == tally[j + 1];
    }
  }

  lemma HeadNotInTail(tally: seq<TagCount>)
    requires |tally| > 0 && Distinct(tally)
    ensures forall k :: 0 <= k < |tally[1..]| ==> tally[1..][k].name != tally[0].name
  {
    forall k | 0 <= k < |tally[1..]| ensures tally[1..][k].name != tally[0].name {
      assert tally[1..][k] == tally[k + 1];
    }
  }

  lemma ConsDistinct(x: TagCount, s: seq<TagCount>)
    requires Distinct(s) && forall k :: 0 <= k < |s| ==> s[k].name != x.name
    ensures Distinct([x] + s)
  {
    var r := [x] + s;
    forall i, j | 0 <= i < j < |r| ensures r[i].name != r[j].name {
      assert r[j] == s[j - 1];
      if i > 0 {
        assert r[i] == s[i - 1];
      }
    }
  }

  lemma ListedTail(tally: seq<TagCount>, t: string)
    requires |tally| > 0 && tally[0].name != t
    ensures Listed(tally, t) <==> Listed(tally[1..], t)
  {
    var rest := tally[1..];
    if Listed(tally, t) {
      var k :| 0 <= k < |tally| && tally[k].name == t;
      assert rest[k - 1] == tally[k];
    }
    if Listed(rest, t) {
      var k :| 0 <= k < |rest| && rest[k].name == t;
      assert tally[k + 1] == rest[k];
    }
  }

  /** Each listed tag occurs in `ts`, and its count is its number of
      occurrences. */
  ghost predicate CountsUses(ts: seq<string>, tally: seq<TagCount>) {
    forall k :: 0 <= k < |tally| ==> tally[k].name in ts && tally[k].count == multiset(ts)[tally[k].name]
  }

  ghost predicate ListsAll(ts: seq<string>, tally: seq<TagCount>) {
    forall u :: u in ts ==> Listed(tally, u)
  }

  /** Tags are listed in the order of their first occurrence. */
  ghost predicate FirstSeenOrder(ts: seq<string>, tally: seq<TagCount>) {
    forall i, j :: 0 <= i < j < |tally| ==> Position(ts, tally[i].name) < Position(ts, tally[j].name)
  }

  /** The dict `tags_list` builds: tags in the order first seen, each with
      the number of times it occurs. */
  function Tally(ts: seq<string>): (r: seq<TagCount>)
    ensures Distinct(r) && CountsUses(ts, r) && ListsAll(ts, r) && FirstSeenOrder(ts, r)
    ensures Total(r) == |ts|
    decreases |ts|
  {
    if |ts| == 0 then []
    else
      var init, t := ts[..|ts| - 1], ts[|ts| - 1];
      assert ts == init + [t];
      var prev := Tally(init);
      StepCounts(init, t, prev);
      StepListed(init, t, prev);
      StepOrder(init, t, prev);
      BumpTotal(prev, t);
      Bump(prev, t)
  }

  lemma StepCounts(init: seq<string>, t: string, prev: seq<TagCount>)
    requires Distinct(prev) && CountsUses(init, prev) && ListsAll(init, prev)
    ensures CountsUses(init + [t], Bump(prev, t))
  {
    var ts, r := init + [t], Bump(prev, t);
    assert multiset(ts) == multiset(init) + multiset{t};
    forall k | 0 <= k < |r| ensures r[k].name in ts && r[k].count == multiset(ts)[r[k].name] {
      if k < |prev| {
        assert prev[k].name in init;
      } else {
        assert !Listed(prev, t);
        assert t !in init;
      }
    }
  }

  lemma StepListed(init: seq<string>, t: string, prev: seq<TagCount>)
    requires Distinct(prev) && ListsAll(init, prev)
    ensures ListsAll(init + [t], Bump(prev, t))
  {
    var ts, r := init + [t], Bump(prev, t);
    forall u | u in ts ensures Listed(r, u) {
      if u in init {
        var k :| 0 <= k < |prev| && prev[k].name == u;
        assert r[k].name == u;
      } else if Listed(prev, t) {
        var k :| 0 <= k < |prev| && prev[k].name == t;
        assert r[k].name == t;
      } else {
        assert r[|prev|].name == t;
      }
    }
  }

  /** Appending to a sequence does not move first occurrences. */
  lemma PositionExtend(init: seq<string>, t: string, u: string)
    requires u in init
    ensures Position(init + [t], u) == Position(init, u)
  {
    var p := Position(init, u);
    assert (init + [t])[..p] == init[..p];
    PositionUnique(init + [t], u, p);
  }

  lemma StepOrder(init: seq<string>, t: string, prev: seq<TagCount>)
    requires Distinct(prev) && CountsUses(init, prev) && ListsAll(init, prev) && FirstSeenOrder(init, prev)
    ensures FirstSeenOrder(init + [t], Bump(prev, t))
  {
    var ts, r := init + [t], Bump(prev, t);
    forall i, j | 0 <= i < j < |r| ensures Position(ts, r[i].name) < Position(ts, r[j].name) {
      assert prev[i].name in init;
      PositionExtend(init, t, prev[i].name);
      if j < |prev| {
        assert prev[j].name in init;
        PositionExtend(init, t, prev[j].name);
      } else {
        assert r[j].name == t && t !in init;
        assert ts[..|init|] == init;
        PositionUnique(ts, t, |init|);
      }
    }
  }

  /** The listing's order: more uses first. */
  function CountKey(e: TagCount): seq<Part> { [Num(-(e.count as int))] }

  /** The tally sorted most used first; equal counts keep the tally's
      order. */
  function Ranking(ts: seq<string>): (r: seq<TagCount>)
    ensures multiset(r) == multiset(Tally(ts))
    ensures forall i, j :: 0 <= i < j < |r| ==> r[i].count >= r[j].count
  {
    ByCount(Tally(ts))
  }

  /** `sorted(rows, key=count, reverse=True)`. */
  function ByCount(rows: seq<TagCount>): (r: seq<TagCount>)
    ensures multiset(r) == multiset(rows)
    ensures forall i, j :: 0 <= i < j < |r| ==> r[i].count >= r[j].count
  {
    var r := SortBy(rows, CountKey);
    forall i, j | 0 <= i < j < |r| ensures r[i].count >= r[j].count {
      KeyLeSingle(-(r[i].count as int), -(r[j].count as int));
    }
    r
  }

  /** Every row of the ranking is a tag of `ts` with its number of uses,
      and every tag of `ts` has a row. */
  lemma RankingRows(ts: seq<string>)
    ensures forall e :: e in Ranking(ts) ==> e.name in ts && e.count == multiset(ts)[e.name] && e.count >= 1
    ensures forall t :: t in ts ==> exists e :: e in Ranking(ts) && e.name == t
  {
    var tally := Tally(ts);
    var r := Ranking(ts);
    forall e | e in r ensures e.name in ts && e.count == multiset(ts)[e.name] && e.count >= 1 {
      var k := InTally(ts, e);
    }
    forall t | t in ts ensures exists e :: e in r && e.name == t {
      assert Listed(tally, t);
      var k :| 0 <= k < |tally| && tally[k].name == t;
      assert tally[k] in multiset(r);
    }
  }

  /** `tags_list`: every tag in use once, with its number of uses, most used
      first. */
  function TagsListing(posts: seq<Post>): (r: seq<TagCount>)
    ensures forall e :: e in r ==> e.name in AllTags(posts) && e.count == multiset(AllTags(posts))[e.name] && e.count >= 1
    ensures forall t :: t in AllTags(posts) ==> exists e :: e in r && e.name == t
    ensures forall i, j :: 0 <= i < j < |r| ==> r[i].count >= r[j].count
  {
    RankingRows(AllTags(posts));
    Ranking(AllTags(posts))
  }

  lemma KeyLeSingle(x: int, y: int)
    ensures KeyLe([Num(x)], [Num(y)]) <==> x <= y
  {
    assert [Num(x)][1..] == [];
  }

  /** An element of the ranking is an element of the tally. */
  lemma InTally(ts: seq<string>, e: TagCount) returns (k: nat)
    requires e in Ranking(ts)
    ensures k < |Tally(ts)| && Tally(ts)[k] == e
  {
    assert e in multiset(Ranking(ts));
    assert e in multiset(Tally(ts));
    k :| 0 <= k < |Tally(ts)| && Tally(ts)[k] == e;
  }

  /** The listing has no repeated row and no repeated tag name. */
  lemma TagNamesDistinct(ts: seq<string>)
    ensures NoDup(Ranking(ts))
    ensures forall i, j :: 0 <= i < j < |Ranking(ts)| ==> Ranking(ts)[i].name != Ranking(ts)[j].name
  {
    var tally := Tally(ts);
    var r := Ranking(ts);
    assert NoDup(tally);
    PermutationNoDup(r, tally);
    forall i, j | 0 <= i < j < |r| ensures r[i].name != r[j].name {
      var p := InTally(ts, r[i]);
      var q := InTally(ts, r[j]);
      assert p != q;
    }
  }

  /** The counts add up to the number of tag occurrences. */
  lemma TagCountsSumToUses(posts: seq<Post>)
    ensures Total(TagsListing(posts)) == |AllTags(posts)|
  {
    var ts := AllTags(posts);
    TotalPermutation(Ranking(ts), Tally(ts));
  }

  /** Tags with the same count are listed in the order they were first
      seen. */
  lemma TiesInFirstSeenOrder(ts: seq<string>, i: nat, j: nat)
    requires i < j < |Ranking(ts)|
    requires Ranking(ts)[i].count == Ranking(ts)[j].count
    ensures Position(ts, Ranking(ts)[i].name) < Position(ts, Ranking(ts)[j].name)
  {
    var tally := Tally(ts);
    var r := Ranking(ts);
    assert NoDup(tally);
    assert r == SortBy(tally, CountKey);
    SortByKeepsTies(tally, CountKey, i, j);
    var p, q :| 0 <= p < q < |tally| && tally[p] == r[i] && tally[q] == r[j];
  }

  lemma {:induction false} TotalRemove(s: seq<TagCount>, k: nat)
    requires k < |s|
    ensures Total(s) == s[k].count + Total(s[..k] + s[k + 1..])
    decreases k
  {
    if k == 0 {
      assert s[..0] + s[1..] == s[1..];
    } else {
      TotalRemove(s[1..], k - 1);
      assert s[1..][..k - 1] + s[1..][k..] == (s[..k] + s[k + 1..])[1..];
    }
  }

  /** The first row of `a` sits somewhere in any rearrangement `b`, and
      taking it out of both leaves rearrangements of each other. */
  lemma MatchFirst(a: seq<TagCount>, b: seq<TagCount>) returns (k: nat)
    requires multiset(a) == multiset(b) && |a| > 0
    ensures k < |b| && b[k] == a[0]
    ensures multiset(a[1..]) == multiset(b[..k] + b[k + 1..])
  {
    assert a[0] in multiset(b);
    k :| 0 <= k < |b| && b[k] == a[0];
    assert a == [a[0]] + a[1..];
    assert b == b[..k] + [b[k]] + b[k + 1..];
    assert multiset(a) == multiset{a[0]} + multiset(a[1..]);
    assert multiset(b) == multiset(b[..k]) + multiset{b[k]} + multiset(b[k + 1..]);
    var rest := multiset(b[..k]) + multiset(b[k + 1..]);
    assert multiset(b[..k] + b[k + 1..]) == rest;
    forall x ensures multiset(a[1..])[x] == rest[x] {
      assert (multiset{a[0]} + multiset(a[1..]))[x] == (multiset{a[0]} + rest)[x];
    }
  }

  /** Reordering rows does not change the total. */
  lemma {:induction false} TotalPermutation(a: seq<TagCount>, b: seq<TagCount>)
    requires multiset(a) == multiset(b)
    ensures Total(a) == Total(b)
    decreases |a|
  {
    if |a| == 0 {
      assert |multiset(b)| == 0;
    } else {
      var k := MatchFirst(a, b);
      TotalPermutation(a[1..], b[..k] + b[k + 1..]);
      TotalRemove(b, k);
    }
  }

  // ---------------------------------------------------------------------
  // Author check: post_update / post_delete
  // ---------------------------------------------------------------------

  /** A view's answer and the posts table after it. */
  datatype Written = Written(status: int, posts: seq<Post>)

  function FindPost(posts: seq<Post>, id: int): (r: Option<Post>)
    ensures r.Some? ==> r.value in posts && r.value.id == id
    ensures r.None? <==> forall p :: p in posts ==> p.id != id
    decreases |posts|
  {
    if |posts| == 0 then None
    else if posts[0].id == id then Some(posts[0])
    else FindPost(posts[1..], id)
  }

  /** `post_delete`: 404 for an unknown id, 403 for someone else's post (and
      nothing changes in either case); otherwise the post is gone. */
  function DeletePost(posts: seq<Post>, postId: int, userId: int): (r: Written)
    ensures r.status == 404 <==> forall p :: p in posts ==> p.id != postId
    ensures r.status == 403 <==> FindPost(posts, postId).Some? && FindPost(posts, postId).value.authorId != userId
    ensures r.status != 200 ==> r.posts == posts
    ensures r.status == 200 ==> forall p :: p in r.posts <==> p in posts && p.id != postId
    ensures r.status in {200, 403, 404}
  {
    match FindPost(posts, postId)
    case None => Written(404, posts)
    case Some(post) =>
      if post.authorId != userId then Written(403, posts)
      else Written(200, Where(posts, (p: Post) => p.id != postId))
  }

  /** `post_update`: 404 and 403 as for delete; then the edit serializer's
      outcome (`edited`, an error for invalid JSON or data) gives 400.
      `serializer.save()` ends in `Post.save`, whose `full_clean` applies
      the model's own limits; when it refuses the edited row, the view
      catches the exception and answers 500 with nothing stored. Otherwise
      the post is replaced by the edited row. */
  function UpdatePost(posts: seq<Post>, postId: int, userId: int, edited: Result<Post>): (r: Written)
    ensures r.status == 404 <==> forall p :: p in posts ==> p.id != postId
    ensures r.status == 403 <==> FindPost(posts, postId).Some? && FindPost(posts, postId).value.authorId != userId
    ensures r.status == 400 <==> FindPost(posts, postId).Some? && FindPost(posts, postId).value.authorId == userId && edited.Err?
    ensures r.status == 500 <==> (FindPost(posts, postId).Some? && FindPost(posts, postId).value.authorId == userId
                                  && edited.Ok? && PostModel.SavePost(edited.value).Err?)
    ensures r.status in {200, 400, 403, 404, 500}
    ensures r.status != 200 ==> r.posts == posts
    ensures r.status == 200 ==> edited.Ok? && PostModel.SavePost(edited.value).Ok?
    ensures r.status == 200 ==> |r.posts| == |posts| && forall i :: 0 <= i < |posts| ==>
      r.posts[i] == (if posts[i].id == postId then edited.value else posts[i])
  {
    match FindPost(posts, postId)
    case None => Written(404, posts)
    case Some(post) =>
      if post.authorId != userId then Written(403, posts)
      else if edited.Err? then Written(400, posts)
      else if PostModel.SavePost(edited.value).Err? then Written(500, posts)
      else Written(200, seq(|posts|, i requires 0 <= i < |posts| => if posts[i].id == postId then edited.value else posts[i]))
  }

  /** A table whose every row passes `full_clean` keeps that property
      through any update: an edit the model refuses is never stored. */
  lemma UpdateKeepsRowsSavable(posts: seq<Post>, postId: int, userId: int, edited: Result<Post>)
    requires forall i :: 0 <= i < |posts| ==> PostModel.SavePost(posts[i]).Ok?
    ensures var r := UpdatePost(posts, postId, userId, edited);
      forall i :: 0 <= i < |r.posts| ==> PostModel.SavePost(r.posts[i]).Ok?
  {
    var r := UpdatePost(posts, postId, userId, edited);
    if r.status == 200 {
      forall i | 0 <= i < |r.posts|
        ensures PostModel.SavePost(r.posts[i]).Ok?
      {
        assert r.posts[i] == (if posts[i].id == postId then edited.value else posts[i]);
      }
    }
  }

  /** Whoever is not the author of a post can neither change nor remove it. */
  lemma OnlyAuthorWrites(posts: seq<Post>, post: Post, userId: int, edited: Result<Post>)
    requires post in posts && post.authorId != userId
    requires forall p :: p in posts && p.id == post.id ==> p == post
    ensures DeletePost(posts, post.id, userId) == Written(403, posts)
    ensures UpdatePost(posts, post.id, userId, edited) == Written(403, posts)
  {
  }

  // ---------------------------------------------------------------------
  // post_like / post_bookmark
  // ---------------------------------------------------------------------

  datatype Kind = Like | Bookmark

  function CountOf(kind: Kind, p: Post): nat {
    match kind
    case Like => p.likeCount
    case Bookmark => p.bookmarkCount
  }

  function FlagOf(kind: Kind, f: PostModel.Flags): bool {
    match kind
    case Like => f.liked
    case Bookmark => f.bookmarked
  }

  /** The toggle's answer (`is_liked`/`is_bookmarked` and the count), the
      post after it and the user's interaction row after it. */
  datatype Toggled = Toggled(on: bool, count: nat, post: Post, row: Option<PostModel.Flags>)

  /** One toggle by `userId` on `post`, whose interaction row with that user
      is `row` (None: no row yet), before the post is saved. The author is
      answered "off" with the current count, and nothing is stored. Anyone
      else gets the row (created with both flags cleared), the flag
      flipped, and the counters updated by `PostInteraction.save`. */
  function Flip(kind: Kind, post: Post, userId: int, row: Option<PostModel.Flags>): (r: Toggled)
    ensures post.authorId == userId ==> r == Toggled(false, CountOf(kind, post), post, row)
    ensures post.authorId != userId ==> r.row.Some?
    ensures post.authorId != userId ==> r.on == !FlagOf(kind, row.GetOr(PostModel.Flags(false, false)))
    ensures post.authorId != userId ==> FlagOf(kind, r.row.value) == r.on && r.count == CountOf(kind, r.post)
    ensures post.authorId != userId ==> FlagOf(OtherKind(kind), r.row.value) == FlagOf(OtherKind(kind), row.GetOr(PostModel.Flags(false, false)))
    ensures CountOf(OtherKind(kind), r.post) == CountOf(OtherKind(kind), post)
    ensures r.post == post.(likeCount := r.post.likeCount, bookmarkCount := r.post.bookmarkCount)
  {
    if post.authorId == userId then Toggled(false, CountOf(kind, post), post, row)
    else
      var was := row.GetOr(PostModel.Flags(false, false));
      var now := match kind
        case Like => was.(liked := !was.liked)
        case Bookmark => was.(bookmarked := !was.bookmarked);
      var c := PostModel.SaveInteraction(PostModel.Counts(post.likeCount, post.bookmarkCount), Some(was), now);
      var p := post.(likeCount := c.likes, bookmarkCount := c.bookmarks);
      Toggled(FlagOf(kind, now), CountOf(kind, p), p, Some(now))
  }

  /** `post_like` / `post_bookmark`: the interaction's save ends in
      `post.save`, which runs `full_clean` on the whole post; a post that
      fails it raises inside the transaction, so the toggle is rolled back
      and the request fails. The counters play no part in that check, so
      a toggle succeeds exactly when the post as loaded passes it. */
  function Toggle(kind: Kind, post: Post, userId: int, row: Option<PostModel.Flags>): (r: Result<Toggled>)
    ensures post.authorId == userId ==> r == Ok(Toggled(false, CountOf(kind, post), post, row))
    ensures post.authorId != userId ==> (r.Ok? <==> PostModel.SavePost(post).Ok?)
    ensures r.Ok? ==> r.value == Flip(kind, post, userId, row)
  {
    var t := Flip(kind, post, userId, row);
    if post.authorId == userId then Ok(t)
    else if PostModel.SavePost(t.post).Err? then Err("validation error")
    else Ok(t)
  }

  /** A toggle that succeeds leaves a post that passes `full_clean` exactly
      as before, so the next toggle by the same user succeeds too. */
  lemma ToggleThenToggleAgain(kind: Kind, post: Post, userId: int, row: Option<PostModel.Flags>)
    requires Toggle(kind, post, userId, row).Ok?
    ensures var t := Toggle(kind, post, userId, row).value;
      Toggle(kind, t.post, userId, t.row).Ok?
  {
  }

  function OtherKind(kind: Kind): Kind {
    match kind
    case Like => Bookmark
    case Bookmark => Like
  }

  /** The counter moves with the flag: up by one when it is set, down by one
      (not below 0) when it is cleared. */
  lemma ToggleMovesCount(kind: Kind, post: Post, userId: int, row: Option<PostModel.Flags>)
    requires post.authorId != userId
    ensures var r := Flip(kind, post, userId, row);
      r.on ==> r.count == CountOf(kind, post) + 1
    ensures var r := Flip(kind, post, userId, row);
      !r.on ==> r.count == if CountOf(kind, post) == 0 then 0 else CountOf(kind, post) - 1
  {
  }

  /** Two toggles in a row by the same user restore the flag and, when the
      count included this user's flag, the count. */
  lemma TwoTogglesRestore(kind: Kind, post: Post, userId: int, row: Option<PostModel.Flags>)
    requires post.authorId != userId
    requires FlagOf(kind, row.GetOr(PostModel.Flags(false, false))) ==> CountOf(kind, post) >= 1
    ensures var first := Flip(kind, post, userId, row);
      var second := Flip(kind, first.post, userId, first.row);
      && second.on == FlagOf(kind, row.GetOr(PostModel.Flags(false, false)))
      && second.post == post
      && second.row == Some(row.GetOr(PostModel.Flags(false, false)))
  {
    var first := Flip(kind, post, userId, row);
    var second := Flip(kind, first.post, userId, first.row);
    var was := row.GetOr(PostModel.Flags(false, false));
    PostModel.DoubleToggleRestores(CountOf(kind, post), FlagOf(kind, was));
    assert CountOf(kind, second.post) == CountOf(kind, post);
    match kind {
      case Like =>
        assert second.post.likeCount == post.likeCount;
      case Bookmark =>
        assert second.post.bookmarkCount == post.bookmarkCount;
    }
  }

  // ---------------------------------------------------------------------
  // models_suggest
  // ---------------------------------------------------------------------

  /** The answer of `models_suggest`: an error status, or the stripped query
      with the chosen models. */
  datatype Suggestion = Rejected(status: int) | Suggested(query: string, models: seq<AiModel>)

  /** `min(max(n, 1), 50)`. */
  function ClampLimit(n: int): (r: int)
    ensures 1 <= r <= 50
    ensures 1 <= n <= 50 ==> r == n
    ensures n < 1 ==> r == 1
    ensures n > 50 ==> r == 50
  {
    if n < 1 then 1 else if n > 50 then 50 else n
  }

  /** `w` when the test holds, else 0. */
  function Weight(hit: bool, w: nat): nat { if hit then w else 0 }

  /** The four lowercased fields a model is matched on: its name and slug,
      and its platform's name and slug. */
  function Fields(platforms: seq<Platform>, m: AiModel): seq<string> {
    match FindPlatform(platforms, m.platform)
    case Some(p) => [Lower(m.name), Lower(m.slug), Lower(p.name), Lower(p.slug)]
    case None => [Lower(m.name), Lower(m.slug), "", ""]
  }

  /** `compute_score` in tenths: 3.0 / 2.5 / 2.0 / 1.8 for a prefix of the
      model name / slug / platform name / platform slug, and 1.0 / 0.8 / 0.7
      / 0.6 for containing the query. */
  function Score(platforms: seq<Platform>, m: AiModel, q: string): nat {
    var f := Fields(platforms, m);
    Weight(StartsWith(f[0], q), 30) + Weight(StartsWith(f[1], q), 25)
    + Weight(StartsWith(f[2], q), 20) + Weight(StartsWith(f[3], q), 18)
    + Weight(Contains(f[0], q), 10) + Weight(Contains(f[1], q), 8)
    + Weight(Contains(f[2], q), 7) + Weight(Contains(f[3], q), 6)
  }

  /** The database prefilter: an active model of an active platform (of the
      requested one, if any) one of whose four fields contains the query. */
  predicate Candidate(platforms: seq<Platform>, m: AiModel, q: string, platform: Option<int>) {
    var p := FindPlatform(platforms, m.platform);
    && m.isActive && p.Some? && p.value.isActive
    && (platform.None? || m.platform == platform.value)
    && exists k :: 0 <= k < 4 && Contains(Fields(platforms, m)[k], q)
  }

  /** `(-score, sort_order, name.lower())`. */
  function SuggestKey(platforms: seq<Platform>, q: string, m: AiModel): seq<Part> {
    [Num(-(Score(platforms, m, q) as int)), Num(m.sortOrder), Str(Lower(m.name))]
  }

  /** Every candidate scores at least 0.6 and at most the sum of the
      weights. */
  lemma CandidateScore(platforms: seq<Platform>, m: AiModel, q: string, platform: Option<int>)
    requires Candidate(platforms, m, q, platform)
    ensures 6 <= Score(platforms, m, q) <= 124
  {
  }

  /** A name that starts with the query outranks every model whose four
      fields merely contain it without any prefix match. */
  lemma NamePrefixOutranksContains(platforms: seq<Platform>, a: AiModel, b: AiModel, q: string)
    requires StartsWith(Lower(a.name), q)
    requires forall k :: 0 <= k < 4 ==> !StartsWith(Fields(platforms, b)[k], q)
    ensures Score(platforms, a, q) > Score(platforms, b, q)
  {
    assert Contains(Lower(a.name), q);
    assert Fields(platforms, a)[0] == Lower(a.name);
  }

  /** The platform restriction a `platform_id` parameter asks for. */
  function PlatformFilter(platformId: Option<string>): Option<int>
    requires !Given(platformId) || ParseInt(platformId.value).Some?
  {
    if Given(platformId) then Some(ParseInt(platformId.value).value) else None
  }

  function LimitOf(limit: Option<string>): int
    requires limit.None? || ParseInt(limit.value).Some?
  {
    ClampLimit(if limit.None? then 10 else ParseInt(limit.value).value)
  }

  /** `models_suggest`: a non-integer `limit` raises inside the handler
      (500); a blank query is a 400, and so is a `platform_id` that is not an
      integer; otherwise the best-ranked candidates up to the clamped
      limit. */
  function ModelsSuggest(models: seq<AiModel>, platforms: seq<Platform>, query: string,
                         platformId: Option<string>, limit: Option<string>): (r: Suggestion)
    ensures r == Rejected(500) <==> limit.Some? && ParseInt(limit.value).None?
    ensures r == Rejected(400) <==>
      (limit.None? || ParseInt(limit.value).Some?) && (Strip(query) == "" || (Given(platformId) && ParseInt(platformId.value).None?))
    ensures r.Rejected? ==> r.status == 400 || r.status == 500
    ensures r.Suggested? ==> r.query == Strip(query) && Strip(query) != ""
    ensures r.Suggested? ==> r.models == Top(models, platforms, Lower(r.query), PlatformFilter(platformId), LimitOf(limit))
  {
    if limit.Some? && ParseInt(limit.value).None? then Rejected(500)
    else
      var q := Strip(query);
      if q == "" then Rejected(400)
      else if Given(platformId) && ParseInt(platformId.value).None? then Rejected(400)
      else Suggested(q, Top(models, platforms, Lower(q), PlatformFilter(platformId), LimitOf(limit)))
  }

  /** The suggestions for a lowercased query: at most `n` candidates, best
      ranked first, and scores never rising. */
  function Top(models: seq<AiModel>, platforms: seq<Platform>, q: string, platform: Option<int>, n: nat): (r: seq<AiModel>)
    ensures |r| <= n
    ensures forall m :: m in r ==> m in models && Candidate(platforms, m, q, platform)
    ensures Sorted(r, (m: AiModel) => SuggestKey(platforms, q, m))
    ensures forall i, j :: 0 <= i < j < |r| ==> Score(platforms, r[i], q) >= Score(platforms, r[j], q)
  {
    var ranked := Ranked(models, platforms, q, platform);
    var r := Take(ranked, n);
    TakeSorted(ranked, (m: AiModel) => SuggestKey(platforms, q, m), n);
    forall m | m in r ensures m in ranked {
      var i :| 0 <= i < |r| && r[i] == m;
    }
    forall i, j | 0 <= i < j < |r| ensures Score(platforms, r[i], q) >= Score(platforms, r[j], q) {
      ScoreOrder(platforms, q, r[i], r[j]);
    }
    r
  }

  /** The prefiltered candidates in ranking order. */
  function Ranked(models: seq<AiModel>, platforms: seq<Platform>, q: string, platform: Option<int>): (r: seq<AiModel>)
    ensures forall m :: m in r <==> m in models && Candidate(platforms, m, q, platform)
    ensures multiset(r) <= multiset(models)
    ensures Sorted(r, (m: AiModel) => SuggestKey(platforms, q, m))
  {
    var kept := Where(models, (m: AiModel) => Candidate(platforms, m, q, platform));
    SortByMembers(kept, (m: AiModel) => SuggestKey(platforms, q, m));
    SortBy(kept, (m: AiModel) => SuggestKey(platforms, q, m))
  }

  /** A higher key never has a higher score. */
  lemma ScoreOrder(platforms: seq<Platform>, q: string, a: AiModel, b: AiModel)
    requires KeyLe(SuggestKey(platforms, q, a), SuggestKey(platforms, q, b))
    ensures Score(platforms, a, q) >= Score(platforms, b, q)
  {
  }

  /** The ranking in the source's terms: higher score first, then lower
      `sort_order`, then the lowercased name. */
  lemma SuggestKeyOrder(platforms: seq<Platform>, q: string, a: AiModel, b: AiModel)
    ensures KeyLe(SuggestKey(platforms, q, a), SuggestKey(platforms, q, b)) <==>
      var sa, sb := Score(platforms, a, q), Score(platforms, b, q);
      sa > sb || (sa == sb && (a.sortOrder < b.sortOrder
        || (a.sortOrder == b.sortOrder && StrLe(Lower(a.name), Lower(b.name)))))
  {
    var sa, sb := Score(platforms, a, q), Score(platforms, b, q);
    KeyLeThree(Num(-(sa as int)), Num(a.sortOrder), Str(Lower(a.name)), Num(-(sb as int)), Num(b.sortOrder), Str(Lower(b.name)));
    StrLeTotal(Lower(a.name), Lower(a.name));
  }

  /** The cut keeps the best: a candidate left out means the limit was
      reached, and every suggested model ranks at least as high as it. */
  lemma LeftOutRanksLower(models: seq<AiModel>, platforms: seq<Platform>, q: string, platform: Option<int>, n: nat, m: AiModel)
    requires m in models && Candidate(platforms, m, q, platform)
    requires m !in Top(models, platforms, q, platform, n)
    ensures |Top(models, platforms, q, platform, n)| == n
    ensures forall s :: s in Top(models, platforms, q, platform, n) ==>
      KeyLe(SuggestKey(platforms, q, s), SuggestKey(platforms, q, m))
  {
    var ranked := Ranked(models, platforms, q, platform);
    TakeKeepsBest(ranked, (x: AiModel) => SuggestKey(platforms, q, x), n, m);
  }
}

=== FILE: profile.dfy ===
/** The profile card's editing state (`components/profile/profile-info-card.tsx`):
    the image picker's checks, the preview, removing the image and
    cancelling. */
module ProfileCard {
  import opened Wrappers
  import opened Text

  /** 5 MiB. */
  const MaxImageBytes: nat := 5 * 1024 * 1024

  const AllowedTypes: set<string> := {"image/jpeg", "image/png", "image/webp", "image/gif"}
  const AllowedExtensions: seq<string> := ["jpg", "jpeg", "png", "webp", "gif"]

  const TypeError: string := "JPG, PNG, WEBP, GIF 형식만 업로드할 수 있습니다."
  const SizeError: string := "이미지 용량은 5MB 이하만 업로드할 수 있습니다."

  /** A picked file: its name, its MIME type as the browser reports it,
      and its size in bytes. */
  datatype FileInfo = FileInfo(name: string, mimeType: string, size: nat)

  datatype UserData = UserData(
    username: string,
    bio: string,
    location: string,
    githubHandle: string,
    profileImage: Option<string>,
    avatarColor1: string,
    avatarColor2: string)

  /** The card while editing: its copy of the data, the file to upload
      with it, the error under the avatar, and what the hidden file input
      holds. */
  datatype Card = Card(local: UserData, selected: Option<FileInfo>, error: string, picker: Option<FileInfo>)

  /** Opening the editor, and every new `userData` from the parent. */
  function Open(props: UserData): (c: Card)
    ensures c.local == props && c.selected.None? && c.error == ""
  {
    Card(props, None, "", None)
  }

  /** The last part of a split on '.', lower-cased: the whole name when
      there is no dot. */
  function Extension(name: string): (e: string)
    ensures '.' !in e
  {
    var parts := Split(name, '.');
    var last := Lower(parts[|parts| - 1]);
    LowerKeepsOthers(parts[|parts| - 1], '.');
    last
  }

  /** Lower-casing creates no character other than a letter. */
  lemma LowerKeepsOthers(s: string, c: char)
    requires c !in s && !IsLetter(c)
    ensures c !in Lower(s)
  {
    forall i | 0 <= i < |s|
      ensures Lower(s)[i] != c
    {
      if IsUpper(s[i]) {
        assert IsLetter(Lower(s)[i]);
      } else {
        assert Lower(s)[i] == s[i];
      }
    }
  }

  /** The extension is what follows the last dot. */
  lemma ExtensionAfterLastDot(a: string, b: string)
    requires '.' !in b
    ensures Extension(a + "." + b) == Lower(b)
    ensures '.' !in a ==> Extension(a) == Lower(a)
  {
    LastOfSplit(a, b, '.');
    if '.' !in a {
      SplitWithoutSeparator(a, '.');
    }
  }

  lemma {:induction false} LastOfSplit(a: string, b: string, c: char)
    requires c !in b
    ensures var p := Split(a + [c] + b, c); |p| >= 2 && p[|p| - 1] == b
    decreases |a|
  {
    if |a| == 0 {
      assert a + [c] + b == [c] + b;
      assert ([c] + b)[1..] == b;
      SplitWithoutSeparator(b, c);
    } else {
      LastOfSplit(a[1..], b, c);
      assert (a + [c] + b)[1..] == a[1..] + [c] + b;
    }
  }

  /** The picker's verdict on a file: the type or the extension must be
      allowed (either suffices), then the size must be at most 5 MiB. */
  function CheckFile(f: FileInfo): (r: Result<FileInfo>)
    ensures r.Ok? <==> (f.mimeType in AllowedTypes || Extension(f.name) in AllowedExtensions) && f.size <= MaxImageBytes
    ensures r.Ok? ==> r.value == f
    ensures r.Err? && f.mimeType !in AllowedTypes && Extension(f.name) !in AllowedExtensions ==> r.msg == TypeError
    ensures r.Err? && (f.mimeType in AllowedTypes || Extension(f.name) in AllowedExtensions) ==> r.msg == SizeError
  {
    if f.mimeType !in AllowedTypes && Extension(f.name) !in AllowedExtensions then Err(TypeError)
    else if f.size > MaxImageBytes then Err(SizeError)
    else Ok(f)
  }

  /** `handleImageUpload`: nothing picked changes nothing; a rejected file
      sets the error and empties the input, keeping the earlier choice and
      preview; an accepted one clears the error and becomes the file to
      upload (its preview arrives later, see `PreviewLoaded`). */
  function PickImage(c: Card, file: Option<FileInfo>): (r: Card)
    ensures file.None? ==> r == c
    ensures file.Some? && CheckFile(file.value).Err? ==>
      r.error == CheckFile(file.value).msg && r.picker.None? && r.local == c.local && r.selected == c.selected
    ensures file.Some? && CheckFile(file.value).Ok? ==>
      r.error == "" && r.selected == file && r.picker == file && r.local == c.local
  {
    if file.None? then c
    else
      match CheckFile(file.value)
      case Err(msg) => c.(error := msg, picker := None)
      case Ok(f) => c.(error := "", selected := Some(f), picker := Some(f))
  }

  /** The reader's `onload`: the data URL becomes the preview. */
  function PreviewLoaded(c: Card, dataUrl: string): (r: Card)
    ensures r.local.profileImage == Some(dataUrl)
    ensures r.local.(profileImage := c.local.profileImage) == c.local
    ensures r.selected == c.selected && r.error == c.error
  {
    c.(local := c.local.(profileImage := Some(dataUrl)))
  }

  /** The remove button: no image, no file, no error. */
  function RemoveImage(c: Card): (r: Card)
    ensures r.local.profileImage.None? && r.selected.None? && r.error == ""
    ensures r.local.(profileImage := c.local.profileImage) == c.local
  {
    c.(local := c.local.(profileImage := None), selected := None, error := "")
  }

  /** The regenerate button, with the two random colours as parameters. */
  function Regenerate(c: Card, color1: string, color2: string): (r: Card)
    ensures r.local.avatarColor1 == color1 && r.local.avatarColor2 == color2
    ensures r.local.(avatarColor1 := c.local.avatarColor1, avatarColor2 := c.local.avatarColor2) == c.local
    ensures r.selected == c.selected && r.error == c.error
  {
    c.(local := c.local.(avatarColor1 := color1, avatarColor2 := color2))
  }

  /** `handleCancel`: back to the parent's data, with no file and no
      error. */
  function Cancel(c: Card, props: UserData): (r: Card)
    ensures r.local == props && r.selected.None? && r.error == ""
    ensures r.picker == c.picker
  {
    c.(local := props, selected := None, error := "")
  }

  /** `handleSave`: what goes to the parent. */
  function Save(c: Card): (r: (UserData, Option<FileInfo>))
    ensures r.0 == c.local && r.1 == c.selected
  {
    (c.local, c.selected)
  }

  /** A rejected file never reaches the save: what is saved is what was
      saved before the pick. */
  lemma RejectedFileIsNotSaved(c: Card, f: FileInfo)
    requires CheckFile(f).Err?
    ensures Save(PickImage(c, Some(f))) == Save(c)
  {
  }

  /** After a pick is accepted and its preview loads, the save carries the
      file and the preview; removing the image afterwards saves neither. */
  lemma AcceptedFileIsSaved(c: Card, f: FileInfo, dataUrl: string)
    requires CheckFile(f).Ok?
    ensures Save(PreviewLoaded(PickImage(c, Some(f)), dataUrl)) == (c.local.(profileImage := Some(dataUrl)), Some(f))
    ensures var r := Save(RemoveImage(PreviewLoaded(PickImage(c, Some(f)), dataUrl)));
      r.0.profileImage.None? && r.1.None?
  {
  }

  /** Cancel forgets every edit: whatever was picked, removed or
      regenerated, cancelling gives the card a fresh open would. */
  lemma CancelForgetsEdits(c: Card, props: UserData, file: Option<FileInfo>, dataUrl: string, c1: string, c2: string)
    ensures Cancel(PickImage(c, file), props).(picker := None) == Open(props)
    ensures Cancel(PreviewLoaded(c, dataUrl), props).(picker := None) == Open(props)
    ensures Cancel(RemoveImage(c), props).(picker := None) == Open(props)
    ensures Cancel(Regenerate(c, c1, c2), props).(picker := None) == Open(props)
  {
  }

  /** Either check alone admits a small file: a ".png" with an unknown
      type, and a "image/png" whose name has no extension. */
  lemma EitherCheckSuffices()
    ensures CheckFile(FileInfo("a.png", "application/octet-stream", 1)).Ok?
    ensures CheckFile(FileInfo("a", "image/png", 1)).Ok?
    ensures CheckFile(FileInfo("a.png", "image/png", MaxImageBytes + 1)) == Err(SizeError)
  {
    assert "a.png" == "a" + "." + "png";
    ExtensionAfterLastDot("a", "png");
    assert Lower("png") == "png";
    ExtensionAfterLastDot("a", "");
    assert Lower("a") == "a";
    assert "png" in AllowedExtensions;
  }
}

/** The profile page (`app/profile/page.tsx`): the local part of the
    username check, the avatar file check, when saving is allowed, and the
    local checks of the password change and account deletion. */
module ProfilePage {
  import opened Wrappers
  import opened Text
  import ProfileCard

  const MinUsername: nat := 3
  const MaxUsername: nat := 12
  const ForbiddenUsernames: seq<string> := ["admin", "test", "user", "demo", "sample"]

  datatype Status = Idle | Checking | Available | Taken | Failed

  /** What the server's duplicate check gives back: a non-2xx answer, a
      body saying whether the name is free, or a thrown error. */
  datatype RemoteAnswer = NotOk | Answer(available: bool) | Threw

  /** `^[a-zA-Z0-9_]+$`. */
  predicate AllowedCharacters(name: string) {
    |name| > 0 && forall i :: 0 <= i < |name| ==> IsWordChar(name[i])
  }

  /** The checks made before asking the server, in order: unchanged, the
      length, the forbidden names (ignoring case), the characters. `None`
      means the server is asked. */
  function LocalVerdict(current: Option<string>, name: string): (r: Option<Status>)
    ensures r.None? <==> ((current.None? || name != current.value) &&
      MinUsername <= |name| <= MaxUsername && Lower(name) !in ForbiddenUsernames && AllowedCharacters(name))
    ensures r.Some? ==> r.value == Idle || r.value == Taken
    ensures current.Some? && name == current.value ==> r == Some(Idle)
  {
    if current.Some? && name == current.value then Some(Idle)
    else if name == "" || |name| < MinUsername || |name| > MaxUsername then Some(Idle)
    else if Lower(name) in ForbiddenUsernames then Some(Taken)
    else if !AllowedCharacters(name) then Some(Taken)
    else None
  }

  /** `checkUsernameAvailability` once it has finished: the local verdict,
      or else the server's. */
  function CheckUsername(current: Option<string>, name: string, answer: RemoteAnswer): (r: Status)
    ensures r != Checking
    ensures LocalVerdict(current, name).Some? ==> r == LocalVerdict(current, name).value
    ensures LocalVerdict(current, name).None? ==>
      r == (match answer case NotOk => Failed case Threw => Failed case Answer(a) => if a then Available else Taken)
  {
    match LocalVerdict(current, name)
    case Some(s) => s
    case None =>
      match answer
      case NotOk => Failed
      case Threw => Failed
      case Answer(a) => if a then Available else Taken
  }

  /** The server is consulted only after every local check passes: until
      then its answer cannot matter. */
  lemma ServerOnlyAfterLocalChecks(current: Option<string>, name: string, a1: RemoteAnswer, a2: RemoteAnswer)
    requires LocalVerdict(current, name).Some?
    ensures CheckUsername(current, name, a1) == CheckUsername(current, name, a2)
  {
  }

  /** A name reported available is a changed name of 3 to 12 word
      characters that is not a forbidden name in any case. */
  lemma AvailableNamesAreValid(current: Option<string>, name: string, answer: RemoteAnswer)
    requires CheckUsername(current, name, answer) == Available
    ensures current.None? || name != current.value
    ensures MinUsername <= |name| <= MaxUsername && AllowedCharacters(name)
    ensures forall k :: 0 <= k < |ForbiddenUsernames| ==> Lower(name) != ForbiddenUsernames[k]
  {
  }

  /** Forbidden names are refused in any case. */
  lemma ForbiddenInAnyCase()
    ensures CheckUsername(None, "Admin", Answer(true)) == Taken
    ensures CheckUsername(None, "DEMO", Answer(true)) == Taken
  {
    assert Lower("Admin") == "admin";
    assert Lower("DEMO") == "demo";
  }

  const PageAllowedTypes: seq<string> := ["image/jpeg", "image/jpg", "image/png", "image/gif", "image/webp"]

  /** `validateFile`: the size first, then the type (the name plays no
      part). */
  function ValidateFile(f: ProfileCard.FileInfo): (r: Result<ProfileCard.FileInfo>)
    ensures r.Ok? <==> f.size <= ProfileCard.MaxImageBytes && f.mimeType in PageAllowedTypes
    ensures r.Ok? ==> r.value == f
    ensures r.Err? && f.size > ProfileCard.MaxImageBytes ==> r.msg == "파일 크기 초과"
  {
    if f.size > ProfileCard.MaxImageBytes then Err("파일 크기 초과")
    else if f.mimeType !in PageAllowedTypes then Err("지원하지 않는 파일 형식")
    else Ok(f)
  }

  /** The page and the card disagree: the page also takes "image/jpg",
      the card also takes a known extension with an unknown type. Apart
      from "image/jpg", what the page takes the card takes. */
  lemma PageAndCardChecks(f: ProfileCard.FileInfo)
    ensures ValidateFile(f).Ok? && f.mimeType != "image/jpg" ==> ProfileCard.CheckFile(f).Ok?
    ensures var g := ProfileCard.FileInfo("a.png", "", 1);
      ProfileCard.CheckFile(g).Ok? && ValidateFile(g).Err?
  {
    ProfileCard.EitherCheckSuffices();
    ProfileCard.ExtensionAfterLastDot("a", "png");
    assert Lower("png") == "png";
  }

  /** The page's editable values and where they came from. */
  datatype Edits = Edits(
    username: string,
    location: string,
    website: string,
    status: Status,
    checking: bool,
    saving: bool)

  /** The signed-in user as the page sees it: absent, or a name with an
      optional saved website and location. */
  datatype User = User(name: string, website: Option<string>, location: Option<string>)

  /** `canSave`. */
  function CanSave(e: Edits, user: Option<User>): (ok: bool)
    ensures e.saving || e.checking ==> !ok
    ensures !e.saving && !e.checking && (user.None? || e.username != user.value.name) ==>
      (ok <==> e.status == Available && |e.username| >= MinUsername)
    ensures !e.saving && !e.checking && user.Some? && e.username == user.value.name ==>
      (ok <==> e.website != user.value.website.GetOr("") || e.location != user.value.location.GetOr(""))
  {
    if e.saving || e.checking then false
    else if user.None? || e.username != user.value.name then e.status == Available && |e.username| >= MinUsername
    else e.website != user.value.website.GetOr("") || e.location != user.value.location.GetOr("")
  }

  /** Saving a new name needs the check to have cleared that very name:
      if the status came from checking the edited name, it passed every
      local rule. */
  lemma SavedNamesPassedTheCheck(e: Edits, user: Option<User>, answer: RemoteAnswer)
    requires e.status == CheckUsername(if user.Some? then Some(user.value.name) else None, e.username, answer)
    requires CanSave(e, user) && (user.None? || e.username != user.value.name)
    ensures MinUsername <= |e.username| <= MaxUsername && AllowedCharacters(e.username)
    ensures Lower(e.username) !in ForbiddenUsernames
  {
    AvailableNamesAreValid(if user.Some? then Some(user.value.name) else None, e.username, answer);
  }

  /** Unchanged values cannot be saved. */
  lemma NothingToSave(e: Edits, u: User)
    requires e.username == u.name && e.website == u.website.GetOr("") && e.location == u.location.GetOr("")
    ensures !CanSave(e, Some(u))
  {
  }

  /** The password form: all three fields, then the two new ones equal. */
  datatype PasswordOutcome = PasswordRejected(title: string) | ChangePassword(current: string, newPassword: string, confirm: string)

  function PasswordChange(current: string, newPassword: string, confirm: string): (r: PasswordOutcome)
    ensures r.ChangePassword? <==> current != "" && newPassword != "" && confirm != "" && newPassword == confirm
    ensures r.ChangePassword? ==> r == ChangePassword(current, newPassword, confirm)
    ensures r.PasswordRejected? && (current == "" || newPassword == "" || confirm == "") ==> r.title == "입력 오류"
  {
    if current == "" || newPassword == "" || confirm == "" then PasswordRejected("입력 오류")
    else if newPassword != confirm then PasswordRejected("비밀번호 불일치")
    else ChangePassword(current, newPassword, confirm)
  }

  /** Account deletion goes ahead iff the text, upper-cased, is "DELETE",
      or it is exactly "삭제". */
  function DeleteConfirmed(text: string): (ok: bool)
    ensures ok <==> Upper(text) == "DELETE" || text == "삭제"
    ensures ok ==> text != ""
  {
    if text == "" then false
    else Upper(text) == "DELETE" || text == "삭제"
  }

  /** "delete" in any case confirms; "Delete me" does not. */
  lemma DeleteInAnyCase()
    ensures DeleteConfirmed("delete") && DeleteConfirmed("DeLeTe") && DeleteConfirmed("삭제")
    ensures !DeleteConfirmed("Delete me")
  {
    assert Upper("delete") == "DELETE";
    assert Upper("DeLeTe") == "DELETE";
    assert |Upper("Delete me")| == 9;
  }
}

=== FILE: relativetime.dfy ===
/** "N units ago" labels: the backend's `format_relative_time` and the
    frontend's `formatRelativeTime`. Times are whole seconds (backend) or
    milliseconds (frontend) since the epoch. */
module RelativeTime {
  import opened Wrappers
  import opened Text

  /** How long ago, in the largest unit the formatter picks. */
  datatype Ago = JustNow | Minutes(n: int) | Hours(n: int) | Days(n: int) | Weeks(n: int) | Months(n: int) | Years(n: int)

  /** Units from smallest to largest. */
  function Unit(a: Ago): nat {
    match a
    case JustNow => 0
    case Minutes(_) => 1
    case Hours(_) => 2
    case Days(_) => 3
    case Weeks(_) => 4
    case Months(_) => 5
    case Years(_) => 6
  }

  /** The label shown for an `Ago`. */
  function Label(a: Ago): string {
    match a
    case JustNow => "방금 전"
    case Minutes(n) => IntToString(n) + "분 전"
    case Hours(n) => IntToString(n) + "시간 전"
    case Days(n) => IntToString(n) + "일 전"
    case Weeks(n) => IntToString(n) + "주 전"
    case Months(n) => IntToString(n) + "개월 전"
    case Years(n) => IntToString(n) + "년 전"
  }

  /** Only "just now" reads "방금 전": every other label ends in its unit
      and "전", and no unit ends in "금". */
  lemma LabelJustNowOnly(a: Ago)
    ensures Label(a) == "방금 전" <==> a.JustNow?
  {
    if !a.JustNow? {
      var suffix := match a
        case Minutes(_) => "분 전" case Hours(_) => "시간 전" case Days(_) => "일 전"
        case Weeks(_) => "주 전" case Months(_) => "개월 전" case _ => "년 전";
      var l := IntToString(a.n) + suffix;
      assert Label(a) == l;
      assert l[|l| - 3] == suffix[|suffix| - 3] != '금';
    }
  }

  const Minute: int := 60
  const Hour: int := 3600
  const Day: int := 86400

  // ---------------------------------------------------------------------
  // Backend
  // ---------------------------------------------------------------------

  /** `format_relative_time` on `now - date` in seconds, rounded down (the
      thresholds are whole seconds, so rounding first changes neither the
      unit nor the count). A future date is "just now". */
  function Backend(diff: int): (a: Ago)
    ensures a.JustNow? <==> diff < Minute
    ensures a.Minutes? <==> Minute <= diff < Hour
    ensures a.Hours? <==> Hour <= diff < Day
    ensures a.Days? <==> Day <= diff < 7 * Day
    ensures a.Weeks? <==> 7 * Day <= diff < 30 * Day
    ensures a.Months? <==> 30 * Day <= diff < 365 * Day
    ensures a.Years? <==> 365 * Day <= diff
    ensures a.Minutes? ==> 1 <= a.n <= 59 && a.n * Minute <= diff < (a.n + 1) * Minute
    ensures a.Hours? ==> 1 <= a.n <= 23 && a.n * Hour <= diff < (a.n + 1) * Hour
    ensures a.Days? ==> 1 <= a.n <= 6 && a.n * Day <= diff < (a.n + 1) * Day
    ensures a.Weeks? ==> 1 <= a.n <= 4 && a.n * 7 <= diff / Day < (a.n + 1) * 7
    ensures a.Months? ==> 1 <= a.n <= 12 && a.n * 30 <= diff / Day < (a.n + 1) * 30
    ensures a.Years? ==> 1 <= a.n && a.n * 365 <= diff / Day < (a.n + 1) * 365
  {
    if diff < Minute then JustNow
    else if diff < Hour then Minutes(diff / Minute)
    else if diff < Day then Hours(diff / Hour)
    else if diff < 7 * Day then Days(diff / Day)
    else
      var days := diff / Day;
      if days < 30 then Weeks(days / 7)
      else if days < 365 then Months(days / 30)
      else Years(days / 365)
  }

  /** A later moment never shows a smaller unit. */
  lemma BackendUnitMonotone(d1: int, d2: int)
    requires d1 <= d2
    ensures Unit(Backend(d1)) <= Unit(Backend(d2))
  {
  }

  /** What the post serializers hand to `format_relative_time`. `Naive` is
      a datetime without a time zone: subtracting it from the aware `now`
      raises, and the formatter's catch-all answers instead. */
  datatype Stamp = Missing | NotADateTime | Naive | At(seconds: int)

  /** The backend label: no value, a value that is not a datetime, a
      subtraction that fails, or the relative time at `now`. */
  function BackendLabel(stamp: Stamp, now: int): (r: string)
    ensures stamp.Missing? ==> r == "날짜 없음"
    ensures stamp.NotADateTime? ==> r == "유효하지 않은 날짜"
    ensures stamp.Naive? ==> r == "날짜 변환 오류"
    ensures stamp.At? && stamp.seconds > now ==> r == "방금 전"
    ensures stamp.At? && stamp.seconds <= now ==> r == Label(Backend(now - stamp.seconds))
  {
    match stamp
    case Missing => "날짜 없음"
    case NotADateTime => "유효하지 않은 날짜"
    case Naive => "날짜 변환 오류"
    case At(t) => Label(Backend(now - t))
  }

  /** A date at least a minute old is labelled with a positive count of
      the unit whose interval holds its age. */
  lemma BackendLabelOfPast(t: int, now: int)
    requires t + Minute <= now
    ensures var a := Backend(now - t);
      && BackendLabel(At(t), now) == Label(a)
      && !a.JustNow? && a.n >= 1
      && (a.Minutes? <==> now - t < Hour)
  {
  }

  // ---------------------------------------------------------------------
  // Frontend
  // ---------------------------------------------------------------------

  /** `formatRelativeTime` as written, on `now - date` in milliseconds: each
      unit is the previous one divided and rounded down, and the week and
      month tests compare the derived unit, not the days. */
  function FrontendAsWritten(diffMs: int): (a: Ago)
    ensures a.JustNow? <==> diffMs < 60000
    ensures a.Weeks? ==> 1 <= a.n <= 3
    ensures a.Months? ==> 0 <= a.n <= 11
    ensures a.Years? ==> 0 <= a.n
  {
    var seconds := diffMs / 1000;
    if seconds < 60 then JustNow
    else
      var minutes := seconds / 60;
      if minutes < 60 then Minutes(minutes)
      else
        var hours := minutes / 60;
        if hours < 24 then Hours(hours)
        else
          var days := hours / 24;
          if days < 7 then Days(days)
          else if days / 7 < 4 then Weeks(days / 7)
          else if days / 30 < 12 then Months(days / 30)
          else Years(days / 365)
  }

  /** Days 28 and 29 read "0개월 전". */
  lemma AsWrittenZeroMonths()
    ensures FrontendAsWritten(28 * Day * 1000) == Months(0)
    ensures Label(FrontendAsWritten(28 * Day * 1000)) == "0개월 전"
  {
  }

  /** Days 360 to 364 read "0년 전". */
  lemma AsWrittenZeroYears()
    ensures FrontendAsWritten(360 * Day * 1000) == Years(0)
    ensures Label(FrontendAsWritten(360 * Day * 1000)) == "0년 전"
  {
  }

  /** The frontend label with the week and month tests made on days, as
      the backend makes them. */
  function Frontend(diffMs: int): (a: Ago)
    ensures a.JustNow? || a.n >= 1
    ensures a == Backend(diffMs / 1000)
  {
    var seconds := diffMs / 1000;
    if seconds < 60 then JustNow
    else
      var minutes := seconds / 60;
      if minutes < 60 then Minutes(minutes)
      else
        var hours := minutes / 60;
        NestedDivision(seconds);
        if hours < 24 then Hours(hours)
        else
          var days := hours / 24;
          if days < 7 then Days(days)
          else if days < 30 then Weeks(days / 7)
          else if days < 365 then Months(days / 30)
          else Years(days / 365)
  }

  /** Dividing by 60, then 60, then 24 (each rounded down) is dividing by an
      hour or a day at once. */
  lemma NestedDivision(s: int)
    requires s >= 0
    ensures (s / 60) / 60 == s / Hour
    ensures ((s / 60) / 60) / 24 == s / Day
  {
    var m := s / 60;
    var h := m / 60;
    var d := h / 24;
    assert 60 * m <= s < 60 * m + 60;
    assert 60 * h <= m < 60 * h + 60;
    assert 24 * d <= h < 24 * d + 24;
    assert 3600 * h <= s < 3600 * h + 3600;
    assert 86400 * d <= s < 86400 * d + 86400;
  }

  /** The written frontend differs from the corrected one exactly on days 28
      and 29 and on days 360 to 364. */
  lemma AsWrittenDiffersOnlyThere(diffMs: int)
    ensures var days := diffMs / 1000 / Day;
      FrontendAsWritten(diffMs) != Frontend(diffMs) <==> (28 <= days < 30 || 360 <= days < 365)
  {
    var seconds := diffMs / 1000;
    if seconds >= 60 {
      NestedDivision(seconds);
    }
  }

  /** `formatRelativeTime` as shipped, on a date string: one that does not
      parse makes every comparison false and reads "NaN년 전". */
  function FrontendLabelAsWritten(parsedMs: Option<int>, nowMs: int): (r: string)
    ensures parsedMs.None? ==> r == "NaN년 전"
    ensures parsedMs.Some? ==> r == Label(FrontendAsWritten(nowMs - parsedMs.value))
  {
    match parsedMs
    case None => "NaN년 전"
    case Some(t) => Label(FrontendAsWritten(nowMs - t))
  }

  /** The corrected `formatRelativeTime`: a date string that does not parse
      still reads "NaN년 전". */
  function FrontendLabel(parsedMs: Option<int>, nowMs: int): (r: string)
    ensures parsedMs.None? ==> r == "NaN년 전"
    ensures parsedMs.Some? ==> r == Label(Frontend(nowMs - parsedMs.value))
  {
    match parsedMs
    case None => "NaN년 전"
    case Some(t) => Label(Frontend(nowMs - t))
  }

  /** The shipped and corrected labels agree except on dates 28-29 or
      360-364 days old. */
  lemma FrontendLabelsAgreeElsewhere(parsedMs: Option<int>, nowMs: int)
    requires parsedMs.Some? ==> var days := (nowMs - parsedMs.value) / 1000 / Day;
      !(28 <= days < 30 || 360 <= days < 365)
    ensures FrontendLabelAsWritten(parsedMs, nowMs) == FrontendLabel(parsedMs, nowMs)
  {
    if parsedMs.Some? {
      AsWrittenDiffersOnlyThere(nowMs - parsedMs.value);
    }
  }
}

=== FILE: richtext.dfy ===
/** How a post's prompt, AI response and opinion are drawn
    (`components/posts/post-detail-content-sections.tsx`): the line
    heuristic that decides whether unfenced text is code, and the split of
    fenced text into paragraphs and code blocks. */
module RichText {
  import opened Wrappers
  import opened Text
  import opened Domain

  // ---------------------------------------------------------------------
  // Line endings
  // ---------------------------------------------------------------------

  /** `replace(/\r\n/g, '\n')`: each `\r\n` pair, scanning left to right,
      becomes `\n`. */
  function Normalize(s: string): (r: string)
    ensures |r| <= |s|
    decreases |s|
  {
    if |s| == 0 then ""
    else if |s| >= 2 && s[0] == '\r' && s[1] == '\n' then "\n" + Normalize(s[2..])
    else [s[0]] + Normalize(s[1..])
  }

  /** Normalizing only ever drops carriage returns: with them removed, the
      text is unchanged, and text without them is left alone. */
  lemma {:induction false} NormalizeDropsOnlyReturns(s: string)
    ensures Remove(Normalize(s), '\r') == Remove(s, '\r')
    ensures '\r' !in s ==> Normalize(s) == s
    decreases |s|
  {
    if |s| == 0 {
    } else if |s| >= 2 && s[0] == '\r' && s[1] == '\n' {
      NormalizeDropsOnlyReturns(s[2..]);
      RemoveConcat("\n", Normalize(s[2..]), '\r');
      assert s[1..][1..] == s[2..];
    } else {
      NormalizeDropsOnlyReturns(s[1..]);
      RemoveConcat([s[0]], Normalize(s[1..]), '\r');
    }
  }

  /** A single pass is not a fixed point: `"\r\r\n"` becomes `"\r\n"`. */
  lemma NormalizeOnce()
    ensures Normalize("\r\r\n") == "\r\n"
    ensures Normalize(Normalize("\r\r\n")) == "\n"
  {
    assert "\r\r\n"[1..] == "\r\n";
    assert "\r\n"[2..] == "";
  }

  // ---------------------------------------------------------------------
  // The code heuristic
  // ---------------------------------------------------------------------

  const Fence: string := "```"

  /** A character of the class `[{}();=<>\[\]]`. */
  predicate IsCodePunctuation(c: char) {
    c == '{' || c == '}' || c == '(' || c == ')' || c == ';' || c == '=' || c == '<' || c == '>' || c == '[' || c == ']'
  }

  const Keywords: seq<string> :=
    ["const", "let", "var", "function", "class", "if", "for", "while", "return", "import", "export", "def"]

  /** `t` begins with the word `w` followed by a word boundary. */
  predicate BeginsWithWord(t: string, w: string) {
    StartsWith(t, w) && (|t| == |w| || !IsWordChar(t[|w|]))
  }

  predicate HasCodePunctuation(line: string) {
    exists i :: 0 <= i < |line| && IsCodePunctuation(line[i])
  }

  /** `^\s*(const|let|...|def)\b`. */
  predicate KeywordLine(line: string) {
    exists k :: 0 <= k < |Keywords| && BeginsWithWord(TrimStart(line), Keywords[k])
  }

  /** `^\s*#include\b`. */
  predicate IncludeLine(line: string) {
    BeginsWithWord(TrimStart(line), "#include")
  }

  /** `^\s*<\/?[a-zA-Z]`: an opening or closing tag. */
  predicate TagLine(line: string) {
    var t := TrimStart(line);
    |t| >= 2 && t[0] == '<' && (IsLetter(t[1]) || (t[1] == '/' && |t| >= 3 && IsLetter(t[2])))
  }

  /** A line that counts towards the heuristic. */
  predicate CodeLike(line: string) {
    HasCodePunctuation(line) || KeywordLine(line) || IncludeLine(line) || TagLine(line)
  }

  /** The tag pattern never decides anything: a tag line already has the
      punctuation `<`. */
  lemma TagLineHasPunctuation(line: string)
    requires TagLine(line)
    ensures HasCodePunctuation(line)
  {
    var t := TrimStart(line);
    TrimStartIsSuffix(line);
    assert line[|line| - |t|] == t[0];
  }

  /** The non-empty lines of the trimmed text (`filter(Boolean)` drops
      only empty strings). */
  function Lines(text: string): (r: seq<string>)
    ensures forall l :: l in r ==> l != "" && '\n' !in l
  {
    Where(Split(Strip(text), '\n'), (l: string) => l != "")
  }

  function CodeLines(text: string): (r: seq<string>)
    ensures forall l :: l in r <==> l in Lines(text) && CodeLike(l)
    ensures |r| <= |Lines(text)|
  {
    Where(Lines(text), CodeLike)
  }

  /** `Math.max(2, Math.ceil(n * 0.35))`, with 0.35 taken as 7/20. */
  function Threshold(n: nat): (t: nat)
    ensures t >= 2 && 20 * t >= 7 * n
    ensures t == 2 || 20 * (t - 1) < 7 * n
  {
    var c := (7 * n + 19) / 20;
    if c > 2 then c else 2
  }

  /** `looksLikeCode`. */
  function LooksLikeCode(text: string): (b: bool)
    ensures IsBlank(text) ==> !b
    ensures !IsBlank(text) && Contains(Strip(text), Fence) ==> b
    ensures b && !Contains(Strip(text), Fence) ==> |Lines(text)| >= 2 && |CodeLines(text)| >= 2
  {
    StripEmptyIffBlank(text);
    var t := Strip(text);
    if t == "" then false
    else if Contains(t, Fence) then true
    else
      var lines := Lines(text);
      if |lines| < 2 then false
      else |CodeLines(text)| >= Threshold(|lines|)
  }

  /** The heuristic's threshold: unfenced text of two or more lines reads
      as code exactly when at least 35% of its lines, and at least two,
      look like code. */
  lemma LooksLikeCodeIff(text: string)
    requires !Contains(Strip(text), Fence) && |Lines(text)| >= 2
    ensures LooksLikeCode(text) <==>
      20 * |CodeLines(text)| >= 7 * |Lines(text)| && |CodeLines(text)| >= 2
  {
    BlankHasNoLines(text);
    StripEmptyIffBlank(text);
    ThresholdIff(|Lines(text)|, |CodeLines(text)|);
  }

  lemma ThresholdIff(n: nat, c: nat)
    ensures c >= Threshold(n) <==> c >= 2 && 20 * c >= 7 * n
  {
  }

  /** Text whose every line looks like code is code once it has two
      lines. */
  lemma AllCodeLinesLookLikeCode(text: string)
    requires |Lines(text)| >= 2
    requires forall l :: l in Lines(text) ==> CodeLike(l)
    ensures LooksLikeCode(text)
  {
    BlankHasNoLines(text);
    if !Contains(Strip(text), Fence) {
      WhereAll(Lines(text), CodeLike);
      assert CodeLines(text) == Lines(text);
      LooksLikeCodeIff(text);
    }
  }

  lemma BlankHasNoLines(text: string)
    ensures IsBlank(text) ==> Lines(text) == []
  {
    if IsBlank(text) {
      StripEmptyIffBlank(text);
      assert Split("", '\n') == [""];
    }
  }

  /** One line of text without a fence is never code. */
  lemma SingleLineIsText(text: string)
    requires '\n' !in Strip(text) && !Contains(Strip(text), Fence)
    ensures !LooksLikeCode(text)
  {
    SplitWithoutSeparator(Strip(text), '\n');
    assert |Split(Strip(text), '\n')| == 1;
  }

  // ---------------------------------------------------------------------
  // Fenced blocks: /```(\w+)?\n?([\s\S]*?)```/g
  // ---------------------------------------------------------------------

  predicate FenceAt(s: string, k: int) {
    0 <= k && k + 3 <= |s| && s[k..k + 3] == Fence
  }

  /** The first fence starting at or after `from`. */
  function FindFence(s: string, from: nat): (r: Option<nat>)
    ensures r.Some? ==> from <= r.value && FenceAt(s, r.value)
    ensures r.Some? ==> forall k :: from <= k < r.value ==> !FenceAt(s, k)
    ensures r.None? ==> forall k :: from <= k ==> !FenceAt(s, k)
    decreases |s| - from
  {
    if from + 3 > |s| then None
    else if FenceAt(s, from) then Some(from)
    else FindFence(s, from + 1)
  }

  /** The end of the run of word characters starting at `i`. */
  function WordEnd(s: string, i: nat): (e: nat)
    requires i <= |s|
    ensures i <= e <= |s|
    ensures forall k :: i <= k < e ==> IsWordChar(s[k])
    ensures e < |s| ==> !IsWordChar(s[e])
    decreases |s| - i
  {
    if i < |s| && IsWordChar(s[i]) then WordEnd(s, i + 1) else i
  }

  /** One match of the pattern: where it starts and ends, the language
      word, whether a newline followed it, and the captured code. */
  datatype Match = Match(start: nat, end: nat, lang: string, newline: bool, code: string)

  /** The text a match spans, rebuilt from its parts. */
  function Spelled(m: Match): string {
    Fence + m.lang + (if m.newline then "\n" else "") + m.code + Fence
  }

  /** The match beginning at `i`, if any: the opening fence, the longest
      word, an optional newline, then the shortest text up to a closing
      fence. No shorter choice of word or newline can succeed where the
      longest fails, since neither contains a backtick. */
  function MatchAt(s: string, i: nat): (r: Option<Match>)
    ensures r.Some? ==> r.value.start == i && i + 6 <= r.value.end <= |s|
    ensures r.Some? ==> s[i..r.value.end] == Spelled(r.value)
    ensures r.Some? ==> forall k :: 0 <= k < |r.value.lang| ==> IsWordChar(r.value.lang[k])
    ensures r.Some? ==> !Contains(r.value.code, Fence)
    ensures r.None? && FenceAt(s, i) ==> forall k :: i + 3 <= k ==> !FenceAt(s, k)
    ensures !FenceAt(s, i) ==> r.None?
  {
    if !FenceAt(s, i) then None
    else
      var l := WordEnd(s, i + 3);
      var nl := l < |s| && s[l] == '\n';
      var c := if nl then l + 1 else l;
      var k := FindFence(s, c);
      if k.None? then
        NoFenceInWord(s, i, l, c);
        None
      else
        var m := Match(i, k.value + 3, s[i + 3..l], nl, s[c..k.value]);
        MatchSpelled(s, m, l, c);
        NoFenceBetween(s, c, k.value);
        Some(m)
  }

  /** No fence starts inside the language word or at its newline. */
  lemma NoFenceInWord(s: string, i: nat, l: nat, c: nat)
    requires i + 3 <= l <= c <= |s| && (c == l || (c == l + 1 && s[l] == '\n'))
    requires forall k :: i + 3 <= k < l ==> IsWordChar(s[k])
    ensures forall k :: i + 3 <= k < c ==> !FenceAt(s, k)
  {
    forall k | i + 3 <= k < c
      ensures !FenceAt(s, k)
    {
      if k < l {
        assert IsWordChar(s[k]);
      } else {
        assert s[k] == '\n';
      }
      NotFenceAt(s, k);
    }
  }

  lemma MatchSpelled(s: string, m: Match, l: nat, c: nat)
    requires m.start + 3 <= l <= c <= m.end - 3 && m.end <= |s|
    requires FenceAt(s, m.start) && FenceAt(s, m.end - 3)
    requires m.lang == s[m.start + 3..l] && m.code == s[c..m.end - 3]
    requires if m.newline then c == l + 1 && s[l] == '\n' else c == l
    ensures s[m.start..m.end] == Spelled(m)
  {
    assert s[l..c] == (if m.newline then "\n" else "");
    assert s[m.start..m.end] == s[m.start..m.start + 3] + s[m.start + 3..l] + s[l..c] + s[c..m.end - 3] + s[m.end - 3..m.end];
  }

  lemma NotFenceAt(s: string, k: nat)
    requires k < |s| && s[k] != '`'
    ensures !FenceAt(s, k)
  {
    if k + 3 <= |s| {
      assert s[k..k + 3][0] == s[k];
    }
  }

  /** No fence starts in `s[a..b]` when none starts at `a..b-1` of `s`. */
  lemma NoFenceBetween(s: string, a: nat, b: nat)
    requires a <= b <= |s|
    requires forall k :: a <= k < b ==> !FenceAt(s, k)
    ensures !Contains(s[a..b], Fence)
    decreases b - a
  {
    if a < b {
      assert !FenceAt(s, a);
      if b - a >= 3 {
        assert s[a..b][..3] == s[a..a + 3];
      }
      assert s[a..b][1..] == s[a + 1..b];
      NoFenceBetween(s, a + 1, b);
    }
  }

  /** The next match at or after `from`, as the global search finds it. */
  function NextMatch(s: string, from: nat): (r: Option<Match>)
    ensures r.Some? ==> from <= r.value.start && MatchAt(s, r.value.start) == r
    ensures r.Some? ==> forall k :: from <= k < r.value.start ==> MatchAt(s, k).None?
    ensures r.None? ==> forall k :: from <= k ==> MatchAt(s, k).None?
    decreases |s| - from
  {
    if from + 6 > |s| then None
    else if MatchAt(s, from).Some? then MatchAt(s, from)
    else NextMatch(s, from + 1)
  }

  /** The text cut at the matches: the gaps between them and the matches
      themselves, in order. */
  datatype Piece = Gap(text: string) | Block(raw: string, lang: string, code: string)

  function Raw(p: Piece): string {
    match p
    case Gap(t) => t
    case Block(raw, _, _) => raw
  }

  function Concat(ps: seq<Piece>): string
    decreases |ps|
  {
    if |ps| == 0 then "" else Raw(ps[0]) + Concat(ps[1..])
  }

  function Scan(s: string, from: nat): (r: seq<Piece>)
    requires from <= |s|
    decreases |s| - from
  {
    match NextMatch(s, from)
    case None => if from < |s| then [Gap(s[from..])] else []
    case Some(m) =>
      (if m.start > from then [Gap(s[from..m.start])] else [])
      + [Block(s[m.start..m.end], m.lang, m.code)]
      + Scan(s, m.end)
  }

  lemma ConcatAppend(a: seq<Piece>, b: seq<Piece>)
    ensures Concat(a + b) == Concat(a) + Concat(b)
    decreases |a|
  {
    if |a| > 0 {
      assert (a + b)[1..] == a[1..] + b;
      ConcatAppend(a[1..], b);
    } else {
      assert a + b == b;
    }
  }

  /** The pieces tile the text: nothing is dropped, repeated or moved. */
  lemma {:induction false} ScanTiles(s: string, from: nat)
    requires from <= |s|
    ensures Concat(Scan(s, from)) == s[from..]
    decreases |s| - from
  {
    var next := NextMatch(s, from);
    if next.None? {
      if from < |s| {
        ConcatOne(Gap(s[from..]));
      }
    } else {
      var m := next.value;
      ScanTiles(s, m.end);
      ScanStep(s, from, m);
    }
  }

  /** One step of the scan: the gap before the match, the match, and the
      rest. */
  lemma ScanStep(s: string, from: nat, m: Match)
    requires from <= |s| && NextMatch(s, from) == Some(m)
    requires Concat(Scan(s, m.end)) == s[m.end..]
    ensures Concat(Scan(s, from)) == s[from..]
  {
    var gap: seq<Piece> := if m.start > from then [Gap(s[from..m.start])] else [];
    var block := [Block(s[m.start..m.end], m.lang, m.code)];
    assert Scan(s, from) == gap + block + Scan(s, m.end);
    ConcatAppend(gap + block, Scan(s, m.end));
    ConcatAppend(gap, block);
    ConcatOne(block[0]);
    if m.start > from {
      ConcatOne(gap[0]);
    }
    assert MatchAt(s, m.start) == Some(m);
    SliceThree(s, from, m.start, m.end);
  }

  lemma SliceThree(s: string, a: nat, b: nat, c: nat)
    requires a <= b <= c <= |s|
    ensures s[a..] == s[a..b] + s[b..c] + s[c..]
  {
  }

  lemma ConcatOne(p: Piece)
    ensures Concat([p]) == Raw(p)
  {
    assert [p][1..] == [];
  }

  // ---------------------------------------------------------------------
  // What is drawn
  // ---------------------------------------------------------------------

  /** A paragraph (line breaks kept) or a code block with its language
      label (none when empty). */
  datatype View = Paragraph(text: string) | CodeBlock(lang: string, code: string)

  /** `code.replace(/\n$/, '')`: one trailing newline goes. */
  function DropFinalNewline(code: string): (r: string)
    ensures r == code || r + "\n" == code
  {
    if |code| > 0 && code[|code| - 1] == '\n' then code[..|code| - 1] else code
  }

  /** A blank gap draws nothing; a gap is drawn trimmed. */
  function Views(ps: seq<Piece>): (r: seq<View>)
    ensures forall v :: v in r && v.Paragraph? ==> !IsBlank(v.text) && IsStripped(v.text)
    ensures |r| <= |ps|
    decreases |ps|
  {
    if |ps| == 0 then []
    else
      var head := match ps[0]
        case Gap(t) => (StripEmptyIffBlank(t); if IsBlank(t) then [] else [Paragraph(Strip(t))])
        case Block(_, lang, code) => [CodeBlock(lang, DropFinalNewline(code))];
      head + Views(ps[1..])
  }

  /** `renderRichText(text, { disableHeuristicCodeDetection })`. */
  function Render(text: string, heuristicOff: bool): (r: seq<View>)
    ensures |r| >= 1 || NextMatch(Normalize(text), 0).Some?
  {
    var n := Normalize(text);
    if NextMatch(n, 0).None? then
      if !heuristicOff && LooksLikeCode(n) then [CodeBlock("", n)] else [Paragraph(n)]
    else Views(Scan(n, 0))
  }

  /** Text without a fenced block is drawn as one block: code exactly
      when the heuristic is on and calls it code. */
  lemma UnfencedIsOneBlock(text: string, heuristicOff: bool)
    requires NextMatch(Normalize(text), 0).None?
    ensures var n := Normalize(text);
      Render(text, heuristicOff) == (if !heuristicOff && LooksLikeCode(n) then [CodeBlock("", n)] else [Paragraph(n)])
    ensures heuristicOff ==> Render(text, heuristicOff) == [Paragraph(Normalize(text))]
  {
  }

  /** A lone opening fence with no closing one matches nothing, yet makes
      the heuristic call the whole text code. */
  lemma LoneFenceMakesWholeCode(text: string, k: nat)
    requires FenceAt(Normalize(text), k) && NextMatch(Normalize(text), 0).None?
    ensures Render(text, false) == [CodeBlock("", Normalize(text))]
  {
    var n := Normalize(text);
    FenceSurvivesStrip(n, k);
    assert !IsBlank(n) by {
      assert n[k..k + 3][0] == n[k];
    }
  }

  /** A fence inside the text is inside its trimmed form. */
  lemma FenceSurvivesStrip(s: string, k: nat)
    requires FenceAt(s, k)
    ensures Contains(Strip(s), Fence)
  {
    var t := TrimStart(s);
    var j := FenceSurvivesTrimStart(s, k);
    FenceSurvivesTrimEnd(t, j);
    FenceAtContains(TrimEnd(t), j);
  }

  /** A fence at some position is contained in the text. */
  lemma {:induction false} FenceAtContains(s: string, k: nat)
    requires FenceAt(s, k)
    ensures Contains(s, Fence)
    decreases k
  {
    if k == 0 {
      assert s[..3] == s[0..3];
    } else {
      assert s[1..][k - 1..k + 2] == s[k..k + 3];
      FenceAtContains(s[1..], k - 1);
    }
  }

  /** Leading whitespace goes before any fence: the fence moves left by
      the amount trimmed. */
  lemma FenceSurvivesTrimStart(s: string, k: nat) returns (j: nat)
    requires FenceAt(s, k)
    ensures j == k - (|s| - |TrimStart(s)|) && FenceAt(TrimStart(s), j)
  {
    var t := TrimStart(s);
    var a := |s| - |t|;
    TrimStartIsSuffix(s);
    assert s[k..k + 3][0] == s[k];
    TrimStartKeepsNonSpace(s, k);
    j := k - a;
    assert t[j..j + 3] == s[k..k + 3];
  }

  /** Trailing whitespace starts after any fence. */
  lemma FenceSurvivesTrimEnd(t: string, j: nat)
    requires FenceAt(t, j)
    ensures FenceAt(TrimEnd(t), j)
  {
    var r := TrimEnd(t);
    assert t[j..j + 3][2] == t[j + 2];
    assert !IsSpace(t[j + 2]);
    TrimEndKeepsNonSpace(t, j + 2);
    assert r[j..j + 3] == t[j..j + 3];
  }

  /** A character that is not whitespace is never trimmed off the start. */
  lemma {:induction false} TrimStartKeepsNonSpace(s: string, i: nat)
    requires i < |s| && !IsSpace(s[i])
    ensures |s| - |TrimStart(s)| <= i
    decreases |s|
  {
    if IsSpace(s[0]) {
      assert s[1..][i - 1] == s[i];
      TrimStartKeepsNonSpace(s[1..], i - 1);
    }
  }

  /** A character that is not whitespace is never trimmed off the end. */
  lemma {:induction false} TrimEndKeepsNonSpace(t: string, i: nat)
    requires i < |t| && !IsSpace(t[i])
    ensures i < |TrimEnd(t)|
    decreases |t|
  {
    if IsSpace(t[|t| - 1]) {
      assert t[..|t| - 1][i] == t[i];
      TrimEndKeepsNonSpace(t[..|t| - 1], i);
    }
  }

  /** The pattern on "```print(1)```" reads "print" as the language and
      leaves "(1)" as the code. */
  lemma WordAfterFenceIsLanguage()
    ensures MatchAt("```print(1)```", 0) == Some(Match(0, 14, "print", false, "(1)"))
  {
    var s := "```print(1)```";
    assert s[0..3] == Fence && s[11..14] == Fence;
    assert WordEnd(s, 8) == 8;
    assert WordEnd(s, 7) == 8;
    assert WordEnd(s, 6) == 8;
    assert WordEnd(s, 5) == 8;
    assert WordEnd(s, 4) == 8;
    assert WordEnd(s, 3) == 8;
    NotFenceAt(s, 8);
    NotFenceAt(s, 9);
    NotFenceAt(s, 10);
    assert FindFence(s, 11) == Some(11);
    assert FindFence(s, 10) == Some(11);
    assert FindFence(s, 9) == Some(11);
    assert FindFence(s, 8) == Some(11);
    assert s[3..8] == "print" && s[8..11] == "(1)";
  }

  /** The AI response is drawn with the heuristic off: unfenced, it is
      always one paragraph. */
  function RenderAiResponse(text: string): (r: seq<View>)
    ensures NextMatch(Normalize(text), 0).None? ==> r == [Paragraph(Normalize(text))]
    ensures NextMatch(Normalize(text), 0).Some? ==> r == Render(text, false)
  {
    Render(text, true)
  }
}

=== FILE: search.dfy ===
/** `SearchManager.search_posts`: case-insensitive search over a queryset,
    with the scope chosen by a `search_type` string. */
module Search {
  import opened Wrappers
  import opened Text
  import opened Domain

  datatype Scope = TitleOnly | ContentOnly | TitleOrContent

  /** `(search_type or 'all').strip().lower()`, then dispatch: 'title',
      'content', and everything else (including 'title_content', 'all' and
      unknown values) searches both. */
  function ResolveScope(searchType: Option<string>): (s: Scope)
    ensures s == TitleOnly <==> searchType.Some? && Lower(Strip(searchType.value)) == "title"
    ensures s == ContentOnly <==> searchType.Some? && Lower(Strip(searchType.value)) == "content"
  {
    var raw := if searchType.None? || searchType.value == "" then "all" else searchType.value;
    var normalized := Lower(Strip(raw));
    assert searchType.Some? && searchType.value == "" ==> Lower(Strip(searchType.value)) == "";
    if normalized == "title" then TitleOnly
    else if normalized == "content" then ContentOnly
    else if normalized in {"title_content", "all"} then TitleOrContent
    else TitleOrContent
  }

  predicate TitleHit(p: Post, q: string) { IContains(p.title, q) }

  predicate ContentHit(p: Post, q: string) {
    IContains(p.prompt, q) || IContains(p.aiResponse, q)
    || IContains(p.additionalOpinion, q) || IContains(p.tags, q)
  }

  predicate InScope(scope: Scope, p: Post, q: string) {
    match scope
    case TitleOnly => TitleHit(p, q)
    case ContentOnly => ContentHit(p, q)
    case TitleOrContent => TitleHit(p, q) || ContentHit(p, q)
  }

  /** An empty query returns the queryset unchanged; otherwise the posts
      that match the query in the resolved scope, in their order. */
  function SearchPosts(posts: seq<Post>, query: string, searchType: Option<string>): (r: seq<Post>)
    ensures query == "" ==> r == posts
    ensures query != "" ==> forall p :: p in r <==> p in posts && InScope(ResolveScope(searchType), p, query)
    ensures multiset(r) <= multiset(posts)
  {
    if query == "" then posts
    else
      var scope := ResolveScope(searchType);
      match scope
      case TitleOnly => Where(posts, p => TitleHit(p, query))
      case ContentOnly => Where(posts, p => ContentHit(p, query))
      case TitleOrContent => Where(posts, p => TitleHit(p, query) || ContentHit(p, query))
  }

  lemma LowerOfLowercase(s: string)
    requires forall i :: 0 <= i < |s| ==> !IsUpper(s[i])
    ensures Lower(s) == s
  {
  }

  lemma ScopeOfAll()
    ensures ResolveScope(Some("all")) == TitleOrContent
  {
    StripOfStripped("all");
    LowerOfLowercase("all");
  }

  lemma ScopeOfTitle()
    ensures ResolveScope(Some("title")) == TitleOnly
  {
    StripOfStripped("title");
    LowerOfLowercase("title");
  }

  lemma ScopeOfContent()
    ensures ResolveScope(Some("content")) == ContentOnly
  {
    StripOfStripped("content");
    LowerOfLowercase("content");
  }

  lemma ScopeOfNone()
    ensures ResolveScope(None) == TitleOrContent
  {
  }

  lemma SameScopeSameResult(posts: seq<Post>, query: string, a: Option<string>, b: Option<string>)
    requires ResolveScope(a) == ResolveScope(b)
    ensures SearchPosts(posts, query, a) == SearchPosts(posts, query, b)
  {
  }

  /** The wide scope is the union of the two narrow ones. */
  lemma WideScopeIsUnion(posts: seq<Post>, query: string)
    requires query != ""
    ensures forall p :: p in SearchPosts(posts, query, Some("all")) <==>
      p in SearchPosts(posts, query, Some("title")) || p in SearchPosts(posts, query, Some("content"))
  {
    ScopeOfAll();
    ScopeOfTitle();
    ScopeOfContent();
  }

  /** A missing or unrecognised search type behaves like 'all'. */
  lemma FallbackIsAll(posts: seq<Post>, query: string, t: string)
    requires Lower(Strip(t)) != "title" && Lower(Strip(t)) != "content"
    ensures SearchPosts(posts, query, Some(t)) == SearchPosts(posts, query, None)
  {
    ScopeOfNone();
    SameScopeSameResult(posts, query, Some(t), None);
  }

  /** Letter case of the search type does not matter. */
  lemma ScopeIgnoresCase(t: string)
    ensures ResolveScope(Some(Upper(t))) == ResolveScope(Some(t))
  {
    UpperStripCommute(t);
    LowerUpper(Strip(t));
  }

  /** Surrounding whitespace of the search type does not matter. */
  lemma ScopeIgnoresPadding(t: string)
    ensures ResolveScope(Some(" " + t)) == ResolveScope(Some(t))
  {
    assert " " + t == [' '] + t;
    StripLeadingSpace(' ', t);
  }

  lemma LowerUpper(s: string)
    ensures Lower(Upper(s)) == Lower(s)
  {
  }

  lemma UpperStripCommute(t: string)
    ensures Strip(Upper(t)) == Upper(Strip(t))
  {
    UpperTrimStart(t);
    UpperTrimEnd(TrimStart(t));
  }

  lemma {:induction false} UpperTrimStart(t: string)
    ensures TrimStart(Upper(t)) == Upper(TrimStart(t))
    decreases |t|
  {
    if |t| > 0 {
      var u := Upper(t);
      assert u[0] == UpperChar(t[0]);
      if IsSpace(t[0]) {
        assert u[1..] == Upper(t[1..]);
        UpperTrimStart(t[1..]);
      } else {
        assert !IsSpace(u[0]);
      }
    }
  }

  lemma {:induction false} UpperTrimEnd(t: string)
    ensures TrimEnd(Upper(t)) == Upper(TrimEnd(t))
    decreases |t|
  {
    if |t| > 0 {
      var u := Upper(t);
      assert u[|t| - 1] == UpperChar(t[|t| - 1]);
      if IsSpace(t[|t| - 1]) {
        assert u[..|t| - 1] == Upper(t[..|t| - 1]);
        UpperTrimEnd(t[..|t| - 1]);
      } else {
        assert !IsSpace(u[|t| - 1]);
      }
    }
  }
}

=== FILE: sorting.dfy ===
/** `PostSorting` and `SortManager`: the five feed orderings and the
    dispatch from a `sort_by` string, with 'latest' as the fallback. */
module Sorting {
  import opened Wrappers
  import opened Domain
  import opened Ordering

  datatype SortOption = Latest | Oldest | Popular | BySatisfaction | Views

  /** The keys of `SORT_OPTIONS`. */
  function Named(sortBy: string): (o: Option<SortOption>)
    ensures o == Some(Latest) <==> sortBy == "latest"
    ensures o == Some(Oldest) <==> sortBy == "oldest"
    ensures o == Some(Popular) <==> sortBy == "popular"
    ensures o == Some(BySatisfaction) <==> sortBy == "satisfaction"
    ensures o == Some(Views) <==> sortBy == "views"
  {
    if sortBy == "latest" then Some(Latest)
    else if sortBy == "oldest" then Some(Oldest)
    else if sortBy == "popular" then Some(Popular)
    else if sortBy == "satisfaction" then Some(BySatisfaction)
    else if sortBy == "views" then Some(Views)
    else None
  }

  /** `get_sort_options`: option key to its Korean label. */
  function SortOptionLabels(): (m: map<string, string>)
    ensures forall k :: k in m ==> m[k] != ""
  {
    map["latest" := "최신순", "oldest" := "오래된순", "popular" := "인기순",
        "satisfaction" := "만족도순", "views" := "조회순"]
  }

  /** The labelled options are exactly the dispatchable ones. */
  lemma LabelsMatchOptions(k: string)
    ensures k in SortOptionLabels() <==> Named(k).Some?
  {
  }

  /** `sort_posts` dispatch: a known key selects its ordering, anything else
      falls back to latest. */
  function ResolveSort(sortBy: string): (o: SortOption)
    ensures Named(sortBy).Some? ==> o == Named(sortBy).value
    ensures Named(sortBy).None? ==> o == Latest
  {
    Named(sortBy).GetOr(Latest)
  }

  function Popularity(p: Post): int { p.likeCount + p.bookmarkCount }

  /** The ORM sort key of each ordering; descending fields are negated and
      `nulls_last` puts a 0/1 flag in front of the satisfaction value. */
  function PostKey(o: SortOption, p: Post): seq<Part> {
    match o
    case Latest => [Num(-p.createdAt)]
    case Oldest => [Num(p.createdAt)]
    case Popular => [Num(-Popularity(p)), Num(-p.createdAt)]
    case BySatisfaction =>
      if p.satisfaction.None? then [Num(1), Num(0), Num(-p.createdAt)]
      else [Num(0), Num(-p.satisfaction.value), Num(-p.createdAt)]
    case Views => [Num(-(p.viewCount as int)), Num(-p.createdAt)]
  }

  /** Newer first, the shared tie-breaker. */
  predicate NewerOrSame(a: Post, b: Post) { a.createdAt >= b.createdAt }

  /** When `a` may be listed before `b` under each ordering, stated directly
      on the fields. */
  predicate Before(o: SortOption, a: Post, b: Post) {
    match o
    case Latest => NewerOrSame(a, b)
    case Oldest => a.createdAt <= b.createdAt
    case Popular =>
      Popularity(a) > Popularity(b) || (Popularity(a) == Popularity(b) && NewerOrSame(a, b))
    case BySatisfaction =>
      (match (a.satisfaction, b.satisfaction)
       case (Some(_), None) => true
       case (None, Some(_)) => false
       case (Some(x), Some(y)) => x > y || (x == y && NewerOrSame(a, b))
       case (None, None) => NewerOrSame(a, b))
    case Views =>
      a.viewCount > b.viewCount || (a.viewCount == b.viewCount && NewerOrSame(a, b))
  }

  lemma KeyLeOne(x: int, y: int)
    ensures KeyLe([Num(x)], [Num(y)]) <==> x <= y
  {
    assert [Num(x)][1..] == [];
  }

  lemma KeyLeTwo(x1: int, x2: int, y1: int, y2: int)
    ensures KeyLe([Num(x1), Num(x2)], [Num(y1), Num(y2)]) <==> x1 < y1 || (x1 == y1 && x2 <= y2)
  {
    assert [Num(x1), Num(x2)][1..] == [Num(x2)];
    assert [Num(y1), Num(y2)][1..] == [Num(y2)];
    KeyLeOne(x2, y2);
  }

  lemma KeyLeThree(x0: int, x1: int, x2: int, y0: int, y1: int, y2: int)
    ensures KeyLe([Num(x0), Num(x1), Num(x2)], [Num(y0), Num(y1), Num(y2)])
      <==> x0 < y0 || (x0 == y0 && (x1 < y1 || (x1 == y1 && x2 <= y2)))
  {
    assert [Num(x0), Num(x1), Num(x2)][1..] == [Num(x1), Num(x2)];
    assert [Num(y0), Num(y1), Num(y2)][1..] == [Num(y1), Num(y2)];
    KeyLeTwo(x1, x2, y1, y2);
  }

  /** The key order is exactly the field order each ordering promises. */
  lemma KeyOrderIsBefore(o: SortOption, a: Post, b: Post)
    ensures KeyLe(PostKey(o, a), PostKey(o, b)) <==> Before(o, a, b)
  {
    match o
    case Latest => KeyLeOne(-a.createdAt, -b.createdAt);
    case Oldest => KeyLeOne(a.createdAt, b.createdAt);
    case Popular => KeyLeTwo(-Popularity(a), -a.createdAt, -Popularity(b), -b.createdAt);
    case Views => KeyLeTwo(-(a.viewCount as int), -a.createdAt, -(b.viewCount as int), -b.createdAt);
    case BySatisfaction =>
      var ka, kb := PostKey(o, a), PostKey(o, b);
      KeyLeThree(ka[0].n, ka[1].n, ka[2].n, kb[0].n, kb[1].n, kb[2].n);
      assert ka == [Num(ka[0].n), Num(ka[1].n), Num(ka[2].n)];
      assert kb == [Num(kb[0].n), Num(kb[1].n), Num(kb[2].n)];
  }

  /** `SortManager.sort_posts`: a permutation of the queryset in which every
      earlier post may precede every later one under the resolved ordering. */
  function SortPosts(ps: seq<Post>, sortBy: string): (r: seq<Post>)
    ensures multiset(r) == multiset(ps)
    ensures forall i, j :: 0 <= i < j < |r| ==> Before(ResolveSort(sortBy), r[i], r[j])
  {
    var o := ResolveSort(sortBy);
    var r := SortBy(ps, p => PostKey(o, p));
    forall i, j | 0 <= i < j < |r| ensures Before(o, r[i], r[j]) {
      KeyOrderIsBefore(o, r[i], r[j]);
    }
    r
  }

  /** An unknown key such as 'rating' or 'likes' sorts like 'latest'. */
  lemma UnknownKeySortsLatest(ps: seq<Post>, sortBy: string)
    requires Named(sortBy).None?
    ensures SortPosts(ps, sortBy) == SortPosts(ps, "latest")
  {
  }

  /** The first post of the newest-first ordering is among the newest. */
  lemma LatestFirstIsNewest(ps: seq<Post>, p: Post)
    requires p in ps
    ensures SortPosts(ps, "latest")[0].createdAt >= p.createdAt
  {
    var r := SortPosts(ps, "latest");
    assert p in multiset(r);
    var k :| 0 <= k < |r| && r[k] == p;
    if k > 0 {
      assert Before(Latest, r[0], r[k]);
    }
  }

  /** Rated posts form a prefix of the satisfaction ordering: everything
      before a rated post is rated. */
  lemma RatedBeforeUnrated(ps: seq<Post>)
    ensures var r := SortPosts(ps, "satisfaction");
      forall i, j :: 0 <= i < j < |r| && r[j].satisfaction.Some? ==> r[i].satisfaction.Some?
  {
    var r := SortPosts(ps, "satisfaction");
    forall i, j | 0 <= i < j < |r| && r[j].satisfaction.Some? ensures r[i].satisfaction.Some? {
      assert Before(BySatisfaction, r[i], r[j]);
    }
  }
}

=== FILE: starrating.dfy ===
/** The frontend's `StarRating` widget. Ratings are counted in half-stars
    (a rating of 3.5 is 7), so every value the widget can emit is a whole
    number here. */
module StarRating {
  import opened Wrappers

  datatype Fill = Empty | Half | Full

  /** How star `k` (0-based) is drawn for a displayed rating of `h`
      half-stars: full once the rating reaches the star's value, half when
      it is within half a star below it. */
  function StarFill(h: int, k: nat): (f: Fill)
    ensures f == Full <==> h >= 2 * (k + 1)
    ensures f == Half <==> 2 * (k + 1) - 1 <= h < 2 * (k + 1)
  {
    var value := 2 * (k + 1);
    if h >= value then Full
    else if h >= value - 1 then Half
    else Empty
  }

  /** Full stars among the first `n`. */
  function FullCount(h: int, n: nat): nat
    decreases n
  {
    if n == 0 then 0 else FullCount(h, n - 1) + (if StarFill(h, n - 1) == Full then 1 else 0)
  }

  /** Half stars among the first `n`. */
  function HalfCount(h: int, n: nat): nat
    decreases n
  {
    if n == 0 then 0 else HalfCount(h, n - 1) + (if StarFill(h, n - 1) == Half then 1 else 0)
  }

  /** For a rating between 0 and `n` stars, the full stars are its whole
      part and there is one half star exactly when it has a half. */
  lemma {:induction false} StarCounts(h: int, n: nat)
    requires 0 <= h <= 2 * n
    ensures FullCount(h, n) == h / 2
    ensures HalfCount(h, n) == h % 2
    decreases n
  {
    if n > 0 {
      if h <= 2 * (n - 1) {
        StarCounts(h, n - 1);
      } else {
        StarCounts(2 * (n - 1), n - 1);
        Prefix(h, 2 * (n - 1), n - 1);
      }
    }
  }

  /** Raising the rating above every one of the first `n` stars does not
      change how they are drawn. */
  lemma {:induction false} Prefix(h: int, h2: int, n: nat)
    requires h >= h2 >= 2 * n
    ensures FullCount(h, n) == FullCount(h2, n) == n
    ensures HalfCount(h, n) == HalfCount(h2, n) == 0
    decreases n
  {
    if n > 0 {
      Prefix(h, h2, n - 1);
    }
  }

  /** The widget's state: the rating it is given, the value under the
      mouse while hovering, and whether it is disabled. */
  datatype Widget = Widget(rating: int, hover: Option<int>, disabled: bool)

  /** The rating drawn: the hovered value while hovering, else the prop. */
  function Displayed(w: Widget): (h: int)
    ensures w.hover.Some? ==> h == w.hover.value
    ensures w.hover.None? ==> h == w.rating
  {
    w.hover.GetOr(w.rating)
  }

  /** The left half of star `k` stands for `k + 0.5`, the right half for
      `k + 1`. */
  function HalfValue(k: nat, right: bool): (v: int)
    ensures v == if right then 2 * k + 2 else 2 * k + 1
  {
    if right then 2 * (k + 1) else 2 * (k + 1) - 1
  }

  datatype Event = Click(star: nat, right: bool) | Hover(star: nat, right: bool) | Leave

  /** One mouse event: the new state and the rating reported to the
      parent, if any. A disabled widget ignores everything. */
  function Step(w: Widget, e: Event): (r: (Widget, Option<int>))
    ensures w.disabled ==> r == (w, None)
    ensures r.1.Some? <==> !w.disabled && e.Click?
    ensures r.0.rating == w.rating && r.0.disabled == w.disabled
    ensures !w.disabled && e.Click? ==> r == (w, Some(HalfValue(e.star, e.right)))
    ensures !w.disabled && e.Hover? ==> r.0.hover == Some(HalfValue(e.star, e.right))
    ensures !w.disabled && e.Leave? ==> r.0.hover.None?
    ensures r.0 == w.(hover := r.0.hover)
  {
    if w.disabled then (w, None)
    else
      match e
      case Click(k, right) => (w, Some(HalfValue(k, right)))
      case Hover(k, right) => (w.(hover := Some(HalfValue(k, right))), None)
      case Leave => (w.(hover := None), None)
  }

  /** Every value a click on one of `maxRating` stars reports is a whole
      number of half stars between one half and `maxRating`. */
  lemma ClicksInRange(w: Widget, k: nat, right: bool, maxRating: nat)
    requires k < maxRating
    ensures var r := Step(w, Click(k, right));
      r.1.Some? ==> 1 <= r.1.value <= 2 * maxRating
  {
  }

  /** Hovering over a half and clicking it draws the value that is then
      reported: the star under the mouse is full for a right half and
      half-filled for a left half. */
  lemma HoverShowsClickedStar(w: Widget, k: nat, right: bool)
    requires !w.disabled
    ensures var h := Displayed(Step(w, Hover(k, right)).0);
      StarFill(h, k) == (if right then Full else Half)
  {
  }
}

=== FILE: tagedit.dfy ===
/** The tag editor shared by the post forms: a list of tags and a text
    input, with add-by-Enter, add-by-button, one-click suggested tags and
    removal. Every way of adding trims the input and refuses a blank or
    repeated tag, so the list stays a list of distinct, trimmed, non-blank
    tags. */
module TagEdit {
  import opened Text
  import Ordering

  /** A tag the forms would keep: trimmed and not blank. */
  predicate Clean(tag: string) {
    tag != "" && IsStripped(tag)
  }

  /** The invariant of the tag list: clean tags, each once. */
  ghost predicate GoodTags(tags: seq<string>) {
    Ordering.NoDup(tags) && forall i :: 0 <= i < |tags| ==> Clean(tags[i])
  }

  /** `tags.includes(tag) ? tags : [...tags, tag]`. */
  function Append(tags: seq<string>, tag: string): (r: seq<string>)
    ensures tag in r
    ensures forall x :: x in r <==> x in tags || x == tag
    ensures tag in tags ==> r == tags
    ensures tag !in tags ==> |r| == |tags| + 1 && r[..|tags|] == tags && r[|tags|] == tag
    ensures Ordering.NoDup(tags) ==> Ordering.NoDup(r)
  {
    if tag in tags then tags else tags + [tag]
  }

  /** The trimmed input, when it is not blank. */
  function Entered(input: string): (r: string)
    ensures r == "" <==> IsBlank(input)
    ensures r != "" ==> Clean(r)
  {
    StripEmptyIffBlank(input);
    Strip(input)
  }

  /** Enter in the tag input: a non-blank input adds its trimmed text when
      new and is cleared either way; a blank input does nothing. */
  function EnterKey(tags: seq<string>, input: string): (r: (seq<string>, string))
    ensures IsBlank(input) ==> r == (tags, input)
    ensures !IsBlank(input) ==> r.1 == "" && r.0 == Append(tags, Strip(input))
  {
    var t := Entered(input);
    if t == "" then (tags, input) else (Append(tags, t), "")
  }

  /** The add button (and the community form's `addTag`): the trimmed
      input is appended and the input cleared only when it is non-blank
      and new; otherwise nothing changes, the input included. */
  function AddButton(tags: seq<string>, input: string): (r: (seq<string>, string))
    ensures !IsBlank(input) && Strip(input) !in tags ==> r == (tags + [Strip(input)], "")
    ensures IsBlank(input) || Strip(input) in tags ==> r == (tags, input)
  {
    var t := Entered(input);
    if t != "" && t !in tags then (tags + [t], "") else (tags, input)
  }

  /** A suggested tag is added as it is, unless already present. */
  function AddSuggested(tags: seq<string>, tag: string): (r: seq<string>)
    ensures r == Append(tags, tag)
  {
    if tag in tags then tags else tags + [tag]
  }

  /** `tags.filter((_, i) => i !== index)`. */
  function RemoveAt(tags: seq<string>, index: int): (r: seq<string>)
    ensures !(0 <= index < |tags|) ==> r == tags
    ensures 0 <= index < |tags| ==> |r| == |tags| - 1
    ensures 0 <= index < |tags| ==> forall k :: 0 <= k < |r| ==> r[k] == (if k < index then tags[k] else tags[k + 1])
  {
    if 0 <= index < |tags| then tags[..index] + tags[index + 1..] else tags
  }

  /** `tags.filter(t => t !== tag)`. */
  function RemoveValue(tags: seq<string>, tag: string): (r: seq<string>)
    ensures tag !in r
    ensures forall x :: x in r <==> x in tags && x != tag
    ensures |r| <= |tags|
    decreases |tags|
  {
    if |tags| == 0 then []
    else (if tags[0] == tag then [] else [tags[0]]) + RemoveValue(tags[1..], tag)
  }

  /** Each way of adding keeps the list's invariant. */
  lemma AddingKeepsTagsGood(tags: seq<string>, input: string, suggestion: string)
    requires GoodTags(tags)
    requires Clean(suggestion)
    ensures GoodTags(EnterKey(tags, input).0)
    ensures GoodTags(AddButton(tags, input).0)
    ensures GoodTags(AddSuggested(tags, suggestion))
  {
  }

  /** Removing keeps the list's invariant. */
  lemma RemovingKeepsTagsGood(tags: seq<string>, index: int, tag: string)
    requires GoodTags(tags)
    ensures GoodTags(RemoveAt(tags, index))
    ensures GoodTags(RemoveValue(tags, tag))
  {
    var r := RemoveAt(tags, index);
    if 0 <= index < |tags| {
      forall i, j | 0 <= i < j < |r| ensures r[i] != r[j] {
        var i' := if i < index then i else i + 1;
        var j' := if j < index then j else j + 1;
        assert r[i] == tags[i'] && r[j] == tags[j'];
      }
    }
    RemoveValueKeepsGood(tags, tag);
  }

  lemma {:induction false} RemoveValueKeepsGood(tags: seq<string>, tag: string)
    requires GoodTags(tags)
    ensures GoodTags(RemoveValue(tags, tag))
    decreases |tags|
  {
    if |tags| > 0 {
      var rest := tags[1..];
      assert GoodTags(rest) by {
        forall i, j | 0 <= i < j < |rest| ensures rest[i] != rest[j] {
          assert rest[i] == tags[i + 1] && rest[j] == tags[j + 1];
        }
      }
      RemoveValueKeepsGood(rest, tag);
      assert tags[0] !in rest by {
        forall k | 0 <= k < |rest| ensures rest[k] != tags[0] {
          assert rest[k] == tags[k + 1];
        }
      }
    }
  }

  /** Adding a new tag with the button and then removing it, by value or
      by its badge, gives back the original list. */
  lemma AddThenRemove(tags: seq<string>, input: string)
    requires !IsBlank(input) && Strip(input) !in tags
    ensures RemoveValue(AddButton(tags, input).0, Strip(input)) == tags
    ensures RemoveAt(AddButton(tags, input).0, |tags|) == tags
  {
    RemoveValueAppend(tags, Strip(input));
  }

  /** Removing by value distributes over concatenation, so the tags that
      stay keep their order and their repeats. */
  lemma {:induction false} RemoveValueConcat(a: seq<string>, b: seq<string>, tag: string)
    ensures RemoveValue(a + b, tag) == RemoveValue(a, tag) + RemoveValue(b, tag)
    decreases |a|
  {
    if |a| == 0 {
      assert a + b == b;
    } else {
      RemoveValueConcat(a[1..], b, tag);
      assert (a + b)[1..] == a[1..] + b;
    }
  }

  /** Every other tag keeps its number of occurrences; the removed one
      has none left. */
  lemma {:induction false} RemoveValueCounts(tags: seq<string>, tag: string)
    ensures multiset(RemoveValue(tags, tag)) == multiset(tags)[tag := 0]
    decreases |tags|
  {
    if |tags| > 0 {
      RemoveValueCounts(tags[1..], tag);
      var head := if tags[0] == tag then [] else [tags[0]];
      assert RemoveValue(tags, tag) == head + RemoveValue(tags[1..], tag);
      assert multiset(tags) == multiset{tags[0]} + multiset(tags[1..]) by {
        assert tags == [tags[0]] + tags[1..];
      }
      assert multiset(head) == multiset{tags[0]}[tag := 0];
    }
  }

  /** A list without the tag is left as it is. */
  lemma {:induction false} RemoveValueAbsent(tags: seq<string>, tag: string)
    requires tag !in tags
    ensures RemoveValue(tags, tag) == tags
    decreases |tags|
  {
    if |tags| > 0 {
      RemoveValueAbsent(tags[1..], tag);
      assert tags == [tags[0]] + tags[1..];
    }
  }

  /** A tag present once is cut out, and the tags around it close up. */
  lemma RemoveValueOnce(before: seq<string>, tag: string, after: seq<string>)
    requires tag !in before && tag !in after
    ensures RemoveValue(before + [tag] + after, tag) == before + after
  {
    var single: seq<string> := [tag];
    assert single[1..] == [];
    assert RemoveValue(single, tag) == [];
    RemoveValueConcat(before, single, tag);
    RemoveValueAbsent(before, tag);
    assert before + [] == before;
    RemoveValueConcat(before + single, after, tag);
    RemoveValueAbsent(after, tag);
  }

  lemma {:induction false} RemoveValueAppend(tags: seq<string>, tag: string)
    requires tag !in tags
    ensures RemoveValue(tags + [tag], tag) == tags
    decreases |tags|
  {
    if |tags| == 0 {
      assert RemoveValue([tag], tag) == [] + RemoveValue([], tag);
    } else {
      assert (tags + [tag])[1..] == tags[1..] + [tag];
      RemoveValueAppend(tags[1..], tag);
      assert tags == [tags[0]] + tags[1..];
    }
  }

  /** Pressing Enter twice with the same text adds it once. */
  lemma EnterTwiceAddsOnce(tags: seq<string>, input: string)
    requires !IsBlank(input)
    ensures var once := EnterKey(tags, input);
      EnterKey(once.0, input).0 == once.0
  {
  }
}

=== FILE: text.dfy ===
/** String helpers shared by the backend (Python `str`) and frontend
    (JavaScript `String`) models. Strings are `seq<char>`; case mapping is
    the ASCII subset of what the runtimes do, and whitespace is the set both
    runtimes agree on. */
module Text {
  import opened Wrappers

  // ---------------------------------------------------------------------
  // Character classes
  // ---------------------------------------------------------------------

  /** The whitespace that Python `str.strip()` and JS `trim()` both remove:
      tab through carriage return, space, no-break space and the Unicode
      space separators and line/paragraph separators. Python also strips
      U+001C..U+001F and U+0085, and JS also strips U+FEFF; those characters
      are not whitespace here. */
  predicate IsSpace(c: char) {
    c == ' ' || '\t' <= c <= '\r' || c == '\U{00A0}' || c == '\U{1680}'
    || '\U{2000}' <= c <= '\U{200A}' || c == '\U{2028}' || c == '\U{2029}'
    || c == '\U{202F}' || c == '\U{205F}' || c == '\U{3000}'
  }

  predicate IsDigit(c: char) { '0' <= c <= '9' }

  predicate IsUpper(c: char) { 'A' <= c <= 'Z' }

  predicate IsLower(c: char) { 'a' <= c <= 'z' }

  /** ASCII letters (Python `str.isalpha` restricted to ASCII). */
  predicate IsLetter(c: char) { IsUpper(c) || IsLower(c) }

  /** The regular-expression word class `\w`: `[A-Za-z0-9_]`. */
  predicate IsWordChar(c: char) { IsLetter(c) || IsDigit(c) || c == '_' }

  function DigitValue(c: char): (d: nat)
    requires IsDigit(c)
    ensures d < 10
  {
    c as int - '0' as int
  }

  function DigitChar(d: nat): (c: char)
    requires d < 10
    ensures IsDigit(c) && DigitValue(c) == d
  {
    (d + '0' as int) as char
  }

  // ---------------------------------------------------------------------
  // Case mapping
  // ---------------------------------------------------------------------

  function LowerChar(c: char): (r: char)
    ensures !IsUpper(r)
    ensures IsLetter(c) <==> IsLetter(r)
    ensures IsDigit(c) <==> IsDigit(r)
    ensures !IsUpper(c) ==> r == c
  {
    if IsUpper(c) then (c as int + 32) as char else c
  }

  function UpperChar(c: char): (r: char)
    ensures !IsLower(r)
    ensures IsLetter(c) <==> IsLetter(r)
    ensures !IsLower(c) ==> r == c
  {
    if IsLower(c) then (c as int - 32) as char else c
  }

  /** Python `str.lower()` / JS `toLowerCase()` on ASCII letters. */
  function Lower(s: string): (r: string)
    ensures |r| == |s|
    ensures forall i :: 0 <= i < |s| ==> r[i] == LowerChar(s[i])
  {
    seq(|s|, i requires 0 <= i < |s| => LowerChar(s[i]))
  }

  /** Python `str.upper()` / JS `toUpperCase()` on ASCII letters. */
  function Upper(s: string): (r: string)
    ensures |r| == |s|
    ensures forall i :: 0 <= i < |s| ==> r[i] == UpperChar(s[i])
  {
    seq(|s|, i requires 0 <= i < |s| => UpperChar(s[i]))
  }

  lemma LowerIdempotent(s: string)
    ensures Lower(Lower(s)) == Lower(s)
  {
  }

  lemma LowerConcat(a: string, b: string)
    ensures Lower(a + b) == Lower(a) + Lower(b)
  {
  }

  // ---------------------------------------------------------------------
  // Whitespace stripping
  // ---------------------------------------------------------------------

  predicate IsBlank(s: string) { forall i :: 0 <= i < |s| ==> IsSpace(s[i]) }

  /** Neither end of `s` is whitespace. */
  predicate IsStripped(s: string) {
    |s| == 0 || (!IsSpace(s[0]) && !IsSpace(s[|s| - 1]))
  }

  function TrimStart(s: string): (r: string)
    ensures |r| <= |s|
    ensures |r| > 0 ==> !IsSpace(r[0])
    decreases |s|
  {
    if |s| > 0 && IsSpace(s[0]) then TrimStart(s[1..]) else s
  }

  function TrimEnd(s: string): (r: string)
    ensures |r| <= |s|
    ensures |r| > 0 ==> !IsSpace(r[|r| - 1])
    decreases |s|
  {
    if |s| > 0 && IsSpace(s[|s| - 1]) then TrimEnd(s[..|s| - 1]) else s
  }

  /** `TrimStart` keeps a suffix of its input. */
  lemma {:induction false} TrimStartIsSuffix(s: string)
    ensures TrimStart(s) == s[|s| - |TrimStart(s)|..]
    decreases |s|
  {
    if |s| > 0 && IsSpace(s[0]) {
      TrimStartIsSuffix(s[1..]);
      var r := TrimStart(s[1..]);
      assert s[1..][|s| - 1 - |r|..] == s[|s| - |r|..];
    }
  }

  /** `TrimEnd` keeps a prefix of its input. */
  lemma {:induction false} TrimEndIsPrefix(s: string)
    ensures TrimEnd(s) == s[..|TrimEnd(s)|]
    decreases |s|
  {
    if |s| > 0 && IsSpace(s[|s| - 1]) {
      TrimEndIsPrefix(s[..|s| - 1]);
      var r := TrimEnd(s[..|s| - 1]);
      assert s[..|s| - 1][..|r|] == s[..|r|];
    }
  }

  /** What `TrimStart` drops is whitespace. */
  lemma {:induction false} TrimStartDropsBlank(s: string)
    ensures IsBlank(s[..|s| - |TrimStart(s)|])
    decreases |s|
  {
    if |s| > 0 && IsSpace(s[0]) {
      var n := |s| - |TrimStart(s[1..])|;
      TrimStartDropsBlank(s[1..]);
      forall i | 0 <= i < n ensures IsSpace(s[..n][i]) {
        if i > 0 { assert s[..n][i] == s[1..][..n - 1][i - 1]; }
      }
    }
  }

  /** What `TrimEnd` drops is whitespace. */
  lemma {:induction false} TrimEndDropsBlank(s: string)
    ensures IsBlank(s[|TrimEnd(s)|..])
    decreases |s|
  {
    if |s| > 0 && IsSpace(s[|s| - 1]) {
      var n := |TrimEnd(s[..|s| - 1])|;
      TrimEndDropsBlank(s[..|s| - 1]);
      forall i | 0 <= i < |s| - n ensures IsSpace(s[n..][i]) {
        if i < |s| - 1 - n { assert s[n..][i] == s[..|s| - 1][n..][i]; }
      }
    }
  }

  /** Python `str.strip()` / JS `String.prototype.trim()`. */
  function Strip(s: string): (r: string)
    ensures IsStripped(r)
    ensures |r| <= |s|
  {
    var t := TrimStart(s);
    var r := TrimEnd(t);
    TrimEndIsPrefix(t);
    assert |r| > 0 ==> r[0] == t[0];
    r
  }

  lemma TrimStartOfStripped(s: string)
    requires |s| == 0 || !IsSpace(s[0])
    ensures TrimStart(s) == s
  {
  }

  lemma TrimEndOfStripped(s: string)
    requires |s| == 0 || !IsSpace(s[|s| - 1])
    ensures TrimEnd(s) == s
  {
  }

  /** Stripping a stripped string changes nothing. */
  lemma StripOfStripped(s: string)
    requires IsStripped(s)
    ensures Strip(s) == s
  {
    TrimStartOfStripped(s);
    TrimEndOfStripped(s);
  }

  lemma StripIdempotent(s: string)
    ensures Strip(Strip(s)) == Strip(s)
  {
    StripOfStripped(Strip(s));
  }

  /** A string strips to "" exactly when it is all whitespace. */
  lemma {:induction false} StripEmptyIffBlank(s: string)
    ensures Strip(s) == "" <==> IsBlank(s)
    decreases |s|
  {
    if |s| > 0 && IsSpace(s[0]) {
      StripEmptyIffBlank(s[1..]);
      assert IsBlank(s) <==> IsBlank(s[1..]);
    } else if |s| > 0 {
      assert TrimStart(s) == s;
      TrimEndDropsBlank(s);
      assert s[0..] == s;
    }
  }

  /** Stripping ignores leading whitespace. */
  lemma StripLeadingSpace(c: char, s: string)
    requires IsSpace(c)
    ensures Strip([c] + s) == Strip(s)
  {
    assert ([c] + s)[1..] == s;
  }

  // ---------------------------------------------------------------------
  // Prefix and substring
  // ---------------------------------------------------------------------

  predicate StartsWith(s: string, p: string) {
    |p| <= |s| && s[..|p|] == p
  }

  /** `sub` occurs in `s` (Python `in`, JS `includes`). The empty string
      occurs in every string. */
  predicate Contains(s: string, sub: string)
    decreases |s|
  {
    StartsWith(s, sub) || (|s| > 0 && Contains(s[1..], sub))
  }

  lemma ContainsEmpty(s: string)
    ensures Contains(s, "")
  {
    assert StartsWith(s, "");
  }

  /** A string occurs inside any string built around it. */
  lemma {:induction false} ContainsInfix(x: string, y: string, z: string)
    ensures Contains(x + y + z, y)
    decreases |x|
  {
    if |x| == 0 {
      assert x + y + z == y + z;
      assert (y + z)[..|y|] == y;
    } else {
      ContainsInfix(x[1..], y, z);
      assert (x + y + z)[1..] == x[1..] + y + z;
    }
  }

  /** Case-insensitive containment (Django `__icontains`, lowercase `includes`). */
  predicate IContains(s: string, sub: string) {
    Contains(Lower(s), Lower(sub))
  }

  // ---------------------------------------------------------------------
  // Character removal
  // ---------------------------------------------------------------------

  /** Python `s.replace(c, "")` for a single character `c`. */
  function Remove(s: string, c: char): (r: string)
    ensures c !in r
    ensures |r| <= |s|
    ensures forall x :: x in r ==> x in s
  {
    if |s| == 0 then ""
    else if s[0] == c then Remove(s[1..], c)
    else [s[0]] + Remove(s[1..], c)
  }

  lemma RemoveAbsent(s: string, c: char)
    requires c !in s
    ensures Remove(s, c) == s
  {
  }

  lemma {:induction false} RemoveConcat(a: string, b: string, c: char)
    ensures Remove(a + b, c) == Remove(a, c) + Remove(b, c)
    decreases |a|
  {
    if |a| > 0 {
      assert (a + b)[1..] == a[1..] + b;
      RemoveConcat(a[1..], b, c);
    } else {
      assert a + b == b;
    }
  }

  // ---------------------------------------------------------------------
  // Splitting and joining
  // ---------------------------------------------------------------------

  /** Python `s.split(c)` / JS `s.split(c)` for a one-character separator:
      always at least one part, and no part contains the separator. */
  function Split(s: string, c: char): (r: seq<string>)
    ensures |r| >= 1
    ensures forall i :: 0 <= i < |r| ==> c !in r[i]
    decreases |s|
  {
    if |s| == 0 then [""]
    else if s[0] == c then [""] + Split(s[1..], c)
    else
      var rest := Split(s[1..], c);
      [[s[0]] + rest[0]] + rest[1..]
  }

  /** Python `sep.join(parts)` / JS `parts.join(sep)`. */
  function Join(parts: seq<string>, sep: string): string
    decreases |parts|
  {
    if |parts| == 0 then ""
    else if |parts| == 1 then parts[0]
    else parts[0] + sep + Join(parts[1..], sep)
  }

  /** Joining the parts of a split with the separator restores the string. */
  lemma {:induction false} JoinSplit(s: string, c: char)
    ensures Join(Split(s, c), [c]) == s
    decreases |s|
  {
    if |s| == 0 {
    } else if s[0] == c {
      JoinSplit(s[1..], c);
      var rest := Split(s[1..], c);
      assert Split(s, c) == [""] + rest;
      assert Join([""] + rest, [c]) == "" + [c] + Join(rest, [c]);
    } else {
      JoinSplit(s[1..], c);
      var rest := Split(s[1..], c);
      var r := [[s[0]] + rest[0]] + rest[1..];
      assert Split(s, c) == r;
      if |rest| == 1 {
        assert Join(r, [c]) == [s[0]] + rest[0];
      } else {
        assert r[1..] == rest[1..];
        assert Join(r, [c]) == [s[0]] + rest[0] + [c] + Join(rest[1..], [c]);
        assert Join(rest, [c]) == rest[0] + [c] + Join(rest[1..], [c]);
      }
    }
  }

  lemma {:induction false} SplitWithoutSeparator(a: string, c: char)
    requires c !in a
    ensures Split(a, c) == [a]
    decreases |a|
  {
    if |a| > 0 {
      SplitWithoutSeparator(a[1..], c);
      assert [a[0]] + a[1..] == a;
    }
  }

  lemma {:induction false} SplitAfterPart(a: string, b: string, c: char)
    requires c !in a
    ensures Split(a + [c] + b, c) == [a] + Split(b, c)
    decreases |a|
  {
    if |a| == 0 {
      assert a + [c] + b == [c] + b;
      assert ([c] + b)[1..] == b;
    } else {
      var s := a + [c] + b;
      assert s[0] == a[0];
      assert s[1..] == a[1..] + [c] + b;
      SplitAfterPart(a[1..], b, c);
      assert [a[0]] + a[1..] == a;
    }
  }

  /** Splitting at a separator splits each side on its own. */
  lemma {:induction false} SplitAroundSeparator(a: string, b: string, c: char)
    ensures Split(a + [c] + b, c) == Split(a, c) + Split(b, c)
    decreases |a|
  {
    var s := a + [c] + b;
    if |a| == 0 {
      assert s == [c] + b;
      assert s[1..] == b;
    } else {
      assert s[0] == a[0];
      assert s[1..] == a[1..] + [c] + b;
      SplitAroundSeparator(a[1..], b, c);
      if a[0] != c {
        var left := Split(a[1..], c);
        assert (left + Split(b, c))[1..] == left[1..] + Split(b, c);
      }
    }
  }

  /** Splitting a join of separator-free parts gives the parts back. */
  lemma {:induction false} SplitJoin(parts: seq<string>, c: char)
    requires |parts| >= 1
    requires forall i :: 0 <= i < |parts| ==> c !in parts[i]
    ensures Split(Join(parts, [c]), c) == parts
    decreases |parts|
  {
    if |parts| == 1 {
      SplitWithoutSeparator(parts[0], c);
    } else {
      SplitJoin(parts[1..], c);
      SplitAfterPart(parts[0], Join(parts[1..], [c]), c);
      assert [parts[0]] + parts[1..] == parts;
    }
  }

  /** Every character of every part of a split comes from the input. */
  lemma {:induction false} SplitPartsFromInput(s: string, c: char)
    ensures forall i, k :: 0 <= i < |Split(s, c)| && 0 <= k < |Split(s, c)[i]| ==> Split(s, c)[i][k] in s
    decreases |s|
  {
    if |s| > 0 {
      SplitPartsFromInput(s[1..], c);
      var rest := Split(s[1..], c);
      assert forall x :: x in s[1..] ==> x in s;
      if s[0] != c {
        var r := Split(s, c);
        assert r == [[s[0]] + rest[0]] + rest[1..];
        forall i, k | 0 <= i < |r| && 0 <= k < |r[i]| ensures r[i][k] in s {
          if i == 0 {
            if k > 0 { assert r[0][k] == rest[0][k - 1]; }
          } else {
            assert r[i] == rest[i];
          }
        }
      }
    }
  }

  /** `[p.strip() for p in parts if p.strip()]`. */
  function StrippedNonBlank(parts: seq<string>): (r: seq<string>)
    ensures |r| <= |parts|
    ensures forall t :: t in r ==> t != "" && IsStripped(t)
    ensures forall t :: t in r <==> t != "" && StripsTo(parts, t)
    ensures (forall p :: p in parts ==> Strip(p) == "") ==> r == []
    decreases |parts|
  {
    if |parts| == 0 then []
    else
      var rest := StrippedNonBlank(parts[1..]);
      StripsToCons(parts);
      assert parts[0] in parts && forall p :: p in parts[1..] ==> p in parts;
      var t := Strip(parts[0]);
      if t != "" then
        assert forall x :: x in [t] + rest <==> x == t || x in rest;
        [t] + rest
      else rest
  }

  /** The list comprehension works part by part: the result for a
      concatenation is the concatenation of the results, in order. */
  lemma {:induction false} StrippedNonBlankConcat(a: seq<string>, b: seq<string>)
    ensures StrippedNonBlank(a + b) == StrippedNonBlank(a) + StrippedNonBlank(b)
    decreases |a|
  {
    if |a| == 0 {
      assert a + b == b;
    } else {
      assert (a + b)[0] == a[0];
      assert (a + b)[1..] == a[1..] + b;
      StrippedNonBlankConcat(a[1..], b);
    }
  }

  /** One part gives its stripped text, or nothing when that is empty. */
  lemma StrippedNonBlankOne(p: string)
    ensures StrippedNonBlank([p]) == if Strip(p) == "" then [] else [Strip(p)]
  {
    assert [p][1..] == [];
  }

  /** `t` is what one of `parts` strips to. */
  predicate StripsTo(parts: seq<string>, t: string) {
    exists p :: p in parts && Strip(p) == t
  }

  /** The stripped images of a non-empty list are the first one's and
      those of the rest. */
  lemma StripsToCons(parts: seq<string>)
    requires |parts| > 0
    ensures forall t :: StripsTo(parts, t) <==> Strip(parts[0]) == t || StripsTo(parts[1..], t)
  {
    forall t | StripsTo(parts, t)
      ensures Strip(parts[0]) == t || StripsTo(parts[1..], t)
    {
      var p :| p in parts && Strip(p) == t;
      var i :| 0 <= i < |parts| && parts[i] == p;
      if i > 0 { assert parts[1..][i - 1] == p; }
    }
    forall t | StripsTo(parts[1..], t)
      ensures StripsTo(parts, t)
    {
      var p :| p in parts[1..] && Strip(p) == t;
      assert p in parts;
    }
  }

  /** `[x.strip() for x in s.split(c) if x.strip()]`: the non-blank pieces
      of a separated list, stripped, in order. */
  function Tokens(s: string, c: char): (r: seq<string>)
    ensures forall t :: t in r ==> t != "" && IsStripped(t) && c !in t
  {
    var parts := Split(s, c);
    var r := StrippedNonBlank(parts);
    forall t | t in r ensures c !in t {
      var p :| p in parts && Strip(p) == t;
      StripSubstring(p);
    }
    r
  }

  /** The tokens are exactly the non-empty stripped pieces. */
  lemma TokensMembers(s: string, c: char)
    ensures forall t :: t in Tokens(s, c) <==> t != "" && StripsTo(Split(s, c), t)
  {
  }

  /** Stripping only removes characters from the ends. */
  lemma StripSubstring(p: string)
    ensures forall x :: x in Strip(p) ==> x in p
  {
    var t := TrimStart(p);
    TrimStartIsSuffix(p);
    TrimEndIsPrefix(t);
    assert forall x :: x in t ==> x in p;
  }

  /** A blank string (in particular "") has no tokens. */
  lemma BlankHasNoTokens(s: string, c: char)
    requires IsBlank(s)
    ensures Tokens(s, c) == []
  {
    SplitPartsFromInput(s, c);
    var parts := Split(s, c);
    forall p | p in parts ensures Strip(p) == "" {
      var i :| 0 <= i < |parts| && parts[i] == p;
      assert IsBlank(p);
      StripEmptyIffBlank(p);
    }
  }

  // ---------------------------------------------------------------------
  // Decimal integers
  // ---------------------------------------------------------------------

  /** Decimal digits of `n` without leading zeros, as `str(n)` / template
      interpolation of a non-negative integer. */
  function NatToString(n: nat): (s: string)
    ensures |s| >= 1
    ensures forall i :: 0 <= i < |s| ==> IsDigit(s[i])
    decreases n
  {
    if n < 10 then [DigitChar(n)] else NatToString(n / 10) + [DigitChar(n % 10)]
  }

  /** `str(n)` for any integer. */
  function IntToString(n: int): string {
    if n < 0 then "-" + NatToString(-n) else NatToString(n)
  }

  /** The value of a digit string, skipping `_` digit separators. */
  function DigitsValue(s: string): nat
    requires forall i :: 0 <= i < |s| ==> IsDigit(s[i]) || s[i] == '_'
    decreases |s|
  {
    if |s| == 0 then 0
    else if s[|s| - 1] == '_' then DigitsValue(s[..|s| - 1])
    else DigitsValue(s[..|s| - 1]) * 10 + DigitValue(s[|s| - 1])
  }

  /** A Python integer literal body: digits, optionally grouped by single
      underscores, starting and ending with a digit. */
  predicate IsDigitGroups(s: string) {
    && |s| > 0
    && IsDigit(s[0]) && IsDigit(s[|s| - 1])
    && (forall i :: 0 <= i < |s| ==> IsDigit(s[i]) || s[i] == '_')
    && (forall i :: 0 <= i < |s| - 1 ==> !(s[i] == '_' && s[i + 1] == '_'))
  }

  /** Python `int(s)` on a string: surrounding whitespace is ignored, one
      optional sign, then base-10 digit groups. Anything else is a
      `ValueError`, returned as None. */
  function ParseInt(s: string): Option<int> {
    if IsStripped(s) then ParseSigned(s) else ParseSigned(Strip(s))
  }

  /** Reading a string without surrounding whitespace as it is, as
      `ParseInt` does, is the same as stripping it first. */
  lemma ParseIntStripsFirst(s: string)
    ensures ParseInt(s) == ParseSigned(Strip(s))
  {
    if IsStripped(s) {
      StripOfStripped(s);
    }
  }

  /** `int()` on an already stripped string: digit groups, or a sign
      followed by them. */
  function ParseSigned(t: string): Option<int> {
    if IsDigitGroups(t) then Some(DigitsValue(t))
    else if |t| > 1 && (t[0] == '-' || t[0] == '+') && IsDigitGroups(t[1..]) then
      var v: int := DigitsValue(t[1..]);
      Some(if t[0] == '-' then -v else v)
    else None
  }

  lemma {:induction false} DigitsValueOfNatToString(n: nat)
    ensures DigitsValue(NatToString(n)) == n
    decreases n
  {
    if n >= 10 {
      DigitsValueOfNatToString(n / 10);
      var s := NatToString(n);
      assert s[..|s| - 1] == NatToString(n / 10);
    }
  }

  /** `int(str(n)) == n`: the decimal writer and Python's integer parser
      are inverse. */
  lemma ParseIntOfIntToString(n: int)
    ensures ParseInt(IntToString(n)) == Some(n)
  {
    IntToStringIsStripped(n);
    ParseSignedOfIntToString(n);
  }

  lemma IntToStringIsStripped(n: int)
    ensures IsStripped(IntToString(n))
  {
    var d := NatToString(if n < 0 then -n else n);
    assert !IsSpace(d[0]) && !IsSpace(d[|d| - 1]);
  }

  lemma ParseSignedOfIntToString(n: int)
    ensures ParseSigned(IntToString(n)) == Some(n)
  {
    var m := if n < 0 then -n else n;
    DigitsValueOfNatToString(m);
    var d := NatToString(m);
    assert IsDigitGroups(d);
    if n < 0 {
      var s := IntToString(n);
      assert s[1..] == d;
      assert !IsDigitGroups(s);
    }
  }
}

=== FILE: trending.dfy ===
/** The trending-ranking → post matcher of `TrendingRanking.get_filtered_posts`.
    A ranking points at an AI model; its posts are those written with that
    model, optionally narrowed by keywords matched against `model_detail`
    and `model_etc` after both sides are normalized. */
module TrendingMatch {
  import opened Wrappers
  import opened Text
  import opened Domain

  datatype TrendingCategory = TrendingCategory(
    name: string, title: string, subtitle: string, iconName: string, order: nat, isActive: bool)

  /** One ranking row. `relatedModel` is the id of the linked AI model. */
  datatype Ranking = Ranking(
    category: string,
    rank: nat,
    name: string,
    score: string,
    provider: string,
    relatedModel: Option<int>,
    useExactMatching: bool,
    detailContains: string,
    etcContains: string,
    isActive: bool)

  /** Deletes the separators the matcher ignores. */
  function DropSeparators(s: string): string {
    Remove(Remove(Remove(s, ' '), '-'), '_')
  }

  /** Keyword side: lower-case first, then delete ' ', '-' and '_'. */
  function NormalizeKeyword(k: string): (r: string)
    ensures ' ' !in r && '-' !in r && '_' !in r
    ensures forall i :: 0 <= i < |r| ==> !IsUpper(r[i])
  {
    var r := DropSeparators(Lower(k));
    assert forall i :: 0 <= i < |r| ==> r[i] in Lower(k);
    r
  }

  /** Field side, as the database annotation computes it: delete ' ', '-'
      and '_' first, then lower-case. */
  function NormalizeField(f: string): string {
    Lower(DropSeparators(f))
  }

  lemma {:induction false} LowerRemove(s: string, c: char)
    requires !IsLetter(c)
    ensures Lower(Remove(s, c)) == Remove(Lower(s), c)
    decreases |s|
  {
    if |s| > 0 {
      LowerRemove(s[1..], c);
      assert Lower(s)[1..] == Lower(s[1..]);
      LowerConcat([s[0]], Remove(s[1..], c));
    }
  }

  /** The two normalizations agree, so the order of lower-casing and
      separator deletion does not matter. */
  lemma FieldAndKeywordAgree(s: string)
    ensures NormalizeField(s) == NormalizeKeyword(s)
  {
    LowerRemove(s, ' ');
    LowerRemove(Remove(s, ' '), '-');
    LowerRemove(Remove(Remove(s, ' '), '-'), '_');
  }

  lemma {:induction false} RemoveIdempotent(s: string, c: char)
    ensures Remove(Remove(s, c), c) == Remove(s, c)
  {
    RemoveAbsent(Remove(s, c), c);
  }

  /** Normalizing a normalized keyword changes nothing. */
  lemma NormalizeKeywordIdempotent(k: string)
    ensures NormalizeKeyword(NormalizeKeyword(k)) == NormalizeKeyword(k)
  {
    var n := NormalizeKeyword(k);
    assert Lower(n) == n;
    RemoveAbsent(n, ' ');
    RemoveAbsent(n, '-');
    RemoveAbsent(n, '_');
  }

  /** Case differences in a keyword do not change its normal form. */
  lemma NormalizeKeywordIgnoresCase(k: string)
    ensures NormalizeKeyword(Lower(k)) == NormalizeKeyword(k)
    ensures NormalizeKeyword(Upper(k)) == NormalizeKeyword(k)
  {
    LowerIdempotent(k);
    assert Lower(Upper(k)) == Lower(k);
  }

  /** Inserting a separator anywhere in a keyword does not change its normal form. */
  lemma NormalizeKeywordIgnoresSeparator(a: string, sep: char, b: string)
    requires sep == ' ' || sep == '-' || sep == '_'
    ensures NormalizeKeyword(a + [sep] + b) == NormalizeKeyword(a + b)
  {
    var la, lb := Lower(a), Lower(b);
    LowerConcat(a + [sep], b);
    LowerConcat(a, [sep]);
    LowerConcat(a, b);
    assert Lower([sep]) == [sep];
    DropSeparatorsConcat(la + [sep], lb);
    DropSeparatorsConcat(la, [sep]);
    DropSeparatorsConcat(la, lb);
    assert DropSeparators([sep]) == "";
  }

  lemma DropSeparatorsConcat(x: string, y: string)
    ensures DropSeparators(x + y) == DropSeparators(x) + DropSeparators(y)
  {
    RemoveConcat(x, y, ' ');
    RemoveConcat(Remove(x, ' '), Remove(y, ' '), '-');
    RemoveConcat(Remove(Remove(x, ' '), '-'), Remove(Remove(y, ' '), '-'), '_');
  }

  /** The keyword disjunction of exact matching: a blank keyword adds no
      alternative. */
  predicate KeywordHit(r: Ranking, p: Post) {
    var dk := NormalizeKeyword(r.detailContains);
    var ek := NormalizeKeyword(r.etcContains);
    || (dk != "" && Contains(NormalizeField(p.modelDetail), dk))
    || (ek != "" && Contains(NormalizeField(p.modelEtc), ek))
  }

  /** Both keywords normalize to "": exact matching adds no constraint. */
  predicate NoKeywords(r: Ranking) {
    NormalizeKeyword(r.detailContains) == "" && NormalizeKeyword(r.etcContains) == ""
  }

  predicate WrittenWith(modelId: int, p: Post) {
    p.model.Some? && p.model.value.id == modelId
  }

  /** When a post belongs to a ranking's list, stated in one place. */
  predicate Matches(r: Ranking, p: Post) {
    && r.relatedModel.Some?
    && WrittenWith(r.relatedModel.value, p)
    && (!r.useExactMatching || NoKeywords(r) || KeywordHit(r, p))
  }

  /** `get_filtered_posts`: no linked model gives nothing; otherwise the
      model's posts, narrowed by the keyword disjunction when exact matching
      is on and some keyword is non-blank. */
  function FilteredPosts(r: Ranking, posts: seq<Post>): (res: seq<Post>)
    ensures r.relatedModel.None? ==> res == []
    ensures forall p :: p in res <==> p in posts && Matches(r, p)
    ensures r.relatedModel.Some? ==>
      multiset(res) <= multiset(Where(posts, p => WrittenWith(r.relatedModel.value, p)))
  {
    if r.relatedModel.None? then []
    else
      var m := r.relatedModel.value;
      var base := Where(posts, p => WrittenWith(m, p));
      if r.useExactMatching && !NoKeywords(r) then
        var res := Where(base, p => KeywordHit(r, p));
        WhereWhere(posts, p => WrittenWith(m, p), p => KeywordHit(r, p));
        res
      else
        base
  }

  /** Without exact matching the list is exactly the linked model's posts. */
  lemma InexactIsModelPosts(r: Ranking, posts: seq<Post>)
    requires r.relatedModel.Some? && !r.useExactMatching
    ensures FilteredPosts(r, posts) == Where(posts, p => WrittenWith(r.relatedModel.value, p))
  {
  }

  /** Keywords that normalize alike select the same posts. */
  lemma SameNormalFormSamePosts(r1: Ranking, r2: Ranking, posts: seq<Post>)
    requires r1.relatedModel == r2.relatedModel && r1.useExactMatching == r2.useExactMatching
    requires NormalizeKeyword(r1.detailContains) == NormalizeKeyword(r2.detailContains)
    requires NormalizeKeyword(r1.etcContains) == NormalizeKeyword(r2.etcContains)
    ensures forall p :: p in FilteredPosts(r1, posts) <==> p in FilteredPosts(r2, posts)
  {
  }

  /** A post whose `model_detail` spells the detail keyword with other case
      and separators is matched by that keyword. */
  lemma {:induction false} DetailSpellingMatches(r: Ranking, p: Post)
    requires r.relatedModel.Some? && WrittenWith(r.relatedModel.value, p)
    requires NormalizeKeyword(r.detailContains) != ""
    requires NormalizeKeyword(r.detailContains) == NormalizeKeyword(p.modelDetail)
    ensures Matches(r, p)
  {
    FieldAndKeywordAgree(p.modelDetail);
    var k := NormalizeField(p.modelDetail);
    assert StartsWith(k, k);
  }

  /** Normalization distributes over concatenation. */
  lemma NormalizeKeywordConcat(a: string, b: string)
    ensures NormalizeKeyword(a + b) == NormalizeKeyword(a) + NormalizeKeyword(b)
  {
    LowerConcat(a, b);
    var la, lb := Lower(a), Lower(b);
    RemoveConcat(la, lb, ' ');
    RemoveConcat(Remove(la, ' '), Remove(lb, ' '), '-');
    RemoveConcat(Remove(Remove(la, ' '), '-'), Remove(Remove(lb, ' '), '-'), '_');
  }

  /** A detail keyword matches every post of the linked model whose
      `model_detail` contains some spelling of it: 'Sonnet', 'sonnet' and
      'GPT-4 Sonnet' all match 'GPT-4 Sonnet'. */
  lemma DetailInfixMatches(r: Ranking, p: Post, a: string, k: string, b: string)
    requires r.relatedModel.Some? && WrittenWith(r.relatedModel.value, p)
    requires p.modelDetail == a + k + b
    requires NormalizeKeyword(r.detailContains) == NormalizeKeyword(k) != ""
    ensures Matches(r, p)
  {
    FieldAndKeywordAgree(p.modelDetail);
    NormalizeKeywordConcat(a + k, b);
    NormalizeKeywordConcat(a, k);
    ContainsInfix(NormalizeKeyword(a), NormalizeKeyword(k), NormalizeKeyword(b));
  }
}

=== FILE: trendingservice.dfy ===
/** `TrendingService`: the category rankings payload read through the
    cache, its refresh, and the ranking-to-posts lookups. */
module TrendingService {
  import opened Wrappers
  import opened Domain
  import opened Ordering
  import opened TrendingMatch
  import Cache

  const CacheKey: string := "trending_category_rankings"
  const CacheTimeout: int := 3600

  /** One ranking as the payload lists it. */
  datatype RankingItem = RankingItem(rank: nat, name: string, score: string, provider: string)

  /** One category's block of the payload. */
  datatype Block = Block(title: string, subtitle: string, icon: string, data: seq<RankingItem>)

  /** The payload: category name to block, in insertion order. */
  type Payload = seq<(string, Block)>

  function Item(r: Ranking): RankingItem { RankingItem(r.rank, r.name, r.score, r.provider) }

  function CategoryKey(c: TrendingCategory): seq<Part> { [Num(c.order), Str(c.name)] }

  function RankKey(r: Ranking): seq<Part> { [Num(r.rank)] }

  /** The active categories in (order, name) order. */
  function ActiveCategories(cats: seq<TrendingCategory>): (r: seq<TrendingCategory>)
    ensures forall c :: c in r <==> c in cats && c.isActive
    ensures Sorted(r, CategoryKey)
  {
    var kept := Where(cats, (c: TrendingCategory) => c.isActive);
    SortByMembers(kept, CategoryKey);
    SortBy(kept, CategoryKey)
  }

  /** The active rankings of one category in rank order. */
  function ActiveRankingsOf(rankings: seq<Ranking>, category: string): (r: seq<Ranking>)
    ensures forall x :: x in r <==> x in rankings && x.isActive && x.category == category
    ensures Sorted(r, RankKey)
  {
    var kept := Where(rankings, (x: Ranking) => x.isActive && x.category == category);
    SortByMembers(kept, RankKey);
    SortBy(kept, RankKey)
  }

  /** A category's block: its title, subtitle and icon, and one item per
      active ranking of the category, by rank. */
  function BlockOf(c: TrendingCategory, rankings: seq<Ranking>): (b: Block)
    ensures (b.title, b.subtitle, b.icon) == (c.title, c.subtitle, c.iconName)
    ensures forall it :: it in b.data <==>
      exists x :: x in rankings && x.isActive && x.category == c.name && it == Item(x)
    ensures forall i, j :: 0 <= i < j < |b.data| ==> b.data[i].rank <= b.data[j].rank
  {
    var rs := ActiveRankingsOf(rankings, c.name);
    ItemsFacts(rs);
    Block(c.title, c.subtitle, c.iconName, Items(rs))
  }

  function Items(rs: seq<Ranking>): (d: seq<RankingItem>)
    ensures |d| == |rs| && forall i :: 0 <= i < |d| ==> d[i] == Item(rs[i])
  {
    seq(|rs|, i requires 0 <= i < |rs| => Item(rs[i]))
  }

  /** The items of rankings sorted by rank are those rankings' items, by
      rank. */
  lemma ItemsFacts(rs: seq<Ranking>)
    requires Sorted(rs, RankKey)
    ensures forall it :: it in Items(rs) <==> exists x :: x in rs && it == Item(x)
    ensures forall i, j :: 0 <= i < j < |Items(rs)| ==> Items(rs)[i].rank <= Items(rs)[j].rank
  {
    var data := Items(rs);
    forall it | it in data ensures exists x :: x in rs && it == Item(x) {
      var i :| 0 <= i < |data| && data[i] == it;
      assert rs[i] in rs;
    }
    forall x | x in rs ensures Item(x) in data {
      var i :| 0 <= i < |rs| && rs[i] == x;
      assert data[i] == Item(x);
    }
    forall i, j | 0 <= i < j < |data| ensures data[i].rank <= data[j].rank {
      assert KeyLe(RankKey(rs[i]), RankKey(rs[j]));
      Sorting_KeyLeOne(rs[i].rank, rs[j].rank);
    }
  }

  /** `_fetch_category_rankings`: one entry per active category, in
      (order, name) order, holding that category's active rankings by rank. */
  function FetchCategoryRankings(cats: seq<TrendingCategory>, rankings: seq<Ranking>): (p: Payload)
    ensures var active := ActiveCategories(cats);
      |p| == |active| && forall i :: 0 <= i < |p| ==> p[i] == (active[i].name, BlockOf(active[i], rankings))
  {
    var active := ActiveCategories(cats);
    seq(|active|, i requires 0 <= i < |active| => (active[i].name, BlockOf(active[i], rankings)))
  }

  /** The rank numbers of every block are in order. */
  lemma BlocksInRankOrder(cats: seq<TrendingCategory>, rankings: seq<Ranking>, k: nat, i: nat, j: nat)
    requires k < |FetchCategoryRankings(cats, rankings)|
    requires i < j < |FetchCategoryRankings(cats, rankings)[k].1.data|
    ensures FetchCategoryRankings(cats, rankings)[k].1.data[i].rank <= FetchCategoryRankings(cats, rankings)[k].1.data[j].rank
  {
    var active := ActiveCategories(cats);
    assert FetchCategoryRankings(cats, rankings)[k].1 == BlockOf(active[k], rankings);
  }

  lemma Sorting_KeyLeOne(x: int, y: int)
    ensures KeyLe([Num(x)], [Num(y)]) <==> x <= y
  {
    assert [Num(x)][1..] == [];
  }

  /** The response of `get_category_rankings`. */
  datatype Response = Success(data: Payload, fromCache: bool) | Failure(message: string)

  /** `get_category_rankings`. `db` is what the two queries return, or None
      when they raise. A cached payload is returned without touching `db`;
      a miss fetches, stores the payload for an hour and reports it as fresh;
      a failing fetch stores nothing. */
  function GetCategoryRankings(c: Cache.Store<Payload>, now: int,
                               db: Option<(seq<TrendingCategory>, seq<Ranking>)>): (r: (Response, Cache.Store<Payload>))
    ensures Cache.Get(c, CacheKey, now).Some? ==>
      r.0 == Success(Cache.Get(c, CacheKey, now).value, true) && r.1 == c
    ensures Cache.Get(c, CacheKey, now).None? && db.None? ==> r.0.Failure? && r.1 == c
    ensures Cache.Get(c, CacheKey, now).None? && db.Some? ==>
      var fetched := FetchCategoryRankings(db.value.0, db.value.1);
      r.0 == Success(fetched, false) && Cache.Get(r.1, CacheKey, now) == Some(fetched)
      && r.1[CacheKey].expiresAt == now + CacheTimeout
  {
    var cached := Cache.Get(c, CacheKey, now);
    if cached.Some? then (Success(cached.value, true), c)
    else if db.None? then (Failure("트렌딩 데이터 조회 중 오류가 발생했습니다"), c)
    else
      var fetched := FetchCategoryRankings(db.value.0, db.value.1);
      (Success(fetched, false), Cache.Set(c, CacheKey, Some(fetched), CacheTimeout, now))
  }

  /** `refresh_cache`: drop the cached payload. */
  function RefreshCache(c: Cache.Store<Payload>): (r: Cache.Store<Payload>)
    ensures CacheKey !in r
    ensures forall k :: k != CacheKey ==> (k in r <==> k in c)
    ensures forall k :: k != CacheKey && k in c ==> r[k] == c[k]
  {
    Cache.Delete(c, CacheKey)
  }

  /** After a refresh the next read is a miss that queries the database. */
  lemma RefreshForcesFetch(c: Cache.Store<Payload>, now: int,
                           db: (seq<TrendingCategory>, seq<Ranking>))
    ensures GetCategoryRankings(RefreshCache(c), now, Some(db)).0
      == Success(FetchCategoryRankings(db.0, db.1), false)
  {
  }

  /** A fresh read followed by another read within the hour serves the same
      payload from the cache, whatever the database says by then. */
  lemma SecondReadFromCache(c: Cache.Store<Payload>, now: int, later: int,
                            db: (seq<TrendingCategory>, seq<Ranking>),
                            db2: Option<(seq<TrendingCategory>, seq<Ranking>)>)
    requires Cache.Get(c, CacheKey, now).None?
    requires now <= later < now + CacheTimeout
    ensures var first := GetCategoryRankings(c, now, Some(db));
      GetCategoryRankings(first.1, later, db2).0 == Success(FetchCategoryRankings(db.0, db.1), true)
  {
  }

  predicate ActiveNamed(c: TrendingCategory, name: string) { c.isActive && c.name == name }

  /** `get_category_by_name`: the block of the active category with that
      name, if any (category names are unique, so the first match is the
      only one). */
  function CategoryByName(cats: seq<TrendingCategory>, rankings: seq<Ranking>, name: string): (r: Option<Block>)
    ensures r.None? <==> forall c :: c in cats ==> !ActiveNamed(c, name)
    ensures r.Some? ==> exists i ::
      && 0 <= i < |cats| && ActiveNamed(cats[i], name)
      && (forall j :: 0 <= j < i ==> !ActiveNamed(cats[j], name))
      && r.value == BlockOf(cats[i], rankings)
  {
    match FirstIndex(cats, (c: TrendingCategory) => ActiveNamed(c, name))
    case None => None
    case Some(i) => Some(BlockOf(cats[i], rankings))
  }

  // ---------------------------------------------------------------------
  // Ranking lookups by model name
  // ---------------------------------------------------------------------

  /** The order of a category by name (categories have unique names). */
  function OrderOf(cats: seq<TrendingCategory>, name: string): nat {
    if |cats| == 0 then 0
    else if cats[0].name == name then cats[0].order
    else OrderOf(cats[1..], name)
  }

  /** `TrendingRanking.Meta.ordering`: category order, then rank. */
  function RankingKey(cats: seq<TrendingCategory>, x: Ranking): seq<Part> {
    [Num(OrderOf(cats, x.category)), Num(x.rank)]
  }

  function DefaultKey(cats: seq<TrendingCategory>): Ranking -> seq<Part> {
    (x: Ranking) => RankingKey(cats, x)
  }

  /** The ranking key compares category order first, then rank. */
  lemma RankingKeyOrder(cats: seq<TrendingCategory>, a: Ranking, b: Ranking)
    ensures KeyLe(RankingKey(cats, a), RankingKey(cats, b)) <==>
      var oa, ob := OrderOf(cats, a.category), OrderOf(cats, b.category);
      oa < ob || (oa == ob && a.rank <= b.rank)
  {
    var oa, ob := OrderOf(cats, a.category), OrderOf(cats, b.category);
    KeyLeCons(Num(oa), [Num(a.rank)], Num(ob), [Num(b.rank)]);
    Sorting_KeyLeOne(a.rank, b.rank);
  }

  /** The rankings in `Meta.ordering`: by category order, then by rank. */
  function DefaultOrder(cats: seq<TrendingCategory>, rankings: seq<Ranking>): (r: seq<Ranking>)
    ensures multiset(r) == multiset(rankings)
    ensures forall x :: x in r <==> x in rankings
    ensures forall i, j :: 0 <= i < j < |r| ==>
      OrderOf(cats, r[i].category) < OrderOf(cats, r[j].category)
      || (OrderOf(cats, r[i].category) == OrderOf(cats, r[j].category) && r[i].rank <= r[j].rank)
  {
    var r := SortBy(rankings, DefaultKey(cats));
    SortByMembers(rankings, DefaultKey(cats));
    forall i, j | 0 <= i < j < |r| ensures
      OrderOf(cats, r[i].category) < OrderOf(cats, r[j].category)
      || (OrderOf(cats, r[i].category) == OrderOf(cats, r[j].category) && r[i].rank <= r[j].rank)
    {
      assert KeyLe(DefaultKey(cats)(r[i]), DefaultKey(cats)(r[j]));
      RankingKeyOrder(cats, r[i], r[j]);
    }
    r
  }

  /** `.first()` of a filtered queryset: the position of the first row the
      filter keeps. */
  function FirstIndex<T>(rs: seq<T>, keep: T -> bool): (r: Option<nat>)
    ensures r.Some? ==> r.value < |rs| && keep(rs[r.value])
    ensures r.Some? ==> forall j :: 0 <= j < r.value ==> !keep(rs[j])
    ensures r.None? ==> forall x :: x in rs ==> !keep(x)
  {
    if |rs| == 0 then None
    else if keep(rs[0]) then Some(0)
    else
      match FirstIndex(rs[1..], keep)
      case None => None
      case Some(i) =>
        assert forall j :: 1 <= j <= i ==> rs[j] == rs[1..][j - 1];
        Some(i + 1)
  }

  /** The row `.first()` returns from the default-ordered rankings: one the
      filter keeps whose (category order, rank) is least among them. */
  function FirstRanking(cats: seq<TrendingCategory>, rankings: seq<Ranking>, keep: Ranking -> bool): (r: Option<Ranking>)
    ensures r.Some? ==> r.value in rankings && keep(r.value)
    ensures r.Some? ==> forall y :: y in rankings && keep(y) ==> KeyLe(RankingKey(cats, r.value), RankingKey(cats, y))
    ensures r.None? ==> forall y :: y in rankings ==> !keep(y)
  {
    var ordered := DefaultOrder(cats, rankings);
    match FirstIndex(ordered, keep)
    case None => None
    case Some(i) =>
      FirstIsLeast(ordered, keep, DefaultKey(cats));
      Some(ordered[i])
  }

  lemma FirstIsLeast(rs: seq<Ranking>, keep: Ranking -> bool, key: Ranking -> seq<Part>)
    requires Sorted(rs, key) && FirstIndex(rs, keep).Some?
    ensures forall y :: y in rs && keep(y) ==> KeyLe(key(rs[FirstIndex(rs, keep).value]), key(y))
  {
    var i := FirstIndex(rs, keep).value;
    forall y | y in rs && keep(y) ensures KeyLe(key(rs[i]), key(y)) {
      var k :| 0 <= k < |rs| && rs[k] == y;
      if k == i { KeyLeReflexive(key(y)); }
    }
  }

  predicate NamedRanking(x: Ranking, name: string) { x.isActive && x.name == name }

  predicate LinkedRanking(x: Ranking, name: string) { NamedRanking(x, name) && x.relatedModel.Some? }

  /** `get_related_posts_by_model_name`: the posts of the first active
      ranking with that name and a linked model; none if there is no such
      ranking. */
  function RelatedPosts(cats: seq<TrendingCategory>, rankings: seq<Ranking>, name: string, posts: seq<Post>): (r: seq<Post>)
    ensures (forall x :: x in rankings ==> !LinkedRanking(x, name)) ==> r == []
    ensures (exists x :: x in rankings && LinkedRanking(x, name)) ==>
      exists x :: x in rankings && LinkedRanking(x, name) && r == FilteredPosts(x, posts)
        && forall y :: y in rankings && LinkedRanking(y, name) ==> KeyLe(RankingKey(cats, x), RankingKey(cats, y))
    ensures forall p :: p in r ==> p in posts
  {
    match FirstRanking(cats, rankings, (x: Ranking) => LinkedRanking(x, name))
    case None => []
    case Some(x) => FilteredPosts(x, posts)
  }

  /** The linked model's part of the model info. */
  datatype RelatedModelInfo = RelatedModelInfo(
    id: int, name: string, platform: string,
    exactMatching: bool, detailFilter: string, etcFilter: string)

  datatype ModelInfo = ModelInfo(
    trendingName: string, provider: string, score: string, rank: nat,
    categoryName: string, categoryTitle: string,
    relatedModel: Option<RelatedModelInfo>, relatedPostsCount: nat)

  /** `trending_ranking.category`: the first category with that name. */
  function FindCategoryNamed(cats: seq<TrendingCategory>, name: string): (r: Option<TrendingCategory>)
    ensures r.None? <==> forall c :: c in cats ==> c.name != name
    ensures r.Some? ==> exists i ::
      && 0 <= i < |cats| && cats[i] == r.value && cats[i].name == name
      && forall j :: 0 <= j < i ==> cats[j].name != name
  {
    match FirstIndex(cats, (c: TrendingCategory) => c.name == name)
    case None => None
    case Some(i) => Some(cats[i])
  }

  /** `info` shows ranking `x`, the first active ranking named `name`. */
  ghost predicate ShownRanking(info: ModelInfo, x: Ranking, rankings: seq<Ranking>,
                               cats: seq<TrendingCategory>, name: string, posts: seq<Post>) {
    && x in rankings && NamedRanking(x, name)
    && info.rank == x.rank && info.provider == x.provider && info.score == x.score
    && info.categoryName == x.category
    && (x.relatedModel.None? <==> info.relatedModel.None?)
    && (x.relatedModel.Some? ==>
          info.relatedModel.value.id == x.relatedModel.value && info.relatedPostsCount == |FilteredPosts(x, posts)|)
    && forall y :: y in rankings && NamedRanking(y, name) ==> KeyLe(RankingKey(cats, x), RankingKey(cats, y))
  }

  function Named(name: string): Ranking -> bool { (x: Ranking) => NamedRanking(x, name) }

  /** Every row a ranking refers to exists: its category, and when a model
      is linked, that model and the model's platform. */
  predicate Resolves(x: Ranking, cats: seq<TrendingCategory>, models: seq<AiModel>, platforms: seq<Platform>) {
    && FindCategoryNamed(cats, x.category).Some?
    && (x.relatedModel.Some? ==>
          && FindAiModel(models, x.relatedModel.value).Some?
          && FindPlatform(platforms, FindAiModel(models, x.relatedModel.value).value.platform).Some?)
  }

  /** `get_trending_model_info`: None when no active ranking has that name
      (or a referenced row is missing, which the source catches); otherwise
      the first such ranking's fields, with the linked model's details and
      the number of matching posts when a model is linked, else 0. */
  function TrendingModelInfo(cats: seq<TrendingCategory>, rankings: seq<Ranking>, name: string,
                             models: seq<AiModel>, platforms: seq<Platform>, posts: seq<Post>): (r: Option<ModelInfo>)
    ensures (forall x :: x in rankings ==> !NamedRanking(x, name)) ==> r.None?
    ensures ((exists x :: x in rankings && NamedRanking(x, name))
             && forall x :: x in rankings ==> Resolves(x, cats, models, platforms)) ==> r.Some?
    ensures r.Some? ==>
      && FirstRanking(cats, rankings, Named(name)).Some?
      && ShownRanking(r.value, FirstRanking(cats, rankings, Named(name)).value, rankings, cats, name, posts)
    ensures r.Some? ==> r.value.trendingName == name
    ensures r.Some? && r.value.relatedModel.None? ==> r.value.relatedPostsCount == 0
  {
    match FirstRanking(cats, rankings, Named(name))
    case None => None
    case Some(x) =>
      var r := InfoOf(x, cats, models, platforms, posts);
      assert r.Some? ==> ShownRanking(r.value, x, rankings, cats, name, posts);
      r
  }

  /** The model info of one ranking. */
  function InfoOf(x: Ranking, cats: seq<TrendingCategory>, models: seq<AiModel>,
                  platforms: seq<Platform>, posts: seq<Post>): (r: Option<ModelInfo>)
    ensures r.Some? ==> (r.value.trendingName, r.value.rank) == (x.name, x.rank)
    ensures r.Some? ==> (r.value.provider, r.value.score) == (x.provider, x.score)
    ensures r.Some? ==> (x.relatedModel.None? <==> r.value.relatedModel.None?)
    ensures r.Some? && x.relatedModel.None? ==> r.value.relatedPostsCount == 0
    ensures r.Some? && x.relatedModel.Some? ==> r.value.relatedModel.value.id == x.relatedModel.value
    ensures r.Some? && x.relatedModel.Some? ==> r.value.relatedPostsCount == |FilteredPosts(x, posts)|
    ensures r.Some? <==> Resolves(x, cats, models, platforms)
    ensures r.Some? ==>
      && r.value.categoryName == x.category
      && r.value.categoryTitle == FindCategoryNamed(cats, x.category).value.title
    ensures r.Some? && x.relatedModel.Some? ==>
      var m := FindAiModel(models, x.relatedModel.value).value;
      var info := r.value.relatedModel.value;
      && info.name == m.name && info.platform == FindPlatform(platforms, m.platform).value.name
      && info.exactMatching == x.useExactMatching
      && info.detailFilter == x.detailContains && info.etcFilter == x.etcContains
  {
    match FindCategoryNamed(cats, x.category)
    case None => None
    case Some(cat) =>
      if x.relatedModel.None? then
        Some(ModelInfo(x.name, x.provider, x.score, x.rank, cat.name, cat.title, None, 0))
      else
        match FindAiModel(models, x.relatedModel.value)
        case None => None
        case Some(m) =>
          match FindPlatform(platforms, m.platform)
          case None => None
          case Some(pl) =>
            var info := RelatedModelInfo(m.id, m.name, pl.name, x.useExactMatching, x.detailContains, x.etcContains);
            Some(ModelInfo(x.name, x.provider, x.score, x.rank, cat.name, cat.title,
                           Some(info), |FilteredPosts(x, posts)|))
  }
}

=== FILE: users.dfy ===
/** The users app: the account manager, generated usernames, the default
    location rule, login sessions and the session, logout and account
    deletion endpoints. The database is a set of user ids, a set of user
    ids holding an API token, and a sequence of session rows. */
module Users {
  import opened Wrappers
  import opened Text
  import opened Domain
  import Colors

  /** Python truthiness of an optional string: None and "" are false. */
  predicate Truthy(s: Option<string>) { s.Some? && s.value != "" }

  /** Python `a or b` on optional strings. */
  function Or(a: Option<string>, b: Option<string>): (r: Option<string>)
    ensures Truthy(a) ==> r == a
    ensures !Truthy(a) ==> r == b
  {
    if Truthy(a) then a else b
  }

  // ---------------------------------------------------------------------
  // get_location_from_ip
  // ---------------------------------------------------------------------

  const DefaultLocation: string := "Seoul, South Korea"

  /** Addresses answered without a lookup: none, loopback, or the private
      prefixes the source lists (note that '172.' covers more than the
      172.16/12 private block). */
  predicate LocalAddress(ip: string) {
    || ip == "" || ip == "127.0.0.1" || ip == "localhost" || ip == "::1"
    || StartsWith(ip, "192.168.") || StartsWith(ip, "10.") || StartsWith(ip, "172.")
  }

  /** The outcome of the geolocation request: a failure (an exception or a
      status other than 200) or the `city` and `country_name` fields. */
  datatype Lookup = Failed | Answer(city: Option<string>, country: Option<string>)

  /** A field that is present, non-empty and not the literal 'Unknown'. */
  predicate Known(v: Option<string>) { Truthy(v) && v.value != "Unknown" }

  /** `get_location_from_ip`, the remote lookup given as `lookup`. */
  function LocationFromIp(ip: string, lookup: string -> Lookup): (r: string)
    ensures LocalAddress(ip) ==> r == DefaultLocation
    ensures !LocalAddress(ip) ==> r == Describe(lookup(ip))
  {
    if LocalAddress(ip) then DefaultLocation else Describe(lookup(ip))
  }

  /** The location text of a lookup outcome. */
  function Describe(l: Lookup): (r: string)
    ensures l.Failed? ==> r == DefaultLocation
    ensures l.Answer? && Known(l.city) && Known(l.country) ==> r == l.city.value + ", " + l.country.value
    ensures l.Answer? && Known(l.city) && !Known(l.country) ==> r == l.city.value + ", Unknown"
    ensures l.Answer? && !Known(l.city) && Known(l.country) ==> r == "Unknown, " + l.country.value
    ensures l.Answer? && !Known(l.city) && !Known(l.country) ==> r == DefaultLocation
  {
    match l
    case Failed => DefaultLocation
    case Answer(city, country) =>
      if Known(city) && Known(country) then city.value + ", " + country.value
      else if Known(city) then city.value + ", Unknown"
      else if Known(country) then "Unknown, " + country.value
      else DefaultLocation
  }

  /** A local address never depends on the lookup: no request is made. */
  lemma LocalNeedsNoLookup(ip: string, l1: string -> Lookup, l2: string -> Lookup)
    requires LocalAddress(ip)
    ensures LocationFromIp(ip, l1) == LocationFromIp(ip, l2) == DefaultLocation
  {
  }

  /** A reported 'Unknown' reads the same as a missing field. */
  lemma UnknownIsMissing(city: Option<string>, country: Option<string>)
    ensures Describe(Answer(Some("Unknown"), country)) == Describe(Answer(None, country))
    ensures Describe(Answer(city, Some("Unknown"))) == Describe(Answer(city, None))
  {
  }

  // ---------------------------------------------------------------------
  // generate_random_username
  // ---------------------------------------------------------------------

  predicate IsNameChar(c: char) { IsLower(c) || IsDigit(c) }

  /** What `random.choices(ascii_lowercase + digits, k=n)` can yield. */
  predicate IsDraw(d: string, n: nat) {
    |d| == n && forall i :: 0 <= i < |d| ==> IsNameChar(d[i])
  }

  /** The generator's loop over a sequence of random draws (the random
      source given as `draws`), from draw `from` on: the index of the first
      draw whose name is not taken. None means every remaining draw was
      taken; the source would keep drawing. */
  function FirstFree(prefix: string, draws: seq<string>, taken: set<string>, from: nat): (k: Option<nat>)
    requires from <= |draws|
    ensures k.None? <==> forall i :: from <= i < |draws| ==> prefix + draws[i] in taken
    ensures k.Some? ==> from <= k.value < |draws| && prefix + draws[k.value] !in taken
    ensures k.Some? ==> forall j :: from <= j < k.value ==> prefix + draws[j] in taken
    decreases |draws| - from
  {
    if from == |draws| then None
    else if prefix + draws[from] !in taken then Some(from)
    else FirstFree(prefix, draws, taken, from + 1)
  }

  /** The name the loop returns: the prefix and the first free draw. */
  function RandomUsername(prefix: string, draws: seq<string>, taken: set<string>): (r: Option<string>)
    ensures r.None? <==> forall i :: 0 <= i < |draws| ==> prefix + draws[i] in taken
    ensures r.Some? ==> r.value !in taken
    ensures r.Some? ==> exists i :: 0 <= i < |draws| && r.value == prefix + draws[i] && (forall j :: 0 <= j < i ==> prefix + draws[j] in taken)
  {
    match FirstFree(prefix, draws, taken, 0)
    case None => None
    case Some(k) => Some(prefix + draws[k])
  }

  /** `generate_random_username` of the users app: 'user-' and eight
      characters from [a-z0-9], not yet taken. */
  function UsersAppUsername(draws: seq<string>, taken: set<string>): (r: Option<string>)
    requires forall i :: 0 <= i < |draws| ==> IsDraw(draws[i], 8)
    ensures r.None? <==> forall i :: 0 <= i < |draws| ==> "user-" + draws[i] in taken
    ensures r.Some? ==> r.value !in taken && |r.value| == 13 && StartsWith(r.value, "user-")
    ensures r.Some? ==> forall i :: 5 <= i < 13 ==> IsNameChar(r.value[i])
  {
    match FirstFree("user-", draws, taken, 0)
    case None => None
    case Some(k) =>
      var name := "user-" + draws[k];
      assert IsDraw(draws[k], 8);
      assert name[..5] == "user-";
      assert forall i :: 5 <= i < 13 ==> name[i] == draws[k][i - 5];
      Some(name)
  }

  // ---------------------------------------------------------------------
  // CustomUserManager
  // ---------------------------------------------------------------------

  /** The flags a caller may pass in `extra_fields`; None when absent. */
  datatype Flags = Flags(isStaff: Option<bool>, isSuperuser: Option<bool>, isActive: Option<bool>)

  /** A created account. */
  datatype Account = Account(
    email: string, username: string, color1: string, color2: string,
    isStaff: bool, isSuperuser: bool, isActive: bool)

  /** `create_user`: an empty email is refused; otherwise the normalized
      email is stored, the username is always generated (a requested one
      is ignored), and the avatar colours come from the normalized email.
      Absent flags take the model defaults (not staff, not superuser,
      active). `taken` holds the registered usernames and `emails` the
      registered emails: both columns are unique, so saving a second row
      with a registered email fails. */
  function CreateUser(email: string, requested: Option<string>, flags: Flags, normalize: string -> string,
                      draws: seq<string>, taken: set<string>, emails: set<string>): (r: Result<Account>)
    requires forall i :: 0 <= i < |draws| ==> IsDraw(draws[i], 8)
    ensures email == "" ==> r.Err?
    ensures r.Err? <==> email == "" || UsersAppUsername(draws, taken).None? || normalize(email) in emails
    ensures r.Ok? ==> r.value.email == normalize(email) && r.value.email !in emails
    ensures r.Ok? ==> r.value.username !in taken && StartsWith(r.value.username, "user-")
    ensures r.Ok? ==> (r.value.color1, r.value.color2) == Colors.AvatarColors(normalize(email))
    ensures r.Ok? ==> Colors.IsUpperHexColor(r.value.color1) && Colors.IsUpperHexColor(r.value.color2)
    ensures r.Ok? ==> r.value.isStaff == flags.isStaff.GetOr(false) && r.value.isActive == flags.isActive.GetOr(true)
  {
    if email == "" then Err("이메일은 필수입니다.")
    else
      var normalized := normalize(email);
      match UsersAppUsername(draws, taken)
      case None => Err("no free username")
      case Some(name) =>
        if normalized in emails then Err("duplicate email")
        else
          var colors := Colors.AvatarColors(normalized);
          Ok(Account(normalized, name, colors.0, colors.1,
                     flags.isStaff.GetOr(false), flags.isSuperuser.GetOr(false), flags.isActive.GetOr(true)))
  }

  /** Two calls that differ only in the requested username create the same
      account: the request is ignored. */
  lemma RequestedUsernameIgnored(email: string, a: Option<string>, b: Option<string>, flags: Flags,
                                 normalize: string -> string, draws: seq<string>, taken: set<string>, emails: set<string>)
    requires forall i :: 0 <= i < |draws| ==> IsDraw(draws[i], 8)
    ensures CreateUser(email, a, flags, normalize, draws, taken, emails) == CreateUser(email, b, flags, normalize, draws, taken, emails)
  {
  }

  /** `create_superuser`: the three flags default to True, and a staff or
      superuser flag given as anything but True is refused. */
  function CreateSuperuser(email: string, flags: Flags, normalize: string -> string,
                           draws: seq<string>, taken: set<string>, emails: set<string>): (r: Result<Account>)
    requires forall i :: 0 <= i < |draws| ==> IsDraw(draws[i], 8)
    ensures r.Err? <==> (|| flags.isStaff == Some(false) || flags.isSuperuser == Some(false) || email == ""
                         || UsersAppUsername(draws, taken).None? || normalize(email) in emails)
    ensures r.Ok? ==> r.value.isStaff && r.value.isSuperuser
    ensures r.Ok? ==> r.value.isActive == flags.isActive.GetOr(true)
  {
    var staff, super, active := flags.isStaff.GetOr(true), flags.isSuperuser.GetOr(true), flags.isActive.GetOr(true);
    if !staff then Err("슈퍼유저는 is_staff=True여야 합니다.")
    else if !super then Err("슈퍼유저는 is_superuser=True여야 합니다.")
    else CreateUser(email, None, Flags(Some(true), Some(true), Some(active)), normalize, draws, taken, emails)
  }

  /** Registering adds a row that keeps both unique columns unique: a
      created account's email and username are new, and adding them to the
      registered sets makes a second identical call fail. */
  lemma CreateUserKeepsUnique(email: string, requested: Option<string>, flags: Flags, normalize: string -> string,
                              draws: seq<string>, taken: set<string>, emails: set<string>)
    requires forall i :: 0 <= i < |draws| ==> IsDraw(draws[i], 8)
    requires CreateUser(email, requested, flags, normalize, draws, taken, emails).Ok?
    ensures var a := CreateUser(email, requested, flags, normalize, draws, taken, emails).value;
      && a.email !in emails && a.username !in taken
      && CreateUser(email, requested, flags, normalize, draws, taken + {a.username}, emails + {a.email}).Err?
  {
  }

  // ---------------------------------------------------------------------
  // Sessions
  // ---------------------------------------------------------------------

  /** A `UserSession` row; `revokedAt` is the revocation time, if any. */
  datatype Session = Session(
    userId: int, key: string, userAgent: string, ip: Option<string>,
    device: Option<string>, browser: Option<string>, os: Option<string>,
    revokedAt: Option<int>)

  /** `UserSession.is_active`. */
  predicate IsActive(s: Session) { s.revokedAt.None? }

  /** Session keys are unique (the column is declared unique). */
  predicate KeysUnique(sessions: seq<Session>) {
    forall i, j :: 0 <= i < j < |sessions| ==> sessions[i].key != sessions[j].key
  }

  /** The rows `all=true` revokes: the user's, except the current one when
      a current key is given. */
  predicate Swept(userId: int, current: Option<string>, s: Session) {
    s.userId == userId && !(Truthy(current) && s.key == current.value)
  }

  /** `filter(user=...).exclude(key=current).update(revoked_at=now)` on
      the rows: rows already revoked get the new time too. */
  function SweepSessions(sessions: seq<Session>, userId: int, current: Option<string>, now: int): (r: seq<Session>)
    ensures |r| == |sessions|
    ensures forall i :: 0 <= i < |sessions| ==>
      r[i] == if Swept(userId, current, sessions[i]) then sessions[i].(revokedAt := Some(now)) else sessions[i]
  {
    seq(|sessions|, i requires 0 <= i < |sessions| =>
      if Swept(userId, current, sessions[i]) then sessions[i].(revokedAt := Some(now)) else sessions[i])
  }

  /** The row of `userId` with `key`, as `objects.get(user=..., key=...)`. */
  function FindSession(sessions: seq<Session>, userId: int, key: string): (r: Option<nat>)
    ensures r.Some? ==> r.value < |sessions| && sessions[r.value].userId == userId && sessions[r.value].key == key
    ensures r.None? <==> forall i :: 0 <= i < |sessions| ==> !(sessions[i].userId == userId && sessions[i].key == key)
    decreases |sessions|
  {
    if |sessions| == 0 then None
    else if sessions[0].userId == userId && sessions[0].key == key then Some(0)
    else
      var r := FindSession(sessions[1..], userId, key);
      assert forall i :: 1 <= i < |sessions| ==> sessions[i] == sessions[1..][i - 1];
      if r.None? then None else Some(r.value + 1)
  }

  /** The user's session with `key` revoked at `now`; None when the user
      has no such session. */
  function RevokeOne(sessions: seq<Session>, userId: int, key: string, now: int): (r: Option<seq<Session>>)
    ensures r.None? <==> forall i :: 0 <= i < |sessions| ==> !(sessions[i].userId == userId && sessions[i].key == key)
    ensures r.Some? ==> |r.value| == |sessions|
    ensures r.Some? && KeysUnique(sessions) ==> forall i :: 0 <= i < |sessions| ==>
      r.value[i] == if sessions[i].userId == userId && sessions[i].key == key
                    then sessions[i].(revokedAt := Some(now)) else sessions[i]
  {
    match FindSession(sessions, userId, key)
    case None => None
    case Some(k) => Some(sessions[k := sessions[k].(revokedAt := Some(now))])
  }

  /** What `UserSessionsView.delete` reads from the request: `key` from the
      query or the body, `all` from the query (the text 'true') or the body
      (the JSON value true), and the `X-Session-Key` header. */
  datatype DeleteRequest = DeleteRequest(
    queryKey: Option<string>, bodyKey: Option<string>,
    queryAll: Option<string>, bodyAllIsTrue: bool,
    current: Option<string>)

  datatype Reply = Reply(status: int, count: Option<nat>, sessions: seq<Session>)

  function EndAll(req: DeleteRequest): bool {
    req.queryAll == Some("true") || req.bodyAllIsTrue
  }

  /** `UserSessionsView.delete`: with `all`, every session of the user but
      the current one is revoked and counted; otherwise a missing key is a
      400, a key the user does not own a 404, and an owned key revokes
      exactly that session. */
  function DeleteSessions(sessions: seq<Session>, userId: int, req: DeleteRequest, now: int): (r: Reply)
    requires KeysUnique(sessions)
    ensures |r.sessions| == |sessions|
    ensures r.status in {200, 400, 404}
    ensures r.status != 200 ==> r.sessions == sessions
    ensures EndAll(req) ==> r.status == 200 && r.count == Some(|Where(sessions, (s: Session) => Swept(userId, req.current, s))|)
    ensures !EndAll(req) ==> r.count.None?
    ensures !EndAll(req) && !Truthy(Or(req.queryKey, req.bodyKey)) ==> r.status == 400
    ensures forall i :: 0 <= i < |sessions| && sessions[i].userId != userId ==> r.sessions[i] == sessions[i]
    ensures forall i :: 0 <= i < |sessions| && r.sessions[i] != sessions[i] ==> !IsActive(r.sessions[i])
    ensures !EndAll(req) && Truthy(Or(req.queryKey, req.bodyKey)) ==>
      var key := Or(req.queryKey, req.bodyKey).value;
      && (r.status == 404 <==> forall i :: 0 <= i < |sessions| ==> !(sessions[i].userId == userId && sessions[i].key == key))
      && forall i :: 0 <= i < |sessions| ==>
           r.sessions[i] == if sessions[i].userId == userId && sessions[i].key == key
                            then sessions[i].(revokedAt := Some(now)) else sessions[i]
  {
    if EndAll(req) then
      var matched := Where(sessions, (s: Session) => Swept(userId, req.current, s));
      Reply(200, Some(|matched|), SweepSessions(sessions, userId, req.current, now))
    else
      var key := Or(req.queryKey, req.bodyKey);
      if !Truthy(key) then Reply(400, None, sessions)
      else
        match RevokeOne(sessions, userId, key.value, now)
        case None => Reply(404, None, sessions)
        case Some(rows) => Reply(200, None, rows)
  }

  /** `all` wins over `key`: with it set, the key does not matter. */
  lemma AllOverridesKey(sessions: seq<Session>, userId: int, req: DeleteRequest, now: int, k: Option<string>)
    requires KeysUnique(sessions)
    requires EndAll(req)
    ensures DeleteSessions(sessions, userId, req, now) == DeleteSessions(sessions, userId, req.(queryKey := k), now)
  {
  }

  /** After `all`, the only session of the user that can still be active is
      the current one. */
  lemma AllLeavesOnlyCurrent(sessions: seq<Session>, userId: int, req: DeleteRequest, now: int, i: int)
    requires KeysUnique(sessions)
    requires EndAll(req)
    requires 0 <= i < |sessions| && sessions[i].userId == userId
    requires IsActive(DeleteSessions(sessions, userId, req, now).sessions[i])
    ensures Truthy(req.current) && sessions[i].key == req.current.value
  {
  }

  /** An already revoked session is counted again by `all`. */
  lemma AllCountsRevoked()
    ensures var s := Session(1, "k", "", None, None, None, None, Some(5));
      DeleteSessions([s], 1, DeleteRequest(None, None, Some("true"), false, None), 9).count == Some(1)
  {
    var s := Session(1, "k", "", None, None, None, None, Some(5));
    assert Where([s], (t: Session) => Swept(1, None, t)) == [s];
  }

  // ---------------------------------------------------------------------
  // Logout and account deletion
  // ---------------------------------------------------------------------

  /** The stored state the account endpoints touch. */
  datatype Store = Store(users: set<int>, tokens: set<int>, sessions: seq<Session>)

  /** `UserLogoutView.post`: the user's token is deleted (a user without a
      token makes that raise, which the handler turns into a 400 with no
      change); then a truthy session key from the header or the body
      revokes that session if the user owns it, and is ignored if not. */
  function Logout(st: Store, userId: int, header: Option<string>, body: Option<string>, now: int): (r: (int, Store))
    requires KeysUnique(st.sessions)
    ensures r.0 == 400 <==> userId !in st.tokens
    ensures r.0 == 400 ==> r.1 == st
    ensures r.0 == 200 ==> r.1.tokens == st.tokens - {userId} && r.1.users == st.users
    ensures r.0 == 200 ==> |r.1.sessions| == |st.sessions|
    ensures r.0 == 200 ==> forall i :: 0 <= i < |st.sessions| ==>
      r.1.sessions[i] == if Truthy(Or(header, body)) && st.sessions[i].userId == userId && st.sessions[i].key == Or(header, body).value
                         then st.sessions[i].(revokedAt := Some(now)) else st.sessions[i]
  {
    if userId !in st.tokens then (400, st)
    else
      var tokens := st.tokens - {userId};
      var key := Or(header, body);
      if !Truthy(key) then (200, st.(tokens := tokens))
      else
        match RevokeOne(st.sessions, userId, key.value, now)
        case None => (200, st.(tokens := tokens))
        case Some(rows) => (200, Store(st.users, tokens, rows))
  }

  const DeleteConfirmation: string := "계정 삭제"

  /** `AccountDeleteView.delete`: a confirmation other than '계정 삭제' is a
      400 with no change; an absent one or the exact phrase deletes the
      user, their token and (by cascade) their sessions. */
  function DeleteAccount(st: Store, userId: int, confirmation: Option<string>): (r: (int, Store))
    ensures r.0 == 400 <==> confirmation.Some? && confirmation.value != DeleteConfirmation
    ensures r.0 == 400 ==> r.1 == st
    ensures r.0 == 200 ==> r.1.users == st.users - {userId} && r.1.tokens == st.tokens - {userId}
    ensures r.0 == 200 ==> forall s :: s in r.1.sessions <==> s in st.sessions && s.userId != userId
  {
    if confirmation.Some? && confirmation.value != DeleteConfirmation then (400, st)
    else (200, Store(st.users - {userId}, st.tokens - {userId}, Where(st.sessions, (s: Session) => s.userId != userId)))
  }

  // ---------------------------------------------------------------------
  // Login: the session row
  // ---------------------------------------------------------------------

  /** What the user-agent parser reports (an uninterpreted library call). */
  datatype Agent = Agent(
    isMobile: bool, isTablet: bool, isPc: bool, isBot: bool,
    brand: Option<string>, family: Option<string>,
    browserFamily: string, browserVersion: string,
    osFamily: string, osVersion: string)

  /** The device label: mobile before tablet before PC before bot, each
      with its fallbacks; None without a user agent or a class. */
  function DeviceOf(ua: Option<Agent>): (r: Option<string>)
    ensures ua.None? ==> r.None?
    ensures r.Some? ==> r.value != ""
    ensures ua.Some? && ua.value.isMobile ==> r == Some(Or(Or(ua.value.brand, ua.value.family), Some("Mobile")).value)
    ensures ua.Some? && !ua.value.isMobile && ua.value.isTablet ==>
      r == Some(Or(Or(ua.value.brand, ua.value.family), Some("Tablet")).value)
    ensures ua.Some? && !ua.value.isMobile && !ua.value.isTablet && ua.value.isPc ==> r == Some(Or(ua.value.family, Some("PC")).value)
    ensures ua.Some? && !ua.value.isMobile && !ua.value.isTablet && !ua.value.isPc ==> (r.Some? <==> ua.value.isBot)
  {
    match ua
    case None => None
    case Some(a) =>
      if a.isMobile then Or(Or(a.brand, a.family), Some("Mobile"))
      else if a.isTablet then Or(Or(a.brand, a.family), Some("Tablet"))
      else if a.isPc then Or(a.family, Some("PC"))
      else if a.isBot then Some("Bot")
      else None
  }

  /** The address stored for a login: the first comma-separated part of
      `X-Forwarded-For` when it is non-empty, else `REMOTE_ADDR`. */
  function PickIp(forwarded: Option<string>, remote: Option<string>): (r: Option<string>)
    ensures var first := Split(forwarded.GetOr(""), ',')[0];
      && (first != "" ==> r == Some(first))
      && (first == "" ==> r == remote)
    ensures !Truthy(forwarded) ==> r == remote
    ensures r != remote ==> ',' !in r.value && StartsWith(forwarded.value, r.value)
  {
    var text := forwarded.GetOr("");
    var first := Split(text, ',')[0];
    SplitFirstIsPrefix(text, ',');
    if first != "" then Some(first) else remote
  }

  lemma {:induction false} SplitFirstIsPrefix(s: string, c: char)
    ensures StartsWith(s, Split(s, c)[0])
    decreases |s|
  {
    if |s| > 0 && s[0] != c {
      SplitFirstIsPrefix(s[1..], c);
    }
  }

  /** The row `UserLoginView.post` creates: an empty user agent is not
      parsed and leaves device, browser and os unset; the row starts
      active. */
  function LoginSession(userId: int, key: string, rawUa: string, parse: string -> Agent,
                        forwarded: Option<string>, remote: Option<string>): (s: Session)
    ensures IsActive(s) && s.userId == userId && s.key == key && s.userAgent == rawUa
    ensures rawUa == "" ==> s.device.None? && s.browser.None? && s.os.None?
    ensures rawUa != "" ==> s.browser == Some(parse(rawUa).browserFamily + " " + parse(rawUa).browserVersion)
    ensures s.ip == PickIp(forwarded, remote)
  {
    var ua := if rawUa == "" then None else Some(parse(rawUa));
    Session(userId, key, rawUa, PickIp(forwarded, remote), DeviceOf(ua),
            if ua.Some? then Some(ua.value.browserFamily + " " + ua.value.browserVersion) else None,
            if ua.Some? then Some(ua.value.osFamily + " " + ua.value.osVersion) else None,
            None)
  }
}

=== FILE: wrappers.dfy ===
/** Option and Result values used wherever the source returns None or raises. */
module Wrappers {

  /** A value that may be absent: Python `None`, JavaScript `null`/`undefined`. */
  datatype Option<T> = None | Some(value: T) {
    /** The held value, or `default` when absent. */
    function GetOr(default: T): T {
      match this
      case Some(v) => v
      case None => default
    }
  }

  /** The outcome of an operation that can fail with a message (a raised
      exception, a validation error, an HTTP error body). */
  datatype Result<T> = Ok(value: T) | Err(msg: string)
}
